=== FILE: README.md ===
# Solros core, modelled in Dafny

Solros is an operating-system stack for a host machine with Xeon Phi
co-processors. The host runs a file-system server (diod, a 9P server backed
by NVMe devices) and a network proxy (pcnsrv). Each Phi runs a Linux kernel
that mounts that file system over PCIe and sends its socket calls to the
host through the pcnlink library. Python scripts boot and shut down the
fleet of Phis and parse benchmark logs.

This project models the core of that stack and proves properties of it.
There is one Dafny module per source file:

- `MachineConfig` (`machineconfig.dfy`) covers `scripts/machineconfig.py`. Class `Machine`
  derives the topology: the per-socket CPU lists, the MIC ordinals, NVMe
  names and paths, and the file-system and network port numbers.
- `Ctrl` (`ctrl.dfy`) covers `scripts/ctrl.py`. Class `Script` holds the dry-run,
  verbose and debug state and the log of shell commands issued. The model
  covers host_sh and mic_sh, the module-unload rounds, and the up/down
  sequencing of the file system and the network.
- `LogParser` (`logparser.dfy`) covers `scripts/parser.py`. Class `Parser` is the
  line-by-line state machine: key normalisation, wildcard matching and
  search.
  - `PyStr` and `Sorting` hold the Python string operations and the
    `sorted()` ordering these scripts rely on.
  - `Common` holds shared byte and integer helpers.
- `NetMsg` (`netmsg.dfy`) covers `network/src/liblink/netmsg.c`. It models the byte
  layout of every marshal/unmarshal pair of the host/Phi RPC messages.
- `SpscQueue` (`spsc_queue.dfy`) covers `network/src/include/spsc_queue.h`. It is a
  linked single-producer/single-consumer queue.
- `EventPoll` (`eventpoll.dfy`), `Pcnlink` (`pcnlink.dfy`) and `PcnlinkUapi`
  (`pcnlink_uapi.dfy`) cover the pcnlink epoll ring, socket flags,
  out-of-band queues and the user-level socket calls.
- `Proxy` (`proxy.dfy`) covers `network/src/libproxy/proxy.c`. It models the
  remote-id bitmaps, the listening ends, the scratchpad, the send backlog and
  the write-event handler.
- `FileBlockMap` (`fblkmap.dfy`) covers `diod/libfblkmap/fblkmap.c`. It is the
  file-extent algebra: holes, merges, appends and lookups.
- `ZeroCopyIo` (`zcio.dfy`) covers `diod/diod/zcio.c`. It cuts a byte range into
  512-byte-aligned NVMe commands that each fit one DMA.
- Kernel parts:
  - `Filemap` (`filemap.dfy`) covers `phi-kernel/mm/filemap.c`.
  - `MicCpufreq` (`mic_cpufreq.dfy`) and `MicMenu` (`mic_menu.dfy`) cover the
    Phi power-management drivers.
  - `KncGovernor` (`knc_governor.dfy`) covers the KNC cpufreq governor.
  - `KdbBreakpoints` (`kdb_bp.dfy`) covers the kdb breakpoint table.
  - `TransPrb` (`trans_prb.dfy`) covers the 9P PCIe ring-buffer transport.
  - `CacheFlush` (`cacheflush.dfy`) and `KdbPrivate` (`kdbprivate.dfy`) cover the
    x86 page-memtype and debug-register macros.

Some C integer widths are written out: the `__u32` hole length of
fblkmap.c, the 32-bit `int` shifts of the kdb debug-register macros, the
signed `int` return values of netmsg.c and the unsigned wrap in the
cpufreq tables. The others are unbounded, and "## Left out" lists the
ones that matter. Locks, I/O and the clock become parameters of the
operations that use them. So do the result of malloc in the proxy's
scratchpad and the result of kstrdup when trans_prb copies its option
string; everywhere else an allocation is taken to succeed and to keep
its block in place, and "## Left out" names each place where that matters.

## Model

| member | source | states |
|---|---|---|
| PyStr.ParseInt | scripts/parser.py:84 | int(s) succeeds exactly on an optional sign followed by one or more decimal digits |
| PyStr.PadIntRoundTrip | scripts/parser.py:84-85 | a number formatted with "%09d" reads back through int() as itself |
| PyStr.ZeroPad | scripts/parser.py:85 | the result has the requested width, or the string's length when longer, and is the string preceded by zeros only |
| PyStr.Split | scripts/parser.py:69 | split(c) yields at least one part and no part holds the separator |
| PyStr.SplitJoin | scripts/parser.py:69 | splitting a join gives back the parts when none holds the separator |
| PyStr.SplitOnce | scripts/parser.py:61-69 | split(c, 1) gives the whole string when c is absent, and otherwise the text before the first c and the rest |
| PyStr.SplitWs | scripts/parser.py:58-76 | split() yields the non-empty runs without white space |
| PyStr.SplitWsRuns | scripts/parser.py:58-76 | the pieces of split(), laid end to end, are the string with its white space removed, and there is one piece for each index where a run of non-white-space characters begins |
| PyStr.StripLeft | scripts/parser.py:48-62 | the result does not start with white space |
| PyStr.StripLeftRemovesLeading | scripts/parser.py:48-62 | lstrip leaves a suffix of the string, and everything it drops before that suffix is white space |
| PyStr.StripRight | scripts/parser.py:48-62 | the result is a prefix that does not end with white space |
| PyStr.StripRightRemovesTrailing | scripts/parser.py:48-62 | everything rstrip drops after the prefix it keeps is white space |
| PyStr.StrippedFirstToken | scripts/parser.py:48-58 | a stripped non-empty line has a first word, its leading run |
| Sorting.SortSet | scripts/parser.py:32 | sorting a set yields each element once, in strictly ascending order |
| Sorting.AscendingUnique | scripts/parser.py:32 | two strictly ascending sequences with the same elements are equal, so the sorted result is determined |
| Sorting.KeyLessOrder | scripts/parser.py:32 | comparing tuples of strings element by element is a strict total order |
| CacheFlush.GetPageMemtype | phi-kernel/arch/x86/include/asm/cacheflush.h:53-65 | the result is -1 exactly when both memory-type bits are clear, and is otherwise WC, UC_MINUS or WB |
| CacheFlush.GetAfterSet | phi-kernel/arch/x86/include/asm/cacheflush.h:53-89 | reading the memory type after storing WC, UC_MINUS or WB gives that type back |
| CacheFlush.GetAfterSetUntracked | phi-kernel/arch/x86/include/asm/cacheflush.h:57-84 | storing any other type leaves the default bits, so reading gives -1 |
| CacheFlush.WithMemtype | phi-kernel/arch/x86/include/asm/cacheflush.h:85-88 | storing a memory type changes only the bits under _PGMT_MASK |
| CacheFlush.Page.constructor | phi-kernel/arch/x86/include/asm/cacheflush.h:53-55 | a page holds the flags word it is built with |
| CacheFlush.Page.SetPageMemtype | phi-kernel/arch/x86/include/asm/cacheflush.h:67-89 | the compare-and-swap loop ends with the memory-type bits replaced in the latest flags word, whatever other writers did to the other bits, and reading the type back gives it (or -1 for an untracked type) |
| KdbPrivate.FieldVal | phi-kernel/arch/x86/include/asm/kdbprivate.h:81-101 | DR7_RW_VAL and DR7_LEN_VAL read a two-bit field, so the value is below 4 |
| KdbPrivate.FieldSetThenVal | phi-kernel/arch/x86/include/asm/kdbprivate.h:81-88 | reading a field after setting it gives the two low bits written |
| KdbPrivate.FieldSetFrame | phi-kernel/arch/x86/include/asm/kdbprivate.h:84-88 | setting a field leaves every bit outside it unchanged |
| KdbPrivate.RwVal | phi-kernel/arch/x86/include/asm/kdbprivate.h:81-82 | the R/W field of a debug register is a two-bit value |
| KdbPrivate.RwSet | phi-kernel/arch/x86/include/asm/kdbprivate.h:84-88 | the register's R/W field then reads rw & 3, and every bit outside that field is unchanged |
| KdbPrivate.LenVal | phi-kernel/arch/x86/include/asm/kdbprivate.h:100-101 | the LEN field of a debug register is a two-bit value |
| KdbPrivate.LenSet | phi-kernel/arch/x86/include/asm/kdbprivate.h:103-107 | the register's LEN field then reads len & 3, and every bit outside that field is unchanged |
| KdbPrivate.RwSetThenVal | phi-kernel/arch/x86/include/asm/kdbprivate.h:81-101 | DR7_RW_VAL after DR7_RW_SET gives rw & 3, and the LEN field of that register is unchanged |
| KdbPrivate.LenSetThenVal | phi-kernel/arch/x86/include/asm/kdbprivate.h:84-107 | DR7_LEN_VAL after DR7_LEN_SET gives len & 3, and the R/W field of that register is unchanged |
| KdbPrivate.RwSetLeavesOtherRegisters | phi-kernel/arch/x86/include/asm/kdbprivate.h:81-101 | setting the R/W field of one debug register leaves both fields of every other register unchanged |
| KdbPrivate.LenSetLeavesOtherRegisters | phi-kernel/arch/x86/include/asm/kdbprivate.h:81-107 | setting the LEN field of one debug register leaves both fields of every other register unchanged |
| KdbPrivate.FieldSetOther | phi-kernel/arch/x86/include/asm/kdbprivate.h:81-107 | setting one two-bit field of DR7 leaves any other field of the register unchanged |
| KdbPrivate.CRwSet | phi-kernel/arch/x86/include/asm/kdbprivate.h:84-88 | DR7_RW_SET as written, with its 32-bit int mask and shift, gives the same register as the 64-bit field update RwSet for every debug register |
| KdbPrivate.CLenSet | phi-kernel/arch/x86/include/asm/kdbprivate.h:103-107 | DR7_LEN_SET as written gives the same register as the 64-bit field update LenSet for DR0-DR2 |
| KdbPrivate.CLen3SetDiffers | phi-kernel/arch/x86/include/asm/kdbprivate.h:103-116 | for DR3 the LEN macro as written clears bits 32-63, and sets them all for a length code of 2 or 3, unlike the intended update |
| KdbPrivate.G | phi-kernel/arch/x86/include/asm/kdbprivate.h:118-129 | DR7_Gn is 1 exactly when the global-enable bit of register n is set, and 0 otherwise |
| KdbPrivate.L | phi-kernel/arch/x86/include/asm/kdbprivate.h:131-142 | DR7_Ln is 1 exactly when the local-enable bit of register n is set, and 0 otherwise |
| KdbPrivate.GSet | phi-kernel/arch/x86/include/asm/kdbprivate.h:119-128 | DR7_GnSET makes DR7_Gn read 1 and changes no other bit |
| KdbPrivate.GClr | phi-kernel/arch/x86/include/asm/kdbprivate.h:120-129 | DR7_GnCLR makes DR7_Gn read 0 and changes no other bit |
| KdbPrivate.LSet | phi-kernel/arch/x86/include/asm/kdbprivate.h:132-141 | DR7_LnSET makes DR7_Ln read 1 and changes no other bit |
| KdbPrivate.LClr | phi-kernel/arch/x86/include/asm/kdbprivate.h:133-142 | DR7_LnCLR makes DR7_Ln read 0 and changes no other bit |
| SpscQueue.SpscNode.constructor | network/src/include/spsc_queue.h:5-7 | a fresh node has no successor |
| SpscQueue.Queue.constructor | network/src/include/spsc_queue.h:9-12 | a zero-initialised queue is empty |
| SpscQueue.Queue.Put | network/src/include/spsc_queue.h:14-27 | the node's link is cleared and it is appended: on an empty queue it becomes the head, otherwise the old tail links to it; it is the new tail |
| SpscQueue.Queue.Peek | network/src/include/spsc_queue.h:29-37 | the oldest node, or null on an empty queue, without changing the queue |
| SpscQueue.Queue.Get | network/src/include/spsc_queue.h:39-62 | null and no change on an empty queue; otherwise the oldest node, with the rest of the queue kept in order |
| SpscQueue.PutGetOrder | network/src/include/spsc_queue.h:14-62 | two puts followed by two gets return the nodes in the order they were put |
| MachineConfig.GetMicSocket | scripts/machineconfig.py:113-114 | the socket configured for the MIC, or None exactly when none is configured |
| MachineConfig.CoreIdsMembers | scripts/machineconfig.py:82-83 | a number is collected for core c exactly when one of its first m threads has it |
| MachineConfig.SocketIdsMembers | scripts/machineconfig.py:79-83 | a number is collected for socket s exactly when some (core, thread) pair of s has it |
| MachineConfig.CpuListStr | scripts/machineconfig.py:95-103 | no string (the KeyError or IndexError) exactly when the socket has no entry or an empty one |
| MachineConfig.CpuListStrRoundTrip | scripts/machineconfig.py:98-103 | the CPU list string splits at "," into the decimal spellings of the list, in order |
| MachineConfig.GetMicId | scripts/machineconfig.py:105-111 | "host" is 0, a "mic" name is its number plus one (a ValueError when the rest is not a number), anything else is -1 |
| MachineConfig.MicIdOfName | scripts/machineconfig.py:105-111 | the i-th MIC's name "mic<i>" has id i + 1 |
| MachineConfig.GetNvmeId | scripts/machineconfig.py:116-120 | an "nvme" name is its number (a ValueError when the rest is not a number), anything else is -1 |
| MachineConfig.NvmeIdOfName | scripts/machineconfig.py:116-120 | "nvme<i>" has id i |
| MachineConfig.GetNvmePath | scripts/machineconfig.py:122-123 | the path is "/dev/", then the device name, then "n1": seven characters longer than the name |
| MachineConfig.NvmePathInjective | scripts/machineconfig.py:122-123 | distinct devices get distinct "/dev/<name>n1" paths |
| MachineConfig.NvmeDevsMembers | scripts/machineconfig.py:125-133 | a path is collected exactly when some MIC below the count lists a device with that path |
| MachineConfig.GetAllNvmeDevs | scripts/machineconfig.py:125-134 | the collected device paths, each once, in ascending order |
| MachineConfig.GetBinPath | scripts/machineconfig.py:136-137 | a server binary exists exactly for fs in release or debug mode without an option, and for net in release or debug mode with sock or mtcp |
| MachineConfig.GetFsPort | scripts/machineconfig.py:142-148 | a port exactly when both names parse; it lies on the spacing grid above the base port, and with the NVMe id below MAX_NVME the grid index gives back the NVMe id (modulo MAX_NVME) and the MIC id (divided by MAX_NVME) |
| MachineConfig.FsPortInjective | scripts/machineconfig.py:142-148 | while NVMe ids stay below MAX_NVME, no two (MIC, NVMe) pairs share a file-server port |
| MachineConfig.FsPortOfNames | scripts/machineconfig.py:142-148 | the port of the i-th MIC's j-th NVMe is base + (i+1)*MAX_NVME*spacing + j*spacing |
| MachineConfig.FsPortCollidesAtMaxNvme | scripts/machineconfig.py:142-148 | at MAX_NVME the plan wraps: mic0's nvme10 gets mic1's nvme0 port |
| MachineConfig.GetFsClientPort | scripts/machineconfig.py:150-153 | the port lies on the spacing grid above the client base port, at grid index nth |
| MachineConfig.FsClientPortIncreasing | scripts/machineconfig.py:150-153 | client ports grow with the mount index, so distinct indices get distinct ports |
| MachineConfig.GetNetServerPort | scripts/machineconfig.py:158-160 | the network server's port lies above every file-server port of every MIC and NVMe id in range |
| MachineConfig.GetNetClientPort | scripts/machineconfig.py:162-166 | a port exactly when the name parses; it lies on the spacing grid above the server port, at grid index mic id + 1 |
| MachineConfig.NetClientPortAboveServer | scripts/machineconfig.py:158-166 | the host and every MIC get a client port above the server port |
| MachineConfig.NetClientPortsDistinct | scripts/machineconfig.py:162-166 | distinct MICs get distinct client ports |
| MachineConfig.NetClientPortOfUnknownName | scripts/machineconfig.py:162-166 | a name that is neither "host" nor "mic..." (id -1) gets the server's own port |
| MachineConfig.Machine.constructor | scripts/machineconfig.py:50-53 | the configuration starts with the given topology and MIC table and an empty CPU table |
| MachineConfig.Machine.BuildCpuConfig | scripts/machineconfig.py:78-84 | every socket's entry becomes the CPU numbers of all its (core, thread) pairs, each once, ascending; other entries are kept |
| MachineConfig.Machine.GetCpuListStr | scripts/machineconfig.py:95-103 | the socket's CPU numbers joined by ",", or None (the KeyError/IndexError) when the socket has no non-empty entry |
| Ctrl.ShownLayout | scripts/ctrl.py:67-73 | the shown command is the command, then " > /dev/null 2>&1" when not verbose, then " &" when in the background, in that order |
| Ctrl.ShownInjective | scripts/ctrl.py:67-73 | distinct commands stay distinct after the suffixes are added |
| Ctrl.DryRunEvents | scripts/ctrl.py:75-98 | in dry-run a host or MIC command is announced and nothing is run |
| Ctrl.IsDebugOn | scripts/ctrl.py:105-107 | when machine and module contain no ":", yes exactly when some DEBUG_FLAG entry splits at ":" into exactly the machine and the module |
| Ctrl.GetBuildMod | scripts/ctrl.py:105-110 | "debug" exactly when "machine:module" is in DEBUG_FLAG, "release" otherwise |
| Ctrl.BuildModHasBinary | scripts/ctrl.py:109-110 | either build mode names an installed server binary for the file and network services |
| Ctrl.RmmodRound | scripts/ctrl.py:126-130 | one round issues an rmmod for each listed module, in list order |
| Ctrl.RmmodEventInjective | scripts/ctrl.py:127-130 | rmmods of different modules are different commands |
| Ctrl.RmmodRoundCount | scripts/ctrl.py:126-130 | within one round each module's rmmod is issued as often as the module is listed |
| Ctrl.RmmodsEveryModule | scripts/ctrl.py:123-130 | __rmmods issues each module's rmmod len(modules) times per listing |
| Ctrl.ItemVerdict | scripts/ctrl.py:370-374 | an item is accepted exactly when it splits at ":" into at least two parts, the first host or mic and the second fs or net |
| Ctrl.DebugVerdictFirst | scripts/ctrl.py:367-375 | the list is accepted exactly when every item is; otherwise the verdict is that of the first rejected item |
| Ctrl.CheckDebugOpt | scripts/ctrl.py:367-375 | the loop over the comma-separated items returns the verdict of the whole list |
| Ctrl.GetSockType | scripts/ctrl.py:243-248 | "sock" for at most one argument; otherwise a value exactly when the first argument is sock or mtcp |
| Ctrl.SockTypeHasBinary | scripts/ctrl.py:243-266 | any socket layer chosen has a server binary in both build modes |
| Ctrl.SocketIdForMicAsWritten | scripts/ctrl.py:250-252 | as written, a list compared with a string is never equal, so the result is always -1 |
| Ctrl.SocketIdForMic | scripts/ctrl.py:250-254 | with "mic<n>" first, the MIC's configured socket (None when it has none); -1 otherwise |
| Ctrl.SocketIdForMicFindsSocket | scripts/ctrl.py:250-254 | with "mic0" first, the intended lookup finds mic0's socket where the written code gives -1 |
| Ctrl.MntPath | scripts/ctrl.py:200-234 | os.path.join("/mnt", p) always gives an absolute path |
| Ctrl.FsServer | scripts/ctrl.py:179 | the diod binary is the one configured for the host's file-service build mode, root + "/diod/diod/diod" in both modes |
| Ctrl.MountRuns | scripts/ctrl.py:199-221 | one step per NVMe device of the MIC's table |
| Ctrl.MountRunsAt | scripts/ctrl.py:199-221 | the i-th step is the mount sequence of the i-th device, with client port index i |
| Ctrl.ChainStops | scripts/ctrl.py:199-221 | once a step has raised, later devices issue nothing |
| Ctrl.FsUpMics | scripts/ctrl.py:181-221 | one step per configured MIC |
| Ctrl.FsUpMicsAt | scripts/ctrl.py:181-221 | the m-th step is the m-th MIC's module loads and mounts |
| Ctrl.NetServer | scripts/ctrl.py:263-266 | the pcnsrv binary is the one configured for the host's network build mode with the "sock" layer: the Debug-x86_64 build exactly when "host:net" was given to --debug, otherwise Release-x86_64 |
| Ctrl.HostUmounts | scripts/ctrl.py:119-121 | one host "sudo umount" per device path, in order |
| Ctrl.ShutdownCmd | scripts/ctrl.py:140-153 | cmd_shutdown returns 0; its actions start with the shutdown broadcast (a wall message when verbose, nothing otherwise) and end by taking the mic interfaces down |
| Ctrl.ShutdownCmdParts | scripts/ctrl.py:140-153 | the shutdown log is the broadcast, the service stops, the umounts, the host rmmods and the ifdown, in that order |
| Ctrl.NetUpParts | scripts/ctrl.py:256-296 | the cmd_net_up log is the two probes, the server launch and, only if it completed, the MIC commands |
| Ctrl.ChainDone | scripts/ctrl.py:199-221 | a sequence of steps completes exactly when every step does |
| Ctrl.ChainNothingRun | scripts/ctrl.py:75-98 | steps that run nothing in sequence run nothing |
| Ctrl.MountUpDone | scripts/ctrl.py:200-221 | one device's mount sequence completes exactly when its file-server port is defined and the MIC's socket has a CPU list |
| Ctrl.MicFsUpDone | scripts/ctrl.py:181-221 | a MIC's part completes exactly when it has no NVMe table or every device in it is ready |
| Ctrl.FsUpCmd | scripts/ctrl.py:173-222 | the first action is the check for a running diod; -1 exactly when diod is running, and then nothing else happens; otherwise 0 or an exception from a failed step |
| Ctrl.FsUpOutcome | scripts/ctrl.py:173-222 | cmd_fs_up returns 0 exactly when no diod is running and every MIC is ready, -1 exactly when diod is running, and raises otherwise |
| Ctrl.MountUpDryRun | scripts/ctrl.py:207-221 | in dry-run one device's commands are only announced |
| Ctrl.MicFsUpDryRun | scripts/ctrl.py:189-221 | in dry-run a MIC's module loads and mounts are only announced |
| Ctrl.FsUpDryRun | scripts/ctrl.py:173-222 | in dry-run cmd_fs_up runs only its pgrep probe |
| Ctrl.RmmodsDryRun | scripts/ctrl.py:123-130 | in dry-run __rmmods only announces its rmmods |
| Ctrl.MicUmountsDryRun | scripts/ctrl.py:233-235 | in dry-run a MIC's umounts are only announced |
| Ctrl.FsDownMicsDryRun | scripts/ctrl.py:226-238 | in dry-run the per-MIC part of cmd_fs_down runs nothing |
| Ctrl.FsDownCmd | scripts/ctrl.py:224-241 | cmd_fs_down returns 0, and its last action kills diod |
| Ctrl.FsDownDryRun | scripts/ctrl.py:224-241 | in dry-run cmd_fs_down runs nothing |
| Ctrl.NetDownMicsDryRun | scripts/ctrl.py:300-302 | in dry-run the per-MIC rmmods of cmd_net_down run nothing |
| Ctrl.NetDownCmd | scripts/ctrl.py:298-305 | cmd_net_down returns 0, and its last two actions kill pcnsrv and pcnsrv_mtcp |
| Ctrl.NetDownDryRun | scripts/ctrl.py:298-305 | in dry-run cmd_net_down runs nothing |
| Ctrl.MicNetUpDryRun | scripts/ctrl.py:292-295 | in dry-run a MIC's module loads are only announced |
| Ctrl.NetUpMicsDryRun | scripts/ctrl.py:286-295 | in dry-run the MIC part of cmd_net_up runs nothing |
| Ctrl.NetServerRunDryRun | scripts/ctrl.py:271-284 | in dry-run the server launch runs nothing |
| Ctrl.NetUpStepsExecuted | scripts/ctrl.py:258-296 | when the launch and the MIC commands run nothing, only the pgrep probes reach the shell; the second only when the first found nothing |
| Ctrl.NetUpDryRun | scripts/ctrl.py:256-296 | in dry-run cmd_net_up runs only its pgrep probes |
| Ctrl.NetServerRun | scripts/ctrl.py:271-284 | the launch of pcnsrv is one host command, with or without --gdb, and never raises |
| Ctrl.NetServerRunDone | scripts/ctrl.py:271-284 | as written the launch always completes and is never pinned: pcnsrv in the background without gdb, unpinned gdb in the foreground with it |
| Ctrl.GdbRunDone | scripts/ctrl.py:274-284 | under gdb, for a given socket lookup result, the launch completes exactly when the result is negative or names a socket with a CPU list, and is then pinned to a non-negative socket |
| Ctrl.NetUpCmd | scripts/ctrl.py:256-296 | the first action is the check for pcnsrv; -1 exactly when pcnsrv or pcnsrv_mtcp is running, 0 otherwise |
| Ctrl.NetUpOutcome | scripts/ctrl.py:256-296 | cmd_net_up returns -1 exactly when pcnsrv or pcnsrv_mtcp is running and 0 exactly when neither is, after the probes, the launch and every MIC's module loads; it never raises |
| Ctrl.ShutdownDryRun | scripts/ctrl.py:140-153 | in dry-run cmd_shutdown runs only the wall broadcast, and that only with --verbose |
| Ctrl.Script.constructor | scripts/ctrl.py:381-389 | the script starts with the parsed options, an empty DEBUG_FLAG, the MIC and CPU tables, and an empty command log |
| Ctrl.Script.HostSh | scripts/ctrl.py:67-81 | appends the announced host command; returns 0 in dry-run, otherwise the exit status of the shown command |
| Ctrl.Script.MicSh | scripts/ctrl.py:87-99 | appends the announced MIC command; returns 0 in dry-run, otherwise the status of the sshpass line built with the configured password |
| Ctrl.Script.HostShPin | scripts/ctrl.py:83-85 | the command under taskset on the socket's CPU list; nothing is issued when the socket or its CPU list is missing |
| Ctrl.Script.IsProgRunning | scripts/ctrl.py:132-133 | runs pgrep even in dry-run; running exactly when it exits 0 |
| Ctrl.Script.BroadcastMessage | scripts/ctrl.py:101-103 | runs the wall line exactly when verbose |
| Ctrl.Script.RmMods | scripts/ctrl.py:123-130 | len(modules) rounds of rmmod on the host or over ssh |
| Ctrl.Script.UmountAllNvmes | scripts/ctrl.py:119-121 | one umount per collected NVMe device path, in ascending order |
| Ctrl.Script.FsUpMount | scripts/ctrl.py:199-221 | one device: mkdir, mount and chmod on the host, diod pinned to the MIC's socket, then mkdir and the 9p mount on the MIC; false when it raised |
| Ctrl.Script.LoadFsModules | scripts/ctrl.py:192-196 | the four modprobes on the MIC, in order |
| Ctrl.Script.FsUpMountAt | scripts/ctrl.py:199-221 | the i-th device of a MIC's table |
| Ctrl.Script.FsUpMounts | scripts/ctrl.py:199-221 | the devices of a MIC's table in order, up to the first that raises |
| Ctrl.Script.FsUpMic | scripts/ctrl.py:182-221 | the m-th MIC: nothing without an NVMe table, otherwise the module loads and then its mounts |
| Ctrl.Script.FsUpMicAt | scripts/ctrl.py:181-221 | the m-th MIC of the loop |
| Ctrl.Script.CmdFsUp | scripts/ctrl.py:173-222 | -1 with only the probe when diod is running; otherwise every MIC in order, stopping at the first that raises; the environment is unchanged |
| Ctrl.Script.UmountMic | scripts/ctrl.py:233-235 | one umount per device of the MIC's table, in order |
| Ctrl.Script.FsDownMic | scripts/ctrl.py:227-238 | the m-th MIC: nothing without an NVMe table, otherwise its umounts and then the rmmods of the 9p modules |
| Ctrl.Script.CmdFsDown | scripts/ctrl.py:224-241 | every MIC, then the diod kill; returns 0; the environment is unchanged |
| Ctrl.Script.LaunchNetServer | scripts/ctrl.py:262-284 | the log gains the server launch: background pcnsrv, or gdb placed by the lookup as written |
| Ctrl.Script.GdbLaunch | scripts/ctrl.py:274-284 | for a looked-up socket: unpinned gdb for a negative one, gdb under taskset for one with a CPU list, nothing and false when the socket or its CPU list is missing |
| Ctrl.Script.NetUpMic | scripts/ctrl.py:287-295 | pci_ring_buffer and pcnlink loaded on the m-th MIC |
| Ctrl.Script.NetUpAllMics | scripts/ctrl.py:286-295 | every configured MIC, in order |
| Ctrl.Script.CmdNetUp | scripts/ctrl.py:256-296 | -1 when pcnsrv or pcnsrv_mtcp is running; otherwise the server, then every MIC, and 0; the environment is unchanged |
| Ctrl.Script.CmdNetDown | scripts/ctrl.py:298-305 | rmmods on every MIC, then kill both servers; returns 0; the environment is unchanged |
| Ctrl.Script.ApplyDebugOpt | scripts/ctrl.py:367-398 | an empty or absent --debug changes nothing; otherwise the items are checked and, if accepted, become DEBUG_FLAG |
| Ctrl.Script.StopServices | scripts/ctrl.py:144-149 | the five service-stop commands, in order |
| Ctrl.Script.CmdShutdown | scripts/ctrl.py:140-153 | broadcast, stop services, unmount every NVMe device in ascending order, unload the host modules, take the links down; returns 0; the environment is unchanged |
| LogParser.NormStr | scripts/parser.py:82-87 | the normalised string parses to the same integer as the original, and a string that is not an integer is kept as it is |
| LogParser.NormKey | scripts/parser.py:65-66 | every part of the key is normalised on its own, in order, and keeps its integer value |
| LogParser.NormStrIdempotent | scripts/parser.py:82-87 | normalising a component twice gives the same as normalising it once |
| LogParser.NormKeyIdempotent | scripts/parser.py:26-70 | a key that is already normalised, as every stored key is, is left unchanged by _norm_key |
| LogParser.NormStrWidth | scripts/parser.py:82-87 | a number in [0, 10^9) becomes nine digits that read back as that number |
| LogParser.DigitsOrder | scripts/parser.py:32-87 | digit strings of equal length compare as strings the way their values compare |
| LogParser.NormStrOrder | scripts/parser.py:32-87 | numbers below 10^9 sort in numeric order once normalised: the string comparison holds exactly when the numbers are in order |
| LogParser.KeysMatch | scripts/parser.py:38-44 | a key matches itself, an empty key matches every key, and an all-wildcard key matches every key |
| LogParser.KeysMatchSymmetric | scripts/parser.py:38-44 | matching does not depend on which key is the pattern |
| LogParser.KeysMatchPrefix | scripts/parser.py:38-44 | only the common length is compared: a pattern matches a longer key exactly when it matches that key's prefix |
| LogParser.GetParseFn | scripts/parser.py:52-58 | the first word "###" selects the config handler, "##" the key handler, "#" the schema handler, anything else the data handler |
| LogParser.StoreFieldsAt | scripts/parser.py:76-80 | after storing the pairs a field name holds the value of its last pairing, and names not paired keep their earlier value |
| LogParser.DataStepStores | scripts/parser.py:75-80 | a data line changes only the current key's entry: each schema name holds its last paired value, the entry exists afterwards only if it did or something was paired, and other keys are unchanged |
| LogParser.ParseAllStops | scripts/parser.py:19-22 | once a line has raised, the later lines change nothing |
| LogParser.ParseAllAppend | scripts/parser.py:19-22 | parsing two runs of lines is parsing the first and then the second from where it ended, unless the first raised |
| LogParser.MarkToken | scripts/parser.py:58 | the first word of a mark, a space and any text is the mark |
| LogParser.MarkedLine | scripts/parser.py:58-69 | a mark, a space and the rest: its first word is the mark and split(" ", 1) gives the mark and the rest |
| LogParser.ConfigLineStored | scripts/parser.py:52-63 | "### name=value" with a name free of "=" goes to the config handler and stores value under name |
| LogParser.KeyLineSelects | scripts/parser.py:52-70 | "## a:b:c" with components free of ":" goes to the key handler and selects the normalised components |
| LogParser.SplitOnceAt | scripts/parser.py:61-69 | split(c, 1) of a + c + b is [a, b] when a holds no c |
| LogParser.Parser.constructor | scripts/parser.py:9-13 | a new parser has an empty config, no data, the empty key and no schema |
| LogParser.Parser.GetConfig | scripts/parser.py:35-36 | the configured value, or None exactly when the name was never configured |
| LogParser.Parser.ParseConfig | scripts/parser.py:60-63 | the line's config step; false and nothing changed when the line lacks the space or the "=" |
| LogParser.Parser.ParseKey | scripts/parser.py:65-70 | the line's key step; false and nothing changed when the line lacks the space |
| LogParser.Parser.ParseSchema | scripts/parser.py:72-73 | the schema becomes the line's words after the first |
| LogParser.Parser.ParseData | scripts/parser.py:75-80 | the line's data step, one pair at a time |
| LogParser.Parser.ParseLine | scripts/parser.py:20-58 | the handler _get_parse_fn picks, applied to the line |
| LogParser.Parser.Parse2 | scripts/parser.py:19-50 | the stripped non-blank lines in order, up to the first that raises; false then |
| LogParser.Parser.MatchKey | scripts/parser.py:38-44 | true exactly when every common position holds "*" on either side or equal strings |
| LogParser.Parser.MatchingKeys | scripts/parser.py:27-29 | exactly the stored keys the pattern matches |
| LogParser.Parser.SearchData | scripts/parser.py:24-33 | exactly the stored keys matching the normalised pattern, each with its entries, in strictly ascending key order |
| NetMsg.FromLEOfLE | network/src/include/netmsg.h:95-101 | an integer stored in n little-endian bytes reads back unchanged whenever it fits |
| NetMsg.I32RoundTrip | network/src/include/netmsg.h:107-110 | a 32-bit signed field survives its two's-complement storage |
| NetMsg.DecodeEncodeField | network/src/include/netmsg.h:95-101 | one stored field reads back as itself, whatever follows it |
| NetMsg.Decode | network/src/include/netmsg.h:95-330 | reading a structure layout takes exactly the layout's width, and fails exactly when the buffer is shorter |
| NetMsg.DecodeEncode | network/src/include/netmsg.h:95-330 | the fields of a structure, stored one after another, read back with the bytes after them |
| NetMsg.StructSizeOfBody | network/src/include/netmsg.h:95-330 | the structure size of a command is the header's plus its body's fixed part |
| NetMsg.BodyWidth | network/src/include/netmsg.h:95-330 | a body's stored fields take its fixed part plus its variable part |
| NetMsg.SendmsgWidth | network/src/liblink/netmsg.c:305-313 | a t_sendmsg body takes 68 bytes plus the name, the iovec array and the control bytes |
| NetMsg.MsghdrWidth | network/src/include/netmsg.h:234-240 | the struct msghdr member takes 56 bytes |
| NetMsg.Wire | network/src/liblink/netmsg.c:9-552 | the bytes a marshaller writes for a well-formed message are exactly the size it returns |
| NetMsg.BodyKindsOf | network/src/liblink/netmsg.c:42-552 | for every command but t_sendmsg, the layout its unmarshaller reads at the marshalled size is the layout of the marshalled fields, and they read back as the body |
| NetMsg.ParseSendmsgWire | network/src/liblink/netmsg.c:305-358 | a t_sendmsg body with its msghdr lengths stored reads back as the body marshalled |
| NetMsg.ParseBodyWire | network/src/liblink/netmsg.c:31-552 | a marshalled body reads back, by its command's unmarshaller, as the body marshalled |
| NetMsg.Parse | network/src/liblink/netmsg.c:22-29 | a buffer shorter than the 24-byte netmsg_header_t holds no message |
| NetMsg.ParseWire | network/src/liblink/netmsg.c:9-552 | a well-formed message read back with its own command's unmarshaller is the message written, whatever follows it |
| NetMsg.ParseMessage | network/src/liblink/netmsg.c:9-29 | a header followed by a body its command reads back reads back whole |
| NetMsg.FitsCommand | network/src/include/netmsg.h:22-63 | every body layout belongs to a command of the enum |
| NetMsg.DecodeHeader | network/src/liblink/netmsg.c:9-29 | netmsg_unmarshal_header after netmsg_marshal_header gives back the seqnum, size, command and tag |
| NetMsg.WriteBytes | network/src/liblink/netmsg.c:9-552 | memcpy into the buffer: the bytes at the offset are replaced and the rest is unchanged |
| NetMsg.MarshalHeader | network/src/liblink/netmsg.c:9-20 | unless dryrun the four header fields go at the front of the buffer, the rest unchanged; the result is the header's size either way |
| NetMsg.Marshal | network/src/liblink/netmsg.c:9-552 | as written: unless dryrun, every structure but t_sendmsg is written as header and body fields, while a t_sendmsg gets its header, socket id, flags and payloads around the buffer's old msghdr bytes; nothing after the message changes and the result is the size |
| NetMsg.MarshalFields | network/src/liblink/netmsg.c:9-552 | a marshaller that stores every field: unless dryrun the header, with the message's size, and the body are written at the front and nothing after them changes; the result is the size either way |
| NetMsg.Unmarshal | network/src/liblink/netmsg.c:22-552 | unless dryrun the message read with the command's layout; the result is sizeof the structure, or for a variable structure the header's size as int, except that a dry-run t_sendmsg returns the destination's old size field |
| NetMsg.HeaderSizeOf | network/src/liblink/netmsg.c:9-29 | the size field a marshaller wrote reads back unchanged |
| NetMsg.VariableTail | network/src/liblink/netmsg.c:207-552 | only the commands with a variable part carry variable bytes |
| NetMsg.HeaderSizeOfWire | network/src/liblink/netmsg.c:226-235 | the size a variable unmarshaller returns is the size its marshaller wrote |
| NetMsg.UnmarshalWire | network/src/liblink/netmsg.c:9-552 | reading a marshalled message with its own command gives the message back, and the size read agrees with the size written |
| NetMsg.MarshalThenUnmarshal | network/src/liblink/netmsg.c:9-552 | a message stored field by field (every structure but t_sendmsg as written, and t_sendmsg with its lengths stored) unmarshals back to itself with the same size on both sides |
| NetMsg.EncodeZeros | network/src/liblink/netmsg.c:305-333 | fields holding zero are stored as zero bytes |
| NetMsg.MsghdrZero | network/src/liblink/netmsg.c:305-333 | a msghdr whose lengths are all zero is 56 zero bytes |
| NetMsg.SendmsgLostAsWritten | network/src/liblink/netmsg.c:305-358 | marshalled as written into a zeroed buffer, a t_sendmsg reads back with an empty name, iovec array and control part |
| NetMsg.SendmsgAsWrittenZeroed | network/src/liblink/netmsg.c:305-333 | with a zeroed msghdr, the bytes written are those of a body whose lengths are zero |
| NetMsg.ParseSendmsgZeroed | network/src/liblink/netmsg.c:335-358 | a t_sendmsg body whose msghdr is all zeros reads back with empty name, iovec array and control part |
| NetMsg.Put | network/src/liblink/netmsg.c:316-331 | one conditional memcpy into the part of the buffer not yet written |
| NetMsg.PutPayload | network/src/liblink/netmsg.c:316-331 | the name, iovec array and control bytes are copied one after another |
| NetMsg.MarshalTSendmsgAsWritten | network/src/liblink/netmsg.c:305-333 | as written: header, socket id and flags stored, the payload copied after the structure, the msghdr member left as the buffer held it; the size counts the payload |
| NetMsg.SendmsgNameLost | network/src/liblink/netmsg.c:305-358 | a t_sendmsg with a 4-byte name, marshalled as written into a zeroed buffer, reads back without its name |
| NetMsg.MarshalRe | network/src/liblink/netmsg.c:31-40 | the header and a return code, with the response's own command; 28 bytes |
| NetMsg.MarshalTSocket | network/src/liblink/netmsg.c:51-64 | domain, type and protocol after the header; 36 bytes |
| NetMsg.MarshalRSocket | network/src/liblink/netmsg.c:75-87 | a return code and the new socket's id; 36 bytes |
| NetMsg.MarshalAddr | network/src/liblink/netmsg.c:98-111 | a socket id, addrlen and one struct sockaddr_in; 52 bytes |
| NetMsg.MarshalSockInt | network/src/liblink/netmsg.c:171-183 | a socket id and the backlog or how; 36 bytes |
| NetMsg.MarshalSockOnly | network/src/liblink/netmsg.c:448-458 | a socket id; 32 bytes |
| NetMsg.MarshalTSetsockopt | network/src/liblink/netmsg.c:207-224 | the option's level, name and length, then its value; the size, stored in the header too, is the structure plus optlen |
| NetMsg.MarshalTGetsockopt | network/src/liblink/netmsg.c:251-266 | the option's level, name and the length asked for; the size is the structure's |
| NetMsg.MarshalRGetsockopt | network/src/liblink/netmsg.c:278-292 | a return code, the option's length and its value; the size counts the value |
| NetMsg.MarshalTSendmsg | network/src/liblink/netmsg.c:305-333 | with the msghdr lengths stored: the size is the structure plus the name, iovec array and control bytes |
| NetMsg.MarshalData | network/src/liblink/netmsg.c:373-388 | a socket id, the payload length and the payload; the size is the structure plus datalen |
| EventPoll.EventName | network/src/libpcnlink/pcnlink_eventpoll.c:14-44 | a name exactly for the single events NONE, IN, PRI, OUT, ERR, HUP and RDHUP |
| EventPoll.EventNamesDistinct | network/src/libpcnlink/pcnlink_eventpoll.c:14-44 | different events never share a name |
| EventPoll.EventQueue.constructor | network/src/libpcnlink/pcnlink_eventpoll.c:48-77 | a new queue is empty, with start, end and num_events 0 and the given size |
| EventPoll.EventQueue.Push | network/src/libpcnlink/pcnlink_eventpoll.c:517-527 | the entry is appended at end, end wraps to 0 at size and num_events grows by one |
| EventPoll.EventQueue.Pop | network/src/libpcnlink/pcnlink_eventpoll.c:413-468 | the oldest entry is taken, start wraps to 0 at size and num_events drops by one |
| EventPoll.EventQueue.Fetch | network/src/libpcnlink/pcnlink_eventpoll.c:413-468 | one fetch loop delivers what the fetch specification says and leaves the entries it did not take |
| EventPoll.EventQueue.FetchStep | network/src/libpcnlink/pcnlink_eventpoll.c:413-468 | taking one entry keeps the loop on course to the fetch specification: the queue loses its head and the delivered events and socket table advance by one step |
| EventPoll.FetchDone | network/src/libpcnlink/pcnlink_eventpoll.c:413-468 | once the queue is empty or maxevents are delivered, the loop has produced exactly the specified events and socket table |
| EventPoll.Take | network/src/libpcnlink/pcnlink_eventpoll.c:413-468 | taking an entry keeps the same sockets |
| EventPoll.FetchSpec | network/src/libpcnlink/pcnlink_eventpoll.c:413-468 | a fetch takes no more entries than the queue holds |
| EventPoll.FetchBound | network/src/libpcnlink/pcnlink_eventpoll.c:413-468 | a fetch delivers at most the room left and no more than it takes, and stops early only when the room is used up |
| EventPoll.FetchUnfold | network/src/libpcnlink/pcnlink_eventpoll.c:413-468 | one step: the head entry is taken and delivered exactly when it is deliverable |
| EventPoll.FetchAdvance | network/src/libpcnlink/pcnlink_eventpoll.c:413-468 | taking one more entry keeps the loop on course with the specification |
| EventPoll.FetchDeliversRegistered | network/src/libpcnlink/pcnlink_eventpoll.c:413-468 | each delivered event comes from an entry the fetch took, whose socket was registered for it |
| EventPoll.FetchClears | network/src/libpcnlink/pcnlink_eventpoll.c:413-468 | a fetch adds and removes no socket and leaves each socket exactly the pending events the taken entries did not raise |
| EventPoll.TakeThenClear | network/src/libpcnlink/pcnlink_eventpoll.c:413-468 | clearing after taking an entry is clearing its bits together with the rest |
| EventPoll.Register | network/src/libpcnlink/pcnlink_eventpoll.c:266-303 | ADD and MOD register the events plus ERR and HUP with the caller's data, leaving pending events alone |
| EventPoll.Epoll.constructor | network/src/libpcnlink/pcnlink_eventpoll.c:89-162 | the three queues start empty with the requested size |
| EventPoll.Epoll.AddEvent | network/src/libpcnlink/pcnlink_eventpoll.c:482-545 | EBADF for a missing socket, an empty event or an event already pending; otherwise 0 exactly when the entry can be queued |
| EventPoll.Epoll.Enqueue | network/src/libpcnlink/pcnlink_eventpoll.c:516-526 | the event becomes pending on the socket and its entry, with the socket's data word, is appended to the chosen queue |
| EventPoll.Epoll.Ctl | network/src/libpcnlink/pcnlink_eventpoll.c:225-310 | it succeeds exactly when both descriptors are non-negative, the first is an epoll socket, an event is given (or the op is DEL), the socket exists and is not registered for ADD nor unregistered for MOD/DEL; EBADF for negative descriptors, EINVAL for a non-epoll descriptor, a missing event or an unknown socket, EEXIST for ADD on a registered socket, ENOENT for DEL or MOD on an unregistered one; on success ADD/MOD register the events with ERR and HUP, DEL unregisters and other ops change nothing; failure changes nothing |
| EventPoll.Epoll.Wait | network/src/libpcnlink/pcnlink_eventpoll.c:313-479 | EBADF or EINVAL on a bad descriptor; otherwise the user queue and then the shadow queue are fetched, and the count returned is the events delivered |
| EventPoll.EpollCreate | network/src/libpcnlink/pcnlink_eventpoll.c:89-162 | EINVAL for size not positive, ENFILE without a free descriptor, otherwise a new instance with three empty queues of that size |
| EventPoll.WaitBound | network/src/libpcnlink/pcnlink_eventpoll.c:413-468 | a wait never returns more events than maxevents |
| Pcnlink.PlSock.constructor | network/src/libpcnlink/pcnlink.c:499-514 | a new socket has the given type, an empty poll mask and no file flags; its descriptor is -1 until sockfd_new records one |
| Pcnlink.PlSock.Poll | network/src/libpcnlink/pcnlink.c:1590-1618 | the socket's own mask plus POLLOUT/POLLWRBAND for a connected socket with room, POLLIN for a connected or listening socket with data, POLLWRNORM in either of those cases, POLLNVAL for any other type, and no other bits |
| Pcnlink.PlSock.Shutdown | network/src/libpcnlink/pcnlink.c:917-947 | a failed RPC is returned with nothing changed; otherwise the host's result is returned and, when it is 0, SHUT_RD or SHUT_WR add POLLRDHUP and SHUT_RDWR adds POLLHUP |
| Pcnlink.ChunkIs | network/src/libpcnlink/pcnlink.c:973-998 | a segment sends the smaller of its length and what remains of len, and nothing when it is empty or len is used up |
| Pcnlink.SentTotal | network/src/libpcnlink/pcnlink.c:973-998 | the first i segments send the smaller of their total length and len, so the total never exceeds len |
| Pcnlink.WholeMessageSent | network/src/libpcnlink/pcnlink.c:973-998 | when len is the whole vector's length, as pcnlink_u_sendmsg passes it, every segment is sent in full |
| Pcnlink.FirstFailure | network/src/libpcnlink/pcnlink.c:973-998 | the first segment whose send fails, or -1 exactly when none does |
| Pcnlink.SentStops | network/src/libpcnlink/pcnlink.c:973-998 | once len is used up, later segments send nothing |
| Pcnlink.SendMsg | network/src/libpcnlink/pcnlink.c:973-998 | without a failure the total sent and each segment advanced by its chunk; at the first failure its error, with only the earlier segments advanced |
| Pcnlink.Skip | network/src/libpcnlink/pcnlink.c:1034-1070 | the count of leading messages with a smaller sequence number; the next one, if any, is not smaller |
| Pcnlink.FindOob | network/src/libpcnlink/pcnlink.c:1034-1070 | smaller heads are dropped; an equal head is taken off and returned; a larger head stops the scan with null |
| Pcnlink.PeekOob | network/src/libpcnlink/pcnlink.c:1072-1104 | smaller heads are dropped; an equal head is returned but left on the queue |
| Pcnlink.PeekThenFind | network/src/libpcnlink/pcnlink.c:1034-1104 | peek then find with the same sequence number return the same message, and only the find consumes it |
| Pcnlink.NeedReapInQ | network/src/libpcnlink/pcnlink.c:257-281 | nonzero exactly when the quota is positive, the free space is at most the threshold and the queue is empty, and then exactly one more than the free space |
| PcnlinkUapi.FirstFree | network/src/libpcnlink/pcnlink_uapi.c:23-43 | the lowest empty slot, or -1 exactly when every slot is taken |
| PcnlinkUapi.SockfdTable.constructor | network/src/libpcnlink/pcnlink_uapi.c:5-7 | the table starts with every slot empty |
| PcnlinkUapi.SockfdTable.StoredOnce | network/src/libpcnlink/pcnlink_uapi.c:23-43 | a socket held in the table occupies one slot only |
| PcnlinkUapi.SockfdTable.New | network/src/libpcnlink/pcnlink_uapi.c:23-43 | the socket goes into the lowest empty slot and records its index; with all PCNLINK_MAX_SOCKFD slots taken nothing is stored and -1 is returned |
| PcnlinkUapi.SockfdTable.Release | network/src/libpcnlink/pcnlink_uapi.c:16-20 | the slot becomes empty and no other changes |
| PcnlinkUapi.SockfdTable.Close | network/src/libpcnlink/pcnlink_uapi.c:143-148 | the slot is released whatever the close returned, and that result is passed on |
| PcnlinkUapi.SockfdTable.Fcntl | network/src/libpcnlink/pcnlink_uapi.c:178-190 | F_SETFL stores the flags and returns 0, leaving the socket's descriptor, type and poll mask as they were; F_GETFL returns the flags and changes nothing; anything else returns -1 and changes nothing |
| PcnlinkUapi.SockfdTable.SetThenGet | network/src/libpcnlink/pcnlink_uapi.c:178-190 | F_SETFL then F_GETFL returns the flags set |
| PcnlinkUapi.GetMsghdrLen | network/src/libpcnlink/pcnlink_uapi.c:112-123 | the sum of the segment lengths |
| Proxy.SetRemoteIdBits | network/src/libproxy/proxy.c:591-602 | the new mask holds exactly the ids of the old mask and of the added bits |
| Proxy.UnsetRemoteIdBits | network/src/libproxy/proxy.c:604-615 | the new mask holds exactly the ids of the old mask that are not removed |
| Proxy.SetUnsetRoundTrip | network/src/libproxy/proxy.c:591-615 | unsetting freshly set ids restores the mask; setting unset ids yields the mask joined with them |
| Proxy.NumListeningEnds | network/src/libproxy/proxy.c:617-621 | the popcount is 0 exactly for an empty mask and 1 for a mask of one remote end |
| Proxy.SharedIffTwoEnds | network/src/libproxy/proxy.c:617-621 | the popcount is above one exactly when two distinct remote ends listen |
| Proxy.Offset | network/src/libproxy/proxy.c:816-824 | the round-robin offset is the first slot from the start that holds a listening end, or the link count when none does |
| Proxy.OffsetFound | network/src/libproxy/proxy.c:816-824 | a non-empty mask within the link range always yields a listening end within one round |
| Proxy.ListenSocket.constructor | network/src/libproxy/proxy.c:651-656 | a new socket listens for its own remote end only, and its round-robin counter starts there |
| Proxy.ListenSocket.NextRemoteId | network/src/libproxy/proxy.c:811-824 | with at most one listening end the socket is kept unchanged; otherwise the next listening id from lb_cnt on is chosen, and lb_cnt moves just past it |
| Proxy.RoundUpPage | network/src/libproxy/proxy.c:442 | the size rounded up is a whole number of pages, at least the size and less than one page above it |
| Proxy.NetCtx.constructor | network/src/libproxy/proxy.c:184-190 | _pcn_init_netctx zeroes the context: scratchpad size 0 and no scratchpad |
| Proxy.NetCtx.StartWorkerAsWritten | network/src/libproxy/proxy.c:241-250 | as written the worker allocates the 4 MiB initial scratchpad only when one is already present (-ENOMEM if malloc fails), and otherwise changes nothing |
| Proxy.NetCtx.StartWorker | network/src/libproxy/proxy.c:241-250 | with the intended test a context without a scratchpad gets the 4 MiB initial one, or -ENOMEM with none recorded; one that has a scratchpad is left alone |
| Proxy.WorkerStartAsWritten | network/src/libproxy/proxy.c:241-250 | a worker started on a freshly zeroed context ends with no scratchpad and size 0 even when malloc would succeed |
| Proxy.WorkerStartAllocates | network/src/libproxy/proxy.c:241-250 | with the intended test the fresh worker holds the 4 MiB initial scratchpad |
| Proxy.NetCtx.SecureScratchpadAsWritten | network/src/libproxy/proxy.c:435-454 | a larger request records the page-rounded size whether or not malloc succeeds; a smaller one changes nothing and succeeds |
| Proxy.NetCtx.SecureScratchpad | network/src/libproxy/proxy.c:435-454 | success leaves a scratchpad of at least the requested size; a failed enlargement reports -ENOMEM and records no scratchpad |
| Proxy.ScratchpadLostAsWritten | network/src/libproxy/proxy.c:435-454 | starting from a zeroed context: a first 4 MiB request succeeds, a failed 8 MiB enlargement returns -ENOMEM, and a later 100-byte request returns 0 although no scratchpad exists |
| Proxy.ScratchpadRecovers | network/src/libproxy/proxy.c:435-454 | with the corrected rule the same three requests end with a scratchpad present |
| Proxy.HostSocket.constructor | network/src/libproxy/proxy.c:1552-1553 | a new host socket has no backlog and an empty buffer |
| Proxy.HostSocket.SendData | network/src/libproxy/proxy.c:1166-1236 | each backlog and send outcome: data appended when it fits, refused otherwise, sent directly, or its unsent tail buffered with the full length reported |
| Proxy.HostSocket.HandleWriteEv | network/src/libproxy/proxy.c:1452-1494 | a full send of the backlog clears it; a partial send advances the send position and shrinks the length; a failure changes nothing and returns 0 |
| Proxy.BacklogDrains | network/src/libproxy/proxy.c:1196-1216 | buffered data that is then written out in full leaves the socket without a backlog |
| FileBlockMap.Ordered | diod/libfblkmap/fblkmap.c:540-557 | in a sorted map every extent ends before any later extent starts |
| FileBlockMap.AllocCount | diod/libfblkmap/fblkmap.c:78-85 | the allocated count is a multiple of 8, at least the request and fewer than 8 above it |
| FileBlockMap.CheckFieFlags | diod/libfblkmap/fblkmap.c:87-99 | the result is 0 exactly when no extent's flags hit the mask; otherwise it is the masked flags of the first extent that hits |
| FileBlockMap.FirstBreak | diod/libfblkmap/fblkmap.c:125-133 | the scan stops at the first extent that does not run into the next one, or at the last extent |
| FileBlockMap.StoredBelow | diod/libfblkmap/fblkmap.c:101-130 | a stored hole length never exceeds the real one, and a 64-bit field keeps it exactly |
| FileBlockMap.FindFieHole | diod/libfblkmap/fblkmap.c:101-143 | the loop computes the hole described by HoleReport, with the length held in 32 bits |
| FileBlockMap.BreakFound | diod/libfblkmap/fblkmap.c:125-133 | the scan stops at the first break after a run of joined extents |
| FileBlockMap.BreakAtLast | diod/libfblkmap/fblkmap.c:125-133 | with no break the scan stops at the last extent |
| FileBlockMap.HoleIsGap | diod/libfblkmap/fblkmap.c:101-143 | a reported hole meets no extent of a sorted map, leading and trailing holes stay within [start, end), and every extent skipped runs into the next |
| FileBlockMap.LeadingHole | diod/libfblkmap/fblkmap.c:112-119 | a hole before the first extent ends within the range and before every extent |
| FileBlockMap.TrailingHole | diod/libfblkmap/fblkmap.c:134-141 | a hole after the last extent ends within the range and after every extent |
| FileBlockMap.InteriorHole | diod/libfblkmap/fblkmap.c:125-133 | a hole between two extents overlaps no extent and lies before the end of the map |
| FileBlockMap.FourGiBHoleLost | diod/libfblkmap/fblkmap.c:101-143 | a 2^32-byte gap between two extents is reported with length 0 when the length is held in 32 bits |
| FileBlockMap.WideHoleExact | diod/libfblkmap/fblkmap.c:101-143 | with the length held in 64 bits, the leading, interior and trailing holes are reported with their exact lengths |
| FileBlockMap.MergeTwoRegions | diod/libfblkmap/fblkmap.c:413-441 | the left extent is always emitted; the right one is absorbed, stretching it to the further end, exactly when it continues the left logically and physically |
| FileBlockMap.MergeKeepsMapping | diod/libfblkmap/fblkmap.c:413-441 | an absorbing merge covers exactly the bytes of the two inputs, at the device addresses they gave |
| FileBlockMap.AppendAsWrittenShrinks | diod/libfblkmap/fblkmap.c:337-351 | an overlapping append sets the left extent's length from the right extent's end, dropping bytes the left map held |
| FileBlockMap.Append | diod/libfblkmap/fblkmap.c:321-384 | the maps are refused exactly when the right one starts before the left map's last extent; otherwise the result is their concatenation, possibly with the two meeting extents joined |
| FileBlockMap.AppendKeepsCoverage | diod/libfblkmap/fblkmap.c:321-384 | when the maps agree where they meet, appending covers exactly the bytes the two maps covered |
| FileBlockMap.AppendAsWritten | diod/libfblkmap/fblkmap.c:321-384 | as written: refused exactly when the right map starts before the left map's last extent; otherwise all extents of both, at most one pair joined, starting where the left map starts |
| FileBlockMap.AppendAsWrittenKeepsCoverage | diod/libfblkmap/fblkmap.c:337-375 | when the maps agree where they meet and the right map's first extent reaches at least as far as the left's last, the written append covers exactly the bytes of the two |
| FileBlockMap.TryAppendBlockMaps | diod/libfblkmap/fblkmap.c:386-411 | an empty side yields the other map unchanged; otherwise the map starting first (the shorter on a tie) goes left, the pair is refused exactly when the right map starts before the left's last extent, and the result starts at the lower start with all extents of both, at most one joined |
| FileBlockMap.TryAppendKeepsCoverage | diod/libfblkmap/fblkmap.c:386-411 | when the maps, in the order chosen, agree where they meet, the appended map covers exactly the bytes of the two |
| FileBlockMap.CompOverlapping | diod/libfblkmap/fblkmap.c:511-538 | the comparison is -1, 0 or 1, and a non-zero answer orders the two extents by their starts |
| FileBlockMap.CompAntisymmetric | diod/libfblkmap/fblkmap.c:511-538 | swapping the two extents negates the comparison |
| FileBlockMap.CompIsOverlap | diod/libfblkmap/fblkmap.c:511-538 | for non-empty extents a comparison of 0 means exactly that they overlap |
| FileBlockMap.KeyMatch | diod/libfblkmap/fblkmap.c:540-557 | the one-byte search key compares equal to an extent exactly when the extent holds that byte |
| FileBlockMap.FindBlockMapping | diod/libfblkmap/fblkmap.c:540-557 | on a sorted map the search returns an extent holding the byte, and returns -1 exactly when no extent holds it |
| ZeroCopyIo.RoundUpBlk | diod/diod/zcio.c:65 | the result is the least multiple of 512 not below its argument |
| ZeroCopyIo.RoundUpAligned | diod/diod/zcio.c:64-65 | rounding an aligned value up leaves it unchanged |
| ZeroCopyIo.Lba | diod/diod/zcio.c:62 | the block number is the 512-byte block that holds the device address |
| ZeroCopyIo.NBlocks | diod/diod/zcio.c:63 | an aligned non-empty length gives one less than its block count; a length below one block wraps to 0xFFFFFFFF |
| ZeroCopyIo.CalcNIov | diod/diod/zcio.c:121-127 | the command count covers every extent, one command per full DMA of the request, a carry-over and two alignment commands |
| ZeroCopyIo.FillSgl | diod/diod/zcio.c:245-273 | the scatter-gather entries of one command add up to its length, moving to the next memory segment whenever the current one runs dry |
| ZeroCopyIo.BuildNvmeUioCmds | diod/diod/zcio.c:170-311 | an unaligned offset is -EINVAL; otherwise the count is rounded up to whole blocks, the commands fit the calc_n_iov array, each lies inside one extent and one DMA, and io_count is the count or what the map can serve |
| ZeroCopyIo.CutRequest | diod/diod/zcio.c:232-304 | the command loop never overruns the array and serves the whole rounded count or everything the map holds from the offset |
| ZeroCopyIo.CursorStep | diod/diod/zcio.c:276-298 | a command that does not finish the request moves on within the extent or to the next one, and the array still has room |
| ZeroCopyIo.FirstExtent | diod/diod/zcio.c:217-220 | the first command starts at the device address of the file offset, with the rest of the first extent rounded up |
| ZeroCopyIo.WithinExtent | diod/diod/zcio.c:254-259 | a command that leaves part of the extent advances the device address by its length |
| ZeroCopyIo.NextExtent | diod/diod/zcio.c:282-294 | moving to the next extent continues at that extent's device address with its whole length |
| ZeroCopyIo.ServedAll | diod/diod/zcio.c:276-280 | a command that finishes the request means the map served the whole count |
| ZeroCopyIo.LastExtent | diod/diod/zcio.c:282-288 | a command that uses up the last extent means the map served all it could |
| ZeroCopyIo.NextCommand | diod/diod/zcio.c:232-273 | each command is the least of one DMA, the remaining request and the remaining extent, block-aligned, placed at the current device address |
| ZeroCopyIo.CommandRoom | diod/diod/zcio.c:121-127 | the number of commands issued so far leaves a free slot in the calc_n_iov array |
| ZeroCopyIo.AlignedMin | diod/diod/zcio.c:237-238 | the least of one DMA and two aligned lengths is aligned |
| ZeroCopyIo.P2pResult | diod/diod/zcio.c:378-465 | a read of an unmapped offset returns 0, a submitted request the smaller of io_count and count, and every failure -1 |
| ZeroCopyIo.P2pServesWholeRequest | diod/diod/zcio.c:378-465 | a read of a range fully covered by the map returns the whole count |
| Filemap.CalculatePages | phi-kernel/mm/filemap.c:2691-2714 | the result is the number of pages the byte range touches, and at least one for a non-empty range |
| Filemap.PartialPages | phi-kernel/mm/filemap.c:2704-2713 | partial first page plus whole pages plus partial last page is the index of the last page touched plus one |
| Filemap.PagesMonotone | phi-kernel/mm/filemap.c:2691-2714 | extending the range never needs fewer pages |
| Filemap.PagesCover | phi-kernel/mm/filemap.c:2691-2714 | the pages counted hold the whole range and none of them is wholly beyond it |
| Filemap.TotalLenMonotone | phi-kernel/mm/filemap.c:1690-1697 | the running sum of segment lengths never decreases |
| Filemap.FirstInaccessible | phi-kernel/mm/filemap.c:1700-1708 | every segment before the index is accessible and the segment at the index is not |
| Filemap.SegmentChecks | phi-kernel/mm/filemap.c:1685-1710 | the loop computes SegmentVerdict; on error the segment count and byte count are unchanged |
| Filemap.SumPastLimit | phi-kernel/mm/filemap.c:1697-1699 | a running sum that reaches 2^63 before the scan stops makes the vector -EINVAL |
| Filemap.PastLimit | phi-kernel/mm/filemap.c:1697-1699 | a size_t sum of a prefix below 2^63 and a segment length that has bit 63 set, or whose own bit 63 is set, really reaches 2^63: it did not wrap |
| Filemap.AcceptedPrefix | phi-kernel/mm/filemap.c:1685-1710 | an accepted vector keeps a non-empty prefix of accessible segments whose exact total is the count, below 2^63 |
| Filemap.IovIter.constructor | phi-kernel/mm/filemap.c:3688 | the iterator holds the given count and its cursor sits the already-written bytes into the segments, as iov_iter_init's advance leaves it |
| Filemap.IovIter.Advance | phi-kernel/mm/filemap.c:2416-2447 | advancing reduces the count by exactly the bytes and moves the position in the vector forward by exactly that much |
| Filemap.IovIter.SingleSegCount | phi-kernel/mm/filemap.c:2470-2477 | a single-segment iterator offers its whole count; otherwise the rest of the current segment, capped by the count |
| Filemap.WriteChecks | phi-kernel/mm/filemap.c:2487-2559 | a negative position is exactly the -EINVAL case; an accepted write starts at the end for O_APPEND, otherwise at the position, before RLIMIT_FSIZE; SIGXFSZ is sent exactly when a regular file's write starts at or past RLIMIT_FSIZE; without wrap-around the accepted count is the asked count cut to RLIMIT_FSIZE, MAX_NON_LFS and the size limit minus the position, wherever each applies |
| Filemap.LfsStage | phi-kernel/mm/filemap.c:2511-2522 | without O_LARGEFILE an accepted write ends at MAX_NON_LFS or before, and a write from at or past that limit that goes beyond it is -EFBIG; without wrap-around an accepted count is the count cut to MAX_NON_LFS (when it applies) and then to the size limit |
| Filemap.SizeStage | phi-kernel/mm/filemap.c:2524-2558 | a write is accepted exactly when the device is writable and it is not at or past the size limit (a zero-length write at the limit itself passes); without wrap-around an accepted count is min(count, limit - pos) |
| Filemap.LfsKeeps | phi-kernel/mm/filemap.c:2511-2558 | a write that already fits the non-LFS and size limits passes them with its count unchanged |
| Filemap.WriteWithinLimits | phi-kernel/mm/filemap.c:2487-2559 | an accepted write ends within every limit that applies, and a write that already fits keeps its count |
| Filemap.PastRlimitRefused | phi-kernel/mm/filemap.c:2500-2504 | a regular-file write at or past RLIMIT_FSIZE fails with -EFBIG |
| Filemap.WriteAndWait | phi-kernel/mm/filemap.c:478-497 | a mapping without pages does nothing; the wait is skipped only after -EIO, and the first error is the one returned |
| MicCpufreq.FfcodeToVal | phi-kernel/drivers/micpm/mic_cpufreq.c:533-536 | the value is a two-bit code |
| MicCpufreq.FfcodeToValInvolution | phi-kernel/drivers/micpm/mic_cpufreq.c:533-536 | complementing twice gives back the two low bits, and one complement is 3 minus them |
| MicCpufreq.FfFromCode | phi-kernel/drivers/micpm/mic_cpufreq.c:539-542 | the feed-forward divider is 8, 4, 2 or 1 |
| MicCpufreq.FbFromCode | phi-kernel/drivers/micpm/mic_cpufreq.c:545-548 | the feedback divider has no bit at or above ffpos, and every bit it has is a bit of the code |
| MicCpufreq.RatioFromFffb | phi-kernel/drivers/micpm/mic_cpufreq.c:551-554 | packing a feedback divider that fits below ffpos and unpacking it gives it back, and the two bits at ffpos are the low bits of the feed-forward code |
| MicCpufreq.FreqFromCode | phi-kernel/drivers/micpm/mic_cpufreq.c:557-564 | the frequency lies between baseclk times the feedback divider over 8 and baseclk times the feedback divider |
| MicCpufreq.FreqOfRatio | phi-kernel/drivers/micpm/mic_cpufreq.c:557-564 | the frequency of a packed code is baseclk times the feedback divider over the feed-forward divider |
| MicCpufreq.Mclk2Freq | phi-kernel/drivers/micpm/mic_cpufreq.c:129 | the ratio read from bits 1-10 is below 0x400 |
| MicCpufreq.SetMclk | phi-kernel/drivers/micpm/mic_cpufreq.c:130 | bit 0 is kept, bits 1-10 hold the low ten bits of the ratio, and for a ratio below 0x400 bit 11 is kept too |
| MicCpufreq.MclkRoundTrip | phi-kernel/drivers/micpm/mic_cpufreq.c:129-130 | setting a 10-bit ratio keeps bits 0 and 11, clears the bits above, and MCLK_2_FREQ reads the ratio back |
| MicCpufreq.ClearLowestBit | phi-kernel/drivers/micpm/mic_cpufreq.c:592-597 | clearing the lowest set bit lowers the bit count by exactly one |
| MicCpufreq.CountBits | phi-kernel/drivers/micpm/mic_cpufreq.c:586-597 | the loop counts exactly the set bits of the command |
| MicCpufreq.SvidCmdFmt | phi-kernel/drivers/micpm/mic_cpufreq.c:586-602 | the command is shifted left by one with the parity flag in bit 0 |
| MicCpufreq.SvidCmdFields | phi-kernel/drivers/micpm/mic_cpufreq.c:586-602 | the formatted command holds the command above bit 0, and bit 0 is set exactly when the command has an odd number of set bits |
| MicCpufreq.RoundThousandths | phi-kernel/drivers/micpm/mic_cpufreq.c:673 | the ticks are the thousandths rounded to the nearest unit |
| MicCpufreq.Rtccomp | phi-kernel/drivers/micpm/mic_cpufreq.c:659-677 | the code is returned unchanged when too hot, above VLimit or with no slope, and is otherwise never lowered and raised by at most 430 |
| MicCpufreq.RtccompExact | phi-kernel/drivers/micpm/mic_cpufreq.c:659-677 | without wrap-around the compensation is the exact product rounded to a tick |
| MicCpufreq.GetBaseclk | phi-kernel/drivers/micpm/mic_cpufreq.c:297-312 | the clock is 0 exactly when unmapped or iccdiv is outside [18, 22], and otherwise the floor quotient of RefClk (in kHz) over iccdiv: clk * iccdiv <= RefClk*1000 < (clk + 1) * iccdiv, between 181818 and 222222 |
| MicCpufreq.GenerateVidCodes | phi-kernel/drivers/micpm/mic_cpufreq.c:996-1035 | nturbo 0 fails with -EINVAL; otherwise the table has nturbo + turbo + MAX_TURBO_POINTS entries, each the interpolated code VidAt |
| MicCpufreq.FillTurboVids | phi-kernel/drivers/micpm/mic_cpufreq.c:1018-1024 | the turbo loop fills entries nturbo and above with VidAt, P0's code at the top, and leaves the non-turbo entries zero |
| MicCpufreq.FillNonTurboVids | phi-kernel/drivers/micpm/mic_cpufreq.c:1025-1032 | the non-turbo loop and the PN store fill entries below nturbo with VidAt, keeping the rest, so the whole table is VidAt |
| MicCpufreq.VidAt | phi-kernel/drivers/micpm/mic_cpufreq.c:1018-1032 | with PN at most P1 below 2^32 the non-turbo codes lie between PN and P1; with P1 at most P0 the turbo codes lie between P1 and P0; entries past the turbo points are 0 |
| MicCpufreq.NonTurboInterior | phi-kernel/drivers/micpm/mic_cpufreq.c:1026-1030 | an interior non-turbo code is P1 lowered by its share of the P1-PN range and lies between PN and P1 |
| MicCpufreq.NonTurboVidsMonotone | phi-kernel/drivers/micpm/mic_cpufreq.c:1026-1032 | with PN at most P1 the non-turbo codes rise from PN to P1 without wrapping |
| MicCpufreq.EndIndex | phi-kernel/drivers/micpm/mic_cpufreq.c:857-859 | the scan stops at the first end marker |
| MicCpufreq.FirstReaching | phi-kernel/drivers/micpm/mic_cpufreq.c:857-870 | the first usable entry whose frequency reaches the target, or none |
| MicCpufreq.LastUsableBefore | phi-kernel/drivers/micpm/mic_cpufreq.c:861-874 | the last usable entry before a given index, or none |
| MicCpufreq.ThrottleTarget | phi-kernel/drivers/micpm/mic_cpufreq.c:845-879 | a chosen entry is usable and before the end marker, and one below the target frequency is followed by a usable entry above it |
| MicCpufreq.ThrottleTargetProperties | phi-kernel/drivers/micpm/mic_cpufreq.c:845-879 | an entry is chosen exactly when some usable entry reaches the target; it is usable, before the end marker, and above the target only when no usable entry precedes it |
| MicCpufreq.ThrottleIndex | phi-kernel/drivers/micpm/mic_cpufreq.c:845-879 | a busy driver picks nothing; otherwise the loop picks ThrottleTarget |
| MicCpufreq.FirstReachingAfter | phi-kernel/drivers/micpm/mic_cpufreq.c:857-870 | once found, the first reaching entry stays the same for a longer scan |
| MicCpufreq.UsableBefore | phi-kernel/drivers/micpm/mic_cpufreq.c:1241-1248 | the indices it lists are usable entries below the bound |
| MicCpufreq.UsableBeforeComplete | phi-kernel/drivers/micpm/mic_cpufreq.c:1241-1248 | the usable indices below the bound are all listed, each once, in ascending order |
| MicCpufreq.RasFreqtable | phi-kernel/drivers/micpm/mic_cpufreq.c:1234-1253 | the first min(volt_siz, freq_siz) usable frequencies are copied with the voltage of their codes; without a parameter block nothing is written |
| MicCpufreq.CopyUsable | phi-kernel/drivers/micpm/mic_cpufreq.c:1241-1252 | the loop copies the first usable entries and their voltages, as many as the limit allows, stopping at the end marker |
| MicCpufreq.PrefixOfUsable | phi-kernel/drivers/micpm/mic_cpufreq.c:1241-1248 | the usable indices below a bound are a prefix of those below a larger bound |
| MicMenu.WhichBucket | phi-kernel/drivers/micpm/mic_menu.c:256-281 | the bucket is the decade of the expected sleep: 0 below 10 us, otherwise b with 10^b at most the sleep and below 10^(b+1), capped at 5 |
| MicMenu.WhichBucketMonotone | phi-kernel/drivers/micpm/mic_menu.c:256-281 | a longer expected sleep never falls into a lower bucket |
| MicMenu.DivRound64 | phi-kernel/drivers/micpm/mic_menu.c:319-322 | the quotient fits in a u64 (the sum is taken modulo 2^64), and dividing by 1 gives the dividend back |
| MicMenu.DivRound64Nearest | phi-kernel/drivers/micpm/mic_menu.c:319-322 | unless the sum wraps, the result is the quotient rounded to the nearest integer |
| MicMenu.UnityPrediction | phi-kernel/drivers/micpm/mic_menu.c:414-419 | with the unity correction factor the prediction is the expected sleep itself |
| MicMenu.NewFactor | phi-kernel/drivers/micpm/mic_menu.c:493-510 | the new correction factor is never 0 and fits in 64 bits |
| MicMenu.NewFactorBounded | phi-kernel/drivers/micpm/mic_menu.c:493-510 | below the bound no step wraps: the factor becomes three quarters of the old plus RESOLUTION times measured over expected, at least 1, and stays below the bound |
| MicMenu.UnityFactorStable | phi-kernel/drivers/micpm/mic_menu.c:493-510 | an exact prediction leaves the unity factor unchanged |
| MicMenu.DeepestFitting | phi-kernel/drivers/micpm/mic_menu.c:429-441 | the chosen state is the last of the run of fitting states from the first real one, with its exit latency; otherwise the fallback and 0 |
| MicMenu.MenuDevice.constructor | phi-kernel/drivers/micpm/mic_menu.c:539-543 | a newly enabled device has zeroed correction factors and no update pending |
| MicMenu.MenuDevice.Reflect | phi-kernel/drivers/micpm/mic_menu.c:452-456 | the next selection is marked to update the factor first, and nothing else changes |
| MicMenu.MenuDevice.Update | phi-kernel/drivers/micpm/mic_menu.c:463-513 | only the current bucket's factor changes, to NewFactor of the residency measured for the state last entered |
| MicMenu.MenuDevice.Select | phi-kernel/drivers/micpm/mic_menu.c:381-443 | a pending update replaces the old bucket's factor by the decayed blend of the measured ratio, then a zero factor in the new bucket becomes unity; the expected sleep is rounded up to microseconds and the prediction scaled by the factor; the recorded state is the last of the run of fitting states from the first real one, with its exit latency, or (exit latency 0) C1 when more than 5 us are expected and polling otherwise when the first real state does not fit; PC3 readiness picks the deepest state |
| MicMenu.MenuDevice.Predict | phi-kernel/drivers/micpm/mic_menu.c:401-416 | the expected sleep is the 32-bit sleep length rounded up to whole microseconds, its bucket is chosen, a zero factor of that bucket becomes unity, and the prediction is the expected sleep scaled by that factor; every factor stays within its bound |
| MicMenu.Pc3Policy.constructor | phi-kernel/drivers/micpm/mic_menu.c:568-577 | the governor starts with the default inactivity of 15 s and the PC3 policy on |
| MicMenu.Pc3Policy.SetInactivity | phi-kernel/drivers/micpm/mic_menu.c:219-236 | a time below the minimum is ignored; otherwise it is stored, and with the policy on every cpu is flagged as changed |
| KncGovernor.Load | phi-kernel/drivers/cpufreq/cpufreq_knc_governor.c:586-589 | a counted sample's load fits in 32 bits, and is 0 when the cpu was idle for the whole wall time |
| KncGovernor.LoadIsPercentage | phi-kernel/drivers/cpufreq/cpufreq_knc_governor.c:586-589 | without wrap-around a counted sample's load is a percentage, 100 with no idle time and 0 when idle throughout |
| KncGovernor.MaxCountedLoadIsMax | phi-kernel/drivers/cpufreq/cpufreq_knc_governor.c:551-593 | the highest load bounds every counted sample's load and is one of them, or 0 when none is counted |
| KncGovernor.MaxLoad | phi-kernel/drivers/cpufreq/cpufreq_knc_governor.c:551-593 | the loop computes the highest load among the counted samples, skipping those with no wall time or more idle than wall time |
| KncGovernor.Tuners.constructor | phi-kernel/drivers/cpufreq/cpufreq_knc_governor.c:134-142 | the tunables start at their defaults |
| KncGovernor.Tuners.StoreSamplingRate | phi-kernel/drivers/cpufreq/cpufreq_knc_governor.c:287-302 | an unparsable input is -EINVAL; otherwise the rate is at least the driver minimum, and no other tunable changes |
| KncGovernor.Tuners.StoreTdpThreshold | phi-kernel/drivers/cpufreq/cpufreq_knc_governor.c:304-322 | a threshold above the down differential and at most 100 is stored; anything else is -EINVAL and changes nothing |
| KncGovernor.Tuners.StoreDownDifferential | phi-kernel/drivers/cpufreq/cpufreq_knc_governor.c:324-341 | a differential below the threshold and at most 100 is stored; anything else is -EINVAL and changes nothing |
| KncGovernor.Tuners.StoreTdpDifferential | phi-kernel/drivers/cpufreq/cpufreq_knc_governor.c:343-360 | the differential is clamped so that threshold plus differential stays within 100 |
| KncGovernor.Tuners.StoreIgnoreNiceLoad | phi-kernel/drivers/cpufreq/cpufreq_knc_governor.c:362-396 | the value is clamped to 1, and a change takes every cpu's current counters as the new baseline |
| KncGovernor.Tuners.StoreFreqStep | phi-kernel/drivers/cpufreq/cpufreq_knc_governor.c:398-417 | the step is clamped to 100 percent |
| KncGovernor.Tuners.StoreTurboMode | phi-kernel/drivers/cpufreq/cpufreq_knc_governor.c:418-432 | the value is stored without checking the parse, and the write always reports success |
| KncGovernor.Tuners.StoreOverclocking | phi-kernel/drivers/cpufreq/cpufreq_knc_governor.c:433-447 | the value is stored without checking the parse, and the write always reports success |
| KncGovernor.Tuners.Decide | phi-kernel/drivers/cpufreq/cpufreq_knc_governor.c:603-660 | a request is for a higher frequency exactly when the load exceeds the threshold; a raise never asks for more than the maximum, a lowering never for less than the minimum; at the minimum a load within the threshold changes nothing |
| KncGovernor.Tuners.RaiseRule | phi-kernel/drivers/cpufreq/cpufreq_knc_governor.c:603-637 | a raise happens exactly when the load exceeds the threshold, turbo or overclocking is on and the load reaches threshold plus differential; it asks for at least one step above the current frequency, capped at the maximum |
| KncGovernor.Tuners.LowerRule | phi-kernel/drivers/cpufreq/cpufreq_knc_governor.c:642-660 | a lowering happens exactly at loads below threshold minus down differential when not already at the minimum; it never asks for less than the minimum or more than the current frequency |
| KncGovernor.Tuners.CheckCpu | phi-kernel/drivers/cpufreq/cpufreq_knc_governor.c:531-661 | each cpu's counters become the new baseline, and the decision is Decide of the highest load over the 32-bit deltas |
| KncGovernor.Deltas | phi-kernel/drivers/cpufreq/cpufreq_knc_governor.c:560-566 | every per-cpu difference is cut to 32 bits |
| KdbBreakpoints.InstallableExclusive | phi-kernel/kdb/kdb_bp.c:58-78 | no breakpoint is installable both globally and locally; a non-forced one is global exactly when marked global, local exactly on its own cpu otherwise; a forced one is never global |
| KdbBreakpoints.SlotCommandEffects | phi-kernel/kdb/kdb_bp.c:504-543 | clearing frees the slot, zeroes the address and disables it; enabling enables; disabling disables, and twice is the same as once |
| KdbBreakpoints.Range | phi-kernel/kdb/kdb_bp.c:464-492 | "*" names every slot, a small number that slot, and a larger value the first slot with that address, or none |
| KdbBreakpoints.FirstWithAddr | phi-kernel/kdb/kdb_bp.c:481-487 | the first slot from the start holding the address, or none |
| KdbBreakpoints.AppliedAt | phi-kernel/kdb/kdb_bp.c:497-553 | a used slot in the range takes its new state and every other slot is unchanged |
| KdbBreakpoints.AppliedStep | phi-kernel/kdb/kdb_bp.c:497-553 | handling one more slot changes only that slot, and only when it is used |
| KdbBreakpoints.UsedInZero | phi-kernel/kdb/kdb_bp.c:563-566 | no used slot in the range is exactly a count of 0 |
| KdbBreakpoints.BreakpointTable.constructor | phi-kernel/kdb/kdb_bp.c:644-667 | every slot starts zeroed and free |
| KdbBreakpoints.BreakpointTable.FindFree | phi-kernel/kdb/kdb_bp.c:348-356 | the result is the first free slot, or KDB_MAXBPT when every slot is used |
| KdbBreakpoints.BreakpointTable.FindClash | phi-kernel/kdb/kdb_bp.c:374-383 | a clash is found exactly when some used slot has the address and is global or on the same cpu |
| KdbBreakpoints.BreakpointTable.SetBreakpoint | phi-kernel/kdb/kdb_bp.c:301-416 | a zero address is KDB_BADINT, a full table KDB_TOOMANYBPT, a clash KDB_DUPBPT, all leaving the table unchanged; otherwise the first free slot alone takes the new breakpoint |
| KdbBreakpoints.BreakpointTable.SlotCommand | phi-kernel/kdb/kdb_bp.c:442-596 | a wrong argument count or address changes nothing; otherwise every used slot of the range takes its new state, KDB_BPTNOTFOUND is answered when none is used, a refused enable stops there with that slot disabled, and the single-step state survives "bc"/"bd" only if no used slot of the range had a step pending |
| KdbBreakpoints.BreakpointTable.ApplyRange | phi-kernel/kdb/kdb_bp.c:497-566 | the loop leaves exactly Applied over the range, or stops at the first refused enable with that slot disabled; the single-step state is cleared exactly when "bc" or "bd" meets a used slot with a step pending |
| KdbBreakpoints.DelayedInExists | phi-kernel/kdb/kdb_bp.c:560-563 | the recursive "step pending in the range" test holds exactly when some used slot of the range has a step pending |
| KdbBreakpoints.FirstRefused | phi-kernel/kdb/kdb_bp.c:519-530 | the first slot whose enabling is refused a hardware register, or the end of the range |
| KdbBreakpoints.NewBpProperties | phi-kernel/kdb/kdb_bp.c:385-411 | the filled slot is used, holds the address, is global except for bph and is then on the calling cpu, and is enabled unless the register was refused |
| TransPrb.Split | phi-kernel/net/9p/trans_prb.c:106-110 | strsep yields at least one piece and no piece holds a comma |
| TransPrb.CommaIndex | phi-kernel/net/9p/trans_prb.c:106 | the index is the first comma from the start, or the end of the string |
| TransPrb.SplitJoin | phi-kernel/net/9p/trans_prb.c:106-110 | joining the pieces with commas gives back the option string |
| TransPrb.ParseUnsigned | phi-kernel/net/9p/trans_prb.c:69-74 | an accepted "%u" value is below 2^64 and starts with a digit; without a leading 0 every character is a decimal digit, and any such non-empty decimal string is accepted |
| TransPrb.Radix | phi-kernel/net/9p/trans_prb.c:119 | base 0 reads octal, decimal or hexadecimal, skipping at most the prefix characters present |
| TransPrb.MatchInt | phi-kernel/net/9p/trans_prb.c:119-124 | an accepted value fits a C int, and a value up to INT_MAX is read as itself |
| TransPrb.MatchToken | phi-kernel/net/9p/trans_prb.c:69-76 | a matched piece starts with the pattern's literal text |
| TransPrb.Finish | phi-kernel/net/9p/trans_prb.c:151 | afterwards the response queue is at least as deep as the request queue, and only its depth may have changed |
| TransPrb.ParseOpts | phi-kernel/net/9p/trans_prb.c:80-153 | no parameters give the defaults; a failed copy is -ENOMEM; otherwise every piece is applied in turn and rq_depth ends at least sq_depth |
| TransPrb.UnmatchedPieceIgnored | phi-kernel/net/9p/trans_prb.c:109-127 | an empty, unmatched or non-integer piece changes no option |
| TransPrb.Decimal | phi-kernel/net/9p/trans_prb.c:119 | the rendering is non-empty decimal digits without a leading zero |
| TransPrb.DecimalValue | phi-kernel/net/9p/trans_prb.c:119 | the digits of the rendering have the number's value |
| TransPrb.DecimalParses | phi-kernel/net/9p/trans_prb.c:119 | a decimal number reads back through the base-0 rules as itself |
| TransPrb.ZeroParses | phi-kernel/net/9p/trans_prb.c:119 | the piece "0" reads under the base-0 rules as octal zero |
| TransPrb.FirstCharMismatch | phi-kernel/net/9p/trans_prb.c:111 | a piece whose first character differs from a pattern's does not match it |
| TransPrb.SqOptionSets | phi-kernel/net/9p/trans_prb.c:80-153 | the piece "sq=N" sets the request queue depth to N and changes nothing else |
| TransPrb.RestOfPage | phi-kernel/net/9p/trans_prb.c:486-490 | the result lies in 1..PAGE_SIZE and reaches exactly the end of the page |
| TransPrb.ZcRsize | phi-kernel/net/9p/trans_prb.c:597-610 | the size never exceeds count, and is non-negative whenever count fits a C int |
| TransPrb.ZcRsizeBounded | phi-kernel/net/9p/trans_prb.c:597-610 | without wrap-around the size is one page per region record that fits the header, capped at count |
| TransPrb.BreaksMonotone | phi-kernel/net/9p/trans_prb.c:554-567 | scanning more pages never finds fewer discontinuities |
| TransPrb.StartsAreBreaks | phi-kernel/net/9p/trans_prb.c:554-565 | the pages where a region starts are page 0 and then exactly the physical discontinuities, in increasing order, one more than the number of breaks |
| TransPrb.ThroughStep | phi-kernel/net/9p/trans_prb.c:570-579 | each page adds to the bytes seen so far exactly the part of the buffer that lies in it, the first page from the buffer's offset and later pages whole |
| TransPrb.AllRegionsFollowStarts | phi-kernel/net/9p/trans_prb.c:534-594 | the regions of the walk are one per start page, each at its start page (the first at the buffer's offset in its page) and holding exactly the buffer's bytes up to the next start or the last page, and together they hold ulen bytes |
| TransPrb.ScanPages | phi-kernel/net/9p/trans_prb.c:553-580 | the loop's closed regions and open region are those of the walk over the pages it scanned; it stops early only at a break that finds `room` regions closed, and otherwise scans every page |
| TransPrb.WalkNext | phi-kernel/net/9p/trans_prb.c:555-579 | one more page either closes the open region and opens one at that page with the page's bytes, or adds the page's bytes to the open region |
| TransPrb.BreakAt | phi-kernel/net/9p/trans_prb.c:551-559 | the comparison with the previous page's address plus PAGE_SIZE (one page before page 0 at the start) is exactly the walk's break test |
| TransPrb.OutOfRoom | phi-kernel/net/9p/trans_prb.c:559-562 | a break met with `room` regions closed means the whole walk has more than `room` regions, and the closed ones are its first `room` |
| TransPrb.WriteIov | phi-kernel/net/9p/trans_prb.c:534-594 | on success the emitted regions are exactly those of the walk (one per physically contiguous run, at its start page, with its length); a failed emit returns its error after the first `room` of them, and it fails exactly when the runs outnumber `room` |
| TransPrb.PageStep | phi-kernel/net/9p/trans_prb.c:570-579 | each page copies up to its end, or what is left when less, so the remaining length always fits the pages still to come and is zero after the last |

## Left out

- Python's `int()` also accepts surrounding whitespace, underscores and non-ASCII digits. `PyStr.ParseInt` accepts only an optional sign followed by ASCII digits.
- Non-ASCII whitespace in `str.split()` and `str.strip()` is not modelled.
- The `is not ""` tests in `scripts/parser.py` are modelled as `!=`, which is how CPython behaves for the empty-string literal.
- `Parser.parse` reads a log file. The model takes the file's lines as a sequence.
- LogParser.NormStrOrder covers only integer strings with 0 ≤ n < 10^9. Longer numbers are not zero-padded and do not sort numerically.
- The `if not d_kv` test in `_parse_data` only matters for a missing key: an entry, once stored, is never empty, so the model creates an entry exactly when the key is missing.
- `os_system_timeout` is not modelled: its timeouts, process kill and wall clock. The shell's exit status is a parameter of each command step.
- The model issues commands as strings and does not run them. This covers cmd_boot, reboot, nfs_setup, swapon, mic_status, show_config and the printing and colours. Only the commands these steps send to host_sh/mic_sh are modelled, where they are part of fs/net up and down.
- The CPU list is read once, when `Machine` is constructed, from a table given as a parameter. The lscpu call is not modelled.
- `__get_sock_type` is commented out in `cmd_net_up`, so the socket type is always "sock". The model follows the code.
- `os.path.join` is modelled only for joining "/mnt" with a mount name, and `os.path.normpath` is not modelled.
- A configuration without a "num" key raises in Python. The model takes the topology as given and does not model that exception.
- MachineConfig.Machine.BuildCpuConfig: requires a complete topology. The KeyError that `OS_CPU_ID[s, c, m]` raises for a missing (socket, core, thread) triple (machineconfig.py:78-84) is not modelled.
- Locks, CAS retry loops, threads, RPC transport and all I/O are left out of the network stack. The results of send, epoll_ctl, malloc and recv are parameters.
- PAGE_SIZE is fixed at 4096.
- `ssize_t` overflow of byte totals is not modelled.
- The socket-table walk in `_pcn_next_remote_socket` after the next link id is chosen (proxy.c:826 onward) is not modelled. The model stops at the chosen link id and the new lb_cnt.
- Proxy.HostSocket.HandleWriteEv: when there is no backlog, the C code returns an uninitialised `rc`. The model returns 0.
- `EventPoll`: a queued event whose socket has already left the socket table is dropped. The C code would dereference NULL there.
- NetMsg.Unmarshal: in dry-run, `netmsg_unmarshal_t_sendmsg` returns the `hdr.size` of the destination structure, which it has not written (netmsg.c:357). The model does not track what that memory holds, so the value is the parameter `destSize`.
- NetMsg.Parse: the unmarshallers of netmsg.c trust the caller's buffer and read past the end of a short one. The model reads a byte sequence, and a sequence too short for the structure gives no message instead of whatever memory follows it.
- NULL arguments are not modelled. Every address the code dereferences is taken to be valid.
- MicMenu.MenuDevice.Update: the correction factor is not capped at RESOLUTION. mic_menu.c:493-513 has no such cap, and the model follows the code.
- MicMenu.Pc3Policy.constructor: `menu_enable_device` sets `policychanged`. The constructor starts every flag false and does not model that first notification.
- `PG_arch_1` = 9 and `PG_uncached` = 22 are the x86 values of these page flags.
- CPUIDLE_DRIVER_STATE_START, P9_IOHDRSZ, P9_ZC_HDR_SZ and the KDB diagnostic codes are parameters or their standard values.
- KncGovernor.Tuners.StoreTurboMode: when sscanf fails, store_turbo_mode stores an uninitialised local. The model takes that value as the parameter `unparsed`.
- Filemap.IovIter.constructor follows the inline `iov_iter_init` of include/linux/fs.h: it sets the fields, then advances past the bytes already written. include/linux/fs.h is not part of this model, so that row cites the call site in filemap.c.
- ZeroCopyIo.BuildNvmeUioCmds: `req_len` and the other lengths are `u32` copies (zcio.c:177, 196). The model keeps them unbounded, so a count of 2^32 bytes or more, which C truncates (2^32 becomes 0), is not modelled.
- ZeroCopyIo.BuildNvmeUioCmds: allocation of the iovec array always succeeds. The -ENOMEM return after a failed `calloc_iov` (zcio.c:200-202) is not modelled.
- MicCpufreq.FreqFromCode: `freq_from_code` multiplies `baseclk` by the feedback divider in C `int`. The model does not bound that product; a product above 2^31 - 1 overflows in C.
- FileBlockMap.AppendAsWritten: assumes `fbm_realloc` keeps the left array in place. `fbm_l_last` is taken at fblkmap.c:330, before the reallocation at lines 341 and 366; if the block moves, the length written at lines 346 and 370 goes to the freed block and the join is lost. The model always writes the join into the result.
- FileBlockMap.TryAppendBlockMaps: allocation always succeeds. The -ENOMEM return after a failed `fbm_realloc` (fblkmap.c:342, 358, 368, 381-383) is not modelled; None means only that the maps cannot be appended.
- MicCpufreq.GenerateVidCodes: allocation of the table always succeeds. The -ENOMEM return after a failed `kzalloc` (mic_cpufreq.c:1012-1016) is not modelled.
- Filemap.IovIter.Advance: on a vector of several segments, `iov_iter_advance` holds each step in an `int copy` (filemap.c:2432). The model does not truncate a step of 2^31 bytes or more. Such a step needs a segment of at least 2 GiB and an advance at least as large.
- `lib/parser.c` is not part of this model. The rules that `match_token` and `match_int` apply in trans_prb's parse_opts are written out in `TransPrb`.
- The kdb argument parsers (`kdbgetaddrarg`, `kdbgetularg`), the `kdba_*` architecture hooks and all kdb printing are not part of this model. Their results are parameters.

## Findings

| source | as written | input that shows it | evidently intended | confidence | as-written member | corrected member |
|---|---|---|---|---|---|---|
| phi-kernel/arch/x86/include/asm/kdbprivate.h:103-107 | `DR7_LEN_SET` builds its mask as `0x3 << (18 + 4*drnum)` in 32-bit `int`. For drnum 3 the shift reaches bit 31, so the mask is negative and sign-extends when combined with the 64-bit dr7. | dr7 = 0, drnum = 3, len = 3 gives 0xFFFFFFFFC0000000. dr7 = 2^32, drnum = 3, len = 0 gives 0. | Only bits 30-31 change: 0xC0000000, and 2^32 is kept. | high (not executed) | KdbPrivate.CLen3SetDiffers | KdbPrivate.LenSetThenVal |
| diod/libfblkmap/fblkmap.c:101-143 | `find_fie_hole` keeps the hole length in a `__u32`. | Two extents 2^32 bytes apart: the hole is reported with length 0. | The length of the gap, held in 64 bits. | medium (not executed) | FileBlockMap.FourGiBHoleLost | FileBlockMap.WideHoleExact |
| diod/libfblkmap/fblkmap.c:337-351 | When the left map overlaps the right one, the left extent's length is set from the right extent's end. This can shrink the left extent. | Left [0,100) at physical 1000, right [10,20) at physical 1010: the result is one extent [0,20), and byte 50 is lost. | The merged extent covers both: its end is the larger of the two ends. | medium (not executed) | FileBlockMap.AppendAsWrittenShrinks | FileBlockMap.AppendKeepsCoverage |
| network/src/libproxy/proxy.c:435-454 | `_pcn_secure_scratchpad` records the new size before `malloc`. When `malloc` fails, the size is kept and the scratchpad is NULL. | From a zeroed context: 4 MiB requested and allocated, 8 MiB requested with malloc failing, then 100 bytes requested: it returns 0 although no scratchpad exists. | A failed enlargement records no size, so a later request allocates again. | high (not executed) | Proxy.ScratchpadLostAsWritten | Proxy.ScratchpadRecovers |
| network/src/libproxy/proxy.c:241-250 | `_pcn_netctx_worker` allocates the initial scratchpad under `if (netctx->scratchpad)`, but `_pcn_init_netctx` has just zeroed the context (proxy.c:188), so the test is always false and no initial scratchpad is allocated. | A freshly initialised context with malloc succeeding: the worker ends with scratchpad NULL and size 0. | The test is `!netctx->scratchpad`, as the comment above it says: the worker allocates the 4 MiB scratchpad in its own thread's memory. | high (not executed) | Proxy.WorkerStartAsWritten | Proxy.WorkerStartAllocates |
| network/src/liblink/netmsg.c:305-333 | `netmsg_marshal_t_sendmsg` copies the name, iovec array and control bytes, but never stores the msghdr's lengths. The unmarshaller reads lengths of 0 from the buffer. | A t_sendmsg with a 4-byte name, marshalled into a zeroed buffer, unmarshals with an empty name. | The msghdr lengths are stored too, so unmarshalling gives the message back. | high (not executed) | NetMsg.SendmsgNameLost | NetMsg.MarshalThenUnmarshal |
| scripts/ctrl.py:250-254 | `__get_socket_id_for_mic` compares the list `args[:-1]` with the string "mic". A list is never equal to a string. | args = ["mic0", "x"] gives -1. | A test that the first argument starts with "mic", then a lookup of that MIC's socket. | medium (not executed) | Ctrl.SocketIdForMicAsWritten | Ctrl.SocketIdForMicFindsSocket |

=== FILE: cacheflush.dfy ===
/**
 * Page memory-type bits (arch/x86/include/asm/cacheflush.h). Two page-flag
 * bits record whether a page's cache type was changed to write-combining,
 * uncached-minus or write-back, or left at its default.
 *
 * The flag bit numbers PG_arch_1 and PG_uncached come from the kernel's
 * page-flags enumeration, which is not part of this model; 9 and 22 are the
 * positions in that enumeration, and the properties below only depend on
 * the two bits being distinct.
 */
module CacheFlush {
  type Flags = bv64

  const PG_ARCH_1: bv64 := 9
  const PG_UNCACHED: bv64 := 22

  // x86 page-table cache attributes (_PAGE_CACHE_*), from pgtable_types.h
  const PAGE_CACHE_WB: bv64 := 0
  const PAGE_CACHE_WC: bv64 := 0x08
  const PAGE_CACHE_UC_MINUS: bv64 := 0x10
  const PAGE_CACHE_UC: bv64 := 0x18

  /** The `(unsigned long)-1` that get_page_memtype returns for a default page. */
  const NO_MEMTYPE: bv64 := 0xFFFF_FFFF_FFFF_FFFF

  const PGMT_DEFAULT: Flags := 0
  const PGMT_WC: Flags := 1 << PG_ARCH_1
  const PGMT_UC_MINUS: Flags := 1 << PG_UNCACHED
  const PGMT_WB: Flags := (1 << PG_UNCACHED) | (1 << PG_ARCH_1)
  const PGMT_MASK: Flags := (1 << PG_UNCACHED) | (1 << PG_ARCH_1)
  const PGMT_CLEAR_MASK: Flags := !PGMT_MASK

  predicate IsTrackedMemtype(memtype: bv64)
  {
    memtype == PAGE_CACHE_WC || memtype == PAGE_CACHE_UC_MINUS || memtype == PAGE_CACHE_WB
  }

  /** get_page_memtype: decodes the two memory-type bits of the page flags. */
  function GetPageMemtype(flags: Flags): (m: bv64)
    ensures m == NO_MEMTYPE <==> flags & PGMT_MASK == 0
    ensures m == NO_MEMTYPE || IsTrackedMemtype(m)
  {
    var pgFlags := flags & PGMT_MASK;
    if pgFlags == PGMT_DEFAULT then NO_MEMTYPE
    else if pgFlags == PGMT_WC then PAGE_CACHE_WC
    else if pgFlags == PGMT_UC_MINUS then PAGE_CACHE_UC_MINUS
    else PAGE_CACHE_WB
  }

  /** The memory-type bits that set_page_memtype stores for `memtype`. */
  function MemtypeFlags(memtype: bv64): Flags
  {
    if memtype == PAGE_CACHE_WC then PGMT_WC
    else if memtype == PAGE_CACHE_UC_MINUS then PGMT_UC_MINUS
    else if memtype == PAGE_CACHE_WB then PGMT_WB
    else PGMT_DEFAULT
  }

  /**
   * The new flags word of one compare-and-swap attempt of set_page_memtype:
   * only the _PGMT_MASK bits of the flags word change.
   */
  function WithMemtype(flags: Flags, memtype: bv64): (r: Flags)
    ensures r & PGMT_CLEAR_MASK == flags & PGMT_CLEAR_MASK
  {
    (flags & PGMT_CLEAR_MASK) | MemtypeFlags(memtype)
  }

  /** Storing WC, UC_MINUS or WB and reading it back gives the same type. */
  lemma GetAfterSet(flags: Flags, memtype: bv64)
    requires IsTrackedMemtype(memtype)
    ensures GetPageMemtype(WithMemtype(flags, memtype)) == memtype
  {
  }

  /** Any other memory type (UC included) leaves the default bits: reading gives -1. */
  lemma GetAfterSetUntracked(flags: Flags, memtype: bv64)
    requires !IsTrackedMemtype(memtype)
    ensures GetPageMemtype(WithMemtype(flags, memtype)) == NO_MEMTYPE
  {
  }

  /**
   * A page whose flags word other CPUs may update concurrently. The CAS loop
   * of set_page_memtype is modelled with `interference`: element k is the
   * value another CPU stores between attempt k's read and its cmpxchg.
   */
  class Page {
    var flags: Flags

    constructor (f: Flags)
      ensures flags == f
    {
      flags := f;
    }

    /** Value of the flags word that the final, successful attempt reads. */
    static function Settled(cur: Flags, interference: seq<Flags>): Flags
      decreases |interference|
    {
      if interference == [] || interference[0] == cur then cur
      else Settled(interference[0], interference[1..])
    }

    method SetPageMemtype(memtype: bv64, interference: seq<Flags>)
      modifies this
      ensures flags == WithMemtype(Settled(old(flags), interference), memtype)
      ensures GetPageMemtype(flags) == if IsTrackedMemtype(memtype) then memtype else NO_MEMTYPE
    {
      var k := 0;
      while true
        invariant 0 <= k <= |interference|
        invariant Settled(old(flags), interference) == Settled(flags, interference[k..])
        decreases |interference| - k
      {
        var oldFlags := flags;
        var newFlags := WithMemtype(oldFlags, memtype);
        if k < |interference| {
          flags := interference[k];  // another CPU writes between the read and the CAS
        }
        if flags == oldFlags {
          flags := newFlags;         // cmpxchg succeeds
          break;
        }
        k := k + 1;
      }
      if IsTrackedMemtype(memtype) {
        GetAfterSet(Settled(old(flags), interference), memtype);
      } else {
        GetAfterSetUntracked(Settled(old(flags), interference), memtype);
      }
    }
  }
}

=== FILE: common.dfy ===
/**
 * Shared vocabulary: optional values, results with an error code, the
 * fixed-width integer ranges of C, and a few arithmetic helpers used by
 * several components.
 */
module Common {
  datatype Option<T> = None | Some(value: T)

  datatype Result<T> = Ok(value: T) | Err(code: int)

  /**
   * A flag word (an event or poll mask, a 32-bit word in C) as the set of
   * the bit positions it has set: `&` is intersection, `|` union, `& ~`
   * difference.
   */
  type Mask = set<nat>

  const U32_LIMIT: int := 0x1_0000_0000
  const U64_LIMIT: int := 0x1_0000_0000_0000_0000
  const INT_MAX: int := 0x7FFF_FFFF

  newtype u32 = x: int | 0 <= x < 0x1_0000_0000
  newtype u64 = x: int | 0 <= x < 0x1_0000_0000_0000_0000

  // Linux errno values used by the modelled code
  const EPERM: int := 1
  const ENOENT: int := 2
  const EIO: int := 5
  const EBADF: int := 9
  const ENOMEM: int := 12
  const EFAULT: int := 14
  const EEXIST: int := 17
  const EINVAL: int := 22
  const ENFILE: int := 23
  const EFBIG: int := 27
  const ENOSPC: int := 28

  function Min(a: int, b: int): int { if a <= b then a else b }
  function Max(a: int, b: int): int { if a >= b then a else b }

  /** C division of signed integers: the quotient is truncated toward zero. */
  function CDiv(a: int, b: int): int
    requires b != 0
  {
    if (a >= 0) == (b > 0) then (if a >= 0 then a / b else (-a) / (-b))
    else if a >= 0 then -(a / (-b))
    else -((-a) / b)
  }

  function Sum(s: seq<int>): int
  {
    if s == [] then 0 else Sum(s[..|s| - 1]) + s[|s| - 1]
  }

  lemma SumAppend(s: seq<int>, x: int)
    ensures Sum(s + [x]) == Sum(s) + x
  {
    assert (s + [x])[..|s + [x]| - 1] == s;
  }

  /** Sum, peeled from the front. */
  lemma {:induction false} SumCons(x: int, s: seq<int>)
    ensures Sum([x] + s) == x + Sum(s)
    decreases |s|
  {
    if s == [] {
      assert [x] + s == [x];
      assert [x][..0] == [];
    } else {
      var t := s[..|s| - 1];
      SumCons(x, t);
      assert ([x] + s)[..|[x] + s| - 1] == [x] + t;
    }
  }

  /** A prefix of non-negative terms sums to no more than the whole. */
  lemma {:induction false} SumPrefix(s: seq<nat>, i: nat)
    requires i <= |s|
    ensures Sum(s[..i]) <= Sum(s)
    decreases |s|
  {
    if i < |s| {
      var t := s[..|s| - 1];
      SumPrefix(t, i);
      assert t[..i] == s[..i];
    } else {
      assert s[..i] == s;
    }
  }

  /** A sum of non-negative terms is non-negative. */
  lemma {:induction false} SumNonneg(s: seq<nat>)
    ensures 0 <= Sum(s)
    decreases |s|
  {
    if s != [] {
      SumNonneg(s[..|s| - 1]);
    }
  }

  /** Multiplication by a non-negative factor is monotone. */
  lemma MulMono(d: int, x: int, y: int)
    ensures 0 <= d && x <= y ==> d * x <= d * y
  {
  }

  /** Euclidean division by a positive divisor is monotone. */
  lemma DivMono(a: int, b: int, n: int)
    requires 0 <= a <= b && n > 0
    ensures a / n <= b / n
  {
    MulMono(n, b / n + 1, a / n);
  }

  lemma MulDivCancel(d: nat, n: nat)
    requires n > 0
    ensures d * n / n == d
  {
    var q := d * n / n;
    MulMono(n, q + 1, d);
    MulMono(n, d + 1, q);
  }

  /** A fraction m/n <= 1 of d, rounded down, is at most d. */
  lemma DivBelow(d: nat, m: nat, n: nat)
    requires 0 < n && m <= n
    ensures d * m / n <= d
  {
    MulMono(d, m, n);
    DivMono(d * m, d * n, n);
    MulDivCancel(d, n);
  }

  /** The quotient of Euclidean division brackets the dividend. */
  lemma DivBounds(x: nat, d: nat)
    requires d > 0
    ensures (x / d) * d <= x < (x / d + 1) * d
  {
  }
}

=== FILE: ctrl.dfy ===
/**
 * The orchestration script scripts/ctrl.py: it brings the 9P file service
 * and the pcnlink network service up and down on the host and on every
 * MIC by issuing shell commands, locally (host_sh) or over ssh (mic_sh).
 * Nothing is executed here: every command the script announces is
 * appended to a command log together with the line it would hand to the
 * shell (none in dry-run), and the exit status the shell would report is
 * a function of that line supplied by the caller.
 */
module Ctrl {
  import opened Common
  import opened PyStr
  import opened Sorting
  import opened MachineConfig

  /** The command-line options: --verbose, --dryrun, --gdb and --debug. */
  datatype Opts = Opts(verbose: bool, dryrun: bool, gdb: bool, debug: Option<string>)

  datatype Target = Host | Mic(name: string)

  /** One entry of the command log. */
  datatype Event =
      /** A host_sh or mic_sh command as printed, and the line run by the shell (None in dry-run). */
    | Sh(target: Target, cmd: string, shell: Option<string>)
      /** A line handed to os.system directly, in dry-run too. */
    | Raw(line: string)

  /** How a command ends: with an exit code, or with an uncaught exception. */
  datatype Outcome = Exit(code: int) | Raised

  /** What the script's state says about the commands it builds. */
  datatype Env = Env(opts: Opts, flags: seq<string>, conf: MicConf, cpus: map<int, seq<int>>, root: string)

  const QUIET: string := " > /dev/null 2>&1"
  const BACKGROUND: string := " &"

  /** The lines os.system runs, in order. */
  function Executed(log: seq<Event>): seq<string>
  {
    if log == [] then []
    else
      var last := log[|log| - 1];
      Executed(log[..|log| - 1])
      + (match last
         case Sh(_, _, shell) => if shell.Some? then [shell.value] else []
         case Raw(line) => [line])
  }

  lemma {:induction false} ExecutedAppend(a: seq<Event>, b: seq<Event>)
    ensures Executed(a + b) == Executed(a) + Executed(b)
    decreases |b|
  {
    if b != [] {
      assert (a + b)[..|a + b| - 1] == a + b[..|b| - 1];
      ExecutedAppend(a, b[..|b| - 1]);
    } else {
      assert a + b == a;
    }
  }

  /** Every entry is an announced command that the shell does not run. */
  predicate NothingRun(log: seq<Event>)
  {
    forall i :: 0 <= i < |log| ==> log[i].Sh? && log[i].shell.None?
  }

  lemma {:induction false} NothingRunExecutesNothing(log: seq<Event>)
    requires NothingRun(log)
    ensures Executed(log) == []
  {
    if log != [] {
      NothingRunExecutesNothing(log[..|log| - 1]);
    }
  }

  /** The verbosity a call uses: its own argument, or --verbose when it passes none. */
  function Verbosity(opts: Opts, verbose: Option<bool>): bool
  {
    if verbose.Some? then verbose.value else opts.verbose
  }

  /** The command as host_sh and mic_sh print it. */
  function Shown(cmd: string, verbose: bool, bg: bool): string
  {
    (if verbose then cmd else cmd + QUIET) + (if bg then BACKGROUND else "")
  }

  /**
   * The printed command is the command itself, then the quiet redirection
   * when not verbose, then the background marker when bg, in that order.
   */
  lemma ShownLayout(cmd: string, verbose: bool, bg: bool)
    ensures var r := Shown(cmd, verbose, bg);
            |r| == |cmd| + (if verbose then 0 else |QUIET|) + (if bg then |BACKGROUND| else 0)
            && r[..|cmd|] == cmd
            && (!verbose ==> r[|cmd|..|cmd| + |QUIET|] == QUIET)
            && (bg ==> r[|r| - |BACKGROUND|..] == BACKGROUND)
  {
  }

  lemma ShownInjective(a: string, b: string, verbose: bool, bg: bool)
    requires Shown(a, verbose, bg) == Shown(b, verbose, bg)
    ensures a == b
  {
    ShownLayout(a, verbose, bg);
    ShownLayout(b, verbose, bg);
  }

  /** The ssh line mic_sh runs: "%s" % None prints "None" when no password is configured. */
  function SshLine(passwd: Option<string>, mic: string, cmd: string): string
  {
    "sshpass -p '" + (if passwd.Some? then passwd.value else "None") + "' ssh root@" + mic + " \"" + cmd + "\""
  }

  /** The log entry of host_sh(cmd, verbose, bg). */
  function HostEvent(x: Env, cmd: string, verbose: Option<bool>, bg: bool): Event
  {
    var line := Shown(cmd, Verbosity(x.opts, verbose), bg);
    Sh(Host, line, if x.opts.dryrun then None else Some(line))
  }

  /** The log entry of mic_sh(mic, cmd, verbose, bg). */
  function MicEvent(x: Env, mic: string, cmd: string, verbose: Option<bool>, bg: bool): Event
  {
    var line := Shown(cmd, Verbosity(x.opts, verbose), bg);
    Sh(Mic(mic), line, if x.opts.dryrun then None else Some(SshLine(x.conf.passwd, mic, line)))
  }

  /** The log entry of host_sh_pin(socket, cmd, verbose, bg). */
  function PinEvent(x: Env, socket: int, cmd: string, verbose: Option<bool>, bg: bool): Event
    requires CpuListStr(x.cpus, socket).Some?
  {
    HostEvent(x, "sudo taskset --cpu-list " + CpuListStr(x.cpus, socket).value + " " + cmd, verbose, bg)
  }

  /** In dry-run the host and MIC commands are announced and nothing runs. */
  lemma DryRunEvents(x: Env, target: string, cmd: string, verbose: Option<bool>, bg: bool)
    requires x.opts.dryrun
    ensures NothingRun([HostEvent(x, cmd, verbose, bg)])
    ensures NothingRun([MicEvent(x, target, cmd, verbose, bg)])
  {
  }

  /**
   * is_debug_on: "machine:svc" was given to --debug. When the two names
   * hold no ":", that is exactly when some item splits into them.
   */
  predicate IsDebugOn(flags: seq<string>, machine: string, svc: string): (r: bool)
    ensures ':' !in machine && ':' !in svc ==> (r <==> exists f :: f in flags && Split(f, ':') == [machine, svc])
  {
    DebugKeyIffSplit(flags, machine, svc);
    machine + ":" + svc in flags
  }

  /** The key "machine:svc" is listed exactly when some item splits into the two names. */
  lemma DebugKeyIffSplit(flags: seq<string>, machine: string, svc: string)
    ensures ':' !in machine && ':' !in svc ==>
      (machine + ":" + svc in flags <==> exists f :: f in flags && Split(f, ':') == [machine, svc])
  {
    if ':' !in machine && ':' !in svc {
      DebugKeySplits(machine, svc);
      forall f | f in flags && Split(f, ':') == [machine, svc]
        ensures f == machine + ":" + svc
      {
        JoinSplit(f, ':');
        assert Join([machine, svc], ':') == machine + [':'] + svc;
      }
    }
  }

  /** A "machine:svc" key splits at ":" into its two names. */
  lemma DebugKeySplits(machine: string, svc: string)
    ensures ':' !in machine && ':' !in svc ==> Split(machine + ":" + svc, ':') == [machine, svc]
  {
    if ':' !in machine && ':' !in svc {
      SplitAfter(machine, ':', svc);
      SplitNone(svc, ':');
    }
  }

  /** get_build_mod: the debug build exactly when debugging is on for the pair. */
  function GetBuildMod(flags: seq<string>, machine: string, svc: string): (r: string)
    ensures r == "debug" <==> machine + ":" + svc in flags
    ensures r != "debug" ==> r == "release"
  {
    if IsDebugOn(flags, machine, svc) then "debug" else "release"
  }

  /** Both build modes name an installed server binary for both services. */
  lemma BuildModHasBinary(root: string, flags: seq<string>, machine: string)
    ensures GetBinPath(root, "fs", GetBuildMod(flags, machine, "fs"), "").Some?
    ensures GetBinPath(root, "net", GetBuildMod(flags, machine, "net"), "sock").Some?
  {
  }

  /** The line and result of __is_prog_running(prog). */
  function ProbeLine(prog: string): string
  {
    "pgrep " + prog + " > /dev/null 2>&1"
  }

  /** One round of __rmmods: an rmmod of every module, in order. */
  function RmmodEvent(x: Env, machine: string, kmod: string): Event
  {
    if machine == "host" then HostEvent(x, "sudo rmmod " + kmod, None, false)
    else MicEvent(x, machine, "rmmod " + kmod, None, false)
  }

  function RmmodRound(x: Env, machine: string, modules: seq<string>): (r: seq<Event>)
    ensures |r| == |modules| && forall j :: 0 <= j < |modules| ==> r[j] == RmmodEvent(x, machine, modules[j])
  {
    seq(|modules|, j requires 0 <= j < |modules| => RmmodEvent(x, machine, modules[j]))
  }

  /** round repeated n times. */
  function Rounds<T>(round: seq<T>, n: nat): seq<T>
  {
    if n == 0 then [] else Rounds(round, n - 1) + round
  }

  /** The log of __rmmods(machine, modules): len(modules) rounds. */
  function RmmodsEvents(x: Env, machine: string, modules: seq<string>): seq<Event>
  {
    Rounds(RmmodRound(x, machine, modules), |modules|)
  }

  lemma {:induction false} RoundsCount<T>(round: seq<T>, n: nat, e: T)
    ensures multiset(Rounds(round, n))[e] == n * multiset(round)[e]
  {
    if n > 0 {
      RoundsCount(round, n - 1, e);
      var c := multiset(round)[e];
      assert multiset(Rounds(round, n)) == multiset(Rounds(round, n - 1)) + multiset(round);
      assert multiset(Rounds(round, n))[e] == (n - 1) * c + c;
    }
  }

  lemma RmmodEventInjective(x: Env, machine: string, a: string, b: string)
    requires RmmodEvent(x, machine, a) == RmmodEvent(x, machine, b)
    ensures a == b
  {
    if machine == "host" {
      ShownInjective("sudo rmmod " + a, "sudo rmmod " + b, x.opts.verbose, false);
      assert a == ("sudo rmmod " + a)[11..];
    } else {
      ShownInjective("rmmod " + a, "rmmod " + b, x.opts.verbose, false);
      assert a == ("rmmod " + a)[6..];
    }
  }

  lemma {:induction false} RmmodRoundCount(x: Env, machine: string, modules: seq<string>, kmod: string)
    ensures multiset(RmmodRound(x, machine, modules))[RmmodEvent(x, machine, kmod)] == multiset(modules)[kmod]
  {
    if modules != [] {
      var init := modules[..|modules| - 1];
      var last := modules[|modules| - 1];
      RmmodRoundCount(x, machine, init, kmod);
      assert modules == init + [last];
      assert RmmodRound(x, machine, modules) == RmmodRound(x, machine, init) + [RmmodEvent(x, machine, last)];
      if RmmodEvent(x, machine, last) == RmmodEvent(x, machine, kmod) {
        RmmodEventInjective(x, machine, last, kmod);
      }
    }
  }

  /**
   * __rmmods issues the rmmod of each module len(modules) times for every
   * time it is listed, so every module is retried once per module that
   * might still depend on it.
   */
  lemma RmmodsEveryModule(x: Env, machine: string, modules: seq<string>, kmod: string)
    ensures multiset(RmmodsEvents(x, machine, modules))[RmmodEvent(x, machine, kmod)]
            == |modules| * multiset(modules)[kmod]
  {
    RoundsCount(RmmodRound(x, machine, modules), |modules|, RmmodEvent(x, machine, kmod));
    RmmodRoundCount(x, machine, modules, kmod);
  }

  /** The verdict of __check_debug_opt on one "machine:module" item. */
  datatype DebugCheck = Accepted | Usage(note: string) | DebugRaised

  function ItemVerdict(item: string): (r: DebugCheck)
    ensures r == Accepted <==>
            var s := Split(item, ':');
            |s| >= 2 && (s[0] == "host" || s[0] == "mic") && (s[1] == "fs" || s[1] == "net")
  {
    var s := Split(item, ':');
    if s[0] != "host" && s[0] != "mic" then Usage("Incorrect machine type, '" + s[0] + "'")
    else if |s| < 2 then DebugRaised
    else if s[1] != "fs" && s[1] != "net" then Usage("Incorrect module type, '" + s[1] + "'")
    else Accepted
  }

  /** The verdict on a list of items: that of the first item not accepted. */
  function DebugVerdict(items: seq<string>): DebugCheck
  {
    if items == [] then Accepted
    else if ItemVerdict(items[0]) != Accepted then ItemVerdict(items[0])
    else DebugVerdict(items[1..])
  }

  /**
   * The list is accepted iff every item names the host or a MIC and then
   * fs or net; otherwise the verdict is the first rejected item's.
   */
  lemma {:induction false} DebugVerdictFirst(items: seq<string>)
    ensures DebugVerdict(items) == Accepted <==> forall i :: 0 <= i < |items| ==> ItemVerdict(items[i]) == Accepted
    ensures DebugVerdict(items) != Accepted ==>
              exists i :: 0 <= i < |items| && DebugVerdict(items) == ItemVerdict(items[i])
                          && forall j :: 0 <= j < i ==> ItemVerdict(items[j]) == Accepted
  {
    if items != [] {
      DebugVerdictFirst(items[1..]);
      if ItemVerdict(items[0]) == Accepted && DebugVerdict(items) != Accepted {
        var i :| 0 <= i < |items[1..]| && DebugVerdict(items[1..]) == ItemVerdict(items[1..][i])
                 && forall j :: 0 <= j < i ==> ItemVerdict(items[1..][j]) == Accepted;
        assert forall j :: 0 <= j < i + 1 ==> ItemVerdict(items[j]) == Accepted by {
          forall j | 0 <= j < i + 1 ensures ItemVerdict(items[j]) == Accepted {
            if j > 0 {
              assert items[j] == items[1..][j - 1];
            }
          }
        }
        assert DebugVerdict(items) == ItemVerdict(items[i + 1]);
      }
      if DebugVerdict(items) == Accepted {
        forall i | 0 <= i < |items| ensures ItemVerdict(items[i]) == Accepted {
          if i > 0 {
            assert items[i] == items[1..][i - 1];
          }
        }
      }
    }
  }

  /**
   * __check_debug_opt: the items of --debug are checked in order; the first
   * one rejected ends the script with the usage text (or, with no ":",
   * with an IndexError).
   */
  method CheckDebugOpt(debug: string) returns (r: DebugCheck)
    ensures r == DebugVerdict(Split(debug, ','))
  {
    var items := Split(debug, ',');
    for i := 0 to |items|
      invariant DebugVerdict(items[i..]) == DebugVerdict(items)
    {
      assert items[i..][1..] == items[i + 1..];
      var s := Split(items[i], ':');
      if s[0] != "host" && s[0] != "mic" {
        return Usage("Incorrect machine type, '" + s[0] + "'");
      }
      if |s| < 2 {
        return DebugRaised;
      }
      if s[1] != "fs" && s[1] != "net" {
        return Usage("Incorrect module type, '" + s[1] + "'");
      }
    }
    assert items[|items|..] == [];
    return Accepted;
  }

  /** __get_sock_type: "sock" by default, else the first argument if it names a socket layer. */
  function GetSockType(args: seq<string>): (r: Option<string>)
    ensures |args| <= 1 ==> r == Some("sock")
    ensures |args| > 1 ==> (r.Some? <==> args[0] == "sock" || args[0] == "mtcp")
  {
    if |args| <= 1 then Some("sock")
    else if args[0] == "sock" || args[0] == "mtcp" then Some(args[0])
    else None
  }

  /** Whatever socket layer is chosen has a server binary in both build modes. */
  lemma SockTypeHasBinary(root: string, args: seq<string>, mode: string)
    requires GetSockType(args).Some? && (mode == "release" || mode == "debug")
    ensures GetBinPath(root, "net", mode, GetSockType(args).value).Some?
  {
  }

  /** A Python value that is compared with "==" in the script. */
  datatype PyValue = PyStr(s: string) | PyList(items: seq<string>)

  /** s[:-1]: the string without its last character ("" stays ""). */
  function DropLast(s: string): string
  {
    if s == [] then [] else s[..|s| - 1]
  }

  /**
   * __get_socket_id_for_mic as written: the guard compares the list
   * args[:-1] with the string "mic". A list never equals a string, so no
   * argument list selects a MIC and the result is always -1. None stands
   * for Python's None.
   */
  function SocketIdForMicAsWritten(conf: MicConf, args: seq<string>): (r: Option<int>)
    ensures r == Some(-1)
  {
    var socket := GetMicSocket(conf, if args != [] then args[0] else "");
    if |args| <= 1 || PyList(args[..|args| - 1]) != PyStr("mic") then Some(-1) else socket
  }

  /**
   * __get_socket_id_for_mic as intended: when the first argument is a MIC
   * name "micN", the socket that MIC is attached to ("micN:socket"), or
   * None when the configuration has none; -1 otherwise.
   */
  function SocketIdForMic(conf: MicConf, args: seq<string>): (r: Option<int>)
    ensures |args| > 1 && DropLast(args[0]) == "mic" && args[0] in conf.socket ==> r == Some(conf.socket[args[0]])
    ensures !(|args| > 1 && DropLast(args[0]) == "mic") ==> r == Some(-1)
    ensures r == None <==> |args| > 1 && DropLast(args[0]) == "mic" && args[0] !in conf.socket
  {
    if |args| <= 1 || PyStr(DropLast(args[0])) != PyStr("mic") then Some(-1)
    else GetMicSocket(conf, args[0])
  }

  /** With "mic0" first, the intended lookup finds mic0's socket where the written one gives -1. */
  lemma SocketIdForMicFindsSocket(conf: MicConf, rest: string)
    requires "mic0" in conf.socket && conf.socket["mic0"] >= 0
    ensures SocketIdForMic(conf, ["mic0", rest]) == Some(conf.socket["mic0"])
    ensures SocketIdForMicAsWritten(conf, ["mic0", rest]) != SocketIdForMic(conf, ["mic0", rest])
  {
    assert DropLast("mic0") == "mic";
  }

  /** The log entries of a list of calls that stops at the first one that raises. */
  datatype Run = Run(events: seq<Event>, done: bool)

  /** a, then b when a ran to the end. */
  function Then(a: Run, b: Run): Run
  {
    if a.done then Run(a.events + b.events, b.done) else a
  }

  /** What a cmd_* function leaves behind: its log entries and how it ends. */
  datatype Cmd = Cmd(events: seq<Event>, outcome: Outcome)

  lemma NothingRunAppend(a: seq<Event>, b: seq<Event>)
    requires NothingRun(a) && NothingRun(b)
    ensures NothingRun(a + b)
  {
    forall i | 0 <= i < |a + b| ensures (a + b)[i].Sh? && (a + b)[i].shell.None? {
      if i >= |a| {
        assert (a + b)[i] == b[i - |a|];
      }
    }
  }

  /** os.path.join("/mnt", p): an absolute p replaces the prefix. */
  function MntPath(p: string): (r: string)
    ensures HasPrefix(r, "/")
  {
    if HasPrefix(p, "/") then p else "/mnt/" + p
  }

  /** The debug level of the diod server and of the MIC's 9P client. */
  function HostFsDebug(x: Env): int { if IsDebugOn(x.flags, "host", "fs") then 1 else 0 }

  function MicFsDebug(x: Env): int { if IsDebugOn(x.flags, "mic", "fs") then 4095 else 0 }

  /** The diod binary of the host's build mode: the same file for both modes. */
  function FsServer(x: Env): (r: string)
    ensures GetBinPath(x.root, "fs", GetBuildMod(x.flags, "host", "fs"), "") == Some(r)
    ensures r == x.root + "/diod/diod/diod"
  {
    GetBinPath(x.root, "fs", GetBuildMod(x.flags, "host", "fs"), "").value
  }

  /** The diod command serving one NVMe device to one MIC. */
  /** The fixed parts of the diod command line. */
  const DIOD_DEBUG: string := " --foreground --debug "
  const DIOD_THREADS: string := " --nwthreads "
  const DIOD_EXPORT: string := " --no-auth --export "
  const DIOD_LISTEN: string := " --listen 0.0.0.0:"

  function DiodCmd(x: Env, hostMnt: string, dev: string, micId: int, port: int): string
  {
    "sudo " + FsServer(x) + DIOD_DEBUG + IntStr(HostFsDebug(x)) + DIOD_THREADS
    + IntStr(FS_THREADS) + DIOD_EXPORT + hostMnt + " --nvme " + dev + " --mic "
    + IntStr(micId) + DIOD_LISTEN + IntStr(port)
  }

  /** The fixed parts of the 9P mount command line. */
  const MOUNT_9P: string := "mount -t 9p -n 0 "
  const MOUNT_OPTS: string := ",version=9p2000.L,uname=root,access=user,trans=prb,cache=loose,port="
  const MOUNT_CLIENT_PORT: string := ",client-port="

  /** The MIC's 9P mount over the PCIe ring buffer transport. */
  function Mount9pCmd(x: Env, micMnt: string, hostMnt: string, port: int, micId: int, clnPort: int): string
  {
    MOUNT_9P + micMnt + " -oaname=" + hostMnt + MOUNT_OPTS + IntStr(port)
    + ",client-id=" + IntStr(micId) + MOUNT_CLIENT_PORT + IntStr(clnPort) + ",debug=" + IntStr(MicFsDebug(x))
  }

  /**
   * One NVMe device of cmd_fs_up, the i-th of its MIC: mount it on the
   * host, start a diod pinned to the MIC's socket, and mount it on the MIC.
   * A device name whose number does not parse raises before any command;
   * a MIC without a socket or CPU list raises at the pinned command.
   */
  function MountUp(x: Env, mic: string, sock: Option<int>, i: nat, mt: Mount): Run
  {
    var hostMnt := MntPath(mt.dev);
    var micMnt := MntPath(mt.mnt);
    var dev := GetNvmePath(mt.dev);
    var port := GetFsPort(mic, mt.dev);
    if port.None? then Run([], false)
    else
      var micId := GetMicId(mic).value;
      var host := [HostEvent(x, "sudo mkdir -p " + hostMnt, None, false),
                   HostEvent(x, "sudo mount " + dev + " " + hostMnt, None, false),
                   HostEvent(x, "sudo chmod 777 " + hostMnt, None, false)];
      if sock.None? || CpuListStr(x.cpus, sock.value).None? then Run(host, false)
      else
        Run(host + [PinEvent(x, sock.value, DiodCmd(x, hostMnt, dev, micId, port.value), Some(true), true),
                    MicEvent(x, mic, "mkdir -p " + micMnt, None, false),
                    MicEvent(x, mic, Mount9pCmd(x, micMnt, hostMnt, port.value, micId, GetFsClientPort(i)), None, false)],
            true)
  }

  /** What each device of a MIC's NVMe table would do, in table order. */
  function MountRuns(x: Env, mic: string, sock: Option<int>, mounts: seq<Mount>): (r: seq<Run>)
    ensures |r| == |mounts|
  {
    if mounts == [] then []
    else MountRuns(x, mic, sock, mounts[..|mounts| - 1]) + [MountUp(x, mic, sock, |mounts| - 1, mounts[|mounts| - 1])]
  }

  lemma {:induction false} MountRunsAt(x: Env, mic: string, sock: Option<int>, mounts: seq<Mount>, i: nat)
    requires i < |mounts|
    ensures MountRuns(x, mic, sock, mounts)[i] == MountUp(x, mic, sock, i, mounts[i])
  {
    var n := |mounts|;
    if i < n - 1 {
      MountRunsAt(x, mic, sock, mounts[..n - 1], i);
      assert mounts[..n - 1][i] == mounts[i];
    }
  }

  /** Steps run one after another, up to the first that raises. */
  function Chain(rs: seq<Run>): Run
  {
    if rs == [] then Run([], true) else Then(Chain(rs[..|rs| - 1]), rs[|rs| - 1])
  }

  lemma ChainStep(rs: seq<Run>, i: nat)
    requires i < |rs|
    ensures Chain(rs[..i + 1]) == Then(Chain(rs[..i]), rs[i])
  {
    assert rs[..i + 1][..i] == rs[..i];
  }

  /** Once a step has raised, the later steps add nothing. */
  lemma {:induction false} ChainStops(rs: seq<Run>, k: nat, k2: nat)
    requires k <= k2 <= |rs| && !Chain(rs[..k]).done
    ensures Chain(rs[..k2]) == Chain(rs[..k])
    decreases k2
  {
    if k2 > k {
      ChainStops(rs, k, k2 - 1);
      ChainStep(rs, k2 - 1);
    }
  }

  /** The kernel modules a MIC loads before its 9P mounts. */
  function FsModprobes(x: Env, mic: string): seq<Event>
  {
    [MicEvent(x, mic, "modprobe pci_ring_buffer", None, false),
     MicEvent(x, mic, "modprobe 9pnet debug=" + IntStr(MicFsDebug(x)), None, false),
     MicEvent(x, mic, "modprobe 9pnet_prb", None, false),
     MicEvent(x, mic, "modprobe 9p", None, false)]
  }

  /** The m-th MIC of cmd_fs_up: nothing when it has no NVMe table. */
  function MicFsUp(x: Env, m: nat): Run
  {
    var mic := MicName(m);
    if mic !in x.conf.nvme then Run([], true)
    else Then(Run(FsModprobes(x, mic), true),
              Chain(MountRuns(x, mic, GetMicSocket(x.conf, mic), x.conf.nvme[mic])))
  }

  /** What each of the first k MICs would do, in order. */
  function FsUpMics(x: Env, k: nat): (r: seq<Run>)
    ensures |r| == k
  {
    if k == 0 then [] else FsUpMics(x, k - 1) + [MicFsUp(x, k - 1)]
  }

  lemma {:induction false} FsUpMicsAt(x: Env, k: nat, m: nat)
    requires m < k
    ensures FsUpMics(x, k)[m] == MicFsUp(x, m)
  {
    if m < k - 1 {
      FsUpMicsAt(x, k - 1, m);
    }
  }

  /** cmd_fs_up: -1 when a diod is already running, else every MIC in turn. */
  function FsUpCmd(x: Env, status: string -> int): (r: Cmd)
    ensures |r.events| >= 1 && r.events[0] == Raw(ProbeLine("diod"))
    ensures r.outcome == Exit(-1) <==> status(ProbeLine("diod")) == 0
    ensures r.outcome == Exit(-1) ==> |r.events| == 1
    ensures r.outcome == Exit(0) || r.outcome == Exit(-1) || r.outcome == Raised
  {
    var probe := ProbeLine("diod");
    if status(probe) == 0 then Cmd([Raw(probe)], Exit(-1))
    else
      var run := Chain(FsUpMics(x, x.conf.num));
      Cmd([Raw(probe)] + run.events, if run.done then Exit(0) else Raised)
  }

  /** The MIC modules cmd_fs_down unloads, dependents first. */
  const FS_MODULES: seq<string> := ["9p", "9pnet_prb", "9pnet", "pci_ring_buffer"]

  /** The MIC modules cmd_net_down unloads. */
  const NET_MODULES: seq<string> := ["pcnlink", "pci_ring_buffer"]

  function MicUmounts(x: Env, mic: string, mounts: seq<Mount>): seq<Event>
  {
    if mounts == [] then []
    else MicUmounts(x, mic, mounts[..|mounts| - 1]) + [MicEvent(x, mic, "umount " + MntPath(mounts[|mounts| - 1].mnt), None, false)]
  }

  /** The m-th MIC of cmd_fs_down: nothing when it has no NVMe table. */
  function MicFsDown(x: Env, m: nat): seq<Event>
  {
    var mic := MicName(m);
    if mic !in x.conf.nvme then []
    else MicUmounts(x, mic, x.conf.nvme[mic]) + RmmodsEvents(x, mic, FS_MODULES)
  }

  function FsDownMics(x: Env, k: nat): seq<Event>
  {
    if k == 0 then [] else FsDownMics(x, k - 1) + MicFsDown(x, k - 1)
  }

  /** cmd_fs_down: unmount and unload on every MIC, then stop diod. */
  function FsDownCmd(x: Env): (r: Cmd)
    ensures r.outcome == Exit(0)
    ensures |r.events| >= 1 && r.events[|r.events| - 1] == HostEvent(x, "sudo pkill -9 diod", None, false)
  {
    Cmd(FsDownMics(x, x.conf.num) + [HostEvent(x, "sudo pkill -9 diod", None, false)], Exit(0))
  }

  /** The pcnsrv binary of the host's build mode (cmd_net_up always uses the "sock" layer). */
  function NetServer(x: Env): (r: string)
    ensures GetBinPath(x.root, "net", GetBuildMod(x.flags, "host", "net"), "sock") == Some(r)
    ensures r == x.root + (if "host:net" in x.flags then "/network/build/Debug-x86_64/pcnsrv/pcnsrv"
                           else "/network/build/Release-x86_64/pcnsrv/pcnsrv")
  {
    assert "host" + ":" + "net" == "host:net";
    GetBinPath(x.root, "net", GetBuildMod(x.flags, "host", "net"), "sock").value
  }

  function NetServerCmd(x: Env, launcher: string): string
  {
    launcher + NetServer(x) + " --port " + IntStr(GetNetServerPort()) + " --ncpu " + IntStr(NET_THREADS)
    + " --qsize " + IntStr(NET_RXQ_SIZE)
  }

  /**
   * The gdb branch of cmd_net_up's server launch, given what the socket
   * lookup returned: unpinned in the foreground for a negative socket,
   * pinned to a non-negative socket's CPU list; a None socket (mc.get_mic_conf
   * found no entry) or a socket without a CPU list raises.
   */
  function GdbRun(x: Env, micSock: Option<int>): Run
  {
    match micSock
    case None => Run([], false)
    case Some(s) =>
      if s < 0 then Run([HostEvent(x, NetServerCmd(x, "sudo gdb --args "), None, false)], true)
      else if CpuListStr(x.cpus, s).None? then Run([], false)
      else Run([PinEvent(x, s, NetServerCmd(x, "sudo gdb --args "), None, false)], true)
  }

  /**
   * The server launch of cmd_net_up: in the background without --gdb;
   * under gdb otherwise, placed by __get_socket_id_for_mic as written.
   */
  function NetServerRun(x: Env, args: seq<string>): (r: Run)
    ensures r.done && |r.events| == 1
  {
    if !x.opts.gdb then Run([HostEvent(x, NetServerCmd(x, "sudo "), Some(true), true)], true)
    else GdbRun(x, SocketIdForMicAsWritten(x.conf, args))
  }

  const PCNLINK_PROBE: string := "modprobe pcnlink server_id=0 server_port="

  /** The pcnlink parameters of a MIC: its client id and port, and the server's. */
  function PcnlinkCmd(micId: int, cliPort: int): string
  {
    PCNLINK_PROBE + IntStr(GetNetServerPort()) + " client_id=" + IntStr(micId)
    + " client_port=" + IntStr(cliPort) + " qsize=" + IntStr(NET_RXQ_SIZE)
  }

  /** The m-th MIC of cmd_net_up. */
  function MicNetUp(x: Env, m: nat): seq<Event>
  {
    var mic := MicName(m);
    MicIdOfName(m);
    [MicEvent(x, mic, "modprobe pci_ring_buffer", None, false),
     MicEvent(x, mic, PcnlinkCmd(GetMicId(mic).value, GetNetClientPort(mic).value), None, false)]
  }

  function NetUpMics(x: Env, k: nat): seq<Event>
  {
    if k == 0 then [] else NetUpMics(x, k - 1) + MicNetUp(x, k - 1)
  }

  /**
   * The course of cmd_net_up, given what the server launch and the MIC
   * commands would log: -1 when pcnsrv or pcnsrv_mtcp is running, a raise
   * when the launch raises, else the server and every MIC.
   */
  function NetUpSteps(status: string -> int, srv: Run, mics: seq<Event>): Cmd
  {
    var p1 := ProbeLine("pcnsrv");
    var p2 := ProbeLine("pcnsrv_mtcp");
    if status(p1) == 0 then Cmd([Raw(p1)], Exit(-1))
    else if status(p2) == 0 then Cmd([Raw(p1), Raw(p2)], Exit(-1))
    else if !srv.done then Cmd([Raw(p1), Raw(p2)] + srv.events, Raised)
    else Cmd([Raw(p1), Raw(p2)] + srv.events + mics, Exit(0))
  }

  /** cmd_net_up */
  function NetUpCmd(x: Env, status: string -> int, args: seq<string>): (r: Cmd)
    ensures |r.events| >= 1 && r.events[0] == Raw(ProbeLine("pcnsrv"))
    ensures r.outcome == Exit(-1) <==> status(ProbeLine("pcnsrv")) == 0 || status(ProbeLine("pcnsrv_mtcp")) == 0
    ensures r.outcome == Exit(0) || r.outcome == Exit(-1)
  {
    NetUpSteps(status, NetServerRun(x, args), NetUpMics(x, x.conf.num))
  }

  function NetDownMics(x: Env, k: nat): seq<Event>
  {
    if k == 0 then [] else NetDownMics(x, k - 1) + RmmodsEvents(x, MicName(k - 1), NET_MODULES)
  }

  /** cmd_net_down: unload pcnlink on every MIC, then stop both servers. */
  function NetDownCmd(x: Env): (r: Cmd)
    ensures r.outcome == Exit(0)
    ensures |r.events| >= 2 && r.events[|r.events| - 2..] == [HostEvent(x, "sudo pkill -9 pcnsrv", None, false),
                                                               HostEvent(x, "sudo pkill -9 pcnsrv_mtcp", None, false)]
  {
    Cmd(NetDownMics(x, x.conf.num) + [HostEvent(x, "sudo pkill -9 pcnsrv", None, false),
                                      HostEvent(x, "sudo pkill -9 pcnsrv_mtcp", None, false)],
        Exit(0))
  }

  /** The host modules cmd_shutdown unloads. */
  const HOST_MODULES: seq<string> := ["nvme-p2p", "mic"]

  const IFDOWN: string := "sudo ifdown mic0 mic1 mic2 mic3 mic4 mic5 mic6 mic7"

  const SHUTDOWN_MESSAGE: string := ">>>>>>>>>> All MICs are shutting down... <<<<<<<<<<<"

  /** broadcast_message: a wall line, only with --verbose (and run in dry-run too). */
  function Broadcast(x: Env, msg: string): seq<Event>
  {
    if x.opts.verbose then [Raw("echo \"" + msg + "\" | wall")] else []
  }

  function HostUmounts(x: Env, devs: seq<string>): (r: seq<Event>)
    ensures |r| == |devs|
    ensures forall i :: 0 <= i < |devs| ==> r[i] == HostEvent(x, "sudo umount " + devs[i], None, false)
  {
    seq(|devs|, i requires 0 <= i < |devs| => HostEvent(x, "sudo umount " + devs[i], None, false))
  }

  /** The services cmd_shutdown stops before unmounting the NVMe devices. */
  function ShutdownStops(x: Env): seq<Event>
  {
    [HostEvent(x, "sudo service mpss stop", None, false),
     HostEvent(x, "sudo service nfs-kernel-server stop", None, false),
     HostEvent(x, "sudo pkill -9 diod", None, false),
     HostEvent(x, "sudo pkill -9 pcnsrv", None, false),
     HostEvent(x, "sudo pkill -9 pcnsrv_mtcp", None, false)]
  }

  /** cmd_shutdown, given the sorted NVMe device paths. */
  function ShutdownCmd(x: Env, devs: seq<string>): (r: Cmd)
    ensures r.outcome == Exit(0)
    ensures Broadcast(x, SHUTDOWN_MESSAGE) <= r.events
    ensures |r.events| >= 1 && r.events[|r.events| - 1] == HostEvent(x, IFDOWN, None, false)
  {
    Cmd(Broadcast(x, SHUTDOWN_MESSAGE) + ShutdownStops(x) + HostUmounts(x, devs)
        + RmmodsEvents(x, "host", HOST_MODULES) + [HostEvent(x, IFDOWN, None, false)],
        Exit(0))
  }

  lemma ShutdownCmdParts(x: Env, devs: seq<string>, l: seq<Event>, l0: seq<Event>, l1: seq<Event>,
                         l2: seq<Event>, l3: seq<Event>, l4: seq<Event>)
    requires l0 == l + Broadcast(x, SHUTDOWN_MESSAGE) && l1 == l0 + ShutdownStops(x)
    requires l2 == l1 + HostUmounts(x, devs) && l3 == l2 + RmmodsEvents(x, "host", HOST_MODULES)
    requires l4 == l3 + [HostEvent(x, IFDOWN, None, false)]
    ensures l4 == l + ShutdownCmd(x, devs).events
  {
  }

  lemma NetUpParts(status: string -> int, srv: Run, mics: seq<Event>, l: seq<Event>, l0: seq<Event>,
                   l1: seq<Event>, l2: seq<Event>)
    requires status(ProbeLine("pcnsrv")) != 0 && status(ProbeLine("pcnsrv_mtcp")) != 0
    requires l0 == l + [Raw(ProbeLine("pcnsrv"))] + [Raw(ProbeLine("pcnsrv_mtcp"))]
    requires l1 == l0 + srv.events
    requires !srv.done ==> l2 == l1
    requires srv.done ==> l2 == l1 + mics
    ensures l2 == l + NetUpSteps(status, srv, mics).events
  {
  }

  /** Regrouping the appends that build a log, one lemma per shape used below. */
  lemma Regroup<T>(l: seq<T>, a: seq<T>, b: seq<T>)
    ensures l + a + b == l + (a + b)
  {
  }

  lemma Regroup2<T>(l: seq<T>, a: T, b: T)
    ensures l + [a] + [b] == l + [a, b]
  {
  }

  lemma Regroup3<T>(l: seq<T>, a: T, b: T, c: T)
    ensures l + [a] + [b] + [c] == l + [a, b, c]
  {
  }

  lemma Regroup4<T>(l: seq<T>, a: T, b: T, c: T, d: T)
    ensures l + [a] + [b] + [c] + [d] == l + [a, b, c, d]
  {
  }

  lemma Regroup6<T>(l: seq<T>, a: T, b: T, c: T, d: T, e: T, f: T)
    ensures l + [a] + [b] + [c] + [d] + [e] + [f] == l + ([a, b, c] + [d, e, f])
  {
  }

  /** A chain of steps runs to the end exactly when every step does. */
  lemma {:induction false} ChainDone(rs: seq<Run>)
    ensures Chain(rs).done <==> forall i :: 0 <= i < |rs| ==> rs[i].done
  {
    if rs != [] {
      var init := rs[..|rs| - 1];
      ChainDone(init);
      assert forall i :: 0 <= i < |init| ==> init[i] == rs[i];
    }
  }

  /** A chain of steps that each run nothing runs nothing. */
  lemma {:induction false} ChainNothingRun(rs: seq<Run>)
    requires forall i :: 0 <= i < |rs| ==> NothingRun(rs[i].events)
    ensures NothingRun(Chain(rs).events)
  {
    if rs != [] {
      var init := rs[..|rs| - 1];
      assert forall i :: 0 <= i < |init| ==> init[i] == rs[i];
      ChainNothingRun(init);
      NothingRunAppend(Chain(init).events, rs[|rs| - 1].events);
    }
  }

  /** The settings one NVMe device of a MIC needs for cmd_fs_up to mount it. */
  predicate MountReady(x: Env, mic: string, mt: Mount)
  {
    GetFsPort(mic, mt.dev).Some? && GetMicSocket(x.conf, mic).Some?
    && CpuListStr(x.cpus, GetMicSocket(x.conf, mic).value).Some?
  }

  /** A device is mounted without raising exactly when it is ready. */
  lemma MountUpDone(x: Env, mic: string, i: nat, mt: Mount)
    ensures MountUp(x, mic, GetMicSocket(x.conf, mic), i, mt).done <==> MountReady(x, mic, mt)
  {
  }

  /** A MIC is ready when it has no NVMe table or every device in it is. */
  predicate MicReady(x: Env, m: nat)
  {
    var mic := MicName(m);
    mic in x.conf.nvme ==> forall i :: 0 <= i < |x.conf.nvme[mic]| ==> MountReady(x, mic, x.conf.nvme[mic][i])
  }

  lemma MicFsUpDone(x: Env, m: nat)
    ensures MicFsUp(x, m).done <==> MicReady(x, m)
  {
    var mic := MicName(m);
    if mic in x.conf.nvme {
      var mounts := x.conf.nvme[mic];
      var sock := GetMicSocket(x.conf, mic);
      var runs := MountRuns(x, mic, sock, mounts);
      ChainDone(runs);
      forall i | 0 <= i < |mounts| ensures runs[i].done <==> MountReady(x, mic, mounts[i]) {
        MountRunsAt(x, mic, sock, mounts, i);
        MountUpDone(x, mic, i, mounts[i]);
      }
    }
  }

  /**
   * cmd_fs_up returns 0 exactly when no diod is running and every MIC is
   * ready, returns -1 exactly when a diod is running, and raises otherwise.
   */
  lemma FsUpOutcome(x: Env, status: string -> int)
    ensures FsUpCmd(x, status).outcome == Exit(0)
            <==> status(ProbeLine("diod")) != 0 && forall m :: 0 <= m < x.conf.num ==> MicReady(x, m)
    ensures FsUpCmd(x, status).outcome == Exit(-1) <==> status(ProbeLine("diod")) == 0
    ensures FsUpCmd(x, status).outcome.Exit? || FsUpCmd(x, status).outcome.Raised?
  {
    var runs := FsUpMics(x, x.conf.num);
    ChainDone(runs);
    forall m | 0 <= m < x.conf.num ensures runs[m].done <==> MicReady(x, m) {
      FsUpMicsAt(x, x.conf.num, m);
      MicFsUpDone(x, m);
    }
  }

  /** In dry-run a device's commands are only announced. */
  lemma MountUpDryRun(x: Env, mic: string, sock: Option<int>, i: nat, mt: Mount)
    requires x.opts.dryrun
    ensures NothingRun(MountUp(x, mic, sock, i, mt).events)
  {
  }

  /** In dry-run a MIC's part of cmd_fs_up is only announced. */
  lemma MicFsUpDryRun(x: Env, m: nat)
    requires x.opts.dryrun
    ensures NothingRun(MicFsUp(x, m).events)
  {
    var mic := MicName(m);
    if mic in x.conf.nvme {
      var mounts := x.conf.nvme[mic];
      var sock := GetMicSocket(x.conf, mic);
      var runs := MountRuns(x, mic, sock, mounts);
      forall i | 0 <= i < |runs| ensures NothingRun(runs[i].events) {
        MountRunsAt(x, mic, sock, mounts, i);
        MountUpDryRun(x, mic, sock, i, mounts[i]);
      }
      ChainNothingRun(runs);
      NothingRunAppend(FsModprobes(x, mic), Chain(runs).events);
    }
  }

  /** In dry-run cmd_fs_up runs nothing but its pgrep probe. */
  lemma FsUpDryRun(x: Env, status: string -> int)
    requires x.opts.dryrun
    ensures Executed(FsUpCmd(x, status).events) == [ProbeLine("diod")]
  {
    var probe := ProbeLine("diod");
    assert Executed([Raw(probe)]) == [probe];
    if status(probe) != 0 {
      var runs := FsUpMics(x, x.conf.num);
      forall m | 0 <= m < x.conf.num ensures NothingRun(runs[m].events) {
        FsUpMicsAt(x, x.conf.num, m);
        MicFsUpDryRun(x, m);
      }
      ChainNothingRun(runs);
      var run := Chain(runs);
      NothingRunExecutesNothing(run.events);
      ExecutedAppend([Raw(probe)], run.events);
    }
  }

  lemma {:induction false} RoundsNothingRun(round: seq<Event>, n: nat)
    requires NothingRun(round)
    ensures NothingRun(Rounds(round, n))
  {
    if n > 0 {
      RoundsNothingRun(round, n - 1);
      NothingRunAppend(Rounds(round, n - 1), round);
    }
  }

  /** In dry-run __rmmods only announces its rmmods. */
  lemma RmmodsDryRun(x: Env, machine: string, modules: seq<string>)
    requires x.opts.dryrun
    ensures NothingRun(RmmodsEvents(x, machine, modules))
  {
    RoundsNothingRun(RmmodRound(x, machine, modules), |modules|);
  }

  lemma {:induction false} MicUmountsDryRun(x: Env, mic: string, mounts: seq<Mount>)
    requires x.opts.dryrun
    ensures NothingRun(MicUmounts(x, mic, mounts))
  {
    if mounts != [] {
      var last := MicEvent(x, mic, "umount " + MntPath(mounts[|mounts| - 1].mnt), None, false);
      MicUmountsDryRun(x, mic, mounts[..|mounts| - 1]);
      NothingRunAppend(MicUmounts(x, mic, mounts[..|mounts| - 1]), [last]);
    }
  }

  lemma {:induction false} FsDownMicsDryRun(x: Env, k: nat)
    requires x.opts.dryrun
    ensures NothingRun(FsDownMics(x, k))
  {
    if k > 0 {
      FsDownMicsDryRun(x, k - 1);
      var mic := MicName(k - 1);
      if mic in x.conf.nvme {
        MicUmountsDryRun(x, mic, x.conf.nvme[mic]);
        RmmodsDryRun(x, mic, FS_MODULES);
        NothingRunAppend(MicUmounts(x, mic, x.conf.nvme[mic]), RmmodsEvents(x, mic, FS_MODULES));
      }
      NothingRunAppend(FsDownMics(x, k - 1), MicFsDown(x, k - 1));
    }
  }

  /** In dry-run cmd_fs_down runs nothing. */
  lemma FsDownDryRun(x: Env)
    requires x.opts.dryrun
    ensures Executed(FsDownCmd(x).events) == []
  {
    FsDownMicsDryRun(x, x.conf.num);
    NothingRunAppend(FsDownMics(x, x.conf.num), [HostEvent(x, "sudo pkill -9 diod", None, false)]);
    NothingRunExecutesNothing(FsDownCmd(x).events);
  }

  lemma {:induction false} NetDownMicsDryRun(x: Env, k: nat)
    requires x.opts.dryrun
    ensures NothingRun(NetDownMics(x, k))
  {
    if k > 0 {
      NetDownMicsDryRun(x, k - 1);
      RmmodsDryRun(x, MicName(k - 1), NET_MODULES);
      NothingRunAppend(NetDownMics(x, k - 1), RmmodsEvents(x, MicName(k - 1), NET_MODULES));
    }
  }

  /** In dry-run cmd_net_down runs nothing. */
  lemma NetDownDryRun(x: Env)
    requires x.opts.dryrun
    ensures Executed(NetDownCmd(x).events) == []
  {
    NetDownMicsDryRun(x, x.conf.num);
    NothingRunAppend(NetDownMics(x, x.conf.num), [HostEvent(x, "sudo pkill -9 pcnsrv", None, false),
                                                  HostEvent(x, "sudo pkill -9 pcnsrv_mtcp", None, false)]);
    NothingRunExecutesNothing(NetDownCmd(x).events);
  }

  lemma MicNetUpDryRun(x: Env, m: nat)
    requires x.opts.dryrun
    ensures NothingRun(MicNetUp(x, m))
  {
  }

  lemma {:induction false} NetUpMicsDryRun(x: Env, k: nat)
    requires x.opts.dryrun
    ensures NothingRun(NetUpMics(x, k))
  {
    if k > 0 {
      NetUpMicsDryRun(x, k - 1);
      MicNetUpDryRun(x, k - 1);
      NothingRunAppend(NetUpMics(x, k - 1), MicNetUp(x, k - 1));
    }
  }

  lemma NetServerRunDryRun(x: Env, args: seq<string>)
    requires x.opts.dryrun
    ensures NothingRun(NetServerRun(x, args).events)
  {
  }

  /** When the launch and the MIC commands run nothing, only the probes reach the shell. */
  lemma NetUpStepsExecuted(status: string -> int, srv: Run, mics: seq<Event>)
    requires NothingRun(srv.events) && NothingRun(mics)
    ensures Executed(NetUpSteps(status, srv, mics).events)
            == if status(ProbeLine("pcnsrv")) == 0 then [ProbeLine("pcnsrv")]
               else [ProbeLine("pcnsrv"), ProbeLine("pcnsrv_mtcp")]
  {
    var p1, p2 := ProbeLine("pcnsrv"), ProbeLine("pcnsrv_mtcp");
    assert Executed([Raw(p1)]) == [p1];
    assert Executed([Raw(p1), Raw(p2)]) == [p1, p2] by {
      assert [Raw(p1), Raw(p2)][..1] == [Raw(p1)];
    }
    if status(p1) != 0 && status(p2) != 0 {
      NothingRunAppend(srv.events, mics);
      var rest := if srv.done then srv.events + mics else srv.events;
      NothingRunExecutesNothing(rest);
      ExecutedAppend([Raw(p1), Raw(p2)], rest);
      assert NetUpSteps(status, srv, mics).events == [Raw(p1), Raw(p2)] + rest;
    }
  }

  /** In dry-run cmd_net_up runs nothing but its pgrep probes. */
  lemma NetUpDryRun(x: Env, status: string -> int, args: seq<string>)
    requires x.opts.dryrun
    ensures Executed(NetUpCmd(x, status, args).events)
            == if status(ProbeLine("pcnsrv")) == 0 then [ProbeLine("pcnsrv")]
               else [ProbeLine("pcnsrv"), ProbeLine("pcnsrv_mtcp")]
  {
    NetServerRunDryRun(x, args);
    NetUpMicsDryRun(x, x.conf.num);
    NetUpStepsExecuted(status, NetServerRun(x, args), NetUpMics(x, x.conf.num));
  }

  /**
   * Under gdb the launch completes exactly when the socket lookup gives a
   * value that is negative or names a socket with a CPU list; this is what
   * the intended lookup SocketIdForMic would make of a MIC name.
   */
  lemma GdbRunDone(x: Env, micSock: Option<int>)
    ensures GdbRun(x, micSock).done
            <==> micSock.Some? && (micSock.value < 0 || CpuListStr(x.cpus, micSock.value).Some?)
    ensures GdbRun(x, micSock).done && micSock.value >= 0
            ==> GdbRun(x, micSock).events == [PinEvent(x, micSock.value, NetServerCmd(x, "sudo gdb --args "), None, false)]
  {
  }

  /**
   * As written the server launch always completes and is never pinned: one
   * background pcnsrv without --gdb, one foreground unpinned gdb with it.
   */
  lemma NetServerRunDone(x: Env, args: seq<string>)
    ensures NetServerRun(x, args).done
    ensures NetServerRun(x, args).events
            == if x.opts.gdb then [HostEvent(x, NetServerCmd(x, "sudo gdb --args "), None, false)]
               else [HostEvent(x, NetServerCmd(x, "sudo "), Some(true), true)]
  {
  }

  /**
   * cmd_net_up returns -1 exactly when pcnsrv or pcnsrv_mtcp is running and
   * 0 otherwise, after the launch and every MIC's module loads; as written
   * it never raises.
   */
  lemma NetUpOutcome(x: Env, status: string -> int, args: seq<string>)
    ensures NetUpCmd(x, status, args).outcome == Exit(-1)
            <==> status(ProbeLine("pcnsrv")) == 0 || status(ProbeLine("pcnsrv_mtcp")) == 0
    ensures NetUpCmd(x, status, args).outcome == Exit(0)
            <==> status(ProbeLine("pcnsrv")) != 0 && status(ProbeLine("pcnsrv_mtcp")) != 0
    ensures NetUpCmd(x, status, args).outcome == Exit(0)
            ==> NetUpCmd(x, status, args).events
                == [Raw(ProbeLine("pcnsrv")), Raw(ProbeLine("pcnsrv_mtcp"))] + NetServerRun(x, args).events
                   + NetUpMics(x, x.conf.num)
  {
    NetServerRunDone(x, args);
  }

  /** In dry-run cmd_shutdown runs nothing but its broadcast, and that only with --verbose. */
  lemma ShutdownDryRun(x: Env, devs: seq<string>)
    requires x.opts.dryrun
    ensures Executed(ShutdownCmd(x, devs).events)
            == if x.opts.verbose then ["echo \"" + SHUTDOWN_MESSAGE + "\" | wall"] else []
  {
    var b := Broadcast(x, SHUTDOWN_MESSAGE);
    var rest := ShutdownStops(x) + HostUmounts(x, devs) + RmmodsEvents(x, "host", HOST_MODULES)
                + [HostEvent(x, IFDOWN, None, false)];
    RmmodsDryRun(x, "host", HOST_MODULES);
    NothingRunAppend(ShutdownStops(x), HostUmounts(x, devs));
    NothingRunAppend(ShutdownStops(x) + HostUmounts(x, devs), RmmodsEvents(x, "host", HOST_MODULES));
    NothingRunAppend(ShutdownStops(x) + HostUmounts(x, devs) + RmmodsEvents(x, "host", HOST_MODULES),
                     [HostEvent(x, IFDOWN, None, false)]);
    NothingRunExecutesNothing(rest);
    assert ShutdownCmd(x, devs).events == b + rest;
    ExecutedAppend(b, rest);
    if x.opts.verbose {
      assert Executed(b) == Executed([]) + [b[0].line];
    }
  }

  /**
   * The script's state: its options, the machine configuration, DEBUG_FLAG
   * and the log of what it has issued. status gives the exit status the
   * shell reports for a line.
   */
  class Script {
    /** The exit status the shell reports for a line. */
    const status: string -> int
    /** The options, DEBUG_FLAG and the configuration as loaded. */
    var env: Env
    var log: seq<Event>

    /** The script after option parsing, with the configuration of mc as built at import. */
    constructor(opts: Opts, mc: Machine, status: string -> int)
      ensures env == Env(opts, [], mc.mic, mc.cpuConfig, mc.root) && log == []
      ensures this.status == status
    {
      this.status := status;
      env := Env(opts, [], mc.mic, mc.cpuConfig, mc.root);
      log := [];
    }

    /**
     * host_sh: announce the command with the quiet and background suffixes
     * and, unless in dry-run, run it; 0 in dry-run, else its exit status.
     */
    method HostSh(cmd: string, verbose: Option<bool>, bg: bool) returns (rc: int)
      modifies this
      ensures log == old(log) + [HostEvent(old(env), cmd, verbose, bg)]
      ensures env == old(env)
      ensures rc == if env.opts.dryrun then 0 else status(Shown(cmd, Verbosity(env.opts, verbose), bg))
    {
      var v := if verbose.Some? then verbose.value else env.opts.verbose;
      var line := if v then cmd else cmd + QUIET;
      if bg {
        line := line + BACKGROUND;
      }
      assert line == Shown(cmd, v, bg) by {
        if !bg {
          assert line + "" == line;
        }
      }
      if env.opts.dryrun {
        log := log + [Sh(Host, line, None)];
        return 0;
      }
      log := log + [Sh(Host, line, Some(line))];
      rc := status(line);
    }

    /**
     * mic_sh: the same suffix rules; the line run is the ssh command with
     * the configured root password.
     */
    method MicSh(mic: string, cmd: string, verbose: Option<bool>, bg: bool) returns (rc: int)
      modifies this
      ensures log == old(log) + [MicEvent(old(env), mic, cmd, verbose, bg)]
      ensures env == old(env)
      ensures rc == if env.opts.dryrun then 0 else status(SshLine(env.conf.passwd, mic, Shown(cmd, Verbosity(env.opts, verbose), bg)))
    {
      var v := if verbose.Some? then verbose.value else env.opts.verbose;
      var line := if v then cmd else cmd + QUIET;
      if bg {
        line := line + BACKGROUND;
      }
      assert line == Shown(cmd, v, bg) by {
        if !bg {
          assert line + "" == line;
        }
      }
      var rcmd := SshLine(env.conf.passwd, mic, line);
      if env.opts.dryrun {
        log := log + [Sh(Mic(mic), line, None)];
        return 0;
      }
      log := log + [Sh(Mic(mic), line, Some(rcmd))];
      rc := status(rcmd);
    }

    /**
     * host_sh_pin: the command under taskset on the socket's CPUs. None is
     * the KeyError or IndexError of a socket without a CPU list; nothing is
     * issued then.
     */
    method HostShPin(socket: Option<int>, cmd: string, verbose: Option<bool>, bg: bool) returns (rc: Option<int>)
      modifies this
      ensures env == old(env)
      ensures rc.None? <==> socket.None? || CpuListStr(env.cpus, socket.value).None?
      ensures rc.None? ==> log == old(log)
      ensures rc.Some? ==> log == old(log) + [PinEvent(old(env), socket.value, cmd, verbose, bg)]
    {
      if socket.None? {
        return None;
      }
      var cpus := CpuListStr(env.cpus, socket.value);
      if cpus.None? {
        return None;
      }
      var r := HostSh("sudo taskset --cpu-list " + cpus.value + " " + cmd, verbose, bg);
      rc := Some(r);
    }

    /** __is_prog_running: pgrep run through os.system, in dry-run too. */
    method IsProgRunning(prog: string) returns (running: bool)
      modifies this
      ensures log == old(log) + [Raw(ProbeLine(prog))]
      ensures env == old(env)
      ensures running <==> status(ProbeLine(prog)) == 0
    {
      var line := "pgrep " + prog + " > /dev/null 2>&1";
      log := log + [Raw(line)];
      running := status(line) == 0;
    }

    /** broadcast_message */
    method BroadcastMessage(msg: string)
      modifies this
      ensures log == old(log) + Broadcast(old(env), msg)
      ensures env == old(env)
    {
      if env.opts.verbose {
        log := log + [Raw("echo \"" + msg + "\" | wall")];
      }
    }

    /** __rmmods: len(modules) rounds of rmmod, on the host or over ssh. */
    method RmMods(machine: string, modules: seq<string>)
      modifies this
      ensures log == old(log) + RmmodsEvents(old(env), machine, modules)
      ensures env == old(env)
    {
      ghost var x := env;
      ghost var round := RmmodRound(x, machine, modules);
      var isHost := machine == "host";
      for n := 0 to |modules|
        invariant log == old(log) + Rounds(round, n)
        invariant env == old(env)
      {
        ghost var before := log;
        for j := 0 to |modules|
          invariant log == before + round[..j]
          invariant env == old(env)
        {
          if isHost {
            var _ := HostSh("sudo rmmod " + modules[j], None, false);
          } else {
            var _ := MicSh(machine, "rmmod " + modules[j], None, false);
          }
          assert round[..j + 1] == round[..j] + [round[j]];
        }
        assert round[..|modules|] == round;
      }
    }

    /** __umount_all_nvmes: every NVMe device path, in sorted order. */
    method UmountAllNvmes() returns (ghost devs: seq<string>)
      modifies this
      ensures Ascending(devs, StrLess)
      ensures forall p :: p in devs <==> p in NvmeDevsUpTo(env.conf, env.conf.num)
      ensures log == old(log) + HostUmounts(old(env), devs)
      ensures env == old(env)
    {
      var all := GetAllNvmeDevs(env.conf);
      devs := all;
      for i := 0 to |all|
        invariant log == old(log) + HostUmounts(old(env), all[..i])
        invariant env == old(env)
      {
        var _ := HostSh("sudo umount " + all[i], None, false);
        assert HostUmounts(old(env), all[..i + 1]) == HostUmounts(old(env), all[..i]) + [HostEvent(old(env), "sudo umount " + all[i], None, false)];
      }
      assert all[..|all|] == all;
    }

    /** One NVMe device of cmd_fs_up; false when it raised. */
    method FsUpMount(mic: string, sock: Option<int>, i: nat, mt: Mount) returns (ok: bool)
      modifies this
      ensures log == old(log) + MountUp(old(env), mic, sock, i, mt).events
      ensures ok == MountUp(old(env), mic, sock, i, mt).done
      ensures env == old(env)
    {
      var x := env;
      var hostMnt := MntPath(mt.dev);
      var micMnt := MntPath(mt.mnt);
      var dev := GetNvmePath(mt.dev);
      var port := GetFsPort(mic, mt.dev);
      if port.None? {
        return false;
      }
      var micId := GetMicId(mic).value;
      var clnPort := GetFsClientPort(i);
      var e1, e2, e3 := "sudo mkdir -p " + hostMnt, "sudo mount " + dev + " " + hostMnt, "sudo chmod 777 " + hostMnt;
      var rc := HostSh(e1, None, false);
      rc := HostSh(e2, None, false);
      rc := HostSh(e3, None, false);
      Regroup3(old(log), HostEvent(x, e1, None, false), HostEvent(x, e2, None, false), HostEvent(x, e3, None, false));
      var diod := DiodCmd(x, hostMnt, dev, micId, port.value);
      var pinned := HostShPin(sock, diod, Some(true), true);
      if pinned.None? {
        return false;
      }
      var e5, e6 := "mkdir -p " + micMnt, Mount9pCmd(x, micMnt, hostMnt, port.value, micId, clnPort);
      rc := MicSh(mic, e5, None, false);
      rc := MicSh(mic, e6, None, false);
      Regroup6(old(log), HostEvent(x, e1, None, false), HostEvent(x, e2, None, false), HostEvent(x, e3, None, false),
               PinEvent(x, sock.value, diod, Some(true), true), MicEvent(x, mic, e5, None, false), MicEvent(x, mic, e6, None, false));
      ok := true;
    }

    /** The four module loads that open a MIC's part of cmd_fs_up. */
    method LoadFsModules(mic: string)
      modifies this
      ensures log == old(log) + FsModprobes(old(env), mic)
      ensures env == old(env)
    {
      var x := env;
      var e2 := "modprobe 9pnet debug=" + IntStr(MicFsDebug(x));
      var rc := MicSh(mic, "modprobe pci_ring_buffer", None, false);
      rc := MicSh(mic, e2, None, false);
      rc := MicSh(mic, "modprobe 9pnet_prb", None, false);
      rc := MicSh(mic, "modprobe 9p", None, false);
      Regroup4(old(log), MicEvent(x, mic, "modprobe pci_ring_buffer", None, false), MicEvent(x, mic, e2, None, false),
               MicEvent(x, mic, "modprobe 9pnet_prb", None, false), MicEvent(x, mic, "modprobe 9p", None, false));
    }

    /** The i-th device of a MIC's table. */
    method FsUpMountAt(mic: string, sock: Option<int>, mounts: seq<Mount>, i: nat) returns (ok: bool)
      requires i < |mounts|
      modifies this
      ensures log == old(log) + MountRuns(old(env), mic, sock, mounts)[i].events
      ensures ok == MountRuns(old(env), mic, sock, mounts)[i].done
      ensures env == old(env)
    {
      MountRunsAt(env, mic, sock, mounts, i);
      ok := FsUpMount(mic, sock, i, mounts[i]);
    }

    /** The NVMe devices of one MIC, in table order, up to the first that raises. */
    method FsUpMounts(mic: string, sock: Option<int>, mounts: seq<Mount>) returns (ok: bool)
      modifies this
      ensures log == old(log) + Chain(MountRuns(old(env), mic, sock, mounts)).events
      ensures ok == Chain(MountRuns(old(env), mic, sock, mounts)).done
      ensures env == old(env)
    {
      ghost var runs := MountRuns(env, mic, sock, mounts);
      ghost var x := env;
      for i := 0 to |mounts|
        invariant log == old(log) + Chain(runs[..i]).events
        invariant Chain(runs[..i]).done
        invariant env == x
      {
        ok := FsUpMountAt(mic, sock, mounts, i);
        ChainStep(runs, i);
        Regroup(old(log), Chain(runs[..i]).events, runs[i].events);
        if !ok {
          ChainStops(runs, i + 1, |mounts|);
          assert runs[..|mounts|] == runs;
          return;
        }
      }
      assert runs[..|mounts|] == runs;
      ok := true;
    }

    /** The m-th MIC of cmd_fs_up; false when it raised. */
    method FsUpMic(m: nat) returns (ok: bool)
      modifies this
      ensures log == old(log) + MicFsUp(old(env), m).events
      ensures ok == MicFsUp(old(env), m).done
      ensures env == old(env)
    {
      var x := env;
      var mic := MicName(m);
      var sock := GetMicSocket(env.conf, mic);
      if mic !in env.conf.nvme {
        return true;
      }
      var mounts := env.conf.nvme[mic];
      LoadFsModules(mic);
      ok := FsUpMounts(mic, sock, mounts);
      Regroup(old(log), FsModprobes(x, mic), Chain(MountRuns(x, mic, sock, mounts)).events);
    }

    /** The m-th MIC of cmd_fs_up, as the m-th of the MIC runs. */
    method FsUpMicAt(m: nat) returns (ok: bool)
      requires m < env.conf.num
      modifies this
      ensures log == old(log) + FsUpMics(old(env), old(env).conf.num)[m].events
      ensures ok == FsUpMics(old(env), old(env).conf.num)[m].done
      ensures env == old(env)
    {
      FsUpMicsAt(env, env.conf.num, m);
      ok := FsUpMic(m);
    }

    /**
     * cmd_fs_up: -1, with nothing but the probe, when a diod is running;
     * otherwise every MIC with an NVMe table gets its modules and mounts.
     */
    method CmdFsUp() returns (r: Outcome)
      modifies this
      ensures env == old(env)
      ensures log == old(log) + FsUpCmd(old(env), status).events
      ensures r == FsUpCmd(old(env), status).outcome
      ensures status(ProbeLine("diod")) == 0 ==> r == Exit(-1) && log == old(log) + [Raw(ProbeLine("diod"))]
    {
      var x := env;
      var running := IsProgRunning("diod");
      if running {
        return Exit(-1);
      }
      ghost var l0 := log;
      var n := env.conf.num;
      ghost var runs := FsUpMics(x, n);
      for m := 0 to n
        invariant log == l0 + Chain(runs[..m]).events
        invariant Chain(runs[..m]).done
        invariant env == x
      {
        var ok := FsUpMicAt(m);
        ChainStep(runs, m);
        Regroup(l0, Chain(runs[..m]).events, runs[m].events);
        if !ok {
          ChainStops(runs, m + 1, n);
          assert runs[..n] == runs;
          Regroup(old(log), [Raw(ProbeLine("diod"))], Chain(runs).events);
          return Raised;
        }
      }
      assert runs[..n] == runs;
      Regroup(old(log), [Raw(ProbeLine("diod"))], Chain(runs).events);
      r := Exit(0);
    }

    /** The umounts of cmd_fs_down on one MIC, in table order. */
    method UmountMic(mic: string, mounts: seq<Mount>)
      modifies this
      ensures log == old(log) + MicUmounts(old(env), mic, mounts)
      ensures env == old(env)
    {
      ghost var x := env;
      for i := 0 to |mounts|
        invariant log == old(log) + MicUmounts(x, mic, mounts[..i])
        invariant env == x
      {
        var rc := MicSh(mic, "umount " + MntPath(mounts[i].mnt), None, false);
        assert mounts[..i + 1][..i] == mounts[..i];
      }
      assert mounts[..|mounts|] == mounts;
    }

    /** The m-th MIC of cmd_fs_down. */
    method FsDownMic(m: nat)
      modifies this
      ensures log == old(log) + MicFsDown(old(env), m)
      ensures env == old(env)
    {
      ghost var x := env;
      var mic := MicName(m);
      if mic !in env.conf.nvme {
        return;
      }
      var mounts := env.conf.nvme[mic];
      UmountMic(mic, mounts);
      RmMods(mic, FS_MODULES);
      Regroup(old(log), MicUmounts(x, mic, mounts), RmmodsEvents(x, mic, FS_MODULES));
    }

    /** cmd_fs_down */
    method CmdFsDown() returns (r: Outcome)
      modifies this
      ensures env == old(env)
      ensures log == old(log) + FsDownCmd(old(env)).events
      ensures r == FsDownCmd(old(env)).outcome
    {
      var x := env;
      for m := 0 to env.conf.num
        invariant log == old(log) + FsDownMics(x, m)
        invariant env == x
      {
        FsDownMic(m);
        Regroup(old(log), FsDownMics(x, m), MicFsDown(x, m));
      }
      var rc := HostSh("sudo pkill -9 diod", None, false);
      r := Exit(0);
    }

    /** The gdb branch of the server launch for a looked-up socket; false when it raised. */
    method GdbLaunch(micSock: Option<int>) returns (ok: bool)
      modifies this
      ensures log == old(log) + GdbRun(old(env), micSock).events
      ensures ok == GdbRun(old(env), micSock).done
      ensures env == old(env)
    {
      var x := env;
      if micSock.None? {
        return false;
      }
      if micSock.value < 0 {
        var rc := HostSh(NetServerCmd(x, "sudo gdb --args "), None, false);
        return true;
      }
      var pinned := HostShPin(micSock, NetServerCmd(x, "sudo gdb --args "), None, false);
      ok := pinned.Some?;
    }

    /** The server launch of cmd_net_up. */
    method LaunchNetServer(args: seq<string>)
      modifies this
      ensures log == old(log) + NetServerRun(old(env), args).events
      ensures env == old(env)
    {
      var x := env;
      if !env.opts.gdb {
        var rc := HostSh(NetServerCmd(x, "sudo "), Some(true), true);
        return;
      }
      var micSock := SocketIdForMicAsWritten(env.conf, args);
      var ok := GdbLaunch(micSock);
    }

    /** pci_ring_buffer and pcnlink on the m-th MIC. */
    method NetUpMic(m: nat)
      modifies this
      ensures log == old(log) + MicNetUp(old(env), m)
      ensures env == old(env)
    {
      var x := env;
      var mic := MicName(m);
      MicIdOfName(m);
      var micId := GetMicId(mic).value;
      var cliPort := GetNetClientPort(mic).value;
      var e2 := PcnlinkCmd(micId, cliPort);
      var rc := MicSh(mic, "modprobe pci_ring_buffer", None, false);
      rc := MicSh(mic, e2, None, false);
      Regroup2(old(log), MicEvent(x, mic, "modprobe pci_ring_buffer", None, false), MicEvent(x, mic, e2, None, false));
    }

    /** The MIC part of cmd_net_up, for every configured MIC. */
    method NetUpAllMics()
      modifies this
      ensures log == old(log) + NetUpMics(old(env), old(env).conf.num)
      ensures env == old(env)
    {
      var x := env;
      for m := 0 to env.conf.num
        invariant log == old(log) + NetUpMics(x, m)
        invariant env == x
      {
        NetUpMic(m);
        Regroup(old(log), NetUpMics(x, m), MicNetUp(x, m));
      }
    }

    /**
     * cmd_net_up: -1 when pcnsrv or pcnsrv_mtcp is running; otherwise the
     * server, then pci_ring_buffer and pcnlink on every MIC, and 0.
     */
    method CmdNetUp(args: seq<string>) returns (r: Outcome)
      modifies this
      ensures env == old(env)
      ensures log == old(log) + NetUpCmd(old(env), status, args).events
      ensures r == NetUpCmd(old(env), status, args).outcome
      ensures status(ProbeLine("pcnsrv")) == 0 || status(ProbeLine("pcnsrv_mtcp")) == 0 ==> r == Exit(-1)
      ensures status(ProbeLine("pcnsrv")) != 0 && status(ProbeLine("pcnsrv_mtcp")) != 0 ==> r == Exit(0)
    {
      ghost var x := env;
      var running := IsProgRunning("pcnsrv");
      if running {
        return Exit(-1);
      }
      running := IsProgRunning("pcnsrv_mtcp");
      if running {
        return Exit(-1);
      }
      ghost var l0 := log;
      LaunchNetServer(args);
      ghost var l1 := log;
      NetServerRunDone(x, args);
      NetUpAllMics();
      NetUpParts(status, NetServerRun(x, args), NetUpMics(x, x.conf.num), old(log), l0, l1, log);
      r := Exit(0);
    }

    /** cmd_net_down */
    method CmdNetDown() returns (r: Outcome)
      modifies this
      ensures env == old(env)
      ensures log == old(log) + NetDownCmd(old(env)).events
      ensures r == NetDownCmd(old(env)).outcome
    {
      var x := env;
      for m := 0 to env.conf.num
        invariant log == old(log) + NetDownMics(x, m)
        invariant env == x
      {
        RmMods(MicName(m), NET_MODULES);
        Regroup(old(log), NetDownMics(x, m), RmmodsEvents(x, MicName(m), NET_MODULES));
      }
      var rc := HostSh("sudo pkill -9 pcnsrv", None, false);
      rc := HostSh("sudo pkill -9 pcnsrv_mtcp", None, false);
      r := Exit(0);
    }

    /**
     * The --debug handling of the main block: a non-empty option is checked
     * and, when accepted, becomes DEBUG_FLAG.
     */
    method ApplyDebugOpt() returns (r: DebugCheck)
      modifies this
      ensures old(env.opts.debug).None? || old(env.opts.debug).value == "" ==> r == Accepted && env == old(env)
      ensures old(env.opts.debug).Some? && old(env.opts.debug).value != "" ==> r == DebugVerdict(Split(old(env.opts.debug).value, ','))
      ensures r == Accepted && old(env.opts.debug).Some? && old(env.opts.debug).value != ""
              ==> env == old(env).(flags := Split(old(env.opts.debug).value, ','))
      ensures r != Accepted ==> env == old(env)
      ensures log == old(log)
    {
      if env.opts.debug.None? || env.opts.debug.value == "" {
        return Accepted;
      }
      r := CheckDebugOpt(env.opts.debug.value);
      if r == Accepted {
        env := env.(flags := Split(env.opts.debug.value, ','));
      }
    }

    /** The first host commands of cmd_shutdown. */
    method StopServices()
      modifies this
      ensures log == old(log) + ShutdownStops(old(env))
      ensures env == old(env)
    {
      var rc := HostSh("sudo service mpss stop", None, false);
      rc := HostSh("sudo service nfs-kernel-server stop", None, false);
      rc := HostSh("sudo pkill -9 diod", None, false);
      rc := HostSh("sudo pkill -9 pcnsrv", None, false);
      rc := HostSh("sudo pkill -9 pcnsrv_mtcp", None, false);
    }

    /**
     * cmd_shutdown: stop the MIC service and the servers, unmount every
     * NVMe device, unload the host modules and take the MIC links down.
     */
    method CmdShutdown() returns (r: Outcome, ghost devs: seq<string>)
      modifies this
      ensures env == old(env)
      ensures Ascending(devs, StrLess)
      ensures forall p :: p in devs <==> p in NvmeDevsUpTo(env.conf, env.conf.num)
      ensures log == old(log) + ShutdownCmd(old(env), devs).events
      ensures r == Exit(0)
    {
      ghost var x := env;
      BroadcastMessage(SHUTDOWN_MESSAGE);
      ghost var l0 := log;
      StopServices();
      ghost var l1 := log;
      devs := UmountAllNvmes();
      ghost var l2 := log;
      RmMods("host", HOST_MODULES);
      ghost var l3 := log;
      var rc := HostSh(IFDOWN, None, false);
      ShutdownCmdParts(x, devs, old(log), l0, l1, l2, l3, log);
      r := Exit(0);
    }
  }
}

=== FILE: eventpoll.dfy ===
/**
 * The epoll emulation of the pcnlink socket library
 * (network/src/libpcnlink/pcnlink_eventpoll.c). An epoll instance owns
 * three circular event queues; each socket carries the events it is
 * registered for and the events it has pending in some queue. Sockets are
 * looked up by descriptor in the library's socket table, modelled here as a
 * map from descriptor to the socket's epoll state. Locks, condition
 * variables, the blocking wait and the statistics counters are left out.
 */
module EventPoll {
  import opened Common

  const EPOLLNONE: Mask := {}       // 0x000
  const EPOLLIN: Mask := {0}        // 0x001
  const EPOLLPRI: Mask := {1}       // 0x002
  const EPOLLOUT: Mask := {2}       // 0x004
  const EPOLLERR: Mask := {3}       // 0x008
  const EPOLLHUP: Mask := {4}       // 0x010
  const EPOLLRDHUP: Mask := {13}    // 0x2000

  const EPOLL_CTL_ADD: int := 1
  const EPOLL_CTL_DEL: int := 2
  const EPOLL_CTL_MOD: int := 3

  const USR_EVENT_QUEUE: int := 0
  const USR_SHADOW_EVENT_QUEUE: int := 1
  const PCNLINK_EVENT_QUEUE: int := 2

  /** event_to_string: the name of a single event, none for anything else. */
  function EventName(event: Mask): (r: Option<string>)
    ensures r.Some? <==> event in {EPOLLNONE, EPOLLIN, EPOLLPRI, EPOLLOUT, EPOLLERR, EPOLLHUP, EPOLLRDHUP}
  {
    if event == EPOLLNONE then Some("NONE")
    else if event == EPOLLIN then Some("IN")
    else if event == EPOLLPRI then Some("PRI")
    else if event == EPOLLOUT then Some("OUT")
    else if event == EPOLLERR then Some("ERR")
    else if event == EPOLLHUP then Some("HUP")
    else if event == EPOLLRDHUP then Some("RDHUP")
    else None
  }

  /** Different events never share a name. */
  lemma EventNamesDistinct(a: Mask, b: Mask)
    requires EventName(a).Some? && EventName(a) == EventName(b)
    ensures a == b
  {
  }

  /** struct pcnlink_epoll_event: the event bits and the user's data word. */
  datatype Event = Event(events: Mask, data: int)

  /** An entry of an event queue: the socket and the event raised on it. */
  datatype Queued = Queued(sockid: int, ev: Event)

  /**
   * The epoll part of struct pcnlink_socket_t: the registered events, the
   * events pending in a queue, the user's data word, and whether the socket
   * is attached to an epoll instance.
   */
  datatype SockEp = SockEp(epoll: Mask, events: Mask, epData: int, attached: bool)

  /** struct event_queue: a circular array with start, end and a count. */
  class EventQueue {
    const ring: array<Queued>
    var start: nat
    var end: nat
    var numEvents: nat
    const size: nat

    /** start and end stay inside the ring, and end is start advanced by the count. */
    ghost predicate Valid()
      reads this
    {
      ring.Length == size && numEvents <= size
      && (size == 0 ==> start == 0 && end == 0)
      && (size > 0 ==> start < size && end < size)
      && end == (if start + numEvents < size then start + numEvents else start + numEvents - size)
    }

    /** The queued entries, oldest first: numEvents slots from start, wrapping at size. */
    ghost function Contents(): seq<Queued>
      reads this, ring
    {
      if !Valid() then []
      else if start + numEvents <= size then ring[start..start + numEvents]
      else ring[start..] + ring[..start + numEvents - size]
    }

    lemma ContentsLength()
      requires Valid()
      ensures |Contents()| == numEvents
    {
      if start + numEvents > size {
        assert |ring[start..]| == size - start;
        assert |ring[..start + numEvents - size]| == start + numEvents - size;
      }
    }

    /** create_event_queue: an empty queue of the given size. */
    constructor(size: nat)
      ensures Valid() && fresh(ring)
      ensures Contents() == [] && this.size == size
      ensures start == 0 && end == 0 && numEvents == 0
    {
      this.size := size;
      ring := new Queued[size](_ => Queued(0, Event(EPOLLNONE, 0)));
      start, end, numEvents := 0, 0, 0;
    }

    /** The write half of add_epoll_event: the entry goes at end, which wraps to 0 at size. */
    method Push(q: Queued)
      requires Valid() && numEvents < size
      modifies this, ring
      ensures Valid()
      ensures Contents() == old(Contents()) + [q]
      ensures start == old(start) && numEvents == old(numEvents) + 1
      ensures end == (if old(end) + 1 >= size then 0 else old(end) + 1)
    {
      ring[end] := q;
      end := end + 1;
      if end >= size {
        end := 0;
      }
      numEvents := numEvents + 1;
    }

    /** The read half of one fetch step: the entry at start, which wraps to 0 at size. */
    method Pop() returns (q: Queued)
      requires Valid() && numEvents > 0
      modifies this
      ensures Valid()
      ensures q == old(Contents())[0] && Contents() == old(Contents())[1..]
      ensures end == old(end) && numEvents == old(numEvents) - 1
      ensures start == (if old(start) + 1 >= size then 0 else old(start) + 1)
    {
      q := ring[start];
      start := start + 1;
      numEvents := numEvents - 1;
      if start >= size {
        start := 0;
      }
    }

    /**
     * One fetch loop of pcnlink_epoll_wait over this queue, with got
     * delivered before it: entries are taken while the queue has some and
     * fewer than maxevents have been delivered. The socket table, global in
     * the library, goes in as tbl and comes out updated.
     */
    method Fetch(tbl: map<int, SockEp>, maxevents: int, got: seq<Event>)
      returns (out: seq<Event>, tbl': map<int, SockEp>)
      requires Valid()
      modifies this
      ensures Valid()
      ensures var f := FetchSpec(old(Contents()), tbl, Room(maxevents, |got|));
              out == got + f.out && tbl' == f.socks && Contents() == old(Contents())[f.taken..]
    {
      out, tbl' := got, tbl;
      var n := numEvents;
      var i := 0;
      ghost var q0 := Contents();
      ghost var f0 := FetchSpec(q0, tbl, Room(maxevents, |got|));
      assert q0[0..] == q0;
      ContentsLength();
      while i < n && |out| < maxevents
        invariant Valid() && 0 <= i <= n == |q0|
        invariant Contents() == q0[i..]
        invariant Resumes(q0[i..], tbl', out, maxevents, got, q0, f0)
        decreases n - i
      {
        out, tbl' := FetchStep(tbl', out, maxevents, q0[i..], got, q0, f0);
        assert q0[i..][1..] == q0[i + 1..];
        i := i + 1;
      }
      FetchDone(q0[i..], tbl', out, maxevents, got, q0, f0);
    }

    /** One entry taken by the fetch loop: delivered if deliverable, its bits no longer pending. */
    method FetchStep(tbl: map<int, SockEp>, out: seq<Event>, maxevents: int,
                     ghost q: seq<Queued>, ghost got: seq<Event>, ghost q0: seq<Queued>, ghost f0: Fetched)
      returns (out': seq<Event>, tbl': map<int, SockEp>)
      requires Valid() && Contents() == q && q != [] && |out| < maxevents
      requires Resumes(q, tbl, out, maxevents, got, q0, f0)
      modifies this
      ensures Valid() && Contents() == q[1..]
      ensures Resumes(q[1..], tbl', out', maxevents, got, q0, f0)
    {
      FetchAdvance(q, tbl, out, maxevents, got, q0, f0);
      var e := Pop();
      out' := if Delivers(tbl, e) then out + [e.ev] else out;
      tbl' := Take(tbl, e);
    }
  }

  // ---------------------------------------------------------------------
  // Fetching

  datatype Fetched = Fetched(taken: nat, out: seq<Event>, socks: map<int, SockEp>)

  /** An entry is delivered only if its socket is registered for it and still has it pending. */
  predicate Deliverable(s: SockEp, ev: Event)
  {
    s.epoll * ev.events != {} && s.events * ev.events != {}
  }

  /** The socket state once the bits of mask are no longer pending. */
  function Consume(s: SockEp, mask: Mask): SockEp
  {
    s.(events := s.events - mask)
  }

  /** Whether taking entry e delivers it. An entry whose socket has left the table is dropped. */
  predicate Delivers(socks: map<int, SockEp>, e: Queued)
  {
    e.sockid in socks && Deliverable(socks[e.sockid], e.ev)
  }

  /** The socket table once entry e is taken: its bits are no longer pending on its socket. */
  function Take(socks: map<int, SockEp>, e: Queued): (r: map<int, SockEp>)
    ensures r.Keys == socks.Keys
  {
    if e.sockid in socks then socks[e.sockid := Consume(socks[e.sockid], e.ev.events)] else socks
  }

  /**
   * One fetch loop of pcnlink_epoll_wait over queue q with room for `room`
   * more events: each entry taken clears its bits from the socket's pending
   * events and is delivered when deliverable; the loop stops when the queue
   * is empty or the room is used up.
   */
  function FetchSpec(q: seq<Queued>, socks: map<int, SockEp>, room: nat): (f: Fetched)
    ensures f.taken <= |q|
    decreases |q|
  {
    if q == [] || room == 0 then Fetched(0, [], socks)
    else
      var ok := Delivers(socks, q[0]);
      var rest := FetchSpec(q[1..], Take(socks, q[0]), if ok then room - 1 else room);
      Fetched(rest.taken + 1, (if ok then [q[0].ev] else []) + rest.out, rest.socks)
  }

  /**
   * A fetch delivers at most `room` events, no more than it takes, and stops
   * before the end of the queue only when the room is used up.
   */
  lemma {:induction false} FetchBound(q: seq<Queued>, socks: map<int, SockEp>, room: nat)
    ensures var f := FetchSpec(q, socks, room);
            |f.out| <= room && |f.out| <= f.taken
            && (f.taken < |q| ==> |f.out| == room)
    decreases |q|
  {
    if q != [] && room > 0 {
      FetchBound(q[1..], Take(socks, q[0]), if Delivers(socks, q[0]) then room - 1 else room);
    }
  }

  /** One step of a fetch that has an entry to take and room left. */
  lemma FetchUnfold(q: seq<Queued>, socks: map<int, SockEp>, room: nat)
    requires q != [] && room > 0
    ensures var ok := Delivers(socks, q[0]);
            var g := FetchSpec(q[1..], Take(socks, q[0]), if ok then room - 1 else room);
            var f := FetchSpec(q, socks, room);
            f.taken == g.taken + 1 && f.out == (if ok then [q[0].ev] else []) + g.out && f.socks == g.socks
  {
  }

  /**
   * A fetch interrupted with q left in the queue, tbl as the socket table
   * and out delivered so far ends as the fetch f0 that started on q0 with
   * got delivered.
   */
  ghost predicate Resumes(q: seq<Queued>, tbl: map<int, SockEp>, out: seq<Event>, maxevents: int,
                          got: seq<Event>, q0: seq<Queued>, f0: Fetched)
  {
    var f := FetchSpec(q, tbl, Room(maxevents, |out|));
    f.socks == f0.socks && out + f.out == got + f0.out && |q0| - |q| + f.taken == f0.taken
  }

  /** Taking one more entry keeps the fetch on course. */
  lemma FetchAdvance(q: seq<Queued>, tbl: map<int, SockEp>, out: seq<Event>, maxevents: int,
                     got: seq<Event>, q0: seq<Queued>, f0: Fetched)
    requires q != [] && |out| < maxevents
    requires Resumes(q, tbl, out, maxevents, got, q0, f0)
    ensures Resumes(q[1..], Take(tbl, q[0]), if Delivers(tbl, q[0]) then out + [q[0].ev] else out,
                    maxevents, got, q0, f0)
  {
    var room := Room(maxevents, |out|);
    var ok := Delivers(tbl, q[0]);
    var out' := if ok then out + [q[0].ev] else out;
    assert Room(maxevents, |out'|) == if ok then room - 1 else room;
    var g := FetchSpec(q[1..], Take(tbl, q[0]), if ok then room - 1 else room);
    if ok {
      assert out + ([q[0].ev] + g.out) == out' + g.out;
    } else {
      assert [] + g.out == g.out;
    }
  }

  /** A fetch with nothing left to take or no room left has reached its end. */
  lemma FetchDone(q: seq<Queued>, tbl: map<int, SockEp>, out: seq<Event>, maxevents: int,
                  got: seq<Event>, q0: seq<Queued>, f0: Fetched)
    requires q == [] || |out| >= maxevents
    requires Resumes(q, tbl, out, maxevents, got, q0, f0)
    ensures tbl == f0.socks && out == got + f0.out && |q0| - |q| == f0.taken
  {
    assert FetchSpec(q, tbl, Room(maxevents, |out|)) == Fetched(0, [], tbl);
  }

  /** Entry e names a socket registered for one of its events. */
  predicate Registered(socks: map<int, SockEp>, e: Queued)
  {
    e.sockid in socks && socks[e.sockid].epoll * e.ev.events != {}
  }

  /** The index in q of the entry that the j-th event a fetch delivers comes from. */
  function Origin(q: seq<Queued>, socks: map<int, SockEp>, room: nat, j: nat): nat
    decreases |q|
  {
    if q == [] || room == 0 then 0
    else if Delivers(socks, q[0]) then
      (if j == 0 then 0 else 1 + Origin(q[1..], Take(socks, q[0]), room - 1, j - 1))
    else 1 + Origin(q[1..], Take(socks, q[0]), room, j)
  }

  /**
   * The j-th delivered event was raised by an entry the fetch took, and
   * that entry's socket was, when the fetch began, registered for it.
   */
  lemma {:induction false} FetchDeliversRegistered(q: seq<Queued>, socks: map<int, SockEp>, room: nat, j: nat)
    requires j < |FetchSpec(q, socks, room).out|
    ensures var i := Origin(q, socks, room, j);
            i < FetchSpec(q, socks, room).taken
            && FetchSpec(q, socks, room).out[j] == q[i].ev && Registered(socks, q[i])
    decreases |q|
  {
    var ok := Delivers(socks, q[0]);
    var socks' := Take(socks, q[0]);
    var room' := if ok then room - 1 else room;
    if !(ok && j == 0) {
      var j' := if ok then j - 1 else j;
      FetchDeliversRegistered(q[1..], socks', room', j');
      var i' := Origin(q[1..], socks', room', j');
      assert q[1..][i'] == q[i' + 1];
    }
  }

  /** The events the entries of q raise on socket k. */
  function RaisedOn(q: seq<Queued>, k: int): Mask
  {
    if q == [] then {} else (if q[0].sockid == k then q[0].ev.events else {}) + RaisedOn(q[1..], k)
  }

  /**
   * A fetch changes no registration and adds no socket; it leaves each
   * socket with exactly the pending events the taken entries did not raise.
   */
  lemma {:induction false} FetchClears(q: seq<Queued>, socks: map<int, SockEp>, room: nat)
    ensures var f := FetchSpec(q, socks, room);
            f.socks.Keys == socks.Keys
            && forall k :: k in socks ==> f.socks[k] == Consume(socks[k], RaisedOn(q[..f.taken], k))
    decreases |q|
  {
    var f := FetchSpec(q, socks, room);
    if q == [] || room == 0 {
      forall k | k in socks ensures f.socks[k] == Consume(socks[k], RaisedOn(q[..f.taken], k)) {
        assert q[..f.taken] == [];
      }
    } else {
      var socks' := Take(socks, q[0]);
      var room' := if Delivers(socks, q[0]) then room - 1 else room;
      FetchClears(q[1..], socks', room');
      var g := FetchSpec(q[1..], socks', room');
      assert q[..f.taken][1..] == q[1..][..g.taken];
      forall k | k in socks ensures f.socks[k] == Consume(socks[k], RaisedOn(q[..f.taken], k)) {
        assert f.socks[k] == Consume(socks'[k], RaisedOn(q[1..][..g.taken], k));
        TakeThenClear(socks, q[0], k, RaisedOn(q[1..][..g.taken], k));
      }
    }
  }

  /** Clearing after taking an entry is clearing the entry's bits together with the rest. */
  lemma TakeThenClear(socks: map<int, SockEp>, e: Queued, k: int, rest: Mask)
    requires k in socks
    ensures Consume(Take(socks, e)[k], rest)
            == Consume(socks[k], (if e.sockid == k then e.ev.events else {}) + rest)
  {
  }

  // ---------------------------------------------------------------------
  // An epoll instance

  /** The socket state once event is pending. */
  function Pend(s: SockEp, event: Mask): SockEp
  {
    s.(events := s.events + event)
  }

  /** The socket state after ADD (attach) or MOD: the events plus ERR and HUP are registered. */
  function Register(s: SockEp, ev: Event, attach: bool): (r: SockEp)
    ensures EPOLLERR + EPOLLHUP <= r.epoll
    ensures r.epData == ev.data && r.events == s.events
  {
    s.(epoll := ev.events + EPOLLERR + EPOLLHUP, epData := ev.data, attached := attach || s.attached)
  }

  /** The socket state after DEL. */
  function Unregister(s: SockEp): SockEp
  {
    s.(epoll := EPOLLNONE, attached := false)
  }

  /** What an epoll descriptor resolves to in the socket table. */
  datatype EpLookup = NoSocket | NotEpoll | EpollSocket

  class Epoll {
    const usr: EventQueue
    const shadow: EventQueue
    const pcn: EventQueue
    /** The epoll state of every socket in the socket table, by descriptor. */
    var socks: map<int, SockEp>

    /** The three queues are distinct objects, each well formed. */
    ghost predicate Valid()
      reads this, usr, shadow, pcn, usr.ring, shadow.ring, pcn.ring
    {
      usr != shadow && usr != pcn && shadow != pcn
      && usr.ring != shadow.ring && usr.ring != pcn.ring && shadow.ring != pcn.ring
      && usr.Valid() && shadow.Valid() && pcn.Valid()
    }

    /** The three queues of pcnlink_epoll_create, each of the requested size. */
    constructor(size: nat, socks: map<int, SockEp>)
      ensures Valid() && fresh(usr) && fresh(shadow) && fresh(pcn)
      ensures fresh(usr.ring) && fresh(shadow.ring) && fresh(pcn.ring)
      ensures usr.Contents() == [] && shadow.Contents() == [] && pcn.Contents() == []
      ensures usr.size == size && shadow.size == size && pcn.size == size
      ensures this.socks == socks
    {
      usr := new EventQueue(size);
      shadow := new EventQueue(size);
      pcn := new EventQueue(size);
      this.socks := socks;
    }

    function QueueOf(queueType: int): EventQueue
      requires queueType in {USR_EVENT_QUEUE, USR_SHADOW_EVENT_QUEUE, PCNLINK_EVENT_QUEUE}
    {
      if queueType == PCNLINK_EVENT_QUEUE then pcn
      else if queueType == USR_EVENT_QUEUE then usr
      else shadow
    }

    /**
     * add_epoll_event: a missing socket or an empty event is EBADF, and so
     * is an event already pending on the socket; an unknown queue type or a
     * full queue fails without an errno. Otherwise the entry is appended to
     * the chosen queue, the event becomes pending on the socket, and the
     * other queues are left alone.
     */
    method AddEvent(queueType: int, sockid: int, event: Mask) returns (rc: int, errno: int)
      requires Valid()
      modifies this, usr, usr.ring, shadow, shadow.ring, pcn, pcn.ring
      ensures Valid()
      ensures rc == 0 || rc == -1
      ensures sockid !in old(socks) || event == {} ==> rc == -1 && errno == EBADF
      ensures sockid in old(socks) && old(socks)[sockid].events * event != {} ==> rc == -1 && errno == EBADF
      ensures rc == 0 <==>
                sockid in old(socks) && event != {} && old(socks)[sockid].events * event == {}
                && queueType in {USR_EVENT_QUEUE, USR_SHADOW_EVENT_QUEUE, PCNLINK_EVENT_QUEUE}
                && old(QueueOf(queueType).numEvents) < QueueOf(queueType).size
      ensures rc == -1 ==> socks == old(socks) && unchanged(usr, shadow, pcn, usr.ring, shadow.ring, pcn.ring)
      ensures rc == 0 ==>
                socks == old(socks)[sockid := Pend(old(socks)[sockid], event)]
                && QueueOf(queueType).Contents()
                   == old(QueueOf(queueType).Contents()) + [Queued(sockid, Event(event, old(socks)[sockid].epData))]
      ensures queueType != USR_EVENT_QUEUE ==> unchanged(usr, usr.ring)
      ensures queueType != USR_SHADOW_EVENT_QUEUE ==> unchanged(shadow, shadow.ring)
      ensures queueType != PCNLINK_EVENT_QUEUE ==> unchanged(pcn, pcn.ring)
    {
      rc, errno := -1, 0;
      if sockid !in socks || event == {} || socks[sockid].events * event != {} {
        errno := EBADF;
        return;
      }
      if queueType in {USR_EVENT_QUEUE, USR_SHADOW_EVENT_QUEUE, PCNLINK_EVENT_QUEUE} {
        var eq := QueueOf(queueType);
        if eq.numEvents < eq.size {
          Enqueue(eq, sockid, event);
          rc := 0;
        }
      }
    }

    /** The success path of add_epoll_event: the event is pending on the socket and queued on eq. */
    method Enqueue(eq: EventQueue, sockid: int, event: Mask)
      requires Valid() && (eq == usr || eq == shadow || eq == pcn)
      requires sockid in socks && eq.numEvents < eq.size
      modifies this, eq, eq.ring
      ensures Valid()
      ensures socks == old(socks)[sockid := Pend(old(socks)[sockid], event)]
      ensures eq.Contents() == old(eq.Contents()) + [Queued(sockid, Event(event, old(socks)[sockid].epData))]
    {
      var s := socks[sockid];
      socks := socks[sockid := Pend(s, event)];
      eq.Push(Queued(sockid, Event(event, s.epData)));
      if eq == usr {
        assert shadow.Valid() && pcn.Valid();
      } else if eq == shadow {
        assert usr.Valid() && pcn.Valid();
      } else {
        assert usr.Valid() && shadow.Valid();
      }
    }

    /**
     * pcnlink_epoll_ctl. Negative descriptors are EBADF; an epoll descriptor
     * that is not an epoll socket, a missing event for ADD or MOD, and an
     * unknown socket are EINVAL. ADD on a registered socket is EEXIST, MOD
     * and DEL on an unregistered one ENOENT. ADD and MOD register the given
     * events plus ERR and HUP; DEL clears the registration. Any other op
     * succeeds without effect.
     */
    method Ctl(epid: int, lookup: EpLookup, op: int, sockid: int, event: Option<Event>)
      returns (rc: int, errno: int)
      requires Valid()
      modifies this
      ensures Valid()
      ensures rc == 0 || rc == -1
      ensures epid < 0 || sockid < 0 ==> rc == -1 && errno == EBADF
      ensures epid >= 0 && sockid >= 0 && lookup != EpollSocket ==> rc == -1 && errno == EINVAL
      ensures epid >= 0 && sockid >= 0 && ((event.None? && op != EPOLL_CTL_DEL) || sockid !in old(socks)) ==>
                rc == -1 && errno == EINVAL
      ensures rc == 0 <==>
                epid >= 0 && sockid >= 0 && lookup == EpollSocket && (event.Some? || op == EPOLL_CTL_DEL)
                && sockid in old(socks)
                && !(op == EPOLL_CTL_ADD && old(socks)[sockid].epoll != {})
                && !((op == EPOLL_CTL_MOD || op == EPOLL_CTL_DEL) && old(socks)[sockid].epoll == {})
      ensures rc == -1 ==> socks == old(socks) && unchanged(usr, shadow, pcn, usr.ring, shadow.ring, pcn.ring)
      ensures rc == 0 ==> sockid in socks && socks.Keys == old(socks.Keys)
      ensures rc == 0 && (op == EPOLL_CTL_ADD || op == EPOLL_CTL_MOD) ==>
                event.Some?
                && socks == old(socks)[sockid := Register(old(socks)[sockid], event.value, op == EPOLL_CTL_ADD)]
      ensures rc == 0 && op == EPOLL_CTL_DEL ==>
                socks == old(socks)[sockid := Unregister(old(socks)[sockid])]
      ensures rc == 0 && !(op in {EPOLL_CTL_ADD, EPOLL_CTL_MOD, EPOLL_CTL_DEL}) ==> socks == old(socks)
      ensures epid >= 0 && sockid >= 0 && lookup == EpollSocket && sockid in old(socks) && event.Some? ==>
                (op == EPOLL_CTL_ADD && old(socks)[sockid].epoll != {} ==> rc == -1 && errno == EEXIST)
                && (op == EPOLL_CTL_MOD && old(socks)[sockid].epoll == {} ==> rc == -1 && errno == ENOENT)
      ensures epid >= 0 && sockid >= 0 && lookup == EpollSocket && sockid in old(socks) ==>
                (op == EPOLL_CTL_DEL && old(socks)[sockid].epoll == {} ==> rc == -1 && errno == ENOENT)
    {
      rc, errno := -1, 0;
      if epid < 0 || sockid < 0 {
        errno := EBADF;
      } else if lookup != EpollSocket || (event.None? && op != EPOLL_CTL_DEL) || sockid !in socks {
        errno := EINVAL;
      } else if op == EPOLL_CTL_ADD && socks[sockid].epoll != {} {
        errno := EEXIST;
      } else if (op == EPOLL_CTL_MOD || op == EPOLL_CTL_DEL) && socks[sockid].epoll == {} {
        errno := ENOENT;
      } else {
        var s := socks[sockid];
        var s' := if op == EPOLL_CTL_ADD || op == EPOLL_CTL_MOD then Register(s, event.value, op == EPOLL_CTL_ADD)
                  else if op == EPOLL_CTL_DEL then Unregister(s)
                  else s;
        socks := socks[sockid := s'];
        rc := 0;
      }
    }

    /**
     * pcnlink_epoll_wait, one pass without blocking: a negative descriptor
     * is EBADF and a descriptor that is not an epoll socket EINVAL;
     * otherwise the user queue and then the shadow queue are fetched into
     * one array of at most maxevents events, and their number is returned.
     */
    method Wait(epid: int, lookup: EpLookup, maxevents: int) returns (rc: int, events: seq<Event>, errno: int)
      requires Valid()
      modifies this, usr, shadow
      ensures Valid() && unchanged(pcn)
      ensures epid < 0 ==> rc == -1 && errno == EBADF
      ensures epid >= 0 && lookup != EpollSocket ==> rc == -1 && errno == EINVAL
      ensures rc == -1 ==> events == [] && unchanged(this, usr, shadow)
      ensures epid >= 0 && lookup == EpollSocket ==>
                var f1 := FetchSpec(old(usr.Contents()), old(socks), Room(maxevents, 0));
                var f2 := FetchSpec(old(shadow.Contents()), f1.socks, Room(maxevents, |f1.out|));
                rc == |events| && events == f1.out + f2.out && socks == f2.socks
    {
      if epid < 0 {
        return -1, [], EBADF;
      }
      if lookup != EpollSocket {
        return -1, [], EINVAL;
      }
      ghost var q2 := shadow.Contents();
      ghost var f1 := FetchSpec(usr.Contents(), socks, Room(maxevents, 0));
      var tbl;
      events, tbl := usr.Fetch(socks, maxevents, []);
      assert events == f1.out && tbl == f1.socks;
      assert unchanged(shadow, shadow.ring);
      assert shadow.Contents() == q2;
      ghost var f2 := FetchSpec(q2, tbl, Room(maxevents, |events|));
      events, tbl := shadow.Fetch(tbl, maxevents, events);
      assert events == f1.out + f2.out && tbl == f2.socks;
      socks := tbl;
      rc, errno := |events|, 0;
    }
  }

  /**
   * pcnlink_epoll_create: a size that is not positive is EINVAL; when the
   * socket table has no free descriptor (sockfd is -1) the call fails with
   * ENFILE; otherwise the new instance has three empty queues of the given
   * size and the call returns the descriptor.
   */
  method EpollCreate(size: int, sockfd: int, socks: map<int, SockEp>) returns (ep: Epoll?, rc: int, errno: int)
    ensures size <= 0 ==> ep == null && rc == -1 && errno == EINVAL
    ensures size > 0 && sockfd < 0 ==> ep == null && rc == -1 && errno == ENFILE
    ensures size > 0 && sockfd >= 0 ==>
              ep != null && fresh(ep) && ep.Valid() && rc == sockfd && errno == 0
              && ep.usr.Contents() == [] && ep.shadow.Contents() == [] && ep.pcn.Contents() == []
              && ep.usr.size == size && ep.shadow.size == size && ep.pcn.size == size
  {
    if size <= 0 {
      return null, -1, EINVAL;
    }
    if sockfd < 0 {
      return null, -1, ENFILE;
    }
    ep := new Epoll(size, socks);
    rc, errno := sockfd, 0;
  }

  /** pcnlink_epoll_wait never returns more events than maxevents. */
  lemma WaitBound(q1: seq<Queued>, q2: seq<Queued>, socks: map<int, SockEp>, maxevents: int)
    ensures var f1 := FetchSpec(q1, socks, Room(maxevents, 0));
            var f2 := FetchSpec(q2, f1.socks, Room(maxevents, |f1.out|));
            |f1.out + f2.out| <= Room(maxevents, 0) && (maxevents >= 0 ==> |f1.out + f2.out| <= maxevents)
  {
    var f1 := FetchSpec(q1, socks, Room(maxevents, 0));
    FetchBound(q1, socks, Room(maxevents, 0));
    FetchBound(q2, f1.socks, Room(maxevents, |f1.out|));
  }

  /** How many more events fit when cnt of maxevents are used. */
  function Room(maxevents: int, cnt: nat): nat
  {
    if maxevents > cnt then maxevents - cnt else 0
  }
}

=== FILE: fblkmap.dfy ===
/**
 * The extent algebra of diod's file block map (libfblkmap/fblkmap.c): the
 * allocation rounding, the FIEMAP flag scan, the hole search used to force
 * allocation, merging and appending of extent lists, and the overlap
 * comparator with the lookup built on it.
 */
module FileBlockMap {
  import opened Common

  /**
   * One extent: bytes [logical, logical + len) of the file live at
   * [physical, physical + len) on the device.
   */
  datatype Extent = Extent(logical: nat, physical: nat, len: nat, flags: bv32)

  function End(e: Extent): nat { e.logical + e.len }

  /** Addresses fit __u64 and the length fits the __u32 of struct fblkmap_t. */
  predicate WellFormed(e: Extent)
  {
    e.logical + e.len < U64_LIMIT && e.physical + e.len < U64_LIMIT && e.len < U32_LIMIT
  }

  predicate Covers(e: Extent, x: int) { e.logical <= x < End(e) }

  /** The device address of file byte x under extent e. */
  function PhysOf(e: Extent, x: int): int { e.physical + (x - e.logical) }

  /** Some extent of the list holds byte x. */
  predicate Covered(s: seq<Extent>, x: int)
  {
    exists i :: 0 <= i < |s| && Covers(s[i], x)
  }

  /** Extents in ascending, disjoint order, each within the address ranges. */
  predicate Ascending(s: seq<Extent>)
  {
    (forall i :: 0 <= i < |s| ==> WellFormed(s[i]))
    && (forall i :: 0 <= i < |s| - 1 ==> End(s[i]) <= s[i + 1].logical)
  }

  /** A block map as FIEMAP returns it: ascending and without empty extents. */
  predicate SortedMap(s: seq<Extent>)
  {
    Ascending(s) && forall i :: 0 <= i < |s| ==> s[i].len > 0
  }

  /** In a sorted map every extent ends before any later one starts. */
  lemma {:induction false} Ordered(s: seq<Extent>, i: nat, j: nat)
    requires Ascending(s) && i < j < |s|
    ensures End(s[i]) <= s[j].logical
    decreases j - i
  {
    if i + 1 < j {
      Ordered(s, i + 1, j);
    }
  }

  // ---------------------------------------------------------------------
  // fbm_realloc

  /** fbm_realloc sizes its array in whole units of 8 extents. */
  function AllocCount(n: nat): (r: nat)
    ensures r % 8 == 0
    ensures n <= r < n + 8
  {
    // (n + FIEMAP_MALLOC_UNIT_MASK) & ~FIEMAP_MALLOC_UNIT_MASK
    (n + 7) / 8 * 8
  }

  // ---------------------------------------------------------------------
  // check_fie_flags

  /** check_fie_flags: the first extent's flags that hit the mask, or 0. */
  method CheckFieFlags(exts: seq<Extent>, mask: bv32) returns (flags: bv32)
    ensures flags == 0 <==> forall i :: 0 <= i < |exts| ==> exts[i].flags & mask == 0
    ensures flags != 0 ==> exists k :: 0 <= k < |exts| && flags == exts[k].flags & mask
                                       && forall j :: 0 <= j < k ==> exts[j].flags & mask == 0
  {
    var i := 0;
    while i < |exts|
      invariant i <= |exts|
      invariant forall j :: 0 <= j < i ==> exts[j].flags & mask == 0
    {
      flags := exts[i].flags & mask;
      if flags != 0 {
        return;
      }
      i := i + 1;
    }
    return 0;
  }

  // ---------------------------------------------------------------------
  // find_fie_hole

  /** Extent k runs straight into extent k + 1. */
  predicate Joins(exts: seq<Extent>, k: int)
  {
    0 <= k < |exts| - 1 && End(exts[k]) == exts[k + 1].logical
  }

  /** The first index from i on whose extent does not run into the next one. */
  function FirstBreak(exts: seq<Extent>, i: nat): (j: nat)
    ensures i <= j
    ensures j < |exts| - 1 ==> !Joins(exts, j)
    ensures forall k :: i <= k < j && k < |exts| - 1 ==> Joins(exts, k)
    ensures i <= |exts| - 1 ==> j <= |exts| - 1
    decreases |exts| - i
  {
    if i >= |exts| - 1 then i
    else if End(exts[i]) != exts[i + 1].logical then i
    else FirstBreak(exts, i + 1)
  }

  /**
   * The outcome of one find_fie_hole call: the index to resume from, and the
   * hole found (holeLen == 0 when there is none; holeStart is then left as
   * it was).
   */
  datatype HoleScan = HoleScan(next: int, holeStart: nat, holeLen: nat)

  /** A length stored in a __u64 (wide) or a __u32 field. */
  function Stored(x: int, wide: bool): nat
  {
    if wide then x % U64_LIMIT else x % U32_LIMIT
  }

  lemma StoredBelow(x: int, wide: bool)
    requires x >= 0
    ensures Stored(x, wide) <= x
    ensures wide && x < U64_LIMIT ==> Stored(x, wide) == x
  {
  }

  /**
   * What find_fie_hole reports, with gap lengths stored as `wide` says: a leading gap before the first extent (first
   * call only), otherwise the first gap between extents from the resume
   * index on, and, when that yields nothing, the gap after the last extent.
   */
  function HoleReport(exts: seq<Extent>, start: nat, end: nat, idx: int, prevStart: nat,
                      wide: bool): HoleScan
    requires |exts| >= 1 && -1 <= idx < |exts|
  {
    if idx == -1 && start < exts[0].logical then
      HoleScan(0, start, Stored(Min(end, exts[0].logical) - start, wide))
    else
      var n := |exts|;
      var j := FirstBreak(exts, if idx == -1 then 0 else idx);
      var gap := if j < n - 1 then Stored(exts[j + 1].logical - End(exts[j]), wide) else 0;
      var lastEnd := End(exts[n - 1]);
      if gap == 0 && lastEnd < end then HoleScan(j + 1, lastEnd, Stored(end - lastEnd, wide))
      else HoleScan(j + 1, if j < n - 1 then End(exts[j]) else prevStart, gap)
  }

  /**
   * find_fie_hole as written: the hole length is stored in a __u32, so a
   * gap's length is kept modulo 2^32.
   */
  method FindFieHole(exts: seq<Extent>, start: nat, end: nat, startIdx: int, prevStart: nat)
    returns (r: HoleScan)
    requires |exts| >= 1 && -1 <= startIdx < |exts|
    ensures r == HoleReport(exts, start, end, startIdx, prevStart, false)
  {
    var lastExt := |exts| - 1;
    var i := startIdx;
    var holeStart := prevStart;
    var holeLen := 0;
    if i == -1 {
      if start < exts[0].logical {
        var endExt := Min(end, exts[0].logical);
        return HoleScan(0, start, Stored(endExt - start, false));
      }
      i := i + 1;
    }
    var i0: nat := i;
    while i < lastExt
      invariant i0 <= i <= lastExt
      invariant forall k :: i0 <= k < i ==> Joins(exts, k)
      invariant holeLen == 0 && holeStart == prevStart
    {
      var endExt := End(exts[i]);
      if endExt != exts[i + 1].logical {
        holeStart := endExt;
        holeLen := Stored(exts[i + 1].logical - endExt, false);
        BreakFound(exts, i0, i);
        break;
      }
      i := i + 1;
    }
    if i == lastExt {
      BreakAtLast(exts, i0);
    }
    var endExt := End(exts[lastExt]);
    if holeLen == 0 && endExt < end {
      holeStart := endExt;
      holeLen := Stored(end - endExt, false);
    }
    return HoleScan(i + 1, holeStart, holeLen);
  }

  lemma BreakFound(exts: seq<Extent>, i0: nat, i: nat)
    requires i0 <= i < |exts| - 1
    requires forall k :: i0 <= k < i ==> Joins(exts, k)
    requires !Joins(exts, i)
    ensures FirstBreak(exts, i0) == i
    decreases i - i0
  {
    if i0 < i {
      BreakFound(exts, i0 + 1, i);
    }
  }

  lemma BreakAtLast(exts: seq<Extent>, i0: nat)
    requires i0 <= |exts| - 1
    requires forall k :: i0 <= k < |exts| - 1 ==> Joins(exts, k)
    ensures FirstBreak(exts, i0) == |exts| - 1
    decreases |exts| - i0
  {
    if i0 < |exts| - 1 {
      BreakAtLast(exts, i0 + 1);
    }
  }

  /**
   * A reported hole is a real one: in a sorted map it meets no extent, and a
   * leading or trailing hole lies inside the requested range; every extent
   * passed over runs into the next one.
   */
  lemma {:induction false} HoleIsGap(exts: seq<Extent>, start: nat, end: nat, idx: int, prev: nat)
    requires Ascending(exts) && -1 <= idx < |exts| && |exts| >= 1 && start <= end
    requires exts[|exts| - 1].len > 0
    ensures var r := HoleReport(exts, start, end, idx, prev, false);
      r.holeLen > 0 ==>
        (forall i :: 0 <= i < |exts| ==> r.holeStart + r.holeLen <= exts[i].logical
                                         || End(exts[i]) <= r.holeStart)
    ensures var r := HoleReport(exts, start, end, idx, prev, false);
      var i0 := if idx == -1 then 0 else idx;
      forall k :: i0 <= k < r.next - 1 && k < |exts| - 1 ==> Joins(exts, k)
    ensures var r := HoleReport(exts, start, end, idx, prev, false);
      r.holeLen > 0 && r.next == 0 ==> start <= r.holeStart && r.holeStart + r.holeLen <= end
    ensures var r := HoleReport(exts, start, end, idx, prev, false);
      r.holeLen > 0 && r.holeStart == End(exts[|exts| - 1]) ==> r.holeStart + r.holeLen <= end
  {
    var n := |exts|;
    if idx == -1 && start < exts[0].logical {
      assert HoleReport(exts, start, end, idx, prev, false)
             == HoleScan(0, start, Stored(Min(end, exts[0].logical) - start, false));
      LeadingHole(exts, start, end);
    } else {
      var j := FirstBreak(exts, if idx == -1 then 0 else idx);
      var gap := if j < n - 1 then Stored(exts[j + 1].logical - End(exts[j]), false) else 0;
      var lastEnd := End(exts[n - 1]);
      if gap == 0 && lastEnd < end {
        assert HoleReport(exts, start, end, idx, prev, false) == HoleScan(j + 1, lastEnd, Stored(end - lastEnd, false));
        TrailingHole(exts, end);
      } else if gap > 0 {
        assert HoleReport(exts, start, end, idx, prev, false) == HoleScan(j + 1, End(exts[j]), gap);
        InteriorHole(exts, j);
      } else {
        assert HoleReport(exts, start, end, idx, prev, false).holeLen == 0;
      }
    }
  }

  lemma LeadingHole(exts: seq<Extent>, start: nat, end: nat)
    requires Ascending(exts) && |exts| >= 1 && start <= end && start < exts[0].logical
    ensures var len := Stored(Min(end, exts[0].logical) - start, false);
      start + len <= end
      && forall i :: 0 <= i < |exts| ==> start + len <= exts[i].logical
  {
    StoredBelow(Min(end, exts[0].logical) - start, false);
    forall i | 0 < i < |exts|
      ensures exts[0].logical <= exts[i].logical
    {
      Ordered(exts, 0, i);
    }
  }

  lemma TrailingHole(exts: seq<Extent>, end: nat)
    requires Ascending(exts) && |exts| >= 1 && End(exts[|exts| - 1]) < end
    ensures var e := End(exts[|exts| - 1]);
      e + Stored(end - e, false) <= end
      && forall i :: 0 <= i < |exts| ==> End(exts[i]) <= e
  {
    var n := |exts|;
    StoredBelow(end - End(exts[n - 1]), false);
    forall i | 0 <= i < n - 1
      ensures End(exts[i]) <= End(exts[n - 1])
    {
      Ordered(exts, i, n - 1);
    }
  }

  lemma InteriorHole(exts: seq<Extent>, j: nat)
    requires Ascending(exts) && j < |exts| - 1 && exts[|exts| - 1].len > 0
    ensures var len := Stored(exts[j + 1].logical - End(exts[j]), false);
      End(exts[j]) + len <= exts[j + 1].logical
      && End(exts[j]) < End(exts[|exts| - 1])
      && forall i :: 0 <= i < |exts| ==> End(exts[j]) + len <= exts[i].logical
                                         || End(exts[i]) <= End(exts[j])
  {
    var n := |exts|;
    StoredBelow(exts[j + 1].logical - End(exts[j]), false);
    forall i | 0 <= i < n
      ensures exts[j + 1].logical <= exts[i].logical || End(exts[i]) <= End(exts[j])
    {
      if i < j {
        Ordered(exts, i, j);
      } else if i > j + 1 {
        Ordered(exts, j + 1, i);
      }
    }
    Ordered(exts, j, n - 1);
  }

  /** The gap left after FIEMAP extents [0, 1) and [2^32 + 1, 2^32 + 2). */
  const LOST_HOLE_MAP: seq<Extent> :=
    [Extent(0, 0, 1, 0), Extent(0x1_0000_0001, 0x1_0000_0001, 1, 0)]

  /**
   * The 2^32-byte hole between the two extents is reported with length 0.
   */
  lemma FourGiBHoleLost()
    ensures SortedMap(LOST_HOLE_MAP)
    ensures LOST_HOLE_MAP[1].logical - End(LOST_HOLE_MAP[0]) == U32_LIMIT
    ensures HoleReport(LOST_HOLE_MAP, 0, 0x1_0000_0002, 0, 0, false).holeLen == 0
    ensures HoleReport(LOST_HOLE_MAP, 0, 0x1_0000_0002, 0, 0, true).holeLen == U32_LIMIT
  {
    assert FirstBreak(LOST_HOLE_MAP, 0) == 0;
  }

  /**
   * With the hole length held in 64 bits, the search reports the exact
   * length of every gap in a sorted map, leading, interior or trailing,
   * and never reports an empty hole when a gap exists where it looks.
   */
  lemma WideHoleExact(exts: seq<Extent>, start: nat, end: nat, idx: int, prev: nat)
    requires Ascending(exts) && -1 <= idx < |exts| && |exts| >= 1 && start <= end < U64_LIMIT
    ensures var r := HoleReport(exts, start, end, idx, prev, true);
      idx == -1 && start < exts[0].logical ==>
        r.holeStart == start && r.holeLen == Min(end, exts[0].logical) - start
    ensures var r := HoleReport(exts, start, end, idx, prev, true);
      var j := FirstBreak(exts, if idx == -1 then 0 else idx);
      !(idx == -1 && start < exts[0].logical) && j < |exts| - 1 ==>
        r.holeStart == End(exts[j]) && r.holeLen == exts[j + 1].logical - End(exts[j]) > 0
    ensures var r := HoleReport(exts, start, end, idx, prev, true);
      var j := FirstBreak(exts, if idx == -1 then 0 else idx);
      var lastEnd := End(exts[|exts| - 1]);
      !(idx == -1 && start < exts[0].logical) && j == |exts| - 1 ==>
        r.holeLen == (if lastEnd < end then end - lastEnd else 0)
  {
    if idx == -1 && start < exts[0].logical {
      var len := Min(end, exts[0].logical) - start;
      StoredBelow(len, true);
      assert HoleReport(exts, start, end, idx, prev, true) == HoleScan(0, start, len);
    } else {
      var j := FirstBreak(exts, if idx == -1 then 0 else idx);
      if j < |exts| - 1 {
        WideInteriorHole(exts, start, end, idx, prev, j);
      } else {
        WideTrailingHole(exts, start, end, idx, prev, j);
      }
    }
  }

  /** A gap between extents j and j + 1 is reported from End(exts[j]) with its exact 64-bit length. */
  lemma WideInteriorHole(exts: seq<Extent>, start: nat, end: nat, idx: int, prev: nat, j: nat)
    requires Ascending(exts) && -1 <= idx < |exts| && |exts| >= 1 && start <= end < U64_LIMIT
    requires !(idx == -1 && start < exts[0].logical)
    requires j == FirstBreak(exts, if idx == -1 then 0 else idx) && j < |exts| - 1
    ensures HoleReport(exts, start, end, idx, prev, true)
            == HoleScan(j + 1, End(exts[j]), exts[j + 1].logical - End(exts[j]))
    ensures exts[j + 1].logical - End(exts[j]) > 0
  {
    StoredBelow(exts[j + 1].logical - End(exts[j]), true);
  }

  /** With no gap between extents, the trailing gap up to end is the one reported, if any. */
  lemma WideTrailingHole(exts: seq<Extent>, start: nat, end: nat, idx: int, prev: nat, j: nat)
    requires Ascending(exts) && -1 <= idx < |exts| && |exts| >= 1 && start <= end < U64_LIMIT
    requires !(idx == -1 && start < exts[0].logical)
    requires j == FirstBreak(exts, if idx == -1 then 0 else idx) && j == |exts| - 1
    ensures var lastEnd := End(exts[|exts| - 1]);
      HoleReport(exts, start, end, idx, prev, true).holeLen == (if lastEnd < end then end - lastEnd else 0)
  {
    var lastEnd := End(exts[|exts| - 1]);
    if lastEnd < end {
      StoredBelow(end - lastEnd, true);
    }
  }

  // ---------------------------------------------------------------------
  // merge_two_regions

  datatype Merged = Merged(m: Extent, absorbed: bool)

  /** The right extent continues the left one logically and physically. */
  predicate Continues(l: Extent, r: Extent)
    requires l.logical <= r.logical
  {
    r.logical <= End(l) && r.physical == l.physical + (r.logical - l.logical)
  }

  /**
   * merge_two_regions: the left extent is always emitted; the right one is
   * absorbed, stretching the emitted extent to the further end, exactly
   * when it starts inside or right after the left one at the matching
   * device address.
   */
  function MergeTwoRegions(l: Extent, r: Extent): (res: Merged)
    requires WellFormed(l) && WellFormed(r) && l.logical <= r.logical
    ensures res.m.logical == l.logical && res.m.physical == l.physical && res.m.flags == l.flags
    ensures res.absorbed <==> Continues(l, r)
    ensures !res.absorbed ==> res.m == l
    ensures res.absorbed && End(r) - l.logical < U32_LIMIT ==> End(res.m) == Max(End(l), End(r))
  {
    var endL := End(l);
    var dist := r.logical - l.logical;
    if r.logical <= endL && r.physical == l.physical + dist then
      var endR := End(r);
      if endL < endR then Merged(l.(len := (endR - l.logical) % U32_LIMIT), true)
      else Merged(l, true)
    else Merged(l, false)
  }

  /**
   * An absorbing merge neither loses nor invents a byte and keeps every
   * byte at the device address either input gave it.
   */
  lemma MergeKeepsMapping(l: Extent, r: Extent, x: int)
    requires WellFormed(l) && WellFormed(r) && l.logical <= r.logical
    requires MergeTwoRegions(l, r).absorbed && End(r) - l.logical < U32_LIMIT
    ensures var m := MergeTwoRegions(l, r).m;
      (Covers(m, x) <==> Covers(l, x) || Covers(r, x))
      && (Covers(l, x) ==> PhysOf(m, x) == PhysOf(l, x))
      && (Covers(r, x) ==> PhysOf(m, x) == PhysOf(r, x))
  {
  }

  // ---------------------------------------------------------------------
  // __try_append_block_maps / try_append_block_maps

  /**
   * __try_append_block_maps as written: when the right map's first extent
   * starts inside the left map's last one and continues it, the last
   * extent's length is set to reach the end of that first extent, even
   * when it ends earlier. None: the maps interleave and need the slow
   * merge.
   */
  function AppendAsWritten(l: seq<Extent>, r: seq<Extent>): (res: Option<seq<Extent>>)
    requires |l| > 0 && |r| > 0
    requires forall i :: 0 <= i < |l| ==> WellFormed(l[i])
    requires forall i :: 0 <= i < |r| ==> WellFormed(r[i])
    ensures res.None? <==> r[0].logical < l[|l| - 1].logical
    ensures res.Some? ==> |res.value| == |l| + |r| || |res.value| == |l| + |r| - 1
    ensures res.Some? ==> res.value[0].logical == l[0].logical
  {
    var last := l[|l| - 1];
    var r0 := r[0];
    if r0.logical < last.logical then None
    else if r0.logical < End(last) && r0.physical == last.physical + (r0.logical - last.logical) then
      Some(l[..|l| - 1] + [last.(len := (End(r0) - last.logical) % U32_LIMIT)] + r[1..])
    else if End(last) < r0.logical || last.physical + last.len != r0.physical then
      Some(l + r)
    else
      Some(l[..|l| - 1] + [last.(len := (last.len + r0.len) % U32_LIMIT)] + r[1..])
  }

  /** The left map [0, 100) and a right map holding only [10, 20) of the same run. */
  const SHRINK_LEFT: seq<Extent> := [Extent(0, 1000, 100, 0)]
  const SHRINK_RIGHT: seq<Extent> := [Extent(10, 1010, 10, 0)]

  /** Appending as written drops bytes [20, 100) that the left map held. */
  lemma AppendAsWrittenShrinks()
    ensures AppendAsWritten(SHRINK_LEFT, SHRINK_RIGHT) == Some([Extent(0, 1000, 20, 0)])
    ensures Covered(SHRINK_LEFT, 50)
    ensures !Covered(AppendAsWritten(SHRINK_LEFT, SHRINK_RIGHT).value, 50)
  {
    assert SHRINK_LEFT[..0] == [] && SHRINK_RIGHT[1..] == [];
    var s := AppendAsWritten(SHRINK_LEFT, SHRINK_RIGHT).value;
    assert s == [Extent(0, 1000, 20, 0)];
    assert Covers(SHRINK_LEFT[0], 50);
    assert !Covers(s[0], 50);
  }

  /**
   * __try_append_block_maps with the overlapping case stretching the last
   * extent to the further of the two ends, as merge_two_regions does.
   */
  function Append(l: seq<Extent>, r: seq<Extent>): (res: Option<seq<Extent>>)
    requires |l| > 0 && |r| > 0
    requires forall i :: 0 <= i < |l| ==> WellFormed(l[i])
    requires forall i :: 0 <= i < |r| ==> WellFormed(r[i])
    ensures res.None? <==> r[0].logical < l[|l| - 1].logical
    ensures res.Some? ==> |res.value| == |l| + |r| || |res.value| == |l| + |r| - 1
  {
    var last := l[|l| - 1];
    var r0 := r[0];
    if r0.logical < last.logical then None
    else if r0.logical < End(last) && r0.physical == last.physical + (r0.logical - last.logical) then
      Some(l[..|l| - 1] + [last.(len := (Max(End(last), End(r0)) - last.logical) % U32_LIMIT)] + r[1..])
    else if End(last) < r0.logical || last.physical + last.len != r0.physical then
      Some(l + r)
    else
      Some(l[..|l| - 1] + [last.(len := (last.len + r0.len) % U32_LIMIT)] + r[1..])
  }

  /**
   * When the two maps agree where they meet and the merged length fits the
   * 32-bit field, appending keeps exactly the bytes the two maps held.
   */
  lemma {:induction false} AppendKeepsCoverage(l: seq<Extent>, r: seq<Extent>, x: int)
    requires |l| > 0 && |r| > 0
    requires forall i :: 0 <= i < |l| ==> WellFormed(l[i])
    requires forall i :: 0 <= i < |r| ==> WellFormed(r[i])
    requires Max(End(l[|l| - 1]), End(r[0])) - l[|l| - 1].logical < U32_LIMIT
    requires Append(l, r).Some?
    requires r[0].logical < End(l[|l| - 1]) ==>
               r[0].physical == l[|l| - 1].physical + (r[0].logical - l[|l| - 1].logical)
    ensures Covered(Append(l, r).value, x) <==> Covered(l, x) || Covered(r, x)
  {
    var s := Append(l, r).value;
    var last := l[|l| - 1];
    var r0 := r[0];
    var n := |l|;
    if |s| == |l| + |r| && !(r0.logical < End(last) && r0.physical == last.physical + (r0.logical - last.logical)) {
      assert s == l + r;
      if Covered(l, x) {
        var i :| 0 <= i < |l| && Covers(l[i], x);
        assert s[i] == l[i];
      }
      if Covered(r, x) {
        var i :| 0 <= i < |r| && Covers(r[i], x);
        assert s[n + i] == r[i];
      }
    } else {
      var merged := s[n - 1];
      assert s == l[..n - 1] + [merged] + r[1..];
      assert merged.logical == last.logical;
      assert Covers(merged, x) <==> Covers(last, x) || Covers(r0, x);
      if Covered(s, x) {
        var i :| 0 <= i < |s| && Covers(s[i], x);
        if i < n - 1 {
          assert s[i] == l[i];
        } else if i > n - 1 {
          assert s[i] == r[i - n + 1];
        } else if Covers(last, x) {
          assert l[n - 1] == last;
        } else {
          assert Covers(r[0], x);
        }
      }
      if Covered(l, x) {
        var i :| 0 <= i < |l| && Covers(l[i], x);
        if i < n - 1 {
          assert s[i] == l[i];
        } else {
          assert Covers(s[n - 1], x);
        }
      }
      if Covered(r, x) {
        var i :| 0 <= i < |r| && Covers(r[i], x);
        if i > 0 {
          assert s[n - 1 + i] == r[i];
        } else {
          assert Covers(s[n - 1], x);
        }
      }
    }
  }

  /**
   * The two maps agree where they meet: an overlap continues the left map's
   * last extent physically and reaches at least as far, and the joined
   * length fits the 32-bit field.
   */
  predicate Meets(l: seq<Extent>, r: seq<Extent>)
    requires |l| > 0 && |r| > 0
  {
    var last := l[|l| - 1];
    Max(End(last), End(r[0])) - last.logical < U32_LIMIT
    && (r[0].logical < End(last) ==>
          r[0].physical == last.physical + (r[0].logical - last.logical) && End(last) <= End(r[0]))
  }

  /**
   * Where the right map's first extent reaches at least as far as the left
   * map's last one, the written append is the intended one and keeps
   * exactly the bytes the two maps held.
   */
  lemma AppendAsWrittenKeepsCoverage(l: seq<Extent>, r: seq<Extent>, x: int)
    requires |l| > 0 && |r| > 0
    requires forall i :: 0 <= i < |l| ==> WellFormed(l[i])
    requires forall i :: 0 <= i < |r| ==> WellFormed(r[i])
    requires AppendAsWritten(l, r).Some? && Meets(l, r)
    ensures Covered(AppendAsWritten(l, r).value, x) <==> Covered(l, x) || Covered(r, x)
  {
    assert AppendAsWritten(l, r) == Append(l, r);
    AppendKeepsCoverage(l, r, x);
  }

  /** try_append_block_maps puts m1 on the left when it starts first, or starts together and is shorter. */
  predicate FirstGoesLeft(m1: seq<Extent>, m2: seq<Extent>)
    requires |m1| > 0 && |m2| > 0
  {
    m1[0].logical < m2[0].logical || (m1[0].logical == m2[0].logical && m1[0].len < m2[0].len)
  }

  /**
   * try_append_block_maps: an empty side yields the other map untouched;
   * otherwise the map whose first extent comes first (the shorter one on a
   * tie) goes on the left of __try_append_block_maps as written, so the
   * result starts at the lower of the two starts. None: the other map
   * starts before the left map's last extent.
   */
  function TryAppendBlockMaps(m1: seq<Extent>, m2: seq<Extent>): (res: Option<seq<Extent>>)
    requires forall i :: 0 <= i < |m1| ==> WellFormed(m1[i])
    requires forall i :: 0 <= i < |m2| ==> WellFormed(m2[i])
    ensures |m1| == 0 ==> res == Some(m2)
    ensures |m1| > 0 && |m2| == 0 ==> res == Some(m1)
    ensures |m1| > 0 && |m2| > 0 && FirstGoesLeft(m1, m2) ==> (res.None? <==> m2[0].logical < m1[|m1| - 1].logical)
    ensures |m1| > 0 && |m2| > 0 && !FirstGoesLeft(m1, m2) ==> (res.None? <==> m1[0].logical < m2[|m2| - 1].logical)
    ensures res.Some? ==> |m1| + |m2| - 1 <= |res.value| <= |m1| + |m2|
    ensures |m1| > 0 && |m2| > 0 && res.Some? ==> res.value[0].logical == Min(m1[0].logical, m2[0].logical)
  {
    if |m1| == 0 then Some(m2)
    else if |m2| == 0 then Some(m1)
    else if m1[0].logical < m2[0].logical then AppendAsWritten(m1, m2)
    else if m1[0].logical == m2[0].logical && m1[0].len < m2[0].len then AppendAsWritten(m1, m2)
    else AppendAsWritten(m2, m1)
  }

  /**
   * When the maps agree where they meet, in the order try_append_block_maps
   * puts them, the appended map covers exactly the bytes of the two.
   */
  lemma TryAppendKeepsCoverage(m1: seq<Extent>, m2: seq<Extent>, x: int)
    requires forall i :: 0 <= i < |m1| ==> WellFormed(m1[i])
    requires forall i :: 0 <= i < |m2| ==> WellFormed(m2[i])
    requires TryAppendBlockMaps(m1, m2).Some?
    requires |m1| > 0 && |m2| > 0 ==> if FirstGoesLeft(m1, m2) then Meets(m1, m2) else Meets(m2, m1)
    ensures Covered(TryAppendBlockMaps(m1, m2).value, x) <==> Covered(m1, x) || Covered(m2, x)
  {
    if |m1| > 0 && |m2| > 0 {
      if FirstGoesLeft(m1, m2) {
        AppendAsWrittenKeepsCoverage(m1, m2, x);
      } else {
        AppendAsWrittenKeepsCoverage(m2, m1, x);
      }
    }
  }

  // ---------------------------------------------------------------------
  // comp_fblkmap_overlapping / fbm_find_block_mapping

  /**
   * comp_fblkmap_overlapping: 0 when the extents start together or one
   * starts inside the other, otherwise the order of their starts. The
   * last byte is computed in __u64.
   */
  function CompOverlapping(x: Extent, y: Extent): (c: int)
    ensures c == -1 || c == 0 || c == 1
    ensures c == -1 ==> x.logical < y.logical
    ensures c == 1 ==> y.logical < x.logical
  {
    var xe := (x.logical + x.len - 1) % U64_LIMIT;
    var ye := (y.logical + y.len - 1) % U64_LIMIT;
    if x.logical == y.logical then 0
    else if x.logical < y.logical then (if y.logical <= xe then 0 else -1)
    else (if x.logical <= ye then 0 else 1)
  }

  lemma CompAntisymmetric(x: Extent, y: Extent)
    ensures CompOverlapping(x, y) == -CompOverlapping(y, x)
  {
  }

  /** For non-empty extents "compares equal" is exactly "overlaps". */
  lemma CompIsOverlap(x: Extent, y: Extent)
    requires WellFormed(x) && WellFormed(y) && x.len > 0 && y.len > 0
    ensures CompOverlapping(x, y) == 0 <==> x.logical < End(y) && y.logical < End(x)
  {
    SmallMod(x.logical + x.len - 1);
    SmallMod(y.logical + y.len - 1);
  }

  lemma SmallMod(t: int)
    requires 0 <= t < U64_LIMIT
    ensures t % U64_LIMIT == t
  {
  }

  /** The one-byte search key of fbm_find_block_mapping. */
  function Key(start: nat): Extent { Extent(start, 0, 1, 0) }

  lemma KeyMatch(start: nat, e: Extent)
    requires start < U64_LIMIT && WellFormed(e) && e.len > 0
    ensures CompOverlapping(Key(start), e) == 0 <==> Covers(e, start)
    ensures CompOverlapping(Key(start), e) == -1 <==> start < e.logical
  {
    SmallMod(start);
    SmallMod(e.logical + e.len - 1);
  }

  /**
   * fbm_find_block_mapping: bsearch with the overlap comparator and a
   * one-byte key. On a sorted map it finds the extent holding `start`, and
   * answers -1 exactly when there is none (in particular for an empty map).
   */
  method FindBlockMapping(s: seq<Extent>, start: nat) returns (idx: int)
    requires SortedMap(s) && start < U64_LIMIT
    ensures -1 <= idx < |s|
    ensures idx >= 0 ==> Covers(s[idx], start)
    ensures idx == -1 <==> !Covered(s, start)
  {
    if |s| == 0 {
      return -1;
    }
    var lo, hi := 0, |s|;
    while lo < hi
      invariant 0 <= lo <= hi <= |s|
      invariant forall i :: 0 <= i < lo ==> End(s[i]) <= start
      invariant forall i :: hi <= i < |s| ==> start < s[i].logical
    {
      var mid := (lo + hi) / 2;
      var c := CompOverlapping(Key(start), s[mid]);
      KeyMatch(start, s[mid]);
      if c < 0 {
        forall i | mid < i < |s|
          ensures start < s[i].logical
        {
          Ordered(s, mid, i);
        }
        hi := mid;
      } else if c > 0 {
        forall i | 0 <= i < mid
          ensures End(s[i]) <= start
        {
          Ordered(s, i, mid);
        }
        lo := mid + 1;
      } else {
        return mid;
      }
    }
    assert forall i :: 0 <= i < |s| ==> !Covers(s[i], start);
    return -1;
  }
}

=== FILE: filemap.dfy ===
/**
 * Page-cache write helpers of the Xeon Phi kernel (mm/filemap.c): the
 * page count of a byte range, the validation of a user iovec, the
 * iov_iter cursor, the write-limit checks and the write-then-wait
 * sequencing.
 */
module Filemap {
  import opened Common

  const PAGE_CACHE_SHIFT: nat := 12
  const PAGE_CACHE_SIZE: nat := 4096
  /** The largest offset a file opened without O_LARGEFILE may reach. */
  const MAX_NON_LFS: nat := 0x7FFF_FFFF
  /** ssize_t is negative exactly when bit 63 of the size_t is set. */
  const SSIZE_LIMIT: nat := 0x8000_0000_0000_0000

  // ---------------------------------------------------------------------
  // calculate_pages

  /** The pages that bytes [offset, offset + len) of a page-aligned buffer touch. */
  function PagesTouched(len: nat, offset: nat): nat
  {
    if len == 0 then 0 else (offset + len - 1) / PAGE_CACHE_SIZE + 1
  }

  /**
   * calculate_pages: no page for an empty range, one when the range ends in
   * its first page, and otherwise the partial first page, the whole pages
   * and the partial last page. `offset` is the in-page offset every caller
   * computes by masking.
   */
  function CalculatePages(len: nat, offset: nat): (nrpages: nat)
    requires offset < PAGE_CACHE_SIZE
    ensures nrpages == PagesTouched(len, offset)
    ensures len > 0 ==> nrpages >= 1
  {
    if len == 0 then 0
    else if len > PAGE_CACHE_SIZE - offset then
      var first := if offset != 0 then 1 else 0;
      var rest: nat := if offset != 0 then len - (PAGE_CACHE_SIZE - offset) else len;
      // `rest & (PAGE_CACHE_SIZE - 1)` and `rest >> PAGE_CACHE_SHIFT`
      var lastPart := rest % PAGE_CACHE_SIZE;
      var r := first + rest / PAGE_CACHE_SIZE + (if lastPart > 0 then 1 else 0);
      assert r == PagesTouched(len, offset) by {
        PartialPages(len, offset, rest);
      }
      r
    else
      1
  }

  lemma PartialPages(len: nat, offset: nat, rest: nat)
    requires offset < PAGE_CACHE_SIZE && len > PAGE_CACHE_SIZE - offset
    requires rest == if offset != 0 then len - (PAGE_CACHE_SIZE - offset) else len
    ensures (if offset != 0 then 1 else 0) + rest / PAGE_CACHE_SIZE
            + (if rest % PAGE_CACHE_SIZE > 0 then 1 else 0)
            == (offset + len - 1) / PAGE_CACHE_SIZE + 1
  {
    var q := rest / PAGE_CACHE_SIZE;
    var m := rest % PAGE_CACHE_SIZE;
    assert rest == q * PAGE_CACHE_SIZE + m;
    if offset != 0 {
      assert offset + len - 1 == (q + 1) * PAGE_CACHE_SIZE + m - 1;
    } else {
      assert offset + len - 1 == q * PAGE_CACHE_SIZE + m - 1;
    }
  }

  /** Extending a range never needs fewer pages. */
  lemma PagesMonotone(len1: nat, len2: nat, offset: nat)
    requires offset < PAGE_CACHE_SIZE && len1 <= len2
    ensures CalculatePages(len1, offset) <= CalculatePages(len2, offset)
  {
    if len1 > 0 {
      DivMono(offset + len1 - 1, offset + len2 - 1, PAGE_CACHE_SIZE);
    }
  }

  /** The pages cover the range: len bytes after offset fit in them. */
  lemma {:induction false} PagesCover(len: nat, offset: nat)
    requires offset < PAGE_CACHE_SIZE
    ensures len > 0 ==> offset + len <= CalculatePages(len, offset) * PAGE_CACHE_SIZE
    ensures len > 0 ==> (CalculatePages(len, offset) - 1) * PAGE_CACHE_SIZE < offset + len
  {
    if len > 0 {
      DivBounds(offset + len - 1, PAGE_CACHE_SIZE);
    }
  }

  // ---------------------------------------------------------------------
  // generic_segment_checks

  /** A user iovec segment: its length and whether access_ok accepts it. */
  datatype Iovec = Iovec(len: nat, accessible: bool)

  function TotalLen(iov: seq<Iovec>): nat
  {
    if iov == [] then 0 else TotalLen(iov[..|iov| - 1]) + iov[|iov| - 1].len
  }

  lemma TotalLenStep(iov: seq<Iovec>, k: nat)
    requires k < |iov|
    ensures TotalLen(iov[..k + 1]) == TotalLen(iov[..k]) + iov[k].len
  {
    assert iov[..k + 1][..k] == iov[..k];
  }

  lemma {:induction false} TotalLenMonotone(iov: seq<Iovec>, j: nat, k: nat)
    requires j <= k <= |iov|
    ensures TotalLen(iov[..j]) <= TotalLen(iov[..k])
    decreases k - j
  {
    if j < k {
      TotalLenStep(iov, k - 1);
      TotalLenMonotone(iov, j, k - 1);
    }
  }

  /** The index of the first segment access_ok refuses, or |iov|. */
  function FirstInaccessible(iov: seq<Iovec>): (k: nat)
    ensures k <= |iov|
    ensures forall j :: 0 <= j < k ==> iov[j].accessible
    ensures k < |iov| ==> !iov[k].accessible
  {
    if iov == [] then 0
    else if !iov[0].accessible then 0
    else 1 + FirstInaccessible(iov[1..])
  }

  datatype SegCheck = SegCheck(err: int, nrSegs: nat, count: nat)

  /**
   * What generic_segment_checks decides, stated on whole prefixes: the
   * lengths are summed up to and including the first inaccessible segment;
   * a sum reaching 2^63 is -EINVAL, an inaccessible first segment -EFAULT,
   * and otherwise the vector is cut before the first inaccessible segment.
   */
  function SegmentVerdict(iov: seq<Iovec>): SegCheck
  {
    var k := FirstInaccessible(iov);
    if TotalLen(iov[..Scanned(iov)]) >= SSIZE_LIMIT then SegCheck(-EINVAL, |iov|, 0)
    else if k == 0 && |iov| > 0 then SegCheck(-EFAULT, |iov|, 0)
    else SegCheck(0, k, TotalLen(iov[..k]))
  }

  /** The segments whose lengths are summed: up to and including the first inaccessible one. */
  function Scanned(iov: seq<Iovec>): (n: nat)
    ensures FirstInaccessible(iov) <= n <= |iov|
    ensures FirstInaccessible(iov) < |iov| ==> n == FirstInaccessible(iov) + 1
  {
    var k := FirstInaccessible(iov);
    if k < |iov| then k + 1 else k
  }

  /**
   * generic_segment_checks: sums the segment lengths in size_t arithmetic,
   * refuses a sum or a length with bit 63 set, and truncates the vector at
   * the first segment that access_ok refuses. On error nr_segs and count
   * are not written (the returned values are the inputs).
   */
  method SegmentChecks(iov: seq<Iovec>, count: nat) returns (r: SegCheck)
    requires forall j :: 0 <= j < |iov| ==> iov[j].len < U64_LIMIT
    ensures r.err != 0 ==> r.nrSegs == |iov| && r.count == count
    ensures r.err == 0 ==> r == SegmentVerdict(iov)
    ensures r.err == SegmentVerdict(iov).err
  {
    var seg := 0;
    var cnt := 0;
    while seg < |iov|
      invariant seg <= |iov| && seg <= FirstInaccessible(iov)
      invariant cnt == TotalLen(iov[..seg]) < SSIZE_LIMIT
    {
      TotalLenStep(iov, seg);
      cnt := (cnt + iov[seg].len) % U64_LIMIT;
      if cnt >= SSIZE_LIMIT || iov[seg].len >= SSIZE_LIMIT {
        PastLimit(TotalLen(iov[..seg]), iov[seg].len);
        SumPastLimit(iov, seg);
        return SegCheck(-EINVAL, |iov|, count);
      }
      if iov[seg].accessible {
        seg := seg + 1;
        continue;
      }
      if seg == 0 {
        return SegCheck(-EFAULT, |iov|, count);
      }
      cnt := cnt - iov[seg].len;
      return SegCheck(0, seg, cnt);
    }
    return SegCheck(0, seg, cnt);
  }

  /** A prefix sum that reaches 2^63 before the scan stops makes the whole vector invalid. */
  lemma SumPastLimit(iov: seq<Iovec>, seg: nat)
    requires seg < |iov| && seg <= FirstInaccessible(iov)
    requires TotalLen(iov[..seg]) + iov[seg].len >= SSIZE_LIMIT
    ensures SegmentVerdict(iov).err == -EINVAL
  {
    TotalLenStep(iov, seg);
    TotalLenMonotone(iov, seg + 1, Scanned(iov));
  }

  /** A size_t sum of two lengths below 2^63 that reaches 2^63 did not wrap. */
  lemma PastLimit(total: nat, len: nat)
    requires total < SSIZE_LIMIT && len < U64_LIMIT
    requires (total + len) % U64_LIMIT >= SSIZE_LIMIT || len >= SSIZE_LIMIT
    ensures total + len >= SSIZE_LIMIT
  {
    if len < SSIZE_LIMIT {
      SmallMod(total + len);
    }
  }

  lemma SmallMod(t: int)
    requires 0 <= t < U64_LIMIT
    ensures t % U64_LIMIT == t
  {
  }

  /** An accepted vector keeps only accessible segments and their exact total. */
  lemma AcceptedPrefix(iov: seq<Iovec>)
    requires SegmentVerdict(iov).err == 0
    ensures var v := SegmentVerdict(iov);
      v.nrSegs <= |iov| && v.count == TotalLen(iov[..v.nrSegs]) && v.count < SSIZE_LIMIT
      && (forall j :: 0 <= j < v.nrSegs ==> iov[j].accessible)
      && (|iov| > 0 ==> v.nrSegs > 0)
  {
    TotalLenMonotone(iov, FirstInaccessible(iov), Scanned(iov));
  }

  // ---------------------------------------------------------------------
  // iov_iter

  /**
   * struct iov_iter over a vector of segment lengths: `seg` is the segment
   * the iov field designates, `offset` the position inside it, `count`
   * the bytes still to transfer; nr_segs is fixed at initialisation.
   */
  class IovIter {
    const segs: seq<nat>
    const nrSegs: nat
    var seg: nat
    var offset: nat
    var count: nat

    ghost predicate Valid()
      reads this
    {
      nrSegs == |segs| && seg <= |segs|
      && (seg == |segs| ==> offset == 0 && count == 0)
      && (seg < |segs| ==> offset <= segs[seg] && count + offset <= Sum(segs[seg..]))
    }

    /** The byte position of the cursor in the concatenated segments. */
    ghost function Position(): int
      reads this
      requires seg <= |segs|
    {
      Sum(segs[..seg]) + offset
    }

    /**
     * iov_iter_init (the inline of include/linux/fs.h that
     * generic_file_buffered_write calls): the cursor at the start with
     * count + written bytes, then advanced past the written bytes.
     */
    constructor (segs: seq<nat>, count: nat, written: nat)
      requires |segs| > 0 && count + written <= Sum(segs)
      ensures this.segs == segs && nrSegs == |segs|
      ensures Valid()
      ensures this.count == count && Position() == written
    {
      this.segs := segs;
      this.nrSegs := |segs|;
      seg := 0;
      offset := 0;
      this.count := count + written;
      new;
      assert segs[0..] == segs && segs[..0] == [];
      Advance(written);
    }

    /**
     * iov_iter_advance: a single-segment iterator only moves its offset;
     * otherwise the cursor walks the segments, stepping over exhausted and
     * zero-length ones while data remains.
     */
    method Advance(bytes: nat)
      requires Valid() && count >= bytes
      modifies this
      ensures Valid()
      ensures count == old(count) - bytes
      ensures Position() == old(Position()) + bytes
    {
      if nrSegs == 1 {
        offset := offset + bytes;
        count := count - bytes;
        assert segs[..0] == [] && segs[0..] == segs;
        SumSingle(segs);
        return;
      }
      var s: nat := seg;
      var base: nat := offset;
      var left: nat := bytes;
      ghost var moved := 0;
      while left > 0 || (count > 0 && s < |segs| && segs[s] == 0)
        invariant s <= |segs| && left <= count
        invariant s == |segs| ==> base == 0 && count == 0
        invariant s < |segs| ==> base <= segs[s] && count + base <= Sum(segs[s..])
        invariant Sum(segs[..s]) + base == old(Position()) + moved
        invariant count == old(count) - moved && moved == bytes - left
        decreases left + (|segs| - s)
      {
        if s == |segs| {
          assert false;
        }
        var copy := Min(left, segs[s] - base);
        count := count - copy;
        left := left - copy;
        base := base + copy;
        moved := moved + copy;
        if segs[s] == base {
          SumSplit(segs, s);
          s := s + 1;
          base := 0;
          if s == |segs| {
            assert segs[s..] == [];
          }
        }
      }
      seg := s;
      offset := base;
    }

    /**
     * iov_iter_single_seg_count: everything left for a single-segment
     * iterator, otherwise what remains of the current segment, capped by
     * the count.
     */
    function SingleSegCount(): (r: nat)
      reads this
      requires Valid() && seg < |segs|
      ensures r <= count
      ensures nrSegs == 1 ==> r == count
      ensures nrSegs != 1 ==> r + offset <= segs[seg] && (r == count || r + offset == segs[seg])
    {
      if nrSegs == 1 then count else Min(count, segs[seg] - offset)
    }
  }

  lemma SumSingle(s: seq<nat>)
    requires |s| == 1
    ensures Sum(s) == s[0]
  {
    assert s[..0] == [];
  }

  /** Splitting off the first remaining segment. */
  lemma SumSplit(s: seq<nat>, k: nat)
    requires k < |s|
    ensures Sum(s[k..]) == s[k] + Sum(s[k + 1..])
    ensures Sum(s[..k + 1]) == Sum(s[..k]) + s[k]
  {
    assert s[..k + 1][..k] == s[..k];
    SumFront(s[k..]);
    assert s[k..][1..] == s[k + 1..];
  }

  lemma {:induction false} SumFront(s: seq<int>)
    requires |s| > 0
    ensures Sum(s) == s[0] + Sum(s[1..])
    decreases |s|
  {
    if |s| > 1 {
      SumFront(s[..|s| - 1]);
      assert s[..|s| - 1][1..] == s[1..][..|s[1..]| - 1];
    } else {
      assert s[1..] == [];
    }
  }

  // ---------------------------------------------------------------------
  // generic_write_checks

  /** What generic_write_checks reads besides the position and the count. */
  datatype WriteEnv = WriteEnv(
    isBlock: bool,           // the target is a block device
    append: bool,            // O_APPEND
    largeFile: bool,         // O_LARGEFILE
    iSize: nat,              // i_size_read(inode)
    fsizeLimit: Option<nat>, // RLIMIT_FSIZE, None for RLIM_INFINITY
    maxBytes: nat,           // s_maxbytes of the superblock
    readOnly: bool)          // bdev_read_only for a block device

  /** The verdict, the adjusted position and count, and whether SIGXFSZ was sent. */
  datatype WriteCheck = WriteCheck(err: int, pos: int, count: nat, sigxfsz: bool)

  /** RLIMIT_FSIZE where it applies: to a regular file, when not RLIM_INFINITY. */
  function FsizeCap(env: WriteEnv): Option<nat>
  {
    if env.isBlock then None else env.fsizeLimit
  }

  /** MAX_NON_LFS where it applies: to a file opened without O_LARGEFILE. */
  function LfsCap(env: WriteEnv): Option<nat>
  {
    if env.largeFile then None else Some(MAX_NON_LFS)
  }

  /** The count cut to what a limit leaves past pos, when the limit applies. */
  function Cut(c: int, limit: Option<nat>, pos: int): int
  {
    if limit.Some? then Min(c, limit.value - pos) else c
  }

  /**
   * generic_write_checks: a negative position is -EINVAL; a regular file
   * honours O_APPEND, then RLIMIT_FSIZE (-EFBIG at or past it, otherwise
   * the count is cut to it, and SIGXFSZ is sent with -EFBIG); then the
   * non-LFS limit and the size limit follow, as LfsStage and SizeStage.
   * Without wrap-around an accepted count is the count cut to every limit
   * that applies.
   */
  function WriteChecks(pos: int, count: nat, env: WriteEnv): (r: WriteCheck)
    ensures r.err == -EINVAL <==> pos < 0
    ensures r.err == 0 ==> 0 <= r.pos && r.count <= count
    ensures r.err == 0 && !env.isBlock && env.append ==> r.pos == env.iSize
    ensures r.err == 0 && (env.isBlock || !env.append) ==> r.pos == pos
    ensures r.err == 0 && !env.isBlock && env.fsizeLimit.Some? ==> r.pos < env.fsizeLimit.value
    ensures r.err != 0 ==> r.err in {-EINVAL, -EFBIG, -ENOSPC, -EPERM}
    ensures r.sigxfsz <==> pos >= 0 && FsizeCap(env).Some? && r.pos >= FsizeCap(env).value
    ensures r.err == 0 && r.pos + count < U64_LIMIT
            ==> r.count == Cut(Cut(Cut(count, FsizeCap(env), r.pos), LfsCap(env), r.pos), Some(SizeLimit(env)), r.pos)
  {
    if pos < 0 then WriteCheck(-EINVAL, pos, count, false)
    else
      var p: nat := if !env.isBlock && env.append then env.iSize else pos;
      if !env.isBlock && env.fsizeLimit.Some? && p >= env.fsizeLimit.value then
        WriteCheck(-EFBIG, p, count, true)
      else
        var c1: nat := if !env.isBlock && env.fsizeLimit.Some? && count > env.fsizeLimit.value - p
                       then env.fsizeLimit.value - p else count;
        LfsStage(p, c1, env)
  }

  /**
   * The LFS rule: without O_LARGEFILE a write whose size_t end passes
   * MAX_NON_LFS is -EFBIG from at or past that limit and is cut to it
   * otherwise; the size limit follows.
   */
  function LfsStage(p: nat, c1: nat, env: WriteEnv): (r: WriteCheck)
    ensures r.pos == p && r.count <= c1
    ensures r.err != 0 ==> r.err in {-EFBIG, -ENOSPC, -EPERM}
    ensures r.err == 0 && !env.largeFile && p + c1 < U64_LIMIT ==> p + r.count <= MAX_NON_LFS
    ensures !env.largeFile && p >= MAX_NON_LFS && p + c1 < U64_LIMIT && p + c1 > MAX_NON_LFS ==> r.err == -EFBIG
    ensures r.err == 0 && p + c1 < U64_LIMIT ==> r.count == Cut(Cut(c1, LfsCap(env), p), Some(SizeLimit(env)), p)
    ensures !r.sigxfsz
  {
    var over := (p + c1) % U64_LIMIT > MAX_NON_LFS && !env.largeFile;
    if over && p >= MAX_NON_LFS then WriteCheck(-EFBIG, p, c1, false)
    else
      var c2: nat := if over && c1 > MAX_NON_LFS - p then MAX_NON_LFS - p else c1;
      SizeStage(p, c2, env)
  }

  /** The limit a write's end must keep to: the device size or s_maxbytes. */
  function SizeLimit(env: WriteEnv): nat
  {
    if env.isBlock then env.iSize else env.maxBytes
  }

  /**
   * The size limit: s_maxbytes for a file, or the read-only flag and the
   * device size for a block device. At or past the limit only a
   * zero-length write at the limit itself passes; an accepted write whose
   * size_t end passes it is cut to it.
   */
  function SizeStage(p: nat, c2: nat, env: WriteEnv): (r: WriteCheck)
    ensures r.pos == p && r.count <= c2
    ensures r.err != 0 ==> r.err in {-EFBIG, -ENOSPC, -EPERM}
    ensures r.err == 0 && p + c2 < U64_LIMIT ==> p + r.count <= SizeLimit(env)
    ensures r.err == 0 <==> !(env.isBlock && env.readOnly) && !(p >= SizeLimit(env) && (c2 > 0 || p > SizeLimit(env)))
    ensures r.err == 0 && p + c2 < U64_LIMIT ==> r.count == Min(c2, SizeLimit(env) - p)
    ensures !r.sigxfsz
  {
    if !env.isBlock then
      if p >= env.maxBytes && (c2 > 0 || p > env.maxBytes) then WriteCheck(-EFBIG, p, c2, false)
      else
        var c3 := if (p + c2) % U64_LIMIT > env.maxBytes then env.maxBytes - p else c2;
        WriteCheck(0, p, c3, false)
    else if env.readOnly then WriteCheck(-EPERM, p, c2, false)
    else if p >= env.iSize && (c2 > 0 || p > env.iSize) then WriteCheck(-ENOSPC, p, c2, false)
    else
      var c3 := if (p + c2) % U64_LIMIT > env.iSize then env.iSize - p else c2;
      WriteCheck(0, p, c3, false)
  }

  /**
   * For a count that passed generic_segment_checks (below 2^63) and a
   * position that fits loff_t, an accepted write stays within every limit
   * that applies, and a write that already fits is left untouched.
   */
  lemma WriteWithinLimits(pos: int, count: nat, env: WriteEnv)
    requires pos < SSIZE_LIMIT && count < SSIZE_LIMIT && env.iSize < SSIZE_LIMIT
    requires env.maxBytes < SSIZE_LIMIT
    ensures var r := WriteChecks(pos, count, env);
      r.err == 0 ==>
        (!env.isBlock && env.fsizeLimit.Some? ==> r.pos + r.count <= env.fsizeLimit.value)
        && (!env.largeFile ==> r.pos + r.count <= MAX_NON_LFS)
        && (!env.isBlock ==> r.pos + r.count <= env.maxBytes)
        && (env.isBlock ==> r.pos + r.count <= env.iSize)
    ensures var r := WriteChecks(pos, count, env);
      var p := if !env.isBlock && env.append then env.iSize else pos;
      r.err == 0 && p >= 0
      && (env.isBlock || env.fsizeLimit.None? || p + count <= env.fsizeLimit.value)
      && (env.largeFile || p + count <= MAX_NON_LFS)
      && p + count <= (if env.isBlock then env.iSize else env.maxBytes)
      ==> r.count == count
  {
    if pos >= 0 {
      var p: nat := if !env.isBlock && env.append then env.iSize else pos;
      if !(!env.isBlock && env.fsizeLimit.Some? && p >= env.fsizeLimit.value) {
        var c1: nat := if !env.isBlock && env.fsizeLimit.Some? && count > env.fsizeLimit.value - p
                       then env.fsizeLimit.value - p else count;
        assert WriteChecks(pos, count, env) == LfsStage(p, c1, env);
        LfsKeeps(p, c1, env);
      }
    }
  }

  /** A write that already fits both remaining limits passes them whole. */
  lemma LfsKeeps(p: nat, c1: nat, env: WriteEnv)
    requires p + c1 < U64_LIMIT
    ensures var r := LfsStage(p, c1, env);
      r.err == 0 && (env.largeFile || p + c1 <= MAX_NON_LFS)
      && p + c1 <= SizeLimit(env)
      ==> r.count == c1
  {
    if env.largeFile || p + c1 <= MAX_NON_LFS {
      assert LfsStage(p, c1, env) == SizeStage(p, c1, env);
    }
  }

  /** A regular-file write at or past RLIMIT_FSIZE always fails with -EFBIG. */
  lemma PastRlimitRefused(pos: int, count: nat, env: WriteEnv)
    requires !env.isBlock && !env.append && env.fsizeLimit.Some?
    requires pos >= env.fsizeLimit.value
    ensures WriteChecks(pos, count, env).err == -EFBIG
  {
  }

  // ---------------------------------------------------------------------
  // filemap_write_and_wait

  datatype WriteWait = WriteWait(err: int, waited: bool)

  /**
   * filemap_write_and_wait with the outcomes of filemap_fdatawrite and
   * filemap_fdatawait as parameters: nothing happens for a mapping without
   * pages; otherwise the wait is skipped only after -EIO, and the write's
   * error takes precedence over the wait's.
   */
  function WriteAndWait(nrpages: nat, writeErr: int, waitErr: int): (r: WriteWait)
    ensures nrpages == 0 ==> r == WriteWait(0, false)
    ensures r.waited <==> nrpages > 0 && writeErr != -EIO
    ensures nrpages > 0 && writeErr != 0 ==> r.err == writeErr
    ensures nrpages > 0 && writeErr == 0 ==> r.err == waitErr
  {
    if nrpages == 0 then WriteWait(0, false)
    else if writeErr != -EIO then WriteWait(if writeErr == 0 then waitErr else writeErr, true)
    else WriteWait(writeErr, false)
  }
}

=== FILE: kdb_bp.dfy ===
/**
 * The KDB breakpoint table (kdb/kdb_bp.c): sixteen slots, the commands
 * that set a breakpoint (bp, bpa, bph, bpha) and clear, enable or disable
 * one or all of them (bc, be, bd), the installation predicates and the
 * table's first-time initialisation.
 *
 * Argument parsing (kdbgetaddrarg, kdbgetularg), the architecture parser
 * kdba_parsebp and the debug-register allocator kdba_alloc_hwbp are not
 * part of this model: their outcomes are parameters. Freeing a hardware
 * register (kdba_free_hwbp) is modelled as clearing the slot's hardware
 * type. Printing is left out.
 */
module KdbBreakpoints {
  import opened Common

  const KDB_MAXBPT: nat := 16

  // KDB diagnostics, as in the KDB header (only their distinctness matters here).
  const KDB_ARGCOUNT: int := -2
  const KDB_TOOMANYBPT: int := -10
  const KDB_DUPBPT: int := -12
  const KDB_BPTNOTFOUND: int := -13
  const KDB_BADINT: int := -15

  /** One breakpoint slot (kdb_bp_t); `bphFree` is the template's "no hardware register needed" flag. */
  datatype Bp = Bp(addr: nat, enabled: bool, global: bool, forcehw: bool, free: bool,
                   cpu: nat, hardtype: bool, bphFree: bool, delay: bool)

  /** A zeroed slot marked free, as kdb_initbptab leaves every slot. */
  const FreeSlot: Bp := Bp(0, false, false, false, true, 0, false, true, false)

  /** The set commands: "bp" and "bpa" are global, "bph" and "bpha" force a hardware register. */
  datatype SetCmd = CmdBp | CmdBpa | CmdBph | CmdBpha

  /** The slot commands: clear, enable, disable. */
  datatype SlotCmd = CmdBc | CmdBe | CmdBd

  /** Which slots a slot command names: all of them, or a number or address to look up. */
  datatype Target = AllSlots | Numbered(arg: nat)

  /** kdb_is_installable_global_bp */
  predicate InstallableGlobal(bp: Bp)
  {
    bp.enabled && bp.global && !bp.forcehw
  }

  /** kdb_is_installable_local_bp */
  predicate InstallableLocal(bp: Bp, thisCpu: nat)
  {
    bp.enabled && (if bp.forcehw then bp.cpu == thisCpu || bp.global else bp.cpu == thisCpu && !bp.global)
  }

  /**
   * A breakpoint that does not force a hardware register is installed in
   * exactly one way: globally when global, locally on its own cpu when
   * not; a forced one is only ever installed locally.
   */
  lemma InstallableExclusive(bp: Bp, thisCpu: nat)
    ensures !(InstallableGlobal(bp) && InstallableLocal(bp, thisCpu))
    ensures bp.enabled && !bp.forcehw ==> (InstallableGlobal(bp) <==> bp.global)
    ensures bp.enabled && !bp.forcehw ==> (InstallableLocal(bp, thisCpu) <==> !bp.global && bp.cpu == thisCpu)
    ensures bp.forcehw ==> !InstallableGlobal(bp)
  {
  }

  /** An existing breakpoint the new one would clash with. */
  predicate Clashes(existing: Bp, addr: nat, cpu: nat)
  {
    !existing.free && existing.addr == addr && (existing.global || existing.cpu == cpu)
  }

  /** The state a slot command leaves a used slot in, when no hardware allocation fails. */
  function SlotAfter(cmd: SlotCmd, bp: Bp): Bp
  {
    match cmd
    case CmdBc => bp.(enabled := false, global := false, addr := 0, free := true, hardtype := false, delay := false)
    case CmdBe => bp.(enabled := true, hardtype := bp.hardtype || !bp.bphFree)
    case CmdBd => if bp.enabled then bp.(enabled := false, hardtype := false, delay := false) else bp.(delay := false)
  }

  /**
   * Clearing frees the slot, zeroes its address and disables it; enabling
   * enables; disabling disables, and on an already disabled breakpoint
   * changes nothing but the pending single-step flag.
   */
  lemma SlotCommandEffects(bp: Bp)
    ensures var c := SlotAfter(CmdBc, bp); c.free && c.addr == 0 && !c.enabled && !c.global
    ensures SlotAfter(CmdBe, bp).enabled && SlotAfter(CmdBe, bp).addr == bp.addr
    ensures !SlotAfter(CmdBd, bp).enabled && SlotAfter(CmdBd, bp).addr == bp.addr
    ensures !bp.enabled ==> SlotAfter(CmdBd, bp) == bp.(delay := false)
    ensures SlotAfter(CmdBd, SlotAfter(CmdBd, bp)) == SlotAfter(CmdBd, bp)
  {
  }

  /** Enabling needs a hardware register when the slot wants one and has none yet. */
  predicate NeedsHw(cmd: SlotCmd, bp: Bp)
  {
    cmd == CmdBe && !bp.bphFree && !bp.hardtype
  }

  /** A used slot whose enabling needs a register the allocator refuses (`hwDiag` != 0). */
  predicate Refused(cmd: SlotCmd, bp: Bp, hwDiag: int)
  {
    !bp.free && NeedsHw(cmd, bp) && hwDiag != 0
  }

  /** The slots `lo` to `hi` of a slot command: all, the numbered one, or the first with that address. */
  function Range(s: seq<Bp>, t: Target): (r: (nat, nat))
    requires |s| == KDB_MAXBPT
    ensures r.0 <= KDB_MAXBPT && r.1 <= KDB_MAXBPT
    ensures t.AllSlots? ==> r == (0, KDB_MAXBPT)
    ensures t.Numbered? && t.arg < KDB_MAXBPT ==> r == (t.arg, t.arg + 1)
    ensures t.Numbered? && t.arg >= KDB_MAXBPT && r.0 < r.1 ==>
      r.1 == r.0 + 1 && s[r.0].addr == t.arg && forall k :: 0 <= k < r.0 ==> s[k].addr != t.arg
    ensures t.Numbered? && t.arg >= KDB_MAXBPT && r.0 >= r.1 ==> forall k :: 0 <= k < KDB_MAXBPT ==> s[k].addr != t.arg
  {
    match t
    case AllSlots => (0, KDB_MAXBPT)
    case Numbered(a) =>
      if a < KDB_MAXBPT then (a, a + 1)
      else match FirstWithAddr(s, a, 0)
        case Some(i) => (i, i + 1)
        case None => (KDB_MAXBPT, 0)
  }

  /** The first slot at or after `from` holding address `a`. */
  function FirstWithAddr(s: seq<Bp>, a: nat, from: nat): (r: Option<nat>)
    requires from <= |s|
    ensures r.Some? ==> from <= r.value < |s| && s[r.value].addr == a && forall k :: from <= k < r.value ==> s[k].addr != a
    ensures r.None? ==> forall k :: from <= k < |s| ==> s[k].addr != a
    decreases |s| - from
  {
    if from == |s| then None
    else if s[from].addr == a then Some(from)
    else FirstWithAddr(s, a, from + 1)
  }

  /** The table after a slot command has handled slots lo .. k-1 without failure. */
  function Applied(cmd: SlotCmd, s: seq<Bp>, lo: nat, k: nat): (r: seq<Bp>)
    requires k <= |s|
    ensures |r| == |s|
    decreases k
  {
    if k <= lo then s
    else
      var a := Applied(cmd, s, lo, k - 1);
      if s[k - 1].free then a else a[k - 1 := SlotAfter(cmd, s[k - 1])]
  }

  /** Slot j after the command: its new state when used and in range, otherwise as it was. */
  lemma {:induction false} AppliedAt(cmd: SlotCmd, s: seq<Bp>, lo: nat, k: nat, j: nat)
    requires k <= |s| && j < |s|
    ensures Applied(cmd, s, lo, k)[j] == if lo <= j < k && !s[j].free then SlotAfter(cmd, s[j]) else s[j]
    decreases k
  {
    if k > lo {
      AppliedAt(cmd, s, lo, k - 1, j);
    }
  }

  /** One more slot handled: a used slot takes its new state, a free one is skipped. */
  lemma AppliedStep(cmd: SlotCmd, s: seq<Bp>, lo: nat, k: nat)
    requires lo <= k < |s|
    ensures Applied(cmd, s, lo, k + 1) == if s[k].free then Applied(cmd, s, lo, k)
      else Applied(cmd, s, lo, k)[k := SlotAfter(cmd, s[k])]
    ensures Applied(cmd, s, lo, k)[k] == s[k]
  {
    AppliedAt(cmd, s, lo, k, k);
  }

  /** The number of used slots from lo to k-1. */
  function UsedIn(s: seq<Bp>, lo: nat, k: nat): nat
    requires k <= |s|
    decreases k
  {
    if k <= lo then 0 else UsedIn(s, lo, k - 1) + (if s[k - 1].free then 0 else 1)
  }

  /** Whether a used slot among lo .. k-1 has a single-step pending. */
  function DelayedIn(s: seq<Bp>, lo: nat, k: nat): bool
    requires k <= |s|
    decreases k
  {
    if k <= lo then false else DelayedIn(s, lo, k - 1) || (!s[k - 1].free && s[k - 1].delay)
  }

  lemma {:induction false} DelayedInExists(s: seq<Bp>, lo: nat, k: nat)
    requires k <= |s|
    ensures DelayedIn(s, lo, k) <==> exists i :: lo <= i < k && !s[i].free && s[i].delay
    decreases k
  {
    if k > lo {
      DelayedInExists(s, lo, k - 1);
      if !s[k - 1].free && s[k - 1].delay {
        assert lo <= k - 1 < k && !s[k - 1].free && s[k - 1].delay;
      }
    }
  }

  lemma {:induction false} UsedInZero(s: seq<Bp>, lo: nat, k: nat)
    requires k <= |s|
    ensures UsedIn(s, lo, k) == 0 <==> forall i :: lo <= i < k ==> s[i].free
    decreases k
  {
    if k > lo {
      UsedInZero(s, lo, k - 1);
    }
  }

  /** The breakpoint table and the debugger's pending single-step-over-breakpoint state. */
  class BreakpointTable {
    const bps: array<Bp>
    var ssbpt: bool

    ghost predicate Valid()
      reads this
    {
      bps.Length == KDB_MAXBPT
    }

    /** kdb_initbptab: every slot zeroed and free, needing no hardware register. */
    constructor()
      ensures Valid() && fresh(bps) && !ssbpt
      ensures forall i :: 0 <= i < KDB_MAXBPT ==> bps[i] == FreeSlot
    {
      bps := new Bp[KDB_MAXBPT](_ => FreeSlot);
      ssbpt := false;
    }

    /** The allocation scan of kdb_bp: the first free slot, or KDB_MAXBPT when none is. */
    method FindFree() returns (bpno: nat)
      requires Valid()
      ensures bpno <= KDB_MAXBPT
      ensures bpno < KDB_MAXBPT ==> bps[bpno].free
      ensures forall i :: 0 <= i < bpno && i < KDB_MAXBPT ==> !bps[i].free
    {
      bpno := 0;
      while bpno < KDB_MAXBPT
        invariant bpno <= KDB_MAXBPT
        invariant forall i :: 0 <= i < bpno ==> !bps[i].free
      {
        if bps[bpno].free {
          break;
        }
        bpno := bpno + 1;
      }
    }

    /** The clash scan of kdb_bp. */
    method FindClash(addr: nat, cpu: nat) returns (clash: bool)
      requires Valid()
      ensures clash <==> exists i :: 0 <= i < KDB_MAXBPT && Clashes(bps[i], addr, cpu)
    {
      var i := 0;
      while i < KDB_MAXBPT
        invariant i <= KDB_MAXBPT
        invariant forall k :: 0 <= k < i ==> !Clashes(bps[k], addr, cpu)
      {
        if Clashes(bps[i], addr, cpu) {
          return true;
        }
        i := i + 1;
      }
      return false;
    }

    /**
     * kdb_bp: with no argument only displays. Otherwise builds a zeroed
     * template, refuses a zero address, a full table and a clashing
     * breakpoint (compared with the template's cpu, zero after the
     * memset), and fills the first free slot with an enabled breakpoint,
     * on this cpu unless global. A breakpoint needing a hardware register
     * that cannot be had stays in the table disabled.
     *
     * `addrArg` and `parsed` are the diagnostics of the address and
     * architecture parsers (0 for success); `bphFree` is what the latter
     * left in the template; `hwDiag` is the register allocator's.
     */
    method SetBreakpoint(noArgs: bool, cmd: SetCmd, addrArg: int, addr: nat, parsed: int, bphFree: bool,
                         thisCpu: nat, hwDiag: int) returns (diag: int, bpno: nat)
      requires Valid()
      modifies bps
      ensures noArgs || addrArg != 0 || addr == 0 || parsed != 0 ==> bps[..] == old(bps[..])
      ensures noArgs ==> diag == 0
      ensures !noArgs && addrArg != 0 ==> diag == addrArg
      ensures !noArgs && addrArg == 0 && addr == 0 ==> diag == KDB_BADINT
      ensures !noArgs && addrArg == 0 && addr != 0 && (forall i :: 0 <= i < KDB_MAXBPT ==> !old(bps[i]).free) ==>
        diag == KDB_TOOMANYBPT && bps[..] == old(bps[..])
      ensures !noArgs && addrArg == 0 && addr != 0 && (exists i :: 0 <= i < KDB_MAXBPT && old(bps[i]).free) ==>
        bpno < KDB_MAXBPT && old(bps[bpno]).free && (forall i :: 0 <= i < bpno ==> !old(bps[i]).free) &&
        (parsed != 0 ==> diag == parsed) &&
        (parsed == 0 && (exists i :: 0 <= i < KDB_MAXBPT && Clashes(old(bps[i]), addr, 0)) ==>
          diag == KDB_DUPBPT && bps[..] == old(bps[..])) &&
        (parsed == 0 && (forall i :: 0 <= i < KDB_MAXBPT ==> !Clashes(old(bps[i]), addr, 0)) ==>
          bps[..] == old(bps[..])[bpno := NewBp(cmd, addr, bphFree, thisCpu, hwDiag)] &&
          diag == (if !bphFree then hwDiag else 0))
    {
      bpno := 0;
      if noArgs {
        return 0, 0;
      }
      var global := cmd == CmdBpa || cmd == CmdBpha || cmd == CmdBp;
      var forcehw := cmd == CmdBph || cmd == CmdBpha;
      if addrArg != 0 {
        return addrArg, 0;
      }
      if addr == 0 {
        return KDB_BADINT, 0;
      }
      bpno := FindFree();
      if bpno == KDB_MAXBPT {
        return KDB_TOOMANYBPT, bpno;
      }
      if parsed != 0 {
        return parsed, bpno;
      }
      var clash := FindClash(addr, 0);
      if clash {
        return KDB_DUPBPT, bpno;
      }
      var bp := Bp(addr, true, global, forcehw, false, if global then 0 else thisCpu, false, bphFree, false);
      diag := 0;
      if !bphFree {
        if hwDiag != 0 {
          bp := bp.(enabled := false, hardtype := false);
          diag := hwDiag;
        } else {
          bp := bp.(hardtype := true);
        }
      }
      bps[bpno] := bp;
    }

    /**
     * kdb_bc: for "bc", "be" and "bd" with one argument, applies the
     * command to every used slot of the named range and answers
     * KDB_BPTNOTFOUND when the range holds none. Enabling stops at the
     * first slot that needs a hardware register the allocator refuses
     * (`hwDiag[i]`), leaving that slot disabled. A cleared or disabled
     * slot loses its pending single-step, and so does the debugger state:
     * the single-step flag survives "bc" and "bd" only when no used slot
     * of the range had one pending.
     */
    method SlotCommand(cmd: SlotCmd, argc: int, argDiag: int, t: Target, hwDiag: seq<int>) returns (diag: int)
      requires Valid() && |hwDiag| == KDB_MAXBPT
      modifies bps, this
      ensures argc != 1 || argDiag != 0 ==> bps[..] == old(bps[..]) && ssbpt == old(ssbpt)
      ensures argc != 1 ==> diag == KDB_ARGCOUNT
      ensures argc == 1 && argDiag != 0 ==> diag == argDiag
      ensures argc == 1 && argDiag == 0 ==>
        var (lo, hi) := Range(old(bps[..]), t);
        var f := FirstRefused(cmd, old(bps[..]), hwDiag, lo, hi);
        ssbpt == (old(ssbpt) && !(cmd != CmdBe && DelayedIn(old(bps[..]), lo, hi))) &&
        (f == hi ==> bps[..] == Applied(cmd, old(bps[..]), lo, hi) &&
                     diag == (if UsedIn(old(bps[..]), lo, hi) == 0 then KDB_BPTNOTFOUND else 0)) &&
        (f < hi ==> diag == hwDiag[f] &&
                    bps[..] == Applied(cmd, old(bps[..]), lo, f)[f := old(bps[f]).(enabled := false, hardtype := false)])
    {
      if argc != 1 {
        return KDB_ARGCOUNT;
      }
      if argDiag != 0 {
        return argDiag;
      }
      var r := Range(bps[..], t);
      diag := ApplyRange(cmd, r.0, r.1, hwDiag);
    }

    /** The loop of kdb_bc over the slots lo .. hi-1. */
    method ApplyRange(cmd: SlotCmd, lo: nat, hi: nat, hwDiag: seq<int>) returns (diag: int)
      requires Valid() && |hwDiag| == KDB_MAXBPT && lo <= KDB_MAXBPT && hi <= KDB_MAXBPT
      modifies bps, this
      ensures ssbpt == (old(ssbpt) && !(cmd != CmdBe && DelayedIn(old(bps[..]), lo, hi)))
      ensures var f := FirstRefused(cmd, old(bps[..]), hwDiag, lo, hi);
        (f == hi ==> bps[..] == Applied(cmd, old(bps[..]), lo, hi) &&
                     diag == (if UsedIn(old(bps[..]), lo, hi) == 0 then KDB_BPTNOTFOUND else 0)) &&
        (f < hi ==> diag == hwDiag[f] &&
                    bps[..] == Applied(cmd, old(bps[..]), lo, f)[f := old(bps[f]).(enabled := false, hardtype := false)])
    {
      ghost var s := bps[..];
      var done := 0;
      var i := lo;
      while i < hi
        invariant lo <= i && (i <= hi || i == lo)
        invariant bps[..] == Applied(cmd, s, lo, i)
        invariant done == UsedIn(s, lo, i)
        invariant ssbpt == (old(ssbpt) && !(cmd != CmdBe && DelayedIn(s, lo, i)))
        invariant FirstRefused(cmd, s, hwDiag, lo, hi) == FirstRefused(cmd, s, hwDiag, i, hi)
      {
        var bp := bps[i];
        SlotStep(cmd, s, hwDiag, lo, i, hi);
        if !bp.free {
          done := done + 1;
          if Refused(cmd, bp, hwDiag[i]) {
            bps[i] := bp.(enabled := false, hardtype := false);
            return hwDiag[i];
          }
          ghost var before := bps[..];
          bps[i] := SlotAfter(cmd, bp);
          assert bps[..] == before[i := SlotAfter(cmd, bp)];
          if bp.delay && (cmd == CmdBc || cmd == CmdBd) {
            ssbpt := false;
          }
        }
        i := i + 1;
      }
      UsedInZero(s, lo, hi);
      diag := if done == 0 then KDB_BPTNOTFOUND else 0;
    }
  }

  /** The first slot from lo to hi-1 whose enabling is refused a register, or hi. */
  function FirstRefused(cmd: SlotCmd, s: seq<Bp>, hwDiag: seq<int>, lo: nat, hi: nat): (f: nat)
    requires hi <= |s| == |hwDiag|
    ensures lo <= hi ==> lo <= f <= hi
    ensures f < hi ==> lo <= f && Refused(cmd, s[f], hwDiag[f])
    ensures forall g :: lo <= g < f && g < hi ==> !Refused(cmd, s[g], hwDiag[g])
    decreases hi - lo
  {
    if lo >= hi then hi
    else if Refused(cmd, s[lo], hwDiag[lo]) then lo
    else FirstRefused(cmd, s, hwDiag, lo + 1, hi)
  }

  /** What one more slot of the kdb_bc loop adds to each of its running summaries. */
  lemma SlotStep(cmd: SlotCmd, s: seq<Bp>, hwDiag: seq<int>, lo: nat, i: nat, hi: nat)
    requires lo <= i < hi <= |s| == |hwDiag|
    ensures Applied(cmd, s, lo, i)[i] == s[i]
    ensures Applied(cmd, s, lo, i + 1) == if s[i].free then Applied(cmd, s, lo, i)
      else Applied(cmd, s, lo, i)[i := SlotAfter(cmd, s[i])]
    ensures UsedIn(s, lo, i + 1) == UsedIn(s, lo, i) + (if s[i].free then 0 else 1)
    ensures DelayedIn(s, lo, i + 1) == (DelayedIn(s, lo, i) || (!s[i].free && s[i].delay))
    ensures FirstRefused(cmd, s, hwDiag, i, hi)
            == if Refused(cmd, s[i], hwDiag[i]) then i else FirstRefused(cmd, s, hwDiag, i + 1, hi)
  {
    AppliedStep(cmd, s, lo, i);
  }

  lemma FirstRefusedSkip(cmd: SlotCmd, s: seq<Bp>, hwDiag: seq<int>, i: nat, hi: nat)
    requires i < hi <= |s| == |hwDiag| && !Refused(cmd, s[i], hwDiag[i])
    ensures FirstRefused(cmd, s, hwDiag, i, hi) == FirstRefused(cmd, s, hwDiag, i + 1, hi)
  {
  }

  /** The slot kdb_bp fills: enabled unless a needed hardware register was refused. */
  function NewBp(cmd: SetCmd, addr: nat, bphFree: bool, thisCpu: nat, hwDiag: int): Bp
  {
    var global := cmd == CmdBpa || cmd == CmdBpha || cmd == CmdBp;
    var forcehw := cmd == CmdBph || cmd == CmdBpha;
    var failed := !bphFree && hwDiag != 0;
    Bp(addr, !failed, global, forcehw, false, if global then 0 else thisCpu, !bphFree && hwDiag == 0, bphFree, false)
  }

  /**
   * The slot kdb_bp fills is used, holds the address, is global for bp,
   * bpa and bpha and otherwise local to the calling cpu.
   */
  lemma NewBpProperties(cmd: SetCmd, addr: nat, bphFree: bool, thisCpu: nat, hwDiag: int)
    ensures var b := NewBp(cmd, addr, bphFree, thisCpu, hwDiag);
      !b.free && b.addr == addr && (b.global <==> cmd != CmdBph) &&
      (!b.global ==> b.cpu == thisCpu) && (b.enabled <==> bphFree || hwDiag == 0)
  {
  }
}

=== FILE: kdbprivate.dfy ===
/**
 * Bit-field macros for the x86 debug-control register DR7
 * (arch/x86/include/asm/kdbprivate.h). The register variable is a
 * `kdb_machreg_t`, an unsigned long of 64 bits on x86-64.
 *
 * The C macros compute their masks in the 32-bit `int` type and then widen
 * them to 64 bits with sign extension. `CFieldSet` models that arithmetic as
 * written; `FieldSet` is the intended 64-bit update, which the rest of the
 * model uses.
 */
module KdbPrivate {
  type Reg = bv64

  /** Bit position of the two-bit R/W field of debug register `drnum`. */
  function RwShift(drnum: bv64): bv64
    requires drnum < 4
  {
    16 + 4 * drnum
  }

  /** Bit position of the two-bit LEN field of debug register `drnum`. */
  function LenShift(drnum: bv64): bv64
    requires drnum < 4
  {
    18 + 4 * drnum
  }

  /** Widening of a C `int` bit pattern to `unsigned long`: sign extension. */
  function SignExtend(x: bv32): bv64
  {
    if x & 0x8000_0000 != 0 then (x as bv64) | 0xFFFF_FFFF_0000_0000 else x as bv64
  }

  /** Reads the two-bit field at `shift`: DR7_RW_VAL / DR7_LEN_VAL. */
  function FieldVal(dr: Reg, shift: bv64): (v: Reg)
    requires shift <= 62
    ensures v < 4
  {
    (dr >> shift) & 3
  }

  /** The two-bit field update DR7_RW_SET / DR7_LEN_SET in 64-bit arithmetic. */
  function FieldSet(dr: Reg, shift: bv64, v: Reg): (r: Reg)
    requires shift <= 62
  {
    (dr & !(3 << shift)) | ((v & 3) << shift)
  }

  /**
   * The same update as the macro is written: `0x3 << shift` and
   * `(v & 0x3) << shift` are `int` expressions, whose 32-bit results are
   * sign-extended when they are combined with the 64-bit register.
   */
  function CFieldSet(dr: Reg, shift: bv64, v: bv32): Reg
    requires shift <= 30
  {
    (dr & SignExtend(!((3 as bv32) << shift))) | SignExtend((v & 3) << shift)
  }

  /** DR7_RW_VAL */
  function RwVal(dr: Reg, drnum: bv64): (v: Reg)
    requires drnum < 4
    ensures v < 4
  {
    FieldVal(dr, RwShift(drnum))
  }

  /** DR7_RW_SET: the R/W field holds the two low bits of rw; no other bit changes. */
  function RwSet(dr: Reg, drnum: bv64, rw: Reg): (r: Reg)
    requires drnum < 4
    ensures FieldVal(r, RwShift(drnum)) == rw & 3
    ensures r & !(3 << RwShift(drnum)) == dr & !(3 << RwShift(drnum))
  {
    FieldSetThenVal(dr, RwShift(drnum), rw);
    FieldSetFrame(dr, RwShift(drnum), rw);
    FieldSet(dr, RwShift(drnum), rw)
  }

  /** DR7_LEN_VAL */
  function LenVal(dr: Reg, drnum: bv64): (v: Reg)
    requires drnum < 4
    ensures v < 4
  {
    FieldVal(dr, LenShift(drnum))
  }

  /** DR7_LEN_SET (the intended 64-bit update): the LEN field holds len & 3; no other bit changes. */
  function LenSet(dr: Reg, drnum: bv64, len: Reg): (r: Reg)
    requires drnum < 4
    ensures FieldVal(r, LenShift(drnum)) == len & 3
    ensures r & !(3 << LenShift(drnum)) == dr & !(3 << LenShift(drnum))
  {
    FieldSetThenVal(dr, LenShift(drnum), len);
    FieldSetFrame(dr, LenShift(drnum), len);
    FieldSet(dr, LenShift(drnum), len)
  }

  /** Reading a field back after setting it yields the two low bits written. */
  lemma FieldSetThenVal(dr: Reg, shift: bv64, v: Reg)
    requires shift <= 62
    ensures FieldVal(FieldSet(dr, shift, v), shift) == v & 3
  {
  }

  /** Setting a field leaves every bit outside that field unchanged. */
  lemma FieldSetFrame(dr: Reg, shift: bv64, v: Reg)
    requires shift <= 62
    ensures FieldSet(dr, shift, v) & !(3 << shift) == dr & !(3 << shift)
  {
  }

  lemma RwSetThenVal(dr: Reg, drnum: bv64, rw: Reg)
    requires drnum < 4
    ensures RwVal(RwSet(dr, drnum, rw), drnum) == rw & 3
    ensures LenVal(RwSet(dr, drnum, rw), drnum) == LenVal(dr, drnum)
  {
    FieldSetThenVal(dr, RwShift(drnum), rw);
  }

  lemma LenSetThenVal(dr: Reg, drnum: bv64, len: Reg)
    requires drnum < 4
    ensures LenVal(LenSet(dr, drnum, len), drnum) == len & 3
    ensures RwVal(LenSet(dr, drnum, len), drnum) == RwVal(dr, drnum)
  {
    FieldSetThenVal(dr, LenShift(drnum), len);
  }

  /** Setting the R/W field of one debug register leaves the fields of another alone. */
  lemma RwSetLeavesOtherRegisters(dr: Reg, drnum: bv64, m: bv64, v: Reg)
    requires drnum < 4 && m < 4 && m != drnum
    ensures RwVal(RwSet(dr, drnum, v), m) == RwVal(dr, m)
    ensures LenVal(RwSet(dr, drnum, v), m) == LenVal(dr, m)
  {
    FieldSetOther(dr, RwShift(drnum), RwShift(m), v);
    FieldSetOther(dr, RwShift(drnum), LenShift(m), v);
  }

  /** Setting the LEN field of one debug register leaves the fields of another alone. */
  lemma LenSetLeavesOtherRegisters(dr: Reg, drnum: bv64, m: bv64, v: Reg)
    requires drnum < 4 && m < 4 && m != drnum
    ensures RwVal(LenSet(dr, drnum, v), m) == RwVal(dr, m)
    ensures LenVal(LenSet(dr, drnum, v), m) == LenVal(dr, m)
  {
    FieldSetOther(dr, LenShift(drnum), RwShift(m), v);
    FieldSetOther(dr, LenShift(drnum), LenShift(m), v);
  }

  /** Two distinct two-bit fields at even positions do not overlap. */
  lemma FieldSetOther(dr: Reg, shift: bv64, other: bv64, v: Reg)
    requires 16 <= shift <= 30 && 16 <= other <= 30
    requires shift & 1 == 0 && other & 1 == 0 && shift != other
    ensures FieldVal(FieldSet(dr, shift, v), other) == FieldVal(dr, other)
  {
  }

  /**
   * DR7_RW_SET as written. Every R/W field lies below bit 30, so the int
   * masks agree with the 64-bit update.
   */
  function CRwSet(dr: Reg, drnum: bv64, rw: bv32): (r: Reg)
    requires drnum < 4
    ensures r == RwSet(dr, drnum, rw as bv64)
  {
    CFieldSetAgrees(dr, RwShift(drnum), rw);
    CFieldSet(dr, RwShift(drnum), rw)
  }

  /**
   * DR7_LEN_SET as written: it agrees with the 64-bit update for the LEN
   * fields of DR0-DR2, which lie below bit 30.
   */
  function CLenSet(dr: Reg, drnum: bv64, len: bv32): (r: Reg)
    requires drnum < 4
    ensures drnum < 3 ==> r == LenSet(dr, drnum, len as bv64)
  {
    if drnum < 3 then
      CFieldSetAgrees(dr, LenShift(drnum), len);
      CFieldSet(dr, LenShift(drnum), len)
    else CFieldSet(dr, LenShift(drnum), len)
  }

  /** Below bit 30 the sign extension of the int masks is harmless. */
  lemma CFieldSetAgrees(dr: Reg, shift: bv64, v: bv32)
    requires 16 <= shift <= 28 && shift & 1 == 0
    ensures CFieldSet(dr, shift, v) == FieldSet(dr, shift, v as bv64)
  {
    if shift == 16 {
    } else if shift == 18 {
    } else if shift == 20 {
    } else if shift == 22 {
    } else if shift == 24 {
    } else if shift == 26 {
    } else {
    }
  }

  /**
   * For the LEN field of DR3 (bit 30) the macro as written clears bits
   * 32-63 of the register and, for a length code of 2 or 3, sets them all.
   */
  lemma CLen3SetDiffers()
    ensures CLenSet(0, 3, 3) == 0xFFFF_FFFF_C000_0000
    ensures LenSet(0, 3, 3) == 0xC000_0000
    ensures CLenSet(0x1_0000_0000, 3, 0) == 0
    ensures LenSet(0x1_0000_0000, 3, 0) == 0x1_0000_0000
  {
  }

  /** Bit of the global-enable flag Gn and of the local-enable flag Ln. */
  function GBit(n: bv64): Reg requires n < 4 { 1 << (2 * n + 1) }
  function LBit(n: bv64): Reg requires n < 4 { 1 << (2 * n) }

  /** DR7_Gn: the global-enable flag of debug register n. */
  function G(dr: Reg, n: bv64): (b: Reg)
    requires n < 4
    ensures b == 1 <==> dr & GBit(n) != 0
    ensures b <= 1
  {
    (dr >> (2 * n + 1)) & 1
  }

  /** DR7_Ln: the local-enable flag of debug register n. */
  function L(dr: Reg, n: bv64): (b: Reg)
    requires n < 4
    ensures b == 1 <==> dr & LBit(n) != 0
    ensures b <= 1
  {
    (dr >> (2 * n)) & 1
  }

  /*
   * Each SET/CLR macro makes the matching read give 1/0 and changes no
   * bit but the one it names.
   */

  /** DR7_GSET */
  function GSet(dr: Reg, n: bv64): (r: Reg)
    requires n < 4
    ensures G(r, n) == 1 && (r ^ dr) & !GBit(n) == 0
  {
    dr | GBit(n)
  }

  /** DR7_GCLR */
  function GClr(dr: Reg, n: bv64): (r: Reg)
    requires n < 4
    ensures G(r, n) == 0 && (r ^ dr) & !GBit(n) == 0
  {
    dr & !GBit(n)
  }

  /** DR7_LSET */
  function LSet(dr: Reg, n: bv64): (r: Reg)
    requires n < 4
    ensures L(r, n) == 1 && (r ^ dr) & !LBit(n) == 0
  {
    dr | LBit(n)
  }

  /** DR7_LCLR */
  function LClr(dr: Reg, n: bv64): (r: Reg)
    requires n < 4
    ensures L(r, n) == 0 && (r ^ dr) & !LBit(n) == 0
  {
    dr & !LBit(n)
  }
}

=== FILE: knc_governor.dfy ===
/**
 * The Knights Corner cpufreq governor (drivers/cpufreq/cpufreq_knc_governor.c):
 * sysfs stores that validate and clamp the tunables, and the periodic
 * check that turns the highest per-cpu load into a frequency request.
 *
 * The sysfs text is taken already parsed: `None` stands for a string
 * sscanf("%u") does not accept. Idle and wall-clock counters are passed in.
 */
module KncGovernor {
  import opened Common

  const DEF_FREQUENCY_TDP_THRESHOLD: nat := 80
  const DEF_FREQUENCY_TDP_DIFFERENTIAL: nat := 3
  const DEF_FREQUENCY_DOWN_DIFFERENTIAL: nat := 3
  const DEF_FREQ_STEP: nat := 5

  /** How the cpufreq core rounds a requested frequency to a table entry. */
  datatype Relation = RelationH | RelationL

  /** The outcome of one check: leave the frequency alone, or request one. */
  datatype Decision = Keep | Request(freq: nat, relation: Relation)

  /** One cpu's counters since the previous check, truncated to 32 bits. */
  datatype Sample = Sample(wall: nat, idle: nat)

  /** A sample counts unless no time passed or more idle than wall time was seen. */
  predicate Counted(s: Sample)
  {
    s.wall != 0 && s.wall >= s.idle
  }

  /** Busy percentage of a counted sample, in 32-bit unsigned arithmetic. */
  function Load(s: Sample): (r: nat)
    requires Counted(s)
    ensures r < U32_LIMIT
    ensures s.idle == s.wall ==> r == 0
  {
    var busy := (100 * (s.wall - s.idle)) % U32_LIMIT;
    DivMono(0, busy, s.wall);
    busy / s.wall
  }

  /** Without wrap-around the load is a percentage. */
  lemma LoadIsPercentage(s: Sample)
    requires Counted(s) && 100 * (s.wall - s.idle) < U32_LIMIT
    ensures Load(s) <= 100
    ensures s.idle == 0 ==> Load(s) == 100
    ensures s.idle == s.wall ==> Load(s) == 0
  {
    DivBelow(100, s.wall - s.idle, s.wall);
    if s.idle == 0 {
      MulDivCancel(100, s.wall);
      assert 100 * s.wall == s.wall * 100;
    }
  }

  /** The highest load among the counted samples, 0 when none counts. */
  function MaxCountedLoad(samples: seq<Sample>): nat
  {
    if samples == [] then 0
    else
      var last := samples[|samples| - 1];
      var rest := MaxCountedLoad(samples[..|samples| - 1]);
      if Counted(last) && Load(last) > rest then Load(last) else rest
  }

  /** MaxCountedLoad bounds every counted load and is one of them, or 0. */
  lemma {:induction false} MaxCountedLoadIsMax(samples: seq<Sample>)
    ensures forall k :: 0 <= k < |samples| && Counted(samples[k]) ==> Load(samples[k]) <= MaxCountedLoad(samples)
    ensures MaxCountedLoad(samples) == 0 ||
      exists k :: 0 <= k < |samples| && Counted(samples[k]) && Load(samples[k]) == MaxCountedLoad(samples)
  {
    if samples != [] {
      var init := samples[..|samples| - 1];
      MaxCountedLoadIsMax(init);
      assert forall k :: 0 <= k < |init| ==> init[k] == samples[k];
    }
  }

  /** The load loop of dbs_check_cpu. */
  method MaxLoad(samples: seq<Sample>) returns (maxLoad: nat)
    ensures maxLoad == MaxCountedLoad(samples)
  {
    maxLoad := 0;
    var j := 0;
    while j < |samples|
      invariant 0 <= j <= |samples|
      invariant maxLoad == MaxCountedLoad(samples[..j])
    {
      assert samples[..j + 1][..j] == samples[..j];
      var s := samples[j];
      if !Counted(s) {
        j := j + 1;
        continue;
      }
      var load := Load(s);
      if load > maxLoad {
        maxLoad := load;
      }
      j := j + 1;
    }
    assert samples[..j] == samples;
  }

  /** The governor's tunables (dbs_tuners_ins) and the per-cpu counters of the last check. */
  class Tuners {
    var samplingRate: nat
    var ignoreNice: nat
    var freqStep: nat
    var tdpThreshold: nat
    var tdpDifferential: nat
    var downDifferential: nat
    var turboMode: nat
    var overclocking: nat
    var prevCpuWall: seq<nat>
    var prevCpuIdle: seq<nat>

    /**
     * The stores keep the down differential below the threshold and the
     * threshold at most 100, so the lowering rule never divides by zero.
     */
    ghost predicate Valid()
      reads this
    {
      downDifferential < tdpThreshold <= 100 && |prevCpuWall| == |prevCpuIdle|
    }

    constructor(ncpus: nat)
      ensures Valid()
      ensures samplingRate == 0 && ignoreNice == 0 && freqStep == DEF_FREQ_STEP
      ensures tdpThreshold == DEF_FREQUENCY_TDP_THRESHOLD && tdpDifferential == DEF_FREQUENCY_TDP_DIFFERENTIAL
      ensures downDifferential == DEF_FREQUENCY_DOWN_DIFFERENTIAL && turboMode == 0 && overclocking == 0
      ensures prevCpuWall == seq(ncpus, _ => 0) && prevCpuIdle == seq(ncpus, _ => 0)
    {
      samplingRate, ignoreNice, freqStep := 0, 0, DEF_FREQ_STEP;
      tdpThreshold, tdpDifferential := DEF_FREQUENCY_TDP_THRESHOLD, DEF_FREQUENCY_TDP_DIFFERENTIAL;
      downDifferential, turboMode, overclocking := DEF_FREQUENCY_DOWN_DIFFERENTIAL, 0, 0;
      prevCpuWall, prevCpuIdle := seq(ncpus, _ => 0), seq(ncpus, _ => 0);
    }

    /** store_sampling_rate: never below the driver's minimum. */
    method StoreSamplingRate(input: Option<nat>, minSamplingRate: nat, count: int) returns (ret: int)
      requires Valid()
      modifies this
      ensures Valid()
      ensures input.None? ==> ret == -EINVAL && samplingRate == old(samplingRate)
      ensures input.Some? ==> ret == count && samplingRate == Max(input.value, minSamplingRate)
      ensures ignoreNice == old(ignoreNice) && freqStep == old(freqStep) && tdpThreshold == old(tdpThreshold)
      ensures tdpDifferential == old(tdpDifferential) && downDifferential == old(downDifferential)
      ensures turboMode == old(turboMode) && overclocking == old(overclocking)
      ensures prevCpuWall == old(prevCpuWall) && prevCpuIdle == old(prevCpuIdle)
    {
      if input.None? {
        return -EINVAL;
      }
      samplingRate := Max(input.value, minSamplingRate);
      return count;
    }

    /** store_tdp_threshold: accepts a threshold above the down differential and at most 100. */
    method StoreTdpThreshold(input: Option<nat>, count: int) returns (ret: int)
      requires Valid()
      modifies this
      ensures Valid()
      ensures var ok := input.Some? && input.value <= 100 && input.value > old(downDifferential);
        (ok ==> ret == count && tdpThreshold == input.value) &&
        (!ok ==> ret == -EINVAL && tdpThreshold == old(tdpThreshold))
      ensures samplingRate == old(samplingRate) && ignoreNice == old(ignoreNice) && freqStep == old(freqStep)
      ensures tdpDifferential == old(tdpDifferential) && downDifferential == old(downDifferential)
      ensures turboMode == old(turboMode) && overclocking == old(overclocking)
      ensures prevCpuWall == old(prevCpuWall) && prevCpuIdle == old(prevCpuIdle)
    {
      if input.None? || input.value > 100 || input.value <= downDifferential {
        return -EINVAL;
      }
      tdpThreshold := input.value;
      return count;
    }

    /** store_down_differential: accepts a differential below the threshold and at most 100. */
    method StoreDownDifferential(input: Option<nat>, count: int) returns (ret: int)
      requires Valid()
      modifies this
      ensures Valid()
      ensures var ok := input.Some? && input.value <= 100 && input.value < old(tdpThreshold);
        (ok ==> ret == count && downDifferential == input.value) &&
        (!ok ==> ret == -EINVAL && downDifferential == old(downDifferential))
      ensures samplingRate == old(samplingRate) && ignoreNice == old(ignoreNice) && freqStep == old(freqStep)
      ensures tdpThreshold == old(tdpThreshold) && tdpDifferential == old(tdpDifferential)
      ensures turboMode == old(turboMode) && overclocking == old(overclocking)
      ensures prevCpuWall == old(prevCpuWall) && prevCpuIdle == old(prevCpuIdle)
    {
      if input.None? || input.value > 100 || input.value >= tdpThreshold {
        return -EINVAL;
      }
      downDifferential := input.value;
      return count;
    }

    /** store_tdp_differential: clamped so threshold plus differential stays within 100. */
    method StoreTdpDifferential(input: Option<nat>, count: int) returns (ret: int)
      requires Valid()
      modifies this
      ensures Valid()
      ensures input.None? ==> ret == -EINVAL && tdpDifferential == old(tdpDifferential)
      ensures input.Some? ==> ret == count && tdpDifferential == Min(input.value, 100 - tdpThreshold)
      ensures input.Some? ==> tdpThreshold + tdpDifferential <= 100
      ensures samplingRate == old(samplingRate) && ignoreNice == old(ignoreNice) && freqStep == old(freqStep)
      ensures tdpThreshold == old(tdpThreshold) && downDifferential == old(downDifferential)
      ensures turboMode == old(turboMode) && overclocking == old(overclocking)
      ensures prevCpuWall == old(prevCpuWall) && prevCpuIdle == old(prevCpuIdle)
    {
      if input.None? {
        return -EINVAL;
      }
      var v := input.value;
      if v > 100 - tdpThreshold {
        v := 100 - tdpThreshold;
      }
      tdpDifferential := v;
      return count;
    }

    /**
     * store_ignore_nice_load: clamped to 1; a change re-reads every cpu's
     * idle and wall counters (`idleNow`, `wallNow`) as the new baseline.
     */
    method StoreIgnoreNiceLoad(input: Option<nat>, idleNow: seq<nat>, wallNow: seq<nat>, count: int) returns (ret: int)
      requires Valid() && |idleNow| == |wallNow| == |prevCpuIdle|
      modifies this
      ensures Valid()
      ensures input.None? ==> ret == -EINVAL && ignoreNice == old(ignoreNice)
      ensures input.Some? ==> ret == count && ignoreNice == Min(input.value, 1)
      ensures input.Some? && Min(input.value, 1) != old(ignoreNice) ==> prevCpuIdle == idleNow && prevCpuWall == wallNow
      ensures input.None? || Min(input.value, 1) == old(ignoreNice) ==>
        prevCpuIdle == old(prevCpuIdle) && prevCpuWall == old(prevCpuWall)
      ensures samplingRate == old(samplingRate) && freqStep == old(freqStep) && tdpThreshold == old(tdpThreshold)
      ensures tdpDifferential == old(tdpDifferential) && downDifferential == old(downDifferential)
      ensures turboMode == old(turboMode) && overclocking == old(overclocking)
    {
      if input.None? {
        return -EINVAL;
      }
      var v := Min(input.value, 1);
      if v == ignoreNice {
        return count;
      }
      ignoreNice := v;
      var j := 0;
      while j < |prevCpuIdle|
        invariant 0 <= j <= |prevCpuIdle| == |prevCpuWall| == |idleNow|
        invariant prevCpuIdle[..j] == idleNow[..j] && prevCpuWall[..j] == wallNow[..j]
        invariant prevCpuIdle[j..] == old(prevCpuIdle)[j..] && prevCpuWall[j..] == old(prevCpuWall)[j..]
        invariant ignoreNice == v && samplingRate == old(samplingRate) && freqStep == old(freqStep)
        invariant tdpThreshold == old(tdpThreshold) && tdpDifferential == old(tdpDifferential)
        invariant downDifferential == old(downDifferential)
        invariant turboMode == old(turboMode) && overclocking == old(overclocking)
      {
        prevCpuIdle := prevCpuIdle[j := idleNow[j]];
        prevCpuWall := prevCpuWall[j := wallNow[j]];
        j := j + 1;
      }
      assert prevCpuIdle == prevCpuIdle[..j] && prevCpuWall == prevCpuWall[..j];
      return count;
    }

    /** store_freq_step: clamped to 100 percent; zero is allowed. */
    method StoreFreqStep(input: Option<nat>, count: int) returns (ret: int)
      requires Valid()
      modifies this
      ensures Valid()
      ensures input.None? ==> ret == -EINVAL && freqStep == old(freqStep)
      ensures input.Some? ==> ret == count && freqStep == Min(input.value, 100)
      ensures samplingRate == old(samplingRate) && ignoreNice == old(ignoreNice) && tdpThreshold == old(tdpThreshold)
      ensures tdpDifferential == old(tdpDifferential) && downDifferential == old(downDifferential)
      ensures turboMode == old(turboMode) && overclocking == old(overclocking)
      ensures prevCpuWall == old(prevCpuWall) && prevCpuIdle == old(prevCpuIdle)
    {
      if input.None? {
        return -EINVAL;
      }
      freqStep := Min(input.value, 100);
      return count;
    }

    /**
     * store_turbo_mode: stores without checking the parse, so an
     * unparsable string stores whatever the uninitialised input held
     * (`unparsed`).
     */
    method StoreTurboMode(input: Option<nat>, unparsed: nat, count: int) returns (ret: int)
      requires Valid()
      modifies this
      ensures Valid() && ret == count
      ensures turboMode == if input.Some? then input.value else unparsed
      ensures samplingRate == old(samplingRate) && ignoreNice == old(ignoreNice) && freqStep == old(freqStep)
      ensures tdpThreshold == old(tdpThreshold) && tdpDifferential == old(tdpDifferential)
      ensures downDifferential == old(downDifferential) && overclocking == old(overclocking)
      ensures prevCpuWall == old(prevCpuWall) && prevCpuIdle == old(prevCpuIdle)
    {
      turboMode := if input.Some? then input.value else unparsed;
      return count;
    }

    /** store_overclocking: as store_turbo_mode, for the overclocking switch. */
    method StoreOverclocking(input: Option<nat>, unparsed: nat, count: int) returns (ret: int)
      requires Valid()
      modifies this
      ensures Valid() && ret == count
      ensures overclocking == if input.Some? then input.value else unparsed
      ensures samplingRate == old(samplingRate) && ignoreNice == old(ignoreNice) && freqStep == old(freqStep)
      ensures tdpThreshold == old(tdpThreshold) && tdpDifferential == old(tdpDifferential)
      ensures downDifferential == old(downDifferential) && turboMode == old(turboMode)
      ensures prevCpuWall == old(prevCpuWall) && prevCpuIdle == old(prevCpuIdle)
    {
      overclocking := if input.Some? then input.value else unparsed;
      return count;
    }

    /**
     * The frequency rule of dbs_check_cpu for the highest load `maxLoad`
     * and the policy's current, minimum and maximum frequency.
     */
    function Decide(maxLoad: nat, cur: nat, minFreq: nat, maxFreq: nat): (r: Decision)
      requires Valid()
      reads this
      ensures r.Request? ==> (r.relation == RelationH <==> maxLoad > tdpThreshold)
      ensures r.Request? && r.relation == RelationH ==> r.freq <= maxFreq
      ensures r.Request? && r.relation == RelationL ==> r.freq >= minFreq
      ensures maxLoad <= tdpThreshold && cur == minFreq ==> r == Keep
    {
      if maxLoad > tdpThreshold then
        if turboMode == 0 && overclocking == 0 then Keep
        else if maxLoad < tdpThreshold + tdpDifferential then Keep
        else
          var step := freqStep * maxFreq / 100;
          var step' := if step == 0 then 5 else step;
          Request(Min(step' + cur, maxFreq), RelationH)
      else if cur == minFreq then Keep
      else if maxLoad < tdpThreshold - downDifferential then
        Request(Max(maxLoad * cur / (tdpThreshold - downDifferential), minFreq), RelationL)
      else Keep
    }

    /**
     * A raise happens only with turbo or overclocking on and a load at
     * least threshold plus differential; it asks for at least one step
     * above the current frequency, capped at the maximum, rounding up.
     */
    lemma RaiseRule(maxLoad: nat, cur: nat, minFreq: nat, maxFreq: nat)
      requires Valid()
      ensures var d := Decide(maxLoad, cur, minFreq, maxFreq);
        d.Request? && d.relation == RelationH <==>
          maxLoad > tdpThreshold && (turboMode != 0 || overclocking != 0) && maxLoad >= tdpThreshold + tdpDifferential
      ensures var d := Decide(maxLoad, cur, minFreq, maxFreq);
        d.Request? && d.relation == RelationH ==>
          d.freq <= maxFreq && (d.freq == maxFreq || d.freq >= cur + Max(1, freqStep * maxFreq / 100))
    {
    }

    /**
     * A lowering happens only at loads below threshold minus down
     * differential; it asks for the frequency that would bring the load up
     * to that level, never below the minimum and never above the current
     * frequency when the current frequency is at least the minimum.
     */
    lemma LowerRule(maxLoad: nat, cur: nat, minFreq: nat, maxFreq: nat)
      requires Valid()
      ensures var d := Decide(maxLoad, cur, minFreq, maxFreq);
        d.Request? && d.relation == RelationL <==>
          maxLoad <= tdpThreshold && cur != minFreq && maxLoad < tdpThreshold - downDifferential
      ensures var d := Decide(maxLoad, cur, minFreq, maxFreq);
        d.Request? && d.relation == RelationL ==>
          d.freq >= minFreq && (minFreq <= cur ==> d.freq <= cur)
    {
      var d := Decide(maxLoad, cur, minFreq, maxFreq);
      if d.Request? && d.relation == RelationL {
        var t := tdpThreshold - downDifferential;
        MulMono(cur, maxLoad, t);
        DivMono(maxLoad * cur, t * cur, t);
        MulDivCancel(cur, t);
        assert maxLoad * cur == cur * maxLoad && t * cur == cur * t;
      }
    }

    /**
     * dbs_check_cpu: takes each cpu's counters since the last check
     * (truncated to 32 bits), stores the new baselines, and decides from
     * the highest load.
     */
    method CheckCpu(wallNow: seq<nat>, idleNow: seq<nat>, cur: nat, minFreq: nat, maxFreq: nat)
      returns (d: Decision)
      requires Valid() && |wallNow| == |idleNow| == |prevCpuWall|
      modifies this
      ensures Valid() && prevCpuWall == wallNow && prevCpuIdle == idleNow
      ensures d == Decide(MaxCountedLoad(Deltas(old(prevCpuWall), old(prevCpuIdle), wallNow, idleNow)), cur, minFreq, maxFreq)
      ensures samplingRate == old(samplingRate) && ignoreNice == old(ignoreNice) && freqStep == old(freqStep)
      ensures tdpThreshold == old(tdpThreshold) && tdpDifferential == old(tdpDifferential)
      ensures downDifferential == old(downDifferential) && turboMode == old(turboMode) && overclocking == old(overclocking)
    {
      var samples := Deltas(prevCpuWall, prevCpuIdle, wallNow, idleNow);
      prevCpuWall, prevCpuIdle := wallNow, idleNow;
      var maxLoad := MaxLoad(samples);
      d := Decide(maxLoad, cur, minFreq, maxFreq);
    }
  }

  /** Each cpu's counters since the previous check, each difference cut to 32 bits. */
  function Deltas(prevWall: seq<nat>, prevIdle: seq<nat>, wallNow: seq<nat>, idleNow: seq<nat>): (ds: seq<Sample>)
    requires |prevWall| == |prevIdle| == |wallNow| == |idleNow|
    ensures |ds| == |wallNow|
    ensures forall k :: 0 <= k < |ds| ==> ds[k].wall < U32_LIMIT && ds[k].idle < U32_LIMIT
  {
    seq(|wallNow|, k requires 0 <= k < |wallNow| =>
      Sample((wallNow[k] - prevWall[k]) % U32_LIMIT, (idleNow[k] - prevIdle[k]) % U32_LIMIT))
  }
}

=== FILE: logparser.dfy ===
/**
 * The benchmark log parser scripts/parser.py. A log is read line by line;
 * "### name = value" lines set a configuration entry, "## a:b:c" lines
 * select the key the following results belong to, "# f1 f2 ..." lines name
 * the fields of the following data lines, and every other line is a row of
 * values stored under the current key. Key components that read as
 * integers are zero-padded to nine digits, so that keys sort by number.
 */
module LogParser {
  import opened Common
  import opened PyStr
  import opened Sorting

  /** A key as stored: a tuple of normalised components. */
  type Key = seq<string>

  /** The parser's fields: config, data, key and schema. */
  datatype State = State(config: map<string, string>, data: map<Key, map<string, string>>,
                         key: Key, schema: seq<string>)

  const EMPTY: State := State(map[], map[], [], [])

  // ---------------------------------------------------------------- keys

  /**
   * _norm_str: an integer is written "%09d", any other string is kept.
   * Either way int() reads the same from the result as from the input.
   */
  function NormStr(s: string): (r: string)
    ensures ParseInt(r) == ParseInt(s)
    ensures ParseInt(s).None? ==> r == s
  {
    match ParseInt(s)
    case Some(n) => PadIntRoundTrip(n, 9); PadInt(n, 9)
    case None => s
  }

  /** _norm_key */
  function NormKey(ks: seq<string>): (r: Key)
    ensures |r| == |ks| && forall i :: 0 <= i < |ks| ==> r[i] == NormStr(ks[i])
    ensures forall i :: 0 <= i < |ks| ==> ParseInt(r[i]) == ParseInt(ks[i])
  {
    seq(|ks|, i requires 0 <= i < |ks| => NormStr(ks[i]))
  }

  /** Normalising twice is normalising once. */
  lemma NormStrIdempotent(s: string)
    ensures NormStr(NormStr(s)) == NormStr(s)
  {
    if ParseInt(s).Some? {
      PadIntRoundTrip(ParseInt(s).value, 9);
    }
  }

  /** A key already normalised (as every stored key is) is left alone by normalisation. */
  lemma NormKeyIdempotent(ks: seq<string>)
    ensures NormKey(NormKey(ks)) == NormKey(ks)
  {
    forall i | 0 <= i < |ks|
      ensures NormKey(NormKey(ks))[i] == NormKey(ks)[i]
    {
      NormStrIdempotent(ks[i]);
    }
  }

  lemma {:induction false} Pow10Mono(j: nat, k: nat)
    requires j <= k
    ensures Pow10(j) <= Pow10(k)
    decreases k
  {
    if j < k {
      Pow10Mono(j, k - 1);
    }
  }

  lemma Pow10Below(j: nat, k: nat)
    requires Pow10(j) < Pow10(k)
    ensures j < k
  {
    if k <= j {
      Pow10Mono(k, j);
    }
  }

  /** A digit string without a leading zero is at least 10^(length-1). */
  lemma DigitsValLow(s: string)
    requires AllDigits(s) && |s| >= 1 && s[0] != '0'
    ensures DigitsVal(s) >= Pow10(|s| - 1)
  {
    assert DigitValue(s[0]) >= 1;
    MulMono(Pow10(|s| - 1), 1, DigitValue(s[0]));
  }

  /** A number below 10^k (k >= 1) has at most k digits. */
  lemma NatStrShort(n: nat, k: nat)
    requires 1 <= k && n < Pow10(k)
    ensures |NatStr(n)| <= k
  {
    var r := NatStr(n);
    NatStrValue(n);
    if |r| > 1 {
      DigitsValLow(r);
      Pow10Below(|r| - 1, k);
    }
  }

  /** A number in [0, 10^9) normalises to nine digits that read back as that number. */
  lemma NormStrWidth(n: nat)
    requires n < Pow10(9)
    ensures |NormStr(IntStr(n))| == 9 && AllDigits(NormStr(IntStr(n)))
    ensures DigitsVal(NormStr(IntStr(n))) == n
  {
    IntStrRoundTrip(n);
    NatStrValue(n);
    NatStrShort(n, 9);
    var d := NatStr(n);
    if |d| < 9 {
      DigitsValZeros(9 - |d|, d);
    }
  }

  /** A smaller leading digit decides, whatever follows it. */
  lemma LeadLess(da: nat, db: nat, p: nat, ra: nat, rb: nat)
    requires da < db && ra < p
    ensures da * p + ra < db * p + rb
  {
    MulMono(p, da + 1, db);
  }

  /** Digit strings of one length compare as strings the way their values compare. */
  lemma {:induction false} DigitsOrder(a: string, b: string)
    requires AllDigits(a) && AllDigits(b) && |a| == |b|
    ensures StrLess(a, b) <==> DigitsVal(a) < DigitsVal(b)
  {
    if a != [] {
      if a[0] == b[0] {
        DigitsOrder(a[1..], b[1..]);
      } else {
        var p := Pow10(|a| - 1);
        DigitsValBound(a[1..]);
        DigitsValBound(b[1..]);
        if a[0] < b[0] {
          LeadLess(DigitValue(a[0]), DigitValue(b[0]), p, DigitsVal(a[1..]), DigitsVal(b[1..]));
        } else {
          LeadLess(DigitValue(b[0]), DigitValue(a[0]), p, DigitsVal(b[1..]), DigitsVal(a[1..]));
        }
      }
    }
  }

  /**
   * The point of the padding: numbers below 10^9 sort as normalised
   * strings in numeric order ("000000002" before "000000010").
   */
  lemma NormStrOrder(a: nat, b: nat)
    requires a < Pow10(9) && b < Pow10(9)
    ensures StrLess(NormStr(IntStr(a)), NormStr(IntStr(b))) <==> a < b
  {
    NormStrWidth(a);
    NormStrWidth(b);
    DigitsOrder(NormStr(IntStr(a)), NormStr(IntStr(b)));
  }

  /** _match_key: "*" on either side matches; only the common length is compared. */
  predicate KeysMatch(k1: Key, k2: Key): (r: bool)
    ensures k1 == k2 ==> r
    ensures |k1| == 0 || |k2| == 0 ==> r
    ensures (forall i :: 0 <= i < |k1| ==> k1[i] == "*") ==> r
  {
    forall i :: 0 <= i < |k1| && i < |k2| ==> k1[i] == "*" || k2[i] == "*" || k1[i] == k2[i]
  }

  /** Matching does not depend on which key is the pattern. */
  lemma KeysMatchSymmetric(k1: Key, k2: Key)
    ensures KeysMatch(k1, k2) <==> KeysMatch(k2, k1)
  {
  }

  /** A pattern matches a longer key exactly when it matches that key's prefix of its length. */
  lemma KeysMatchPrefix(p: Key, k: Key)
    requires |p| <= |k|
    ensures KeysMatch(p, k) <==> KeysMatch(p, k[..|p|])
  {
    assert forall i :: 0 <= i < |p| ==> k[..|p|][i] == k[i];
  }

  // ---------------------------------------------------------------- lines

  datatype LineKind = ConfigLine | KeyLine | SchemaLine | DataLine

  /** _get_parse_fn: the handler chosen by a line's first word. */
  function GetParseFn(l: string): (r: LineKind)
    requires SplitWs(l) != []
    ensures r == ConfigLine <==> SplitWs(l)[0] == "###"
    ensures r == KeyLine <==> SplitWs(l)[0] == "##"
    ensures r == SchemaLine <==> SplitWs(l)[0] == "#"
  {
    var w := SplitWs(l)[0];
    if w == "###" then ConfigLine else if w == "##" then KeyLine else if w == "#" then SchemaLine else DataLine
  }

  /** The state after a line, and false when the line raised IndexError. */
  datatype Parse = Parse(st: State, ok: bool)

  /** _parse_config: "### name = value"; a line without " " after the mark or without "=" raises. */
  function ConfigStep(st: State, l: string): Parse
  {
    var parts := SplitOnce(l, ' ');
    if |parts| < 2 then Parse(st, false)
    else
      var kv := SplitOnce(parts[1], '=');
      if |kv| < 2 then Parse(st, false)
      else Parse(st.(config := st.config[Strip(kv[0]) := Strip(kv[1])]), true)
  }

  /** _parse_key: "## a:b:c" selects the normalised key (a, b, c); no " " raises. */
  function KeyStep(st: State, l: string): Parse
  {
    var parts := SplitOnce(l, ' ');
    if |parts| < 2 then Parse(st, false)
    else Parse(st.(key := NormKey(Split(parts[1], ':'))), true)
  }

  /** _parse_schema: the words after the mark name the fields. */
  function SchemaStep(st: State, l: string): State
  {
    var ws := SplitWs(l);
    st.(schema := if ws == [] then [] else ws[1..])
  }

  /** The entries of d after storing fields[i] under schema[i] for i < n, in order. */
  function StoreFields(d: map<string, string>, schema: seq<string>, fields: seq<string>, n: nat): map<string, string>
    requires n <= |schema| && n <= |fields|
  {
    if n == 0 then d else StoreFields(d, schema, fields, n - 1)[schema[n - 1] := fields[n - 1]]
  }

  /** data.get(key) with a missing key read as an empty dictionary. */
  function Entries(data: map<Key, map<string, string>>, key: Key): map<string, string>
  {
    if key in data then data[key] else map[]
  }

  /**
   * _parse_data: the words of the line stored under the current key by
   * schema name, pairwise over the shorter list; nothing at all (not even
   * an empty entry) when that is empty.
   */
  function DataStep(st: State, l: string): State
  {
    var fields := SplitWs(l);
    var n := Min(|st.schema|, |fields|);
    if n == 0 then st
    else st.(data := st.data[st.key := StoreFields(Entries(st.data, st.key), st.schema, fields, n)])
  }

  /**
   * After storing, each field name holds the value of its last occurrence
   * among the stored pairs; any other name keeps its earlier value.
   */
  lemma {:induction false} StoreFieldsAt(d: map<string, string>, schema: seq<string>, fields: seq<string>, n: nat, name: string)
    requires n <= |schema| && n <= |fields|
    ensures name in StoreFields(d, schema, fields, n) <==> name in d || name in schema[..n]
    ensures forall i :: 0 <= i < n && schema[i] == name && (forall j :: i < j < n ==> schema[j] != name)
                        ==> StoreFields(d, schema, fields, n)[name] == fields[i]
    ensures name !in schema[..n] && name in d ==> StoreFields(d, schema, fields, n)[name] == d[name]
  {
    if n > 0 {
      StoreFieldsAt(d, schema, fields, n - 1, name);
      assert schema[..n] == schema[..n - 1] + [schema[n - 1]];
    }
  }

  /**
   * A data line touches only the current key's entry: each schema name
   * then holds the value of its last pairing, other keys and the config,
   * key and schema stay as they were.
   */
  lemma DataStepStores(st: State, l: string)
    ensures var fields := SplitWs(l);
            var n := Min(|st.schema|, |fields|);
            var r := DataStep(st, l);
            r.config == st.config && r.key == st.key && r.schema == st.schema
            && (forall k :: k != st.key ==> (k in r.data <==> k in st.data))
            && (forall k :: k != st.key && k in st.data ==> r.data[k] == st.data[k])
            && (st.key in r.data <==> st.key in st.data || n > 0)
            && (n > 0 ==> forall i :: 0 <= i < n && (forall j :: i < j < n ==> st.schema[j] != st.schema[i])
                                      ==> st.schema[i] in r.data[st.key] && r.data[st.key][st.schema[i]] == fields[i])
  {
    var fields := SplitWs(l);
    var n := Min(|st.schema|, |fields|);
    if n > 0 {
      var d := StoreFields(Entries(st.data, st.key), st.schema, fields, n);
      forall i | 0 <= i < n && (forall j :: i < j < n ==> st.schema[j] != st.schema[i])
        ensures st.schema[i] in d && d[st.schema[i]] == fields[i]
      {
        StoreFieldsAt(Entries(st.data, st.key), st.schema, fields, n, st.schema[i]);
      }
    }
  }

  /** One stripped, non-empty line, dispatched on its first word. */
  function LineStep(st: State, l: string): Parse
    requires SplitWs(l) != []
  {
    match GetParseFn(l)
    case ConfigLine => ConfigStep(st, l)
    case KeyLine => KeyStep(st, l)
    case SchemaLine => Parse(SchemaStep(st, l), true)
    case DataLine => Parse(DataStep(st, l), true)
  }

  /**
   * parse2 over a list of lines: each is stripped, blank ones are skipped
   * (_get_line), and the first line that raises ends the parse.
   */
  function ParseAll(st: State, lines: seq<string>): Parse
  {
    if lines == [] then Parse(st, true)
    else
      var p := ParseAll(st, lines[..|lines| - 1]);
      var l := Strip(lines[|lines| - 1]);
      if !p.ok || l == "" then p
      else
        StrippedFirstToken(lines[|lines| - 1]);
        LineStep(p.st, l)
  }

  /** Once a line has raised, later lines change nothing. */
  lemma {:induction false} ParseAllStops(st: State, lines: seq<string>, k: nat)
    requires k <= |lines| && !ParseAll(st, lines[..k]).ok
    ensures ParseAll(st, lines) == ParseAll(st, lines[..k])
    decreases |lines|
  {
    if k < |lines| {
      var init := lines[..|lines| - 1];
      assert init[..k] == lines[..k];
      ParseAllStops(st, init, k);
    } else {
      assert lines[..k] == lines;
    }
  }

  /** Parsing a + b is parsing a, then b from where a left off, unless a raised. */
  lemma {:induction false} ParseAllAppend(st: State, a: seq<string>, b: seq<string>)
    ensures ParseAll(st, a + b) == if ParseAll(st, a).ok then ParseAll(ParseAll(st, a).st, b) else ParseAll(st, a)
    decreases |b|
  {
    if b == [] {
      assert a + b == a;
    } else {
      var b0 := b[..|b| - 1];
      assert (a + b)[..|a + b| - 1] == a + b0;
      assert (a + b)[|a + b| - 1] == b[|b| - 1];
      ParseAllAppend(st, a, b0);
    }
  }

  /** The first word of a mark, a space and anything after it is the mark. */
  lemma {:induction false} MarkToken(m: string, rest: string)
    requires forall i :: 0 <= i < |m| ==> !IsSpace(m[i])
    ensures Token(m + [' '] + rest) == m
  {
    if m != [] {
      assert (m + [' '] + rest)[1..] == m[1..] + [' '] + rest;
      MarkToken(m[1..], rest);
      assert [m[0]] + m[1..] == m;
    } else {
      assert m + [' '] + rest == [' '] + rest;
    }
  }

  /** A line made of a mark, a space and the rest: its handler and the rest as split(" ", 1) gives it. */
  lemma MarkedLine(m: string, rest: string)
    requires m != [] && forall i :: 0 <= i < |m| ==> !IsSpace(m[i])
    ensures SplitWs(m + [' '] + rest) != [] && SplitWs(m + [' '] + rest)[0] == m
    ensures SplitOnce(m + [' '] + rest, ' ') == [m, rest]
  {
    MarkToken(m, rest);
    SplitOnceAt(m, ' ', rest);
  }

  /** A configuration line with a name free of "=" stores the value under the name. */
  lemma ConfigLineStored(st: State, name: string, value: string)
    requires '=' !in name && Strip(name) == name && Strip(value) == value
    ensures var l := "### " + name + "=" + value;
            SplitWs(l) != [] && GetParseFn(l) == ConfigLine
            && LineStep(st, l) == Parse(st.(config := st.config[name := value]), true)
  {
    var rest := name + "=" + value;
    assert "### " + name + "=" + value == "###" + [' '] + rest;
    MarkedLine("###", rest);
    SplitOnceAt(name, '=', value);
  }

  /** A key line "## a:b:c" whose components hold no ':' selects the normalised components. */
  lemma KeyLineSelects(st: State, ks: seq<string>)
    requires |ks| >= 1 && forall i :: 0 <= i < |ks| ==> ':' !in ks[i]
    ensures var l := "##" + [' '] + Join(ks, ':');
            SplitWs(l) != [] && GetParseFn(l) == KeyLine
            && LineStep(st, l) == Parse(st.(key := NormKey(ks)), true)
  {
    var rest := Join(ks, ':');
    MarkedLine("##", rest);
    assert Split(rest, ':') == ks by {
      SplitJoin(ks, ':');
    }
  }

  /** s.split(c, 1) of a + c + b is [a, b] when a holds no c. */
  lemma {:induction false} SplitOnceAt(a: string, c: char, b: string)
    requires c !in a
    ensures SplitOnce(a + [c] + b, c) == [a, b]
  {
    var s := a + [c] + b;
    if a == [] {
      assert s == [c] + b;
    } else {
      assert s[0] == a[0] && s[1..] == a[1..] + [c] + b;
      SplitOnceAt(a[1..], c, b);
      assert [a[0]] + a[1..] == a;
    }
  }

  /**
   * The parser object. Its methods update config, data, key and schema in
   * place, as the Python methods do.
   */
  class Parser {
    var config: map<string, string>
    var data: map<Key, map<string, string>>
    var key: Key
    var schema: seq<string>

    function Snapshot(): State
      reads this
    {
      State(config, data, key, schema)
    }

    /** __init__ */
    constructor()
      ensures Snapshot() == EMPTY
    {
      config, data, key, schema := map[], map[], [], [];
    }

    /** get_config: None for a name never configured. */
    function GetConfig(name: string): (r: Option<string>)
      reads this
      ensures r.Some? <==> name in config
      ensures r.Some? ==> r.value == config[name]
    {
      if name in config then Some(config[name]) else None
    }

    /** _parse_config; false when the line raised IndexError (nothing is changed then). */
    method ParseConfig(l: string) returns (ok: bool)
      modifies this
      ensures Parse(Snapshot(), ok) == ConfigStep(old(Snapshot()), l)
    {
      var parts := SplitOnce(l, ' ');
      if |parts| < 2 {
        return false;
      }
      var kv := SplitOnce(parts[1], '=');
      if |kv| < 2 {
        return false;
      }
      config := config[Strip(kv[0]) := Strip(kv[1])];
      ok := true;
    }

    /** _parse_key; false when the line raised IndexError. */
    method ParseKey(l: string) returns (ok: bool)
      modifies this
      ensures Parse(Snapshot(), ok) == KeyStep(old(Snapshot()), l)
    {
      var parts := SplitOnce(l, ' ');
      if |parts| < 2 {
        return false;
      }
      key := NormKey(Split(parts[1], ':'));
      ok := true;
    }

    /** _parse_schema */
    method ParseSchema(l: string)
      modifies this
      ensures Snapshot() == SchemaStep(old(Snapshot()), l)
    {
      var ws := SplitWs(l);
      schema := if ws == [] then [] else ws[1..];
    }

    /** _parse_data: one pair at a time, creating the key's entry on the first. */
    method ParseData(l: string)
      modifies this
      ensures Snapshot() == DataStep(old(Snapshot()), l)
    {
      var fields := SplitWs(l);
      var n := Min(|schema|, |fields|);
      for i := 0 to n
        invariant key == old(key) && schema == old(schema) && config == old(config)
        invariant i == 0 ==> data == old(data)
        invariant i > 0 ==> data == old(data)[key := StoreFields(Entries(old(data), key), schema, fields, i)]
      {
        var d := if key in data && data[key] != map[] then data[key] else map[];
        data := data[key := d[schema[i] := fields[i]]];
      }
    }

    /** One stripped, non-empty line through the handler _get_parse_fn picks for it. */
    method ParseLine(l: string) returns (ok: bool)
      requires SplitWs(l) != []
      modifies this
      ensures Parse(Snapshot(), ok) == LineStep(old(Snapshot()), l)
    {
      var kind := GetParseFn(l);
      match kind
      case ConfigLine =>
        ok := ParseConfig(l);
      case KeyLine =>
        ok := ParseKey(l);
      case SchemaLine =>
        ParseSchema(l);
        ok := true;
      case DataLine =>
        ParseData(l);
        ok := true;
    }

    /** parse2: false when a line raised IndexError; the lines before it have been applied. */
    method Parse2(lines: seq<string>) returns (ok: bool)
      modifies this
      ensures Parse(Snapshot(), ok) == ParseAll(old(Snapshot()), lines)
    {
      ghost var st0 := Snapshot();
      for i := 0 to |lines|
        invariant ParseAll(st0, lines[..i]) == Parse(Snapshot(), true)
      {
        assert lines[..i + 1][..i] == lines[..i] && lines[..i + 1][i] == lines[i];
        var l := Strip(lines[i]);
        if l != "" {
          StrippedFirstToken(lines[i]);
          ok := ParseLine(l);
          if !ok {
            ParseAllStops(st0, lines, i + 1);
            return;
          }
        }
      }
      assert lines[..|lines|] == lines;
      ok := true;
    }

    /** _match_key */
    static method MatchKey(k1: Key, k2: Key) returns (r: bool)
      ensures r <==> KeysMatch(k1, k2)
    {
      for i := 0 to Min(|k1|, |k2|)
        invariant forall j :: 0 <= j < i ==> k1[j] == "*" || k2[j] == "*" || k1[j] == k2[j]
      {
        if k1[i] == "*" || k2[i] == "*" {
          continue;
        }
        if k1[i] != k2[i] {
          return false;
        }
      }
      return true;
    }

    /** The stored keys the pattern matches. */
    method MatchingKeys(pattern: Key) returns (matched: set<Key>)
      ensures forall k :: k in matched <==> k in data && KeysMatch(pattern, k)
    {
      matched := {};
      var rest := data.Keys;
      while rest != {}
        invariant rest <= data.Keys
        invariant forall k :: k in matched <==> k in data && k !in rest && KeysMatch(pattern, k)
        decreases |rest|
      {
        var k :| k in rest;
        var m := MatchKey(pattern, k);
        if m {
          matched := matched + {k};
        }
        rest := rest - {k};
      }
    }

    /**
     * search_data: every stored key matching the normalised pattern, with
     * its entries, in ascending key order (keys are distinct, so sorting
     * the pairs sorts the keys).
     */
    method SearchData(keyList: seq<string>) returns (results: seq<(Key, map<string, string>)>)
      ensures forall i :: 0 <= i < |results| ==> results[i].0 in data && results[i].1 == data[results[i].0]
      ensures forall k :: k in data && KeysMatch(NormKey(keyList), k)
                          <==> exists i :: 0 <= i < |results| && results[i].0 == k
      ensures forall i, j :: 0 <= i < j < |results| ==> KeyLess(results[i].0, results[j].0)
    {
      var matched := MatchingKeys(NormKey(keyList));
      KeyLessOrder();
      var keys := SortSet(matched, KeyLess);
      var d := data;
      results := seq(|keys|, i requires 0 <= i < |keys| => (keys[i], d[keys[i]]));
      assert forall i :: 0 <= i < |keys| ==> results[i].0 == keys[i];
    }
  }
}

=== FILE: machineconfig.dfy ===
/**
 * The fleet configuration of scripts/machineconfig.py: the limits, the file
 * system and network port plans, the CPU topology of the host and the
 * Xeon Phi cards (MICs) attached to it. The machine-specific tables that
 * the script imports from config/ enter as values (`Topology`, `MicConf`);
 * CPU_CONFIG, which the script fills in place, is a field of `Machine`.
 */
module MachineConfig {
  import opened Common
  import opened PyStr
  import opened Sorting

  const MAX_MIC: nat := 8
  const MAX_NVME: nat := 10

  // FS_CONFIG
  const FS_THREADS: nat := 5
  const FS_BASE_PORT: int := 7000
  const FS_CLN_BASE_PORT: int := 3000
  const FS_PORT_SPACING: int := 120

  // NET_CONFIG
  const NET_THREADS: nat := 4
  const NET_BASE_PORT: int := 20000
  const NET_PORT_SPACING: int := 1000
  const NET_RXQ_SIZE: nat := 128 * 1024 * 1024

  /**
   * NUM_SOCKET, NUM_PHYSICAL_CPU_PER_SOCKET, SMT_LEVEL and OS_CPU_ID: the
   * operating system's CPU number of hardware thread m of core c of
   * socket s is osCpuId[(s, c, m)].
   */
  datatype Topology = Topology(numSocket: nat, numCore: nat, smtLevel: nat,
                               osCpuId: map<(int, int, int), int>)

  /** Every (socket, core, thread) triple of the topology has a CPU number. */
  ghost predicate Complete(t: Topology)
  {
    forall s, c, m :: 0 <= s < t.numSocket && 0 <= c < t.numCore && 0 <= m < t.smtLevel
      ==> (s, c, m) in t.osCpuId
  }

  /** One NVMe device of a MIC's "micX:nvme" table and its mount point. */
  datatype Mount = Mount(dev: string, mnt: string)

  /**
   * MIC_CONFIG: the root password, the number of MICs ("num"), and per MIC
   * name ("mic0", "mic1", ...) its CPU socket ("micX:socket") and its NVMe
   * table ("micX:nvme") in insertion order.
   */
  datatype MicConf = MicConf(passwd: Option<string>, num: nat,
                             socket: map<string, int>, nvme: map<string, seq<Mount>>)

  /** get_mic_conf(mic + ":socket"): the socket a MIC is attached to, None when not configured. */
  function GetMicSocket(conf: MicConf, mic: string): (r: Option<int>)
    ensures r.Some? <==> mic in conf.socket
    ensures r.Some? ==> r.value == conf.socket[mic]
  {
    if mic in conf.socket then Some(conf.socket[mic]) else None
  }

  /** The CPU numbers of threads 0..m-1 of core c of socket s. */
  ghost function CoreIds(t: Topology, s: int, c: int, m: nat): set<int>
    requires Complete(t) && 0 <= s < t.numSocket && 0 <= c < t.numCore && m <= t.smtLevel
  {
    if m == 0 then {} else CoreIds(t, s, c, m - 1) + {t.osCpuId[(s, c, m - 1)]}
  }

  /** The CPU numbers of every thread of cores 0..c-1 of socket s. */
  ghost function SocketIds(t: Topology, s: int, c: nat): set<int>
    requires Complete(t) && 0 <= s < t.numSocket && c <= t.numCore
  {
    if c == 0 then {} else SocketIds(t, s, c - 1) + CoreIds(t, s, c - 1, t.smtLevel)
  }

  lemma {:induction false} CoreIdsMembers(t: Topology, s: int, c: int, m: nat, x: int)
    requires Complete(t) && 0 <= s < t.numSocket && 0 <= c < t.numCore && m <= t.smtLevel
    ensures x in CoreIds(t, s, c, m) <==> exists j :: 0 <= j < m && t.osCpuId[(s, c, j)] == x
  {
    if m > 0 {
      CoreIdsMembers(t, s, c, m - 1, x);
    }
  }

  /** A number belongs to socket s's list iff some (core, thread) pair of s has it. */
  lemma {:induction false} SocketIdsMembers(t: Topology, s: int, c: nat, x: int)
    requires Complete(t) && 0 <= s < t.numSocket && c <= t.numCore
    ensures x in SocketIds(t, s, c) <==>
            exists i, j :: 0 <= i < c && 0 <= j < t.smtLevel && t.osCpuId[(s, i, j)] == x
  {
    if c > 0 {
      SocketIdsMembers(t, s, c - 1, x);
      CoreIdsMembers(t, s, c - 1, t.smtLevel, x);
    }
  }

  /** CPU_CONFIG[s] as build_cpu_config leaves it: sorted(set of s's CPU numbers). */
  ghost predicate CpuListOf(t: Topology, s: int, l: seq<int>)
    requires Complete(t) && 0 <= s < t.numSocket
  {
    Ascending(l, IntLess) && forall x :: x in l <==> x in SocketIds(t, s, t.numCore)
  }

  /** The decimal spelling of each number of a list. */
  function IntStrs(l: seq<int>): (r: seq<string>)
    ensures |r| == |l| && forall i :: 0 <= i < |l| ==> r[i] == IntStr(l[i])
  {
    seq(|l|, i requires 0 <= i < |l| => IntStr(l[i]))
  }

  /**
   * get_cpu_list_str(socket): the CPU numbers of the socket joined by ",";
   * None for the KeyError of an unknown socket and the IndexError of an
   * empty list.
   */
  function CpuListStr(cpuConfig: map<int, seq<int>>, socket: int): (r: Option<string>)
    ensures r.None? <==> socket !in cpuConfig || cpuConfig[socket] == []
  {
    if socket in cpuConfig && cpuConfig[socket] != [] then Some(Join(IntStrs(cpuConfig[socket]), ','))
    else None
  }

  /** Splitting the CPU list string at "," and reading each part back gives the list. */
  lemma CpuListStrRoundTrip(cpuConfig: map<int, seq<int>>, socket: int)
    requires socket in cpuConfig && cpuConfig[socket] != []
    ensures CpuListStr(cpuConfig, socket).Some?
    ensures var parts := Split(CpuListStr(cpuConfig, socket).value, ',');
            |parts| == |cpuConfig[socket]|
            && forall i :: 0 <= i < |parts| ==> ParseInt(parts[i]) == Some(cpuConfig[socket][i])
  {
    var l := cpuConfig[socket];
    var strs := IntStrs(l);
    forall i | 0 <= i < |strs| ensures ',' !in strs[i] && ParseInt(strs[i]) == Some(l[i]) {
      IntStrHasNo(l[i], ',');
      IntStrRoundTrip(l[i]);
    }
    SplitJoin(strs, ',');
  }

  /** A MIC's name as the scripts spell it: "mic%s" % i. */
  function MicName(i: nat): string
  {
    "mic" + IntStr(i)
  }

  /** An NVMe device name: "nvme%s" % i. */
  function NvmeName(i: nat): string
  {
    "nvme" + IntStr(i)
  }

  /**
   * get_mic_id: "host" is 0, "micN" is N + 1 and any other name is -1.
   * None stands for the ValueError of a "mic" name whose rest is not a
   * number.
   */
  function GetMicId(mic: string): (r: Option<int>)
    ensures mic == "host" ==> r == Some(0)
    ensures mic != "host" && !HasPrefix(mic, "mic") ==> r == Some(-1)
    ensures HasPrefix(mic, "mic") ==> (r.Some? <==> ParseInt(mic[3..]).Some?)
    ensures HasPrefix(mic, "mic") && r.Some? ==> r.value == ParseInt(mic[3..]).value + 1
  {
    if mic == "host" then
      assert mic[..3][0] == 'h';
      Some(0)
    else if HasPrefix(mic, "mic") then
      match ParseInt(mic[3..])
      case Some(n) => Some(n + 1)
      case None => None
    else Some(-1)
  }

  /** The i-th MIC has id i + 1. */
  lemma MicIdOfName(i: nat)
    ensures GetMicId(MicName(i)) == Some(i + 1)
  {
    var mic := MicName(i);
    assert mic[..3] == "mic" && mic[3..] == IntStr(i);
    IntStrRoundTrip(i);
  }

  /** get_nvme_id: "nvmeN" is N, any other name is -1; None is the ValueError. */
  function GetNvmeId(nvme: string): (r: Option<int>)
    ensures !HasPrefix(nvme, "nvme") ==> r == Some(-1)
    ensures HasPrefix(nvme, "nvme") ==> (r.Some? <==> ParseInt(nvme[4..]).Some?)
    ensures HasPrefix(nvme, "nvme") && r.Some? ==> r.value == ParseInt(nvme[4..]).value
  {
    if HasPrefix(nvme, "nvme") then ParseInt(nvme[4..]) else Some(-1)
  }

  lemma NvmeIdOfName(i: nat)
    ensures GetNvmeId(NvmeName(i)) == Some(i)
  {
    var nvme := NvmeName(i);
    assert nvme[..4] == "nvme" && nvme[4..] == IntStr(i);
    IntStrRoundTrip(i);
  }

  /** get_nvme_path: the block device of the first namespace. */
  function GetNvmePath(nvme: string): (r: string)
    ensures |r| == |nvme| + 7 && r[5..5 + |nvme|] == nvme
    ensures HasPrefix(r, "/dev/")
  {
    "/dev/" + nvme + "n1"
  }

  /** Distinct devices have distinct paths. */
  lemma NvmePathInjective(a: string, b: string)
    requires GetNvmePath(a) == GetNvmePath(b)
    ensures a == b
  {
    var pa := GetNvmePath(a);
    assert |a| == |b|;
    assert a == pa[5..5 + |a|];
  }

  /** The NVMe paths listed for one MIC (none when it has no "micX:nvme" entry). */
  ghost function MicNvmeDevs(conf: MicConf, mic: string): set<string>
  {
    if mic in conf.nvme then set m | m in conf.nvme[mic] :: GetNvmePath(m.dev) else {}
  }

  /** The NVMe paths of MICs 0..k-1. */
  ghost function NvmeDevsUpTo(conf: MicConf, k: nat): set<string>
  {
    if k == 0 then {} else NvmeDevsUpTo(conf, k - 1) + MicNvmeDevs(conf, MicName(k - 1))
  }

  /** A path is collected iff some MIC below k lists a device with that path. */
  lemma {:induction false} NvmeDevsMembers(conf: MicConf, k: nat, p: string)
    ensures p in NvmeDevsUpTo(conf, k) <==>
            exists i, m :: 0 <= i < k && MicName(i) in conf.nvme && m in conf.nvme[MicName(i)]
                           && p == GetNvmePath(m.dev)
  {
    if k > 0 {
      NvmeDevsMembers(conf, k - 1, p);
    }
  }

  /**
   * get_all_nvme_devs: the paths of every MIC's NVMe devices, each once,
   * in ascending order.
   */
  method GetAllNvmeDevs(conf: MicConf) returns (r: seq<string>)
    ensures Ascending(r, StrLess)
    ensures forall p :: p in r <==> p in NvmeDevsUpTo(conf, conf.num)
  {
    var all: set<string> := {};
    for i := 0 to conf.num
      invariant all == NvmeDevsUpTo(conf, i)
    {
      var k := MicName(i);
      var nvmes: seq<Mount> := if k in conf.nvme then conf.nvme[k] else [];
      ghost var before := all;
      for j := 0 to |nvmes|
        invariant all == before + set m | m in nvmes[..j] :: GetNvmePath(m.dev)
      {
        assert nvmes[..j + 1] == nvmes[..j] + [nvmes[j]];
        all := all + {GetNvmePath(nvmes[j].dev)};
      }
      assert nvmes[..|nvmes|] == nvmes;
    }
    StrLessOrder();
    r := SortSet(all, StrLess);
  }

  /** BIN_PATH: the server binary for a service, build mode and socket layer. */
  function GetBinPath(root: string, svc: string, mode: string, opt: string): (r: Option<string>)
    ensures r.Some? <==> (svc == "fs" && (mode == "release" || mode == "debug") && opt == "")
                         || (svc == "net" && (mode == "release" || mode == "debug") && (opt == "sock" || opt == "mtcp"))
  {
    if svc == "fs" && (mode == "release" || mode == "debug") && opt == "" then Some(root + "/diod/diod/diod")
    else if svc == "net" && mode == "release" && opt == "sock" then Some(root + "/network/build/Release-x86_64/pcnsrv/pcnsrv")
    else if svc == "net" && mode == "debug" && opt == "sock" then Some(root + "/network/build/Debug-x86_64/pcnsrv/pcnsrv")
    else if svc == "net" && mode == "release" && opt == "mtcp" then Some(root + "/network/build/Release-x86_64/pcnsrv_mtcp/pcnsrv_mtcp")
    else if svc == "net" && mode == "debug" && opt == "mtcp" then Some(root + "/network/build/Debug-x86_64/pcnsrv_mtcp/pcnsrv_mtcp")
    else None
  }

  /** The 9P server port of the NVMe device with id nvmeId on the MIC with id micId. */
  function FsPortOf(micId: int, nvmeId: int): int
  {
    FS_BASE_PORT + micId * MAX_NVME * FS_PORT_SPACING + nvmeId * FS_PORT_SPACING
  }

  /** get_fs_port(mic, nvme); None when either name's number does not parse. */
  function GetFsPort(mic: string, nvme: string): (r: Option<int>)
    ensures r.Some? <==> GetMicId(mic).Some? && GetNvmeId(nvme).Some?
    ensures r.Some? ==> (r.value - FS_BASE_PORT) % FS_PORT_SPACING == 0
    ensures r.Some? && 0 <= GetNvmeId(nvme).value < MAX_NVME ==>
              (r.value - FS_BASE_PORT) / FS_PORT_SPACING % MAX_NVME == GetNvmeId(nvme).value
              && (r.value - FS_BASE_PORT) / FS_PORT_SPACING / MAX_NVME == GetMicId(mic).value
  {
    match (GetMicId(mic), GetNvmeId(nvme))
    case (Some(a), Some(n)) => Some(FsPortOf(a, n))
    case _ => None
  }

  /** While NVMe ids stay below MAX_NVME, no two (MIC, NVMe) pairs share a port. */
  lemma FsPortInjective(a1: int, n1: int, a2: int, n2: int)
    requires 0 <= n1 < MAX_NVME && 0 <= n2 < MAX_NVME
    requires FsPortOf(a1, n1) == FsPortOf(a2, n2)
    ensures a1 == a2 && n1 == n2
  {
    assert (10 * a1 + n1) * 120 == (10 * a2 + n2) * 120;
    assert 10 * a1 + n1 == 10 * a2 + n2;
    assert 10 * (a1 - a2) == n2 - n1;
  }

  /** The port plan for the i-th MIC's j-th NVMe, from their names. */
  lemma FsPortOfNames(i: nat, j: nat)
    ensures GetFsPort(MicName(i), NvmeName(j)) == Some(FsPortOf(i + 1, j))
  {
    MicIdOfName(i);
    NvmeIdOfName(j);
  }

  /** At MAX_NVME the plan wraps: mic0's nvme10 gets mic1's nvme0 port. */
  lemma FsPortCollidesAtMaxNvme()
    ensures GetFsPort("mic0", "nvme10") == GetFsPort("mic1", "nvme0")
  {
    FsPortOfNames(0, 10);
    FsPortOfNames(1, 0);
    assert MicName(0) == "mic0" && NvmeName(10) == "nvme10";
    assert MicName(1) == "mic1" && NvmeName(0) == "nvme0";
  }

  /** get_fs_client_port(nth) */
  function GetFsClientPort(nth: int): (r: int)
    ensures (r - FS_CLN_BASE_PORT) % FS_PORT_SPACING == 0
    ensures (r - FS_CLN_BASE_PORT) / FS_PORT_SPACING == nth
  {
    FS_CLN_BASE_PORT + nth * FS_PORT_SPACING
  }

  /** Client ports rise with the mount index, so distinct indices get distinct ports. */
  lemma FsClientPortIncreasing(i: int, j: int)
    requires i < j
    ensures GetFsClientPort(i) < GetFsClientPort(j)
  {
  }

  /** get_net_server_port() */
  function GetNetServerPort(): (r: int)
    ensures forall a, n :: 0 <= a <= MAX_MIC && 0 <= n < MAX_NVME ==> FsPortOf(a, n) < r
  {
    NET_BASE_PORT
  }

  /** get_net_client_port(mic); None when the MIC name's number does not parse. */
  function GetNetClientPort(mic: string): (r: Option<int>)
    ensures r.Some? <==> GetMicId(mic).Some?
    ensures r.Some? ==> (r.value - GetNetServerPort()) % NET_PORT_SPACING == 0
                        && (r.value - GetNetServerPort()) / NET_PORT_SPACING == GetMicId(mic).value + 1
  {
    match GetMicId(mic)
    case Some(a) => Some(GetNetServerPort() + (a + 1) * NET_PORT_SPACING)
    case None => None
  }

  /**
   * Every MIC and the host get a client port above the server port, and
   * distinct MICs get distinct ports.
   */
  lemma NetClientPortAboveServer(mic: string)
    requires GetMicId(mic).Some? && GetMicId(mic).value >= 0
    ensures GetNetClientPort(mic).Some? && GetNetClientPort(mic).value > GetNetServerPort()
  {
  }

  lemma NetClientPortsDistinct(i: nat, j: nat)
    requires i != j
    ensures GetNetClientPort(MicName(i)) != GetNetClientPort(MicName(j))
  {
    MicIdOfName(i);
    MicIdOfName(j);
  }

  /** A name that is neither "host" nor "mic..." lands on the server's own port. */
  lemma NetClientPortOfUnknownName()
    ensures GetNetClientPort("eth0") == Some(GetNetServerPort())
  {
    assert "eth0"[..3][0] == 'e';
  }

  /**
   * The configuration the script holds: the imported tables and the
   * CPU_CONFIG dictionary that build_cpu_config fills.
   */
  class Machine {
    const topology: Topology
    const mic: MicConf
    /** The repository checkout, the root of every BIN_PATH entry. */
    const root: string
    var cpuConfig: map<int, seq<int>>

    constructor(topology: Topology, mic: MicConf, root: string)
      ensures this.topology == topology && this.mic == mic && this.root == root
      ensures cpuConfig == map[]
    {
      this.topology := topology;
      this.mic := mic;
      this.root := root;
      cpuConfig := map[];
    }

    /**
     * build_cpu_config: CPU_CONFIG[s] becomes, for every socket s, the
     * CPU numbers of all its (core, thread) pairs, each once, ascending.
     * Other entries are kept.
     */
    method BuildCpuConfig()
      requires Complete(topology)
      modifies this
      ensures forall s :: 0 <= s < topology.numSocket ==> s in cpuConfig && CpuListOf(topology, s, cpuConfig[s])
      ensures forall k :: k in cpuConfig <==> k in old(cpuConfig) || 0 <= k < topology.numSocket
      ensures forall k :: k in old(cpuConfig) && !(0 <= k < topology.numSocket) ==> cpuConfig[k] == old(cpuConfig)[k]
    {
      IntLessOrder();
      for s := 0 to topology.numSocket
        invariant forall k :: k in cpuConfig <==> k in old(cpuConfig) || 0 <= k < s
        invariant forall k :: k in old(cpuConfig) && !(0 <= k < s) ==> cpuConfig[k] == old(cpuConfig)[k]
        invariant forall k :: 0 <= k < s ==> CpuListOf(topology, k, cpuConfig[k])
      {
        var ids: set<int> := {};
        for c := 0 to topology.numCore
          invariant ids == SocketIds(topology, s, c)
        {
          for m := 0 to topology.smtLevel
            invariant ids == SocketIds(topology, s, c) + CoreIds(topology, s, c, m)
          {
            ids := ids + {topology.osCpuId[(s, c, m)]};
          }
        }
        var sorted := SortSet(ids, IntLess);
        cpuConfig := cpuConfig[s := sorted];
      }
    }

    /** get_cpu_list_str: the socket's CPU numbers joined by ",". */
    method GetCpuListStr(socket: int) returns (r: Option<string>)
      ensures r == CpuListStr(cpuConfig, socket)
    {
      if socket !in cpuConfig || cpuConfig[socket] == [] {
        return None;
      }
      var l := cpuConfig[socket];
      var cpus := IntStr(l[0]);
      for i := 1 to |l|
        invariant cpus == Join(IntStrs(l[..i]), ',')
      {
        JoinSnoc(IntStrs(l[..i]), IntStr(l[i]), ',');
        assert IntStrs(l[..i + 1]) == IntStrs(l[..i]) + [IntStr(l[i])];
        cpus := cpus + "," + IntStr(l[i]);
      }
      assert l[..|l|] == l;
      r := Some(cpus);
    }
  }
}

=== FILE: mic_cpufreq.dfy ===
/**
 * Frequency and voltage helpers of the Xeon Phi (K1OM) cpufreq driver
 * (drivers/micpm/mic_cpufreq.c): PLL ratio-code encoding, the MCLK ratio
 * field, the SVID command parity bit, die-temperature voltage compensation,
 * the base-clock range check, the voltage-code table, the frequency-table
 * search of an asynchronous throttle and the table report to the RAS module.
 *
 * Register reads are parameters: `scratch4` is the SBOX scratch-4 register,
 * `temp` the sensor-0 die temperature, `slope`, `vlimit` and `tjhot` the
 * compensation fuse fields.
 */
module MicCpufreq {
  import opened Common

  type Code = bv32

  const K1OM_FF_POS: bv32 := 8
  const ICCDIV_POS: bv32 := 25
  const ICCDIV_MASK: bv32 := 0x1f
  const ICC_REFCLK: int := 4000
  const MIN_ICCDIV: int := 18
  const MAX_ICCDIV: int := 22
  const RTC_MAX_TEMP_BASE: int := 125
  const K1OM_VOLT_OFFSET: int := 250
  const MAX_TURBO_POINTS: nat := 4

  /** cpufreq frequency-table sentinels: ~0 marks an unusable entry, ~1 the end. */
  const CPUFREQ_ENTRY_INVALID: int := 0xFFFF_FFFF
  const CPUFREQ_TABLE_END: int := 0xFFFF_FFFE

  // ---------------------------------------------------------------------
  // PLL ratio codes: a feedback divider in the low `ffpos` bits and a
  // two-bit feed-forward divider code above it.

  /** ffcode_to_val: complements the two-bit divider code. */
  function FfcodeToVal(code: Code): (v: Code)
    ensures v < 4
  {
    !(code & 3) & 3
  }

  lemma FfcodeToValInvolution(code: Code)
    ensures FfcodeToVal(FfcodeToVal(code)) == code & 3
    ensures FfcodeToVal(code) as int == 3 - (code & 3) as int
  {
  }

  /** ff_from_code: the feed-forward divider 8 / 2^c for the code c at `ffpos`. */
  function FfFromCode(code: Code, ffpos: bv32): (ff: int)
    requires ffpos < 32
    ensures ff == 8 || ff == 4 || ff == 2 || ff == 1
  {
    var c := (code >> ffpos) & 3;
    if c == 0 then 8 else if c == 1 then 4 else if c == 2 then 2 else 1
  }

  /** The bits of a code from `ffpos` upwards. */
  function HighBits(ffpos: bv32): Code
    requires ffpos < 32
  {
    (!0) << ffpos
  }

  /** fb_from_code: the feedback divider, the bits of the code below `ffpos`. */
  function FbFromCode(code: Code, ffpos: bv32): (fb: Code)
    requires ffpos < 32
    ensures fb & HighBits(ffpos) == 0
    ensures fb & code == fb
  {
    MaskedOff(code, HighBits(ffpos));
    code & !HighBits(ffpos)
  }

  /** Clearing the bits of a mask leaves only bits of the original outside the mask. */
  lemma MaskedOff(code: Code, mask: Code)
    ensures (code & !mask) & mask == 0 && (code & !mask) & code == code & !mask
  {
  }

  /**
   * ratio_from_fffb: packs a feed-forward and a feedback divider into a
   * code. A feedback divider that fits below `ffpos` unpacks again, and
   * the two low bits of the feed-forward argument become the divider code.
   */
  function RatioFromFffb(ff: Code, fb: Code, ffpos: bv32): (r: Code)
    requires ffpos < 32
    ensures fb >> ffpos == 0 ==> FbFromCode(r, ffpos) == fb
    ensures ffpos < 30 && fb >> ffpos == 0 ==> (r >> ffpos) & 3 == ff & 3
  {
    (ff << ffpos) | fb
  }

  /** freq_from_code: base clock times feedback over feed-forward divider. */
  function FreqFromCode(baseclk: nat, code: Code, ffpos: bv32): (f: nat)
    requires ffpos < 32
    ensures baseclk * (FbFromCode(code, ffpos) as nat) / 8 <= f <= baseclk * (FbFromCode(code, ffpos) as nat)
  {
    var fb: nat := FbFromCode(code, ffpos) as nat;
    var ff := FfFromCode(code, ffpos);
    DivByDivider(baseclk, fb, ff);
    baseclk * fb / ff
  }

  /** Dividing by one of the dividers 1, 2, 4 or 8 lands between a product / 8 and the product. */
  lemma DivByDivider(baseclk: nat, fb: nat, ff: int)
    requires ff == 8 || ff == 4 || ff == 2 || ff == 1
    ensures 0 <= baseclk * fb
    ensures baseclk * fb / 8 <= baseclk * fb / ff <= baseclk * fb
  {
    var x := baseclk * fb;
    assert 0 <= x;
  }

  /** The frequency of a packed code, in terms of the dividers that were packed. */
  lemma FreqOfRatio(baseclk: nat, ffc: Code, fb: Code, ffpos: bv32)
    requires ffpos < 30 && fb >> ffpos == 0
    ensures FreqFromCode(baseclk, RatioFromFffb(ffc, fb, ffpos), ffpos)
         == baseclk * (fb as nat) / (if ffc & 3 == 0 then 8 else if ffc & 3 == 1 then 4 else if ffc & 3 == 2 then 2 else 1)
  {
  }

  // ---------------------------------------------------------------------
  // The MCLK ratio field of the SBOX core-frequency registers: bits 1-10.

  /** K1OM_MCLK_2_FREQ */
  function Mclk2Freq(mclk: Code): (freq: Code)
    ensures freq < 0x400
  {
    (mclk & 0x7FE) >> 1
  }

  /** K1OM_SET_MCLK: the new value of `mclk` */
  function SetMclk(freq: Code, mclk: Code): (r: Code)
    ensures r & 1 == mclk & 1
    ensures freq < 0x400 ==> r & 0x801 == mclk & 0x801
    ensures (r & 0x7FE) >> 1 == freq & 0x3FF
  {
    (mclk & 0x801) | (freq << 1)
  }

  /** Setting a 10-bit ratio keeps bits 0 and 11, clears the rest, and reads back. */
  lemma MclkRoundTrip(freq: Code, mclk: Code)
    requires freq < 0x400
    ensures Mclk2Freq(SetMclk(freq, mclk)) == freq
    ensures SetMclk(freq, mclk) & 0x801 == mclk & 0x801
    ensures SetMclk(freq, mclk) >> 12 == 0
  {
  }

  // ---------------------------------------------------------------------
  // SVID command parity

  /** Number of one bits of `x`. */
  function Popcount(x: Code): nat
    decreases x
  {
    if x == 0 then 0 else (if x & 1 == 0 then 0 else 1) + Popcount(x >> 1)
  }

  /** `x & (x - 1)`: x with its lowest set bit cleared. */
  function ClearLowest(x: Code): Code
  {
    x & (x - 1)
  }

  lemma PopcountStep(x: Code)
    ensures Popcount(x) == (if x & 1 == 0 then 0 else 1) + Popcount(x >> 1)
  {
    if x == 0 {
      assert x >> 1 == 0;
    }
  }

  lemma OddFacts(x: Code)
    requires x & 1 == 1
    ensures ClearLowest(x) == x - 1 && (x - 1) & 1 == 0 && (x - 1) >> 1 == x >> 1
  {
  }

  lemma EvenFacts(x: Code, c: Code, d: Code)
    requires x & 1 == 0 && x != 0
    requires c == x & (x - 1) && d == (x >> 1) & ((x >> 1) - 1)
    ensures x >> 1 != 0
    ensures c & 1 == 0 && c >> 1 == d
  {
  }

  lemma ShiftDecreases(x: Code)
    requires x != 0
    ensures x >> 1 < x
  {
  }

  lemma EvenShift(x: Code)
    requires x & 1 == 0
    ensures Popcount(x) == Popcount(x >> 1)
  {
    PopcountStep(x);
  }

  lemma OddStep(x: Code)
    requires x & 1 == 1
    ensures Popcount(ClearLowest(x)) == Popcount(x) - 1
  {
    OddFacts(x);
    PopcountStep(x);
    PopcountStep(x - 1);
  }

  lemma EvenStep(x: Code, c: Code, d: Code)
    requires x & 1 == 0 && x != 0
    requires c == ClearLowest(x) && d == ClearLowest(x >> 1)
    ensures Popcount(c) == Popcount(d)
  {
    EvenFacts(x, c, d);
    EvenShift(c);
  }

  /** Clearing the lowest set bit removes exactly one bit. */
  lemma {:induction false} ClearLowestBit(x: Code)
    requires x != 0
    ensures Popcount(ClearLowest(x)) == Popcount(x) - 1
    decreases x
  {
    if x & 1 == 1 {
      OddStep(x);
    } else {
      EvenFacts(x, ClearLowest(x), ClearLowest(x >> 1));
      EvenShift(x);
      EvenStep(x, ClearLowest(x), ClearLowest(x >> 1));
      ShiftDecreases(x);
      ClearLowestBit(x >> 1);
    }
  }

  /** The odd-parity flag of a command: 1 exactly when it has an odd number of one bits. */
  function ParityBit(bits: Code): Code
  {
    if Popcount(bits) % 2 == 1 then 1 else 0
  }

  /** The bit-counting loop of svid_cmd_fmt: clears the lowest set bit until none is left. */
  method CountBits(bits: Code) returns (bitsSet: nat)
    ensures bitsSet == Popcount(bits)
  {
    var bmask := bits;
    bitsSet := 0;
    while bmask != 0
      invariant bitsSet + Popcount(bmask) == Popcount(bits)
      decreases Popcount(bmask)
    {
      ClearLowestBit(bmask);
      bmask := ClearLowest(bmask);  // bmask &= bmask - 1
      bitsSet := bitsSet + 1;
    }
  }

  /**
   * svid_cmd_fmt: shifts the command left by one and puts the odd-parity
   * flag in bit 0.
   */
  method SvidCmdFmt(bits: Code) returns (r: Code)
    ensures r == ShiftInFlag(bits, ParityBit(bits))
  {
    var bitsSet := CountBits(bits);
    r := ShiftInFlag(bits, if bitsSet % 2 == 1 then 1 else 0);
  }

  /** The command shifted up by one with `flag` in bit 0. */
  function ShiftInFlag(bits: Code, flag: Code): Code
  {
    (bits << 1) | flag
  }

  lemma ShiftInFlagFields(bits: Code, flag: Code)
    requires flag <= 1
    ensures ShiftInFlag(bits, flag) >> 1 == bits & 0x7FFF_FFFF
    ensures ShiftInFlag(bits, flag) & 1 == flag
  {
  }

  /** The formatted command holds the command above bit 0 and the parity flag in bit 0. */
  lemma SvidCmdFields(bits: Code)
    ensures ShiftInFlag(bits, ParityBit(bits)) >> 1 == bits & 0x7FFF_FFFF
    ensures ShiftInFlag(bits, ParityBit(bits)) & 1 == 1 <==> Popcount(bits) % 2 == 1
  {
    ShiftInFlagFields(bits, ParityBit(bits));
  }

  // ---------------------------------------------------------------------
  // Die-temperature compensation of a voltage code

  /** Thousandths rounded to the nearest unit, as rtccomp computes its ticks. */
  function RoundThousandths(tcode: nat): (ticks: nat)
    ensures ticks == (tcode + 500) / 1000
  {
    tcode / 1000 + (tcode % 1000) / 500
  }

  /**
   * rtccomp: the unsigned product is computed modulo 2^32 before the
   * division, as in C.
   */
  function Rtccomp(vidcode: nat, temp: nat, slope: nat, vlimit: nat, tjhot: nat): (r: nat)
    requires vidcode < U32_LIMIT && temp < 0x400 && slope < 0x80 && vlimit < 0x200 && tjhot < 0x40
    ensures (temp > RTC_MAX_TEMP_BASE - tjhot || vidcode > vlimit || slope == 0) ==> r == vidcode
    ensures vidcode <= r <= vidcode + 430
    ensures r < U32_LIMIT
  {
    if temp > RTC_MAX_TEMP_BASE - tjhot || vidcode > vlimit || slope == 0 then vidcode
    else
      var product := slope * (RTC_MAX_TEMP_BASE - tjhot - temp) * (vlimit - vidcode) * 1000;
      var tcode := (product % U32_LIMIT) / 10000;
      vidcode + RoundThousandths(tcode)
  }

  /** Without wrap-around, the compensation is the exact product rounded to a tick. */
  lemma RtccompExact(vidcode: nat, temp: nat, slope: nat, vlimit: nat, tjhot: nat, product: nat)
    requires vidcode < U32_LIMIT && temp < 0x400 && slope < 0x80 && vlimit < 0x200 && tjhot < 0x40
    requires temp <= RTC_MAX_TEMP_BASE - tjhot && vidcode <= vlimit && slope != 0
    requires product == slope * (RTC_MAX_TEMP_BASE - tjhot - temp) * (vlimit - vidcode) * 1000
    requires product < U32_LIMIT
    ensures Rtccomp(vidcode, temp, slope, vlimit, tjhot) == vidcode + (product / 10000 + 500) / 1000
  {
    assert product % U32_LIMIT == product;
  }

  // ---------------------------------------------------------------------
  // Base clock

  /** The ICC divider fuse field of the scratch-4 register. */
  function IccDiv(scratch4: bv32): int
  {
    ((scratch4 >> ICCDIV_POS) & ICCDIV_MASK) as int
  }

  /** get_baseclk: RefClk/IccDiv in kHz, or 0 when unmapped or out of range. */
  function GetBaseclk(mapped: bool, scratch4: bv32): (clk: int)
    ensures clk == 0 <==> !mapped || IccDiv(scratch4) < MIN_ICCDIV || IccDiv(scratch4) > MAX_ICCDIV
    ensures clk != 0 ==> 181818 <= clk <= 222222 && clk * IccDiv(scratch4) <= ICC_REFCLK * 1000
    ensures clk != 0 ==> ICC_REFCLK * 1000 < (clk + 1) * IccDiv(scratch4)
  {
    if !mapped then 0
    else
      var iccdiv := IccDiv(scratch4);
      if iccdiv < MIN_ICCDIV || iccdiv > MAX_ICCDIV then 0
      else (ICC_REFCLK * 1000) / iccdiv
  }

  // ---------------------------------------------------------------------
  // Voltage-code table

  /**
   * Entry `i` of the table mic_generate_vid_codes builds: PN's code at 0,
   * P1's at nturbo-1, P0's at nturbo+turbo-1, codes interpolated between
   * them with C's truncating division and unsigned wrap, zero elsewhere.
   */
  function VidAt(pn: nat, p1: nat, p0: nat, nturbo: nat, turbo: nat, i: nat): (r: int)
    requires nturbo > 0
    ensures pn <= p1 < U32_LIMIT && i < nturbo ==> pn <= r <= p1
    ensures p1 <= p0 < U32_LIMIT && nturbo <= i < nturbo + turbo ==> p1 <= r <= p0
    ensures i >= nturbo + turbo ==> r == 0
  {
    if i == 0 then pn
    else if i < nturbo - 1 then
      Interpolated(pn, p1, nturbo - 1 - i, nturbo)
    else if i == nturbo - 1 then p1
    else if i < nturbo + turbo - 1 then
      Interpolated(p1, p0, nturbo + turbo - 1 - i, turbo)
    else if i == nturbo + turbo - 1 then p0
    else 0
  }

  /**
   * The code k steps of n below hi on the way down to lo, as the loops of
   * mic_generate_vid_codes compute it: C's truncating division and the
   * unsigned wrap of the `vid` field. Between lo and hi it stays between them.
   */
  function Interpolated(lo: nat, hi: nat, k: nat, n: nat): (r: int)
    requires 0 < n
    ensures lo <= hi < U32_LIMIT && k <= n ==> lo <= r <= hi
  {
    ShareBelow(hi - lo, k, n);
    ModOfSmall(hi - CDiv((hi - lo) * k, n));
    (hi - CDiv((hi - lo) * k, n)) % U32_LIMIT
  }

  /** The share k/n of d, with C's division, lies between 0 and d when k <= n. */
  lemma ShareBelow(d: int, k: nat, n: nat)
    requires 0 < n
    ensures 0 <= d && k <= n ==> 0 <= CDiv(d * k, n) <= d
  {
    if 0 <= d && k <= n {
      MulMono(d, 0, k);
      assert CDiv(d * k, n) == d * k / n;
      DivBelow(d, k, n);
    }
  }

  /** A value that fits in 32 bits is unchanged by the unsigned wrap. */
  lemma ModOfSmall(x: int)
    ensures 0 <= x < U32_LIMIT ==> x % U32_LIMIT == x
  {
  }

  /** mic_generate_vid_codes */
  method GenerateVidCodes(pn: nat, p1: nat, p0: nat, nturbo: nat, turbo: nat) returns (res: Result<seq<int>>)
    ensures nturbo == 0 ==> res == Err(-EINVAL)
    ensures nturbo > 0 ==> res.Ok? && |res.value| == nturbo + turbo + MAX_TURBO_POINTS
    ensures nturbo > 0 ==> forall i :: 0 <= i < |res.value| ==> res.value[i] == VidAt(pn, p1, p0, nturbo, turbo, i)
  {
    if nturbo == 0 {
      return Err(-EINVAL);
    }
    var vidtable := new int[nturbo + turbo + MAX_TURBO_POINTS](_ => 0);
    if turbo > 0 {
      FillTurboVids(vidtable, pn, p1, p0, nturbo, turbo);
    }
    FillNonTurboVids(vidtable, pn, p1, p0, nturbo, turbo);
    return Ok(vidtable[..]);
  }

  /** The turbo half of mic_generate_vid_codes: P0's code and the codes down towards P1. */
  method FillTurboVids(vidtable: array<int>, pn: nat, p1: nat, p0: nat, nturbo: nat, turbo: nat)
    requires 0 < nturbo && 0 < turbo && vidtable.Length == nturbo + turbo + MAX_TURBO_POINTS
    requires forall k :: 0 <= k < vidtable.Length ==> vidtable[k] == 0
    modifies vidtable
    ensures forall k :: 0 <= k < nturbo ==> vidtable[k] == 0
    ensures forall k :: nturbo <= k < vidtable.Length ==> vidtable[k] == VidAt(pn, p1, p0, nturbo, turbo, k)
  {
    var vidrange := p0 - p1;
    vidtable[nturbo + turbo - 1] := p0;
    var i: int, j := nturbo + turbo - 2, 1;
    while i >= nturbo
      invariant nturbo - 1 <= i <= nturbo + turbo - 2 && i + j == nturbo + turbo - 1
      invariant forall k :: i < k < vidtable.Length ==> vidtable[k] == VidAt(pn, p1, p0, nturbo, turbo, k)
      invariant forall k :: 0 <= k <= i ==> vidtable[k] == 0
    {
      vidtable[i] := (p0 - CDiv(vidrange * j, turbo)) % U32_LIMIT;
      i, j := i - 1, j + 1;
    }
  }

  /** The non-turbo half of mic_generate_vid_codes: P1's code, the codes down towards PN, and PN's. */
  method FillNonTurboVids(vidtable: array<int>, pn: nat, p1: nat, p0: nat, nturbo: nat, turbo: nat)
    requires 0 < nturbo && vidtable.Length == nturbo + turbo + MAX_TURBO_POINTS
    requires forall k :: nturbo <= k < vidtable.Length ==> vidtable[k] == VidAt(pn, p1, p0, nturbo, turbo, k)
    modifies vidtable
    ensures forall k :: 0 <= k < vidtable.Length ==> vidtable[k] == VidAt(pn, p1, p0, nturbo, turbo, k)
  {
    var vidrange := p1 - pn;
    vidtable[nturbo - 1] := p1;
    var i: int, j := nturbo - 2, 1;
    while i > 0
      invariant -1 <= i <= nturbo - 2 && i + j == nturbo - 1
      invariant forall k :: i < k < vidtable.Length && k != 0 ==> vidtable[k] == VidAt(pn, p1, p0, nturbo, turbo, k)
    {
      vidtable[i] := (p1 - CDiv(vidrange * j, nturbo)) % U32_LIMIT;
      i, j := i - 1, j + 1;
    }
    vidtable[0] := pn;
  }

  /** An interior non-turbo code is P1 lowered by its share of the P1-PN range, without wrap. */
  lemma NonTurboInterior(pn: nat, p1: nat, p0: nat, nturbo: nat, turbo: nat, i: nat)
    requires pn <= p1 < U32_LIMIT && 0 < i < nturbo - 1
    ensures VidAt(pn, p1, p0, nturbo, turbo, i) == p1 - (p1 - pn) * (nturbo - 1 - i) / nturbo
    ensures pn <= VidAt(pn, p1, p0, nturbo, turbo, i) <= p1
  {
    var m := nturbo - 1 - i;
    var x := (p1 - pn) * m;
    assert x >= 0 by { MulMono(p1 - pn, 0, m); }
    DivBelow(p1 - pn, m, nturbo);
    assert CDiv(x, nturbo) == x / nturbo;
    assert 0 <= p1 - x / nturbo < U32_LIMIT;
  }

  /**
   * With PN <= P1 the non-turbo codes rise from PN at entry 0 to P1 at
   * entry nturbo-1, so no interpolated code wraps around.
   */
  lemma NonTurboVidsMonotone(pn: nat, p1: nat, p0: nat, nturbo: nat, turbo: nat, i: nat)
    requires pn <= p1 < U32_LIMIT && i + 1 < nturbo
    ensures pn <= VidAt(pn, p1, p0, nturbo, turbo, i) <= VidAt(pn, p1, p0, nturbo, turbo, i + 1) <= p1
  {
    if 0 < i {
      NonTurboInterior(pn, p1, p0, nturbo, turbo, i);
    }
    if i + 1 < nturbo - 1 {
      NonTurboInterior(pn, p1, p0, nturbo, turbo, i + 1);
      if 0 < i {
        var m := nturbo - 1 - (i + 1);
        MulMono(p1 - pn, m, m + 1);
        MulMono(p1 - pn, 0, m);
        DivMono((p1 - pn) * m, (p1 - pn) * (m + 1), nturbo);
      }
    }
  }

  // ---------------------------------------------------------------------
  // Frequency-table search

  /** Position of the end marker: the source relies on its presence. */
  function EndIndex(table: seq<int>): (e: nat)
    requires CPUFREQ_TABLE_END in table
    ensures e < |table| && table[e] == CPUFREQ_TABLE_END
    ensures forall k :: 0 <= k < e ==> table[k] != CPUFREQ_TABLE_END
  {
    if table[0] == CPUFREQ_TABLE_END then 0 else 1 + EndIndex(table[1..])
  }

  predicate Usable(table: seq<int>, k: int)
  {
    0 <= k < |table| && table[k] != CPUFREQ_ENTRY_INVALID && table[k] != CPUFREQ_TABLE_END
  }

  /** The first usable entry below `n` whose frequency reaches `tfreq`. */
  function FirstReaching(table: seq<int>, tfreq: int, n: nat): (f: Option<nat>)
    requires n <= |table|
    ensures f.Some? ==> f.value < n && Usable(table, f.value) && table[f.value] >= tfreq
    ensures f.Some? ==> forall k :: 0 <= k < f.value && Usable(table, k) ==> table[k] < tfreq
    ensures f.None? ==> forall k :: 0 <= k < n && Usable(table, k) ==> table[k] < tfreq
  {
    if n == 0 then None
    else match FirstReaching(table, tfreq, n - 1)
      case Some(k) => Some(k)
      case None => if Usable(table, n - 1) && table[n - 1] >= tfreq then Some(n - 1) else None
  }

  /** The last usable entry below `n`. */
  function LastUsableBefore(table: seq<int>, n: nat): (p: Option<nat>)
    requires n <= |table|
    ensures p.Some? ==> p.value < n && Usable(table, p.value)
    ensures p.Some? ==> forall k :: p.value < k < n ==> !Usable(table, k)
    ensures p.None? ==> forall k :: 0 <= k < n ==> !Usable(table, k)
  {
    if n == 0 then None
    else if Usable(table, n - 1) then Some(n - 1)
    else LastUsableBefore(table, n - 1)
  }

  /**
   * The entry an asynchronous throttle to `tfreq` selects: the first usable
   * entry reaching the target if it is exactly the target, otherwise the
   * usable entry just before it, or that first entry itself when nothing
   * usable precedes it; none when no usable entry reaches the target.
   */
  function ThrottleTarget(table: seq<int>, tfreq: int): (r: Option<nat>)
    requires CPUFREQ_TABLE_END in table
    ensures r.Some? ==> r.value < EndIndex(table) && Usable(table, r.value)
    ensures r.Some? && table[r.value] < tfreq ==>
              exists f :: r.value < f < EndIndex(table) && Usable(table, f) && table[f] > tfreq
  {
    match FirstReaching(table, tfreq, EndIndex(table))
    case None => None
    case Some(f) =>
      if table[f] == tfreq then Some(f)
      else match LastUsableBefore(table, f)
        case None => Some(f)
        case Some(p) => Some(p)
  }

  /**
   * The selected entry is usable and lies before the end marker; it exists
   * exactly when some usable entry reaches the target; and it never runs
   * above the target unless no usable entry precedes it.
   */
  lemma ThrottleTargetProperties(table: seq<int>, tfreq: int)
    requires CPUFREQ_TABLE_END in table
    ensures var t := ThrottleTarget(table, tfreq);
      (t.Some? <==> exists k :: 0 <= k < EndIndex(table) && Usable(table, k) && table[k] >= tfreq) &&
      (t.Some? ==> t.value < EndIndex(table) && Usable(table, t.value)) &&
      (t.Some? && table[t.value] > tfreq ==> forall k :: 0 <= k < t.value ==> !Usable(table, k))
  {
    var e := EndIndex(table);
    var t := ThrottleTarget(table, tfreq);
    if t.None? {
      assert FirstReaching(table, tfreq, e).None?;
    }
  }

  /** asynch_throttle: the table scan that picks the entry to switch to. */
  method ThrottleIndex(table: seq<int>, tfreq: int, driverBusy: bool) returns (index: Option<nat>)
    requires CPUFREQ_TABLE_END in table
    ensures index == if driverBusy then None else ThrottleTarget(table, tfreq)
  {
    if driverBusy {
      return None;
    }
    ghost var e := EndIndex(table);
    var pindex: Option<nat> := None;
    var i := 0;
    while table[i] != CPUFREQ_TABLE_END
      invariant 0 <= i <= e
      invariant FirstReaching(table, tfreq, i) == None
      invariant pindex == LastUsableBefore(table, i)
      decreases e - i
    {
      var freq := table[i];
      if freq == CPUFREQ_ENTRY_INVALID {
        i := i + 1;
        continue;
      } else if pindex.None? {
        pindex := Some(i);
      }
      if freq == tfreq {
        FirstReachingAfter(table, tfreq, i, e);
        return Some(i);
      }
      if freq > tfreq {
        FirstReachingAfter(table, tfreq, i, e);
        return pindex;
      }
      pindex := Some(i);
      i := i + 1;
    }
    assert FirstReaching(table, tfreq, e) == None;
    return None;
  }

  /** Once found below `n`, the first reaching entry stays the same for larger bounds. */
  lemma {:induction false} FirstReachingAfter(table: seq<int>, tfreq: int, f: nat, e: nat)
    requires f < e <= |table|
    requires FirstReaching(table, tfreq, f) == None && Usable(table, f) && table[f] >= tfreq
    ensures FirstReaching(table, tfreq, e) == Some(f)
    decreases e
  {
    if e > f + 1 {
      FirstReachingAfter(table, tfreq, f, e - 1);
    }
  }

  // ---------------------------------------------------------------------
  // Report to the RAS module

  /** VID_2_VOLTAGE in mV, scaled to µV, in unsigned 32-bit arithmetic. */
  function VidMicrovolts(vid: nat): int
  {
    ((K1OM_VOLT_OFFSET + (vid - 1) * 5) % U32_LIMIT * 1000) % U32_LIMIT
  }

  /** Indices of the usable entries before the end marker, in order. */
  function UsableBefore(table: seq<int>, n: nat): (ix: seq<nat>)
    requires n <= |table|
    ensures forall m :: 0 <= m < |ix| ==> Usable(table, ix[m]) && ix[m] < n
  {
    if n == 0 then []
    else if Usable(table, n - 1) then UsableBefore(table, n - 1) + [n - 1]
    else UsableBefore(table, n - 1)
  }

  /** UsableBefore lists every usable index below the bound, each once, in ascending order. */
  lemma {:induction false} UsableBeforeComplete(table: seq<int>, n: nat)
    requires n <= |table|
    ensures var ix := UsableBefore(table, n);
      (forall m, m' :: 0 <= m < m' < |ix| ==> ix[m] < ix[m'])
      && (forall k :: 0 <= k < n && Usable(table, k) ==> k in ix)
  {
    if n > 0 {
      UsableBeforeComplete(table, n - 1);
    }
  }

  /**
   * ras_freqtable: copies the usable frequencies, and the voltage of the
   * matching voltage code, until the end marker or until min(volt_siz,
   * freq_siz) entries are written. Without a parameter block nothing is
   * written.
   */
  method RasFreqtable(table: seq<int>, vids: seq<nat>, present: bool, voltSiz: nat, freqSiz: nat)
    returns (freqs: seq<int>, volts: seq<int>)
    requires CPUFREQ_TABLE_END in table && |vids| == |table|
    requires voltSiz < U32_LIMIT && freqSiz < U32_LIMIT
    ensures var j := Min(voltSiz, freqSiz);
      var limit := if !present || j > INT_MAX then 0 else j;
      var ix := UsableBefore(table, EndIndex(table));
      |freqs| == |volts| == Min(limit, |ix|) &&
      (forall m :: 0 <= m < |freqs| ==> freqs[m] == table[ix[m]] && volts[m] == VidMicrovolts(vids[ix[m]]))
  {
    freqs, volts := [], [];
    if !present {
      return;
    }
    var j := Min(voltSiz, freqSiz);
    if j > INT_MAX {
      j := j - U32_LIMIT;  // the unsigned minimum stored in a C int
    }
    freqs, volts := CopyUsable(table, vids, j);
  }

  /** The copy loop of ras_freqtable, with j the entry limit as a C int. */
  method CopyUsable(table: seq<int>, vids: seq<nat>, j: int) returns (freqs: seq<int>, volts: seq<int>)
    requires CPUFREQ_TABLE_END in table && |vids| == |table|
    ensures var ix := UsableBefore(table, EndIndex(table));
      |freqs| == |volts| == Min(if j < 0 then 0 else j, |ix|) &&
      (forall m :: 0 <= m < |freqs| ==> freqs[m] == table[ix[m]] && volts[m] == VidMicrovolts(vids[ix[m]]))
  {
    freqs, volts := [], [];
    ghost var e := EndIndex(table);
    var i, k := 0, 0;
    ghost var ix: seq<nat> := [];
    while table[i] != CPUFREQ_TABLE_END && k < j
      invariant 0 <= i <= e && k == |freqs| == |volts|
      invariant k == 0 || k <= j
      invariant ix == UsableBefore(table, i) && k == |ix|
      invariant forall m :: 0 <= m < k ==> freqs[m] == table[ix[m]] && volts[m] == VidMicrovolts(vids[ix[m]])
      decreases e - i
    {
      if table[i] != CPUFREQ_ENTRY_INVALID {
        CopyStep(table, vids, i, ix, freqs, volts);
        freqs := freqs + [table[i]];
        volts := volts + [VidMicrovolts(vids[i])];
        k := k + 1;
        ix := ix + [i];
      }
      i := i + 1;
    }
    CopyExit(table, vids, j, i, ix, freqs, volts);
  }

  /** When the copy loop stops, the copies are the first usable entries, as many as the limit allows. */
  lemma CopyExit(table: seq<int>, vids: seq<nat>, j: int, i: nat, ix: seq<nat>, freqs: seq<int>, volts: seq<int>)
    requires CPUFREQ_TABLE_END in table && |vids| == |table|
    requires i <= EndIndex(table) && |ix| == |freqs| == |volts| && (|ix| == 0 || |ix| <= j)
    requires ix == UsableBefore(table, i)
    requires forall m :: 0 <= m < |ix| ==> freqs[m] == table[ix[m]] && volts[m] == VidMicrovolts(vids[ix[m]])
    requires table[i] == CPUFREQ_TABLE_END || |ix| >= j
    ensures var all := UsableBefore(table, EndIndex(table));
      |freqs| == |volts| == Min(if j < 0 then 0 else j, |all|) &&
      (forall m :: 0 <= m < |freqs| ==> freqs[m] == table[all[m]] && volts[m] == VidMicrovolts(vids[all[m]]))
  {
    PrefixOfUsable(table, i, EndIndex(table));
  }

  /** Copying a usable entry keeps the copies in step with the usable indices. */
  lemma CopyStep(table: seq<int>, vids: seq<nat>, i: nat, ix: seq<nat>, freqs: seq<int>, volts: seq<int>)
    requires i < |table| == |vids| && Usable(table, i)
    requires ix == UsableBefore(table, i) && |ix| == |freqs| == |volts|
    requires forall m :: 0 <= m < |ix| ==> freqs[m] == table[ix[m]] && volts[m] == VidMicrovolts(vids[ix[m]])
    ensures UsableBefore(table, i + 1) == ix + [i]
    ensures var ix' := ix + [i];
      forall m :: 0 <= m < |ix'| ==> (freqs + [table[i]])[m] == table[ix'[m]]
                                     && (volts + [VidMicrovolts(vids[i])])[m] == VidMicrovolts(vids[ix'[m]])
  {
  }

  /** The usable indices below n are a prefix of those below a larger bound. */
  lemma {:induction false} PrefixOfUsable(table: seq<int>, n: nat, e: nat)
    requires n <= e <= |table|
    ensures UsableBefore(table, n) <= UsableBefore(table, e)
    decreases e - n
  {
    if n < e {
      PrefixOfUsable(table, n, e - 1);
    }
  }
}

=== FILE: mic_menu.dfy ===
/**
 * The Xeon Phi idle-state ("menu") governor (drivers/micpm/mic_menu.c):
 * a per-cpu correction factor per sleep-length bucket turns the expected
 * sleep into a predicted one, the deepest idle state whose residency and
 * exit latency fit the prediction is chosen, and the factor is updated
 * from the residency measured after wake-up.
 *
 * The sleep length, the load average, the measured residency and the PC3
 * readiness test (which reads clocks and per-cpu user time) are parameters.
 */
module MicMenu {
  import opened Common

  const BUCKETS: nat := 12
  const RESOLUTION: nat := 1024
  const DECAY: nat := 4
  const MAX_INTERESTING: nat := 70000
  const MIC_LATENCY_REQ: nat := 165000
  const MIN_PC3_INACTIVITY: int := 1
  /** The first real idle state on x86: state 0 is polling. */
  const CPUIDLE_DRIVER_STATE_START: nat := 1

  /**
   * Largest correction factor reachable from zero: every update keeps 3/4
   * of the factor and adds less than RESOLUTION * MAX_INTERESTING.
   */
  const FACTOR_BOUND: nat := DECAY * RESOLUTION * MAX_INTERESTING

  /** One entry of the cpuidle device's state table. */
  datatype IdleState = IdleState(targetResidency: nat, exitLatency: nat, timeValid: bool)

  /** which_bucket: the decade of the expected sleep, in microseconds. */
  function WhichBucket(duration: nat): (b: nat)
    ensures b <= 5
    ensures b == 0 <==> duration < 10
    ensures 0 < b ==> Pow10(b) <= duration
    ensures b < 5 ==> duration < Pow10(b + 1)
  {
    if duration < 10 then 0
    else if duration < 100 then 1
    else if duration < 1000 then 2
    else if duration < 10000 then 3
    else if duration < 100000 then 4
    else 5
  }

  function Pow10(n: nat): nat
  {
    if n == 0 then 1 else 10 * Pow10(n - 1)
  }

  /** A longer expected sleep never falls into a lower bucket. */
  lemma WhichBucketMonotone(d1: nat, d2: nat)
    requires d1 <= d2
    ensures WhichBucket(d1) <= WhichBucket(d2)
  {
  }

  /** div_round64: the quotient rounded to the nearest integer, with u64 wrap of the sum. */
  function DivRound64(dividend: nat, divisor: nat): (r: nat)
    requires dividend < U64_LIMIT && 0 < divisor < U32_LIMIT
    ensures r < U64_LIMIT
    ensures divisor == 1 ==> r == dividend
  {
    var sum := dividend + divisor / 2;
    (if sum < U64_LIMIT then sum else sum - U64_LIMIT) / divisor
  }

  /** Unless the sum wraps, div_round64 is the quotient rounded to the nearest integer. */
  lemma DivRound64Nearest(dividend: nat, divisor: nat)
    requires dividend < U64_LIMIT && 0 < divisor < U32_LIMIT
    requires dividend + divisor / 2 < U64_LIMIT
    ensures var q := DivRound64(dividend, divisor);
      q * divisor <= dividend + divisor / 2 < (q + 1) * divisor
  {
    DivBounds(dividend + divisor / 2, divisor);
  }

  /** With the unity factor the prediction is the expected sleep itself. */
  lemma UnityPrediction(expected: nat)
    requires expected < U32_LIMIT
    ensures DivRound64(expected * (RESOLUTION * DECAY), RESOLUTION * DECAY) == expected
  {
    var d := RESOLUTION * DECAY;
    var x := expected * d + d / 2;
    assert x % U64_LIMIT == x;
    assert x == d * expected + 2048;
  }

  /** The residency used to correct the factor: the measured one, less the exit latency if larger. */
  function Measured(lastIdleUs: nat, timeValid: bool, expectedUs: nat, exitUs: nat): nat
  {
    var lastIdle := if timeValid then lastIdleUs else expectedUs;
    if lastIdle > exitUs then lastIdle - exitUs else lastIdle
  }

  /** The updated correction factor of menu_update, in u64 arithmetic. */
  function NewFactor(factor: nat, measured: nat, expected: nat): (f: nat)
    requires factor < U64_LIMIT && measured < U32_LIMIT && expected < U32_LIMIT
    ensures 1 <= f < U64_LIMIT
  {
    var kept := ((factor * (DECAY - 1)) % U64_LIMIT) / DECAY;
    var added := if expected > 0 && measured < MAX_INTERESTING
      then ((RESOLUTION * measured) % U32_LIMIT) / expected
      else RESOLUTION;
    var f := (kept + added) % U64_LIMIT;
    if f == 0 then 1 else f
  }

  /**
   * Below FACTOR_BOUND no step wraps: the new factor is three quarters of
   * the old plus RESOLUTION times measured/expected (or RESOLUTION for an
   * uninteresting sleep), at least 1, and again below the bound. There is
   * no cap at RESOLUTION.
   */
  lemma NewFactorBounded(factor: nat, measured: nat, expected: nat)
    requires factor <= FACTOR_BOUND && measured < U32_LIMIT && expected < U32_LIMIT
    ensures var added := if expected > 0 && measured < MAX_INTERESTING
        then RESOLUTION * measured / expected else RESOLUTION;
      NewFactor(factor, measured, expected) == Max(1, factor * (DECAY - 1) / DECAY + added)
    ensures NewFactor(factor, measured, expected) <= FACTOR_BOUND
  {
    var kept := factor * (DECAY - 1) / DECAY;
    var added := if expected > 0 && measured < MAX_INTERESTING then RESOLUTION * measured / expected else RESOLUTION;
    KeptPart(factor);
    AddedPart(measured, expected);
    NewFactorIs(factor, measured, expected, kept, added);
    NoWrap(NewFactor(factor, measured, expected), kept, added);
  }

  /** Kept and added parts within their bounds sum without a u64 wrap. */
  lemma NoWrap(f: nat, kept: nat, added: nat)
    requires kept <= FACTOR_BOUND - RESOLUTION * MAX_INTERESTING && added <= RESOLUTION * MAX_INTERESTING
    requires f == if (kept + added) % U64_LIMIT == 0 then 1 else (kept + added) % U64_LIMIT
    ensures f == Max(1, kept + added) && f <= FACTOR_BOUND
  {
    assert (kept + added) % U64_LIMIT == kept + added by {
      assert 0 <= kept + added <= FACTOR_BOUND < U64_LIMIT;
    }
  }

  /** NewFactor in terms of its kept and added parts. */
  lemma NewFactorIs(factor: nat, measured: nat, expected: nat, kept: nat, added: nat)
    requires factor < U64_LIMIT && measured < U32_LIMIT && expected < U32_LIMIT
    requires kept == ((factor * (DECAY - 1)) % U64_LIMIT) / DECAY
    requires added == if expected > 0 && measured < MAX_INTERESTING
      then ((RESOLUTION * measured) % U32_LIMIT) / expected else RESOLUTION
    ensures NewFactor(factor, measured, expected) == if (kept + added) % U64_LIMIT == 0 then 1 else (kept + added) % U64_LIMIT
  {
  }

  /** The kept three quarters of a factor below FACTOR_BOUND: no u64 wrap, and room for one addition. */
  lemma KeptPart(factor: nat)
    requires factor <= FACTOR_BOUND
    ensures ((factor * (DECAY - 1)) % U64_LIMIT) / DECAY == factor * (DECAY - 1) / DECAY
    ensures factor * (DECAY - 1) / DECAY <= FACTOR_BOUND - RESOLUTION * MAX_INTERESTING
  {
    assert (factor * (DECAY - 1)) % U64_LIMIT == factor * (DECAY - 1);
  }

  /** The added term of an interesting sleep: no u32 wrap, and below RESOLUTION * MAX_INTERESTING. */
  lemma AddedPart(measured: nat, expected: nat)
    requires measured < U32_LIMIT && expected < U32_LIMIT
    ensures expected > 0 && measured < MAX_INTERESTING ==>
      ((RESOLUTION * measured) % U32_LIMIT) / expected == RESOLUTION * measured / expected
      && 0 <= RESOLUTION * measured / expected <= RESOLUTION * MAX_INTERESTING
  {
    if expected > 0 && measured < MAX_INTERESTING {
      DivMono(0, RESOLUTION * measured, expected);
      assert (RESOLUTION * measured) % U32_LIMIT == RESOLUTION * measured;
      DivBelow(RESOLUTION * measured, 1, expected);
    }
  }

  /** Exact predictions leave the unity factor where it is. */
  lemma UnityFactorStable(expected: nat)
    requires 0 < expected < MAX_INTERESTING
    ensures NewFactor(RESOLUTION * DECAY, expected, expected) == RESOLUTION * DECAY
  {
    NewFactorBounded(RESOLUTION * DECAY, expected, expected);
    MulDivCancel(RESOLUTION, expected);
    assert RESOLUTION * expected == expected * RESOLUTION;
  }

  /** An idle state the prediction allows: residency, latency and weighted latency all fit. */
  predicate Fits(s: IdleState, predicted: nat, multiplier: nat)
  {
    s.targetResidency <= predicted &&
    s.exitLatency <= MIC_LATENCY_REQ &&
    (s.exitLatency * multiplier) % U32_LIMIT <= predicted
  }

  /**
   * The state search of menu_select: walks up from the first real idle
   * state while states fit and returns the last one that did, with its exit
   * latency; `fallback` and 0 when the first real state does not fit.
   */
  method DeepestFitting(states: seq<IdleState>, predicted: nat, multiplier: nat, fallback: int)
    returns (idx: int, exitUs: nat)
    ensures (idx == fallback && exitUs == 0 &&
             (|states| <= CPUIDLE_DRIVER_STATE_START || !Fits(states[CPUIDLE_DRIVER_STATE_START], predicted, multiplier)))
         || (CPUIDLE_DRIVER_STATE_START <= idx < |states| &&
             (forall k :: CPUIDLE_DRIVER_STATE_START <= k <= idx ==> Fits(states[k], predicted, multiplier)) &&
             (idx + 1 == |states| || !Fits(states[idx + 1], predicted, multiplier)) &&
             exitUs == states[idx].exitLatency)
  {
    idx, exitUs := fallback, 0;
    var i := CPUIDLE_DRIVER_STATE_START;
    while i < |states|
      invariant CPUIDLE_DRIVER_STATE_START <= i
      invariant i == CPUIDLE_DRIVER_STATE_START ==> idx == fallback && exitUs == 0
      invariant i > CPUIDLE_DRIVER_STATE_START ==> idx == i - 1 && i <= |states| && exitUs == states[idx].exitLatency
      invariant forall k :: CPUIDLE_DRIVER_STATE_START <= k < i && k < |states| ==> Fits(states[k], predicted, multiplier)
    {
      var s := states[i];
      if s.targetResidency > predicted {
        break;
      }
      if s.exitLatency > MIC_LATENCY_REQ {
        break;
      }
      if (s.exitLatency * multiplier) % U32_LIMIT > predicted {
        break;
      }
      exitUs := s.exitLatency;
      idx := i;
      i := i + 1;
    }
  }

  /** The menu governor state of one cpu, with its device's idle-state table. */
  class MenuDevice {
    var lastStateIdx: int
    var needsUpdate: bool
    var expectedUs: nat
    var predictedUs: nat
    var exitUs: nat
    var bucket: nat
    var correctionFactor: seq<nat>
    const states: seq<IdleState>

    ghost predicate Valid()
      reads this
    {
      |correctionFactor| == BUCKETS && bucket < BUCKETS &&
      |states| > CPUIDLE_DRIVER_STATE_START && 0 <= lastStateIdx < |states| &&
      expectedUs < U32_LIMIT && exitUs < U32_LIMIT &&
      forall b :: 0 <= b < BUCKETS ==> correctionFactor[b] <= FACTOR_BOUND
    }

    constructor(states: seq<IdleState>)
      requires |states| > CPUIDLE_DRIVER_STATE_START
      ensures Valid() && this.states == states
      ensures correctionFactor == seq(BUCKETS, _ => 0) && !needsUpdate && lastStateIdx == 0
    {
      this.states := states;
      lastStateIdx, needsUpdate := 0, false;
      expectedUs, predictedUs, exitUs, bucket := 0, 0, 0, 0;
      correctionFactor := seq(BUCKETS, _ => 0);
    }

    /** menu_reflect: the next selection first updates the factor. */
    method Reflect()
      modifies this
      ensures needsUpdate
      ensures lastStateIdx == old(lastStateIdx) && expectedUs == old(expectedUs) && predictedUs == old(predictedUs)
      ensures exitUs == old(exitUs) && bucket == old(bucket) && correctionFactor == old(correctionFactor)
    {
      needsUpdate := true;
    }

    /**
     * menu_update: corrects the factor of the current bucket with the
     * residency measured for the state last entered.
     */
    method Update(lastIdleUs: nat)
      requires Valid() && lastIdleUs < U32_LIMIT
      modifies this
      ensures Valid()
      ensures correctionFactor == old(correctionFactor)[bucket := NewFactor(old(correctionFactor[bucket]),
        Measured(lastIdleUs, states[lastStateIdx].timeValid, expectedUs, exitUs), expectedUs)]
      ensures lastStateIdx == old(lastStateIdx) && needsUpdate == old(needsUpdate) && expectedUs == old(expectedUs)
      ensures predictedUs == old(predictedUs) && exitUs == old(exitUs) && bucket == old(bucket)
    {
      var target := states[lastStateIdx];
      var measured := Measured(lastIdleUs, target.timeValid, expectedUs, exitUs);
      NewFactorBounded(correctionFactor[bucket], measured, expectedUs);
      correctionFactor := correctionFactor[bucket := NewFactor(correctionFactor[bucket], measured, expectedUs)];
    }

    /**
     * menu_select: updates the factor first when menu_reflect asked for it,
     * predicts the sleep from the expected one, and records the deepest
     * idle state of the fitting run from the first real one with its exit
     * latency (C1 when the sleep is longer than 5 us and nothing fits,
     * polling otherwise); it returns that state, or the deepest state of
     * all when PC3 is ready. `sleepNs` is the tick
     * code's sleep length, truncated to 32 bits as the source does.
     */
    method Select(sleepNs: int, loadavg: nat, pc3Ready: bool, lastIdleUs: nat) returns (newState: int)
      requires Valid() && lastIdleUs < U32_LIMIT
      modifies this
      ensures Valid() && !needsUpdate
      ensures expectedUs == ((sleepNs % U32_LIMIT) + 999) % U32_LIMIT / 1000
      ensures bucket == WhichBucket(expectedUs)
      ensures var f1 := if old(needsUpdate) then old(correctionFactor)[old(bucket) := NewFactor(old(correctionFactor)[old(bucket)],
                          Measured(lastIdleUs, states[old(lastStateIdx)].timeValid, old(expectedUs), old(exitUs)), old(expectedUs))]
                        else old(correctionFactor);
        correctionFactor == f1[bucket := if f1[bucket] == 0 then RESOLUTION * DECAY else f1[bucket]]
      ensures predictedUs == DivRound64((expectedUs * correctionFactor[bucket]) % U64_LIMIT, RESOLUTION * DECAY)
      ensures var m := 1 + 2 * loadavg;
        (lastStateIdx == (if expectedUs > 5 then CPUIDLE_DRIVER_STATE_START else 0) && exitUs == 0
         && !Fits(states[CPUIDLE_DRIVER_STATE_START], predictedUs, m))
        || (CPUIDLE_DRIVER_STATE_START <= lastStateIdx
            && (forall k :: CPUIDLE_DRIVER_STATE_START <= k <= lastStateIdx ==> Fits(states[k], predictedUs, m))
            && (lastStateIdx + 1 == |states| || !Fits(states[lastStateIdx + 1], predictedUs, m))
            && exitUs == states[lastStateIdx].exitLatency % U32_LIMIT)
      ensures newState == if pc3Ready then |states| - 1 else lastStateIdx
    {
      if needsUpdate {
        Update(lastIdleUs);
        needsUpdate := false;
      }
      lastStateIdx := 0;
      exitUs := 0;
      Predict(sleepNs);
      var multiplier := 1 + 2 * loadavg;
      if expectedUs > 5 {
        lastStateIdx := CPUIDLE_DRIVER_STATE_START;
      }
      var idx, exit := DeepestFitting(states, predictedUs, multiplier, lastStateIdx);
      lastStateIdx := idx;
      exitUs := exit % U32_LIMIT;
      newState := if pc3Ready then |states| - 1 else lastStateIdx;
    }

    /**
     * The prediction step of menu_select: the expected sleep rounded up to
     * whole microseconds, its bucket, a zero factor replaced by unity, and
     * the predicted sleep as the expected one scaled by the factor.
     */
    method Predict(sleepNs: int)
      requires Valid()
      modifies this
      ensures Valid()
      ensures expectedUs == ((sleepNs % U32_LIMIT) + 999) % U32_LIMIT / 1000
      ensures bucket == WhichBucket(expectedUs)
      ensures correctionFactor == old(correctionFactor)[bucket :=
        if old(correctionFactor)[bucket] == 0 then RESOLUTION * DECAY else old(correctionFactor)[bucket]]
      ensures predictedUs == DivRound64((expectedUs * correctionFactor[bucket]) % U64_LIMIT, RESOLUTION * DECAY)
      ensures lastStateIdx == old(lastStateIdx) && exitUs == old(exitUs) && needsUpdate == old(needsUpdate)
    {
      expectedUs := ((sleepNs % U32_LIMIT) + 999) % U32_LIMIT / 1000;
      bucket := WhichBucket(expectedUs);
      if correctionFactor[bucket] == 0 {
        correctionFactor := correctionFactor[bucket := RESOLUTION * DECAY];
      }
      predictedUs := DivRound64((expectedUs * correctionFactor[bucket]) % U64_LIMIT, RESOLUTION * DECAY);
    }
  }

  /** The PC3 package-state policy shared by all cpus. */
  class Pc3Policy {
    var inactivity: int
    var policy: bool
    /** The policy-changed flag of each online cpu. */
    var policyChanged: seq<bool>

    constructor(ncpus: nat)
      ensures inactivity == 15 && policy && policyChanged == seq(ncpus, _ => false)
    {
      inactivity, policy := 15, true;
      policyChanged := seq(ncpus, _ => false);
    }

    /**
     * mic_menu_set_pc3_inactivity: takes a new inactivity time of at least
     * MIN_PC3_INACTIVITY seconds and, when the policy is on, flags every
     * cpu so its readiness is re-evaluated; smaller times are ignored.
     */
    method SetInactivity(time: int)
      modifies this
      ensures policy == old(policy) && |policyChanged| == |old(policyChanged)|
      ensures time < MIN_PC3_INACTIVITY ==> inactivity == old(inactivity) && policyChanged == old(policyChanged)
      ensures time >= MIN_PC3_INACTIVITY ==> inactivity == time
      ensures time >= MIN_PC3_INACTIVITY ==>
        forall c :: 0 <= c < |policyChanged| ==> policyChanged[c] == (policy || old(policyChanged)[c])
    {
      if time >= MIN_PC3_INACTIVITY {
        inactivity := time;
        if policy {
          var i := 0;
          while i < |policyChanged|
            invariant 0 <= i <= |policyChanged| == |old(policyChanged)|
            invariant policy == old(policy) && inactivity == time
            invariant forall c :: 0 <= c < |policyChanged| ==> policyChanged[c] == (c < i || old(policyChanged)[c])
          {
            policyChanged := policyChanged[i := true];
            i := i + 1;
          }
        }
      }
    }
  }
}

=== FILE: netmsg.dfy ===
/**
 * The wire format of the messages exchanged between a coprocessor and the
 * host proxy (network/src/liblink/netmsg.c, network/src/include/netmsg.h).
 * Every message is a packed little-endian structure: a 24-byte header
 * (sequence number, size, command, tag) followed by a body whose layout
 * the command selects. A marshaller writes the structure into the caller's
 * buffer in place, or in dry-run mode only reports its size; an
 * unmarshaller copies it back out.
 */
module NetMsg {
  import opened Common

  newtype byte = x: int | 0 <= x < 256

  // Command numbers (the enum of netmsg.h)
  const T_SOCKET: nat := 0
  const T_BIND: nat := 1
  const T_CONNECT: nat := 2
  const T_LISTEN: nat := 3
  const T_SETSOCKOPT: nat := 4
  const T_GETSOCKOPT: nat := 5
  const T_SENDMSG: nat := 6
  const T_SENDDATA: nat := 7
  const T_SHUTDOWN: nat := 8
  const T_CLOSE: nat := 9
  const R_SOCKET: nat := 10
  const R_BIND: nat := 11
  const R_CONNECT: nat := 12
  const R_LISTEN: nat := 13
  const R_SETSOCKOPT: nat := 14
  const R_GETSOCKOPT: nat := 15
  const R_SENDMSG: nat := 16
  const R_SENDDATA: nat := 17
  const R_SHUTDOWN: nat := 18
  const R_CLOSE: nat := 19
  const E_ACCEPT: nat := 20
  const E_RECVDATA: nat := 21
  const N_SOCKET: nat := 22

  /** sizeof(struct netmsg_header_t) */
  const HEADER_SIZE: nat := 24
  /** sizeof(struct sockaddr_in) */
  const SOCKADDR_IN_SIZE: nat := 16
  /** sizeof(struct iovec) on the 64-bit targets */
  const IOVEC_SIZE: nat := 16
  /** sizeof(struct msghdr) on the 64-bit targets */
  const MSGHDR_SIZE: nat := 56

  const I32_MIN: int := -0x8000_0000

  // ---------------------------------------------------------------------
  // Little-endian fields

  function Pow256(n: nat): nat
  {
    if n == 0 then 1 else 256 * Pow256(n - 1)
  }

  /** The n low bytes of x, least significant first. */
  function LE(x: nat, n: nat): (r: seq<byte>)
    ensures |r| == n
  {
    if n == 0 then [] else [(x % 256) as byte] + LE(x / 256, n - 1)
  }

  /** The unsigned value of little-endian bytes. */
  function FromLE(bs: seq<byte>): (r: nat)
    ensures r < Pow256(|bs|)
  {
    if bs == [] then 0 else bs[0] as nat + 256 * FromLE(bs[1..])
  }

  /** Reading back n little-endian bytes gives any value that fits in them. */
  lemma {:induction false} FromLEOfLE(x: nat, n: nat)
    requires x < Pow256(n)
    ensures FromLE(LE(x, n)) == x
  {
    if n > 0 {
      assert x / 256 < Pow256(n - 1);
      FromLEOfLE(x / 256, n - 1);
      assert LE(x, n)[1..] == LE(x / 256, n - 1);
    }
  }

  /** Zero is stored as zero bytes. */
  lemma {:induction false} LEZero(n: nat)
    ensures LE(0, n) == seq(n, _ => 0 as byte)
  {
    if n > 0 {
      LEZero(n - 1);
      assert LE(0, n) == [0 as byte] + seq(n - 1, _ => 0 as byte);
    }
  }

  /** A 32-bit two's-complement value as the unsigned word that stores it. */
  function I32Bits(v: int): nat
  {
    v % U32_LIMIT
  }

  /** The signed value a 32-bit word stores. */
  function I32Of(w: nat): int
  {
    if w >= 0x8000_0000 then w - U32_LIMIT else w
  }

  /** One field of a packed structure. */
  datatype Field = U32(v: nat) | U64(v: nat) | I32(i: int) | Raw(bytes: seq<byte>)

  /** The shape of a field, as an unmarshaller expects it. */
  datatype Kind = K32 | K64 | KI32 | KRaw(n: nat)

  function KindOf(f: Field): Kind
  {
    match f
    case U32(_) => K32
    case U64(_) => K64
    case I32(_) => KI32
    case Raw(b) => KRaw(|b|)
  }

  function Kinds(fs: seq<Field>): (ks: seq<Kind>)
    ensures |ks| == |fs|
  {
    if fs == [] then [] else [KindOf(fs[0])] + Kinds(fs[1..])
  }

  /** The value lies in the range of its C type. */
  predicate FieldOk(f: Field)
  {
    match f
    case U32(v) => v < U32_LIMIT
    case U64(v) => v < U64_LIMIT
    case I32(i) => I32_MIN <= i <= INT_MAX
    case Raw(_) => true
  }

  predicate FieldsOk(fs: seq<Field>)
  {
    forall k :: 0 <= k < |fs| ==> FieldOk(fs[k])
  }

  function Width(k: Kind): nat
  {
    match k
    case K32 => 4
    case K64 => 8
    case KI32 => 4
    case KRaw(n) => n
  }

  function Widths(ks: seq<Kind>): nat
  {
    if ks == [] then 0 else Width(ks[0]) + Widths(ks[1..])
  }

  function EncodeField(f: Field): (r: seq<byte>)
    ensures |r| == Width(KindOf(f))
  {
    match f
    case U32(v) => LE(v, 4)
    case U64(v) => LE(v, 8)
    case I32(i) => LE(I32Bits(i), 4)
    case Raw(b) => b
  }

  /** The packed bytes of a sequence of fields. */
  function Encode(fs: seq<Field>): seq<byte>
  {
    if fs == [] then [] else EncodeField(fs[0]) + Encode(fs[1..])
  }

  function DecodeField(k: Kind, bs: seq<byte>): Field
    requires Width(k) <= |bs|
  {
    match k
    case K32 => U32(FromLE(bs[..4]))
    case K64 => U64(FromLE(bs[..8]))
    case KI32 => I32(I32Of(FromLE(bs[..4])))
    case KRaw(n) => Raw(bs[..n])
  }

  /**
   * The fields of the given shapes at the front of bs and the bytes after
   * them, or None when bs is too short.
   */
  function Decode(ks: seq<Kind>, bs: seq<byte>): (r: Option<(seq<Field>, seq<byte>)>)
    ensures r.Some? ==> |r.value.0| == |ks| && |bs| == Widths(ks) + |r.value.1|
    ensures r.None? <==> |bs| < Widths(ks)
  {
    if ks == [] then Some(([], bs))
    else if |bs| < Width(ks[0]) then None
    else
      match Decode(ks[1..], bs[Width(ks[0])..])
      case None => None
      case Some((fs, rest)) =>
        Some(([DecodeField(ks[0], bs)] + fs, rest))
  }

  lemma Pow256Widths()
    ensures Pow256(4) == U32_LIMIT && Pow256(8) == U64_LIMIT
  {
    assert Pow256(2) == 0x1_0000;
    assert Pow256(4) == 0x1_0000_0000;
    assert Pow256(6) == 0x1_0000_0000_0000;
  }

  /** A 32-bit signed value survives its two's-complement storage. */
  lemma I32RoundTrip(i: int)
    requires I32_MIN <= i <= INT_MAX
    ensures I32Bits(i) < U32_LIMIT && I32Of(I32Bits(i)) == i
  {
  }

  lemma DecodeEncodeField(f: Field, rest: seq<byte>)
    requires FieldOk(f)
    ensures DecodeField(KindOf(f), EncodeField(f) + rest) == f
  {
    var bs := EncodeField(f) + rest;
    Pow256Widths();
    match f
    case U32(v) =>
      assert bs[..4] == LE(v, 4);
      FromLEOfLE(v, 4);
    case U64(v) =>
      assert bs[..8] == LE(v, 8);
      FromLEOfLE(v, 8);
    case I32(i) =>
      I32RoundTrip(i);
      assert bs[..4] == LE(I32Bits(i), 4);
      FromLEOfLE(I32Bits(i), 4);
    case Raw(b) =>
      assert bs[..|b|] == b;
  }

  /** Unpacking packed fields gives back the fields and the bytes after them. */
  lemma {:induction false} DecodeEncode(fs: seq<Field>, rest: seq<byte>)
    requires FieldsOk(fs)
    ensures Decode(Kinds(fs), Encode(fs) + rest) == Some((fs, rest))
  {
    if fs != [] {
      var tl := fs[1..];
      assert FieldsOk(tl) by {
        forall k | 0 <= k < |tl| ensures FieldOk(tl[k]) {
          assert tl[k] == fs[k + 1];
        }
      }
      DecodeEncode(tl, rest);
      assert FieldOk(fs[0]);
      DecodeEncodeCons(fs[0], tl, rest);
      assert [fs[0]] + tl == fs;
    } else {
      assert Kinds(fs) == [] && Encode(fs) + rest == rest;
    }
  }

  /** The inductive step of DecodeEncode: one more field in front. */
  lemma DecodeEncodeCons(f: Field, tl: seq<Field>, rest: seq<byte>)
    requires FieldOk(f)
    requires Decode(Kinds(tl), Encode(tl) + rest) == Some((tl, rest))
    ensures Decode(Kinds([f] + tl), Encode([f] + tl) + rest) == Some(([f] + tl, rest))
  {
    var tail := Encode(tl) + rest;
    var bs := EncodeField(f) + tail;
    assert Encode([f] + tl) + rest == bs by { EncodeCons(f, tl); }
    KindsCons(f, tl);
    assert bs[Width(KindOf(f))..] == tail;
    DecodeEncodeField(f, tail);
    DecodeStep(KindOf(f), Kinds(tl), bs);
  }

  lemma EncodeCons(f: Field, tl: seq<Field>)
    ensures Encode([f] + tl) == EncodeField(f) + Encode(tl)
  {
    assert ([f] + tl)[0] == f && ([f] + tl)[1..] == tl;
  }

  lemma KindsCons(f: Field, tl: seq<Field>)
    ensures Kinds([f] + tl) == [KindOf(f)] + Kinds(tl)
  {
    assert ([f] + tl)[0] == f && ([f] + tl)[1..] == tl;
  }

  /** Decoding peels the first field off the front. */
  lemma DecodeStep(k: Kind, ks: seq<Kind>, bs: seq<byte>)
    requires Width(k) <= |bs|
    ensures Decode([k] + ks, bs) ==
              match Decode(ks, bs[Width(k)..])
              case None => None
              case Some((fs, rest)) => Some(([DecodeField(k, bs)] + fs, rest))
  {
    assert ([k] + ks)[0] == k && ([k] + ks)[1..] == ks;
  }

  lemma {:induction false} EncodeAppend(a: seq<Field>, b: seq<Field>)
    ensures Encode(a + b) == Encode(a) + Encode(b)
  {
    if a == [] {
      assert a + b == b;
    } else {
      assert (a + b)[0] == a[0] && (a + b)[1..] == a[1..] + b;
      EncodeAppend(a[1..], b);
    }
  }

  lemma {:induction false} KindsAppend(a: seq<Field>, b: seq<Field>)
    ensures Kinds(a + b) == Kinds(a) + Kinds(b)
  {
    if a == [] {
      assert a + b == b;
    } else {
      assert (a + b)[0] == a[0] && (a + b)[1..] == a[1..] + b;
      KindsAppend(a[1..], b);
    }
  }

  // ---------------------------------------------------------------------
  // Messages

  /** The fields of struct netmsg_header_t. */
  function HeaderFields(seqnum: nat, size: nat, command: nat, tag: nat): seq<Field>
  {
    [U64(seqnum), U32(size), U32(command), U64(tag)]
  }

  const HEADER_KINDS: seq<Kind> := [K64, K32, K32, K64]

  /**
   * A message body, one alternative per body layout. Several commands share
   * a layout: Re is the bare response (struct netmsg_re_t after the header)
   * of every call whose reply carries only a return code, Addr carries a
   * socket address (T_BIND, T_CONNECT, E_ACCEPT), SockInt a socket and one
   * integer (T_LISTEN's backlog, T_SHUTDOWN's how), SockOnly a socket
   * (T_CLOSE, N_SOCKET) and Data a socket and a payload (T_SENDDATA,
   * E_RECVDATA). In TSendmsg, iov holds the raw struct iovec array.
   */
  datatype Body =
    | TSocket(domain: int, sockType: int, protocol: int)
    | RSocket(rc: int, sockid: nat)
    | Re(rc: int)
    | Addr(sockid: nat, addrlen: nat, addr: seq<byte>)
    | SockInt(sockid: nat, value: int)
    | SockOnly(sockid: nat)
    | TSetsockopt(sockid: nat, level: int, optname: int, optlen: nat, optval: seq<byte>)
    | TGetsockopt(sockid: nat, level: int, optname: int, optlen: nat)
    | RGetsockopt(rc: int, optlen: nat, optval: seq<byte>)
    | TSendmsg(sockid: nat, flags: int, name: seq<byte>, iov: seq<byte>, control: seq<byte>)
    | Data(sockid: nat, datalen: nat, data: seq<byte>)

  datatype Message = Message(seqnum: nat, command: nat, tag: nat, body: Body)

  /** The responses that carry only a return code. */
  predicate ReOnly(command: nat)
  {
    command == R_BIND || command == R_CONNECT || command == R_LISTEN || command == R_SETSOCKOPT
    || command == R_SENDMSG || command == R_SENDDATA || command == R_SHUTDOWN || command == R_CLOSE
  }

  /** The body layout is the one the command uses. */
  predicate Fits(command: nat, b: Body)
  {
    match b
    case TSocket(_, _, _) => command == T_SOCKET
    case RSocket(_, _) => command == R_SOCKET
    case Re(_) => ReOnly(command)
    case Addr(_, _, _) => command == T_BIND || command == T_CONNECT || command == E_ACCEPT
    case SockInt(_, _) => command == T_LISTEN || command == T_SHUTDOWN
    case SockOnly(_) => command == T_CLOSE || command == N_SOCKET
    case TSetsockopt(_, _, _, _, _) => command == T_SETSOCKOPT
    case TGetsockopt(_, _, _, _) => command == T_GETSOCKOPT
    case RGetsockopt(_, _, _) => command == R_GETSOCKOPT
    case TSendmsg(_, _, _, _, _) => command == T_SENDMSG
    case Data(_, _, _) => command == T_SENDDATA || command == E_RECVDATA
  }

  /**
   * The struct msghdr a t_sendmsg carries, with the three lengths its
   * receiver reads; the address fields and msg_flags, meaningless on the
   * other side, are zero.
   */
  function MsghdrFields(namelen: nat, iovlen: nat, controllen: nat): seq<Field>
  {
    [U64(0), U32(namelen), U32(0), U64(0), U64(iovlen), U64(0), U64(controllen), I32(0), U32(0)]
  }

  const MSGHDR_KINDS: seq<Kind> := [K64, K32, K32, K64, K64, K64, K64, KI32, K32]

  /** The fields that follow the header, in wire order. */
  function BodyFields(b: Body): seq<Field>
  {
    match b
    case TSocket(d, t, p) => [I32(d), I32(t), I32(p)]
    case RSocket(rc, s) => [I32(rc), U64(s)]
    case Re(rc) => [I32(rc)]
    case Addr(s, alen, a) => [U64(s), U32(alen), Raw(a)]
    case SockInt(s, v) => [U64(s), I32(v)]
    case SockOnly(s) => [U64(s)]
    case TSetsockopt(s, lv, on, ol, ov) => [U64(s), I32(lv), I32(on), U32(ol), Raw(ov)]
    case TGetsockopt(s, lv, on, ol) => [U64(s), I32(lv), I32(on), U32(ol)]
    case RGetsockopt(rc, ol, ov) => [I32(rc), U32(ol), Raw(ov)]
    case TSendmsg(s, fl, nm, iov, ctl) =>
      SendmsgPrefix(s, fl, |nm|, |iov| / IOVEC_SIZE, |ctl|) + [Raw(nm), Raw(iov), Raw(ctl)]
    case Data(s, dl, d) => [U64(s), U32(dl), Raw(d)]
  }

  /** sizeof the structure the command uses, header included. */
  function StructSize(command: nat): nat
  {
    if command == T_SOCKET || command == R_SOCKET then 36
    else if ReOnly(command) then 28
    else if command == T_BIND || command == T_CONNECT || command == E_ACCEPT then 52
    else if command == T_LISTEN || command == T_SHUTDOWN then 36
    else if command == T_CLOSE || command == N_SOCKET then 32
    else if command == T_SETSOCKOPT || command == T_GETSOCKOPT then 44
    else if command == R_GETSOCKOPT then 32
    else if command == T_SENDMSG then 92
    else if command == T_SENDDATA || command == E_RECVDATA then 36
    else 0
  }

  /** The length of the variable part after the structure. */
  function TailSize(b: Body): nat
  {
    match b
    case TSetsockopt(_, _, _, optlen, _) => optlen
    case RGetsockopt(_, _, optval) => |optval|
    case TSendmsg(_, _, nm, iov, ctl) => |nm| + |iov| + |ctl|
    case Data(_, datalen, _) => datalen
    case _ => 0
  }

  /**
   * The size a marshaller computes and returns, and records in hdr.size:
   * the structure size plus optlen, the payload length or, for t_sendmsg,
   * namelen + iovlen * sizeof(struct iovec) + controllen.
   */
  function Size(m: Message): nat
  {
    StructSize(m.command) + TailSize(m.body)
  }

  /**
   * A socket address is one struct sockaddr_in, the iovec array is whole
   * iovecs, and the stated lengths are those of the payloads.
   */
  predicate ShapeOk(b: Body)
  {
    match b
    case Addr(_, _, a) => |a| == SOCKADDR_IN_SIZE
    case TSetsockopt(_, _, _, optlen, optval) => optlen == |optval|
    case RGetsockopt(_, optlen, optval) => optlen == |optval|
    case TSendmsg(_, _, _, iov, _) => |iov| % IOVEC_SIZE == 0
    case Data(_, datalen, data) => datalen == |data|
    case _ => true
  }

  /**
   * The body suits the command, every value fits its C type, and the size
   * fits the int a marshaller returns.
   */
  predicate WellFormed(m: Message)
  {
    m.seqnum < U64_LIMIT && m.tag < U64_LIMIT
    && Fits(m.command, m.body) && ShapeOk(m.body)
    && FieldsOk(BodyFields(m.body))
    && Size(m) <= INT_MAX
  }

  /**
   * The bytes a marshaller writes: the header, then the body fields. For a
   * well-formed message they are exactly the size the marshaller returns.
   */
  function Wire(m: Message): (r: seq<byte>)
    ensures WellFormed(m) ==> |r| == Size(m)
  {
    var hf := HeaderFields(m.seqnum, Size(m), m.command, m.tag);
    if WellFormed(m) then
      EncodeAppend(hf, BodyFields(m.body));
      EncodeLen4(U64(m.seqnum), U32(Size(m)), U32(m.command), U64(m.tag));
      BodyWidth(m.body);
      StructSizeOfBody(m.command, m.body);
      Encode(hf + BodyFields(m.body))
    else Encode(hf + BodyFields(m.body))
  }

  /** Packing one more field in front adds that field's width. */
  lemma EncodeLenCons(fs: seq<Field>)
    requires fs != []
    ensures |Encode(fs)| == Width(KindOf(fs[0])) + |Encode(fs[1..])|
  {
  }

  lemma EncodeLen2(a: Field, b: Field)
    ensures |Encode([a, b])| == Width(KindOf(a)) + Width(KindOf(b))
  {
    EncodeLenCons([a, b]);
    assert [a, b][1..] == [b];
  }

  lemma EncodeLen3(a: Field, b: Field, c: Field)
    ensures |Encode([a, b, c])| == Width(KindOf(a)) + Width(KindOf(b)) + Width(KindOf(c))
  {
    EncodeLenCons([a, b, c]);
    assert [a, b, c][1..] == [b, c];
    EncodeLen2(b, c);
  }

  lemma EncodeLen4(a: Field, b: Field, c: Field, d: Field)
    ensures |Encode([a, b, c, d])| == Width(KindOf(a)) + Width(KindOf(b)) + Width(KindOf(c)) + Width(KindOf(d))
  {
    EncodeLenCons([a, b, c, d]);
    assert [a, b, c, d][1..] == [b, c, d];
    EncodeLen3(b, c, d);
  }

  lemma EncodeLen5(a: Field, b: Field, c: Field, d: Field, e: Field)
    ensures |Encode([a, b, c, d, e])|
            == Width(KindOf(a)) + Width(KindOf(b)) + Width(KindOf(c)) + Width(KindOf(d)) + Width(KindOf(e))
  {
    EncodeLenCons([a, b, c, d, e]);
    assert [a, b, c, d, e][1..] == [b, c, d, e];
    EncodeLen4(b, c, d, e);
  }

  lemma MsghdrWidth(namelen: nat, iovlen: nat, controllen: nat)
    ensures |Encode(MsghdrFields(namelen, iovlen, controllen))| == MSGHDR_SIZE
  {
    var mh := MsghdrFields(namelen, iovlen, controllen);
    EncodeLenCons(mh[8..]);
    assert mh[8..][1..] == [];
    EncodeLenCons(mh[7..]);
    assert mh[7..][1..] == mh[8..];
    EncodeLenCons(mh[6..]);
    assert mh[6..][1..] == mh[7..];
    EncodeLenCons(mh[5..]);
    assert mh[5..][1..] == mh[6..];
    EncodeLenCons(mh[4..]);
    assert mh[4..][1..] == mh[5..];
    EncodeLenCons(mh[3..]);
    assert mh[3..][1..] == mh[4..];
    EncodeLenCons(mh[2..]);
    assert mh[2..][1..] == mh[3..];
    EncodeLenCons(mh[1..]);
    assert mh[1..][1..] == mh[2..];
    EncodeLenCons(mh);
  }

  /** The fixed part of a body, struct size minus header. */
  function BodyFixed(b: Body): nat
  {
    match b
    case TSocket(_, _, _) => 12
    case RSocket(_, _) => 12
    case Re(_) => 4
    case Addr(_, _, _) => 28
    case SockInt(_, _) => 12
    case SockOnly(_) => 8
    case TSetsockopt(_, _, _, _, _) => 20
    case TGetsockopt(_, _, _, _) => 20
    case RGetsockopt(_, _, _) => 8
    case TSendmsg(_, _, _, _, _) => 68
    case Data(_, _, _) => 12
  }

  /** The structure size of a command is the header plus its body's fixed part. */
  lemma StructSizeOfBody(command: nat, b: Body)
    requires Fits(command, b)
    ensures StructSize(command) == HEADER_SIZE + BodyFixed(b)
  {
  }

  lemma SendmsgWidth(s: nat, fl: int, nm: seq<byte>, iov: seq<byte>, ctl: seq<byte>)
    ensures |Encode(BodyFields(TSendmsg(s, fl, nm, iov, ctl)))| == 68 + |nm| + |iov| + |ctl|
  {
    var mh := MsghdrFields(|nm|, |iov| / IOVEC_SIZE, |ctl|);
    EncodeAppend([U64(s), I32(fl)], mh);
    EncodeAppend([U64(s), I32(fl)] + mh, [Raw(nm), Raw(iov), Raw(ctl)]);
    MsghdrWidth(|nm|, |iov| / IOVEC_SIZE, |ctl|);
    EncodeLen2(U64(s), I32(fl));
    EncodeLen3(Raw(nm), Raw(iov), Raw(ctl));
  }

  /** The body fields take the body's fixed part plus the variable part. */
  lemma BodyWidth(b: Body)
    requires ShapeOk(b)
    ensures |Encode(BodyFields(b))| == BodyFixed(b) + TailSize(b)
  {
    match b
    case TSendmsg(s, fl, nm, iov, ctl) =>
      SendmsgWidth(s, fl, nm, iov, ctl);
    case TSetsockopt(s, lv, on, ol, ov) =>
      EncodeLen5(U64(s), I32(lv), I32(on), U32(ol), Raw(ov));
    case TGetsockopt(s, lv, on, ol) =>
      EncodeLen4(U64(s), I32(lv), I32(on), U32(ol));
    case TSocket(d, ty, p) =>
      EncodeLen3(I32(d), I32(ty), I32(p));
    case RSocket(rc, s) =>
      EncodeLen2(I32(rc), U64(s));
    case Re(rc) =>
      EncodeLenCons([I32(rc)]);
    case Addr(s, alen, a) =>
      EncodeLen3(U64(s), U32(alen), Raw(a));
    case SockInt(s, v) =>
      EncodeLen2(U64(s), I32(v));
    case SockOnly(s) =>
      EncodeLenCons([U64(s)]);
    case RGetsockopt(rc, ol, ov) =>
      EncodeLen3(I32(rc), U32(ol), Raw(ov));
    case Data(s, dl, d) =>
      EncodeLen3(U64(s), U32(dl), Raw(d));
  }

  // ---------------------------------------------------------------------
  // Unmarshalling

  /** The number a field holds (zero for raw bytes or past the end). */
  function IntAt(fs: seq<Field>, k: nat): int
  {
    if k >= |fs| then 0
    else match fs[k]
      case U32(v) => v
      case U64(v) => v
      case I32(i) => i
      case Raw(_) => 0
  }

  /** The bytes a raw field holds (empty for a number or past the end). */
  function BytesAt(fs: seq<Field>, k: nat): seq<byte>
  {
    if k < |fs| && fs[k].Raw? then fs[k].bytes else []
  }

  function NatAt(fs: seq<Field>, k: nat): nat
  {
    var v := IntAt(fs, k);
    if v < 0 then 0 else v
  }

  /**
   * The body layout the unmarshaller for command reads, given the size in
   * the header: the fixed structure, and for the variable structures the
   * rest of the hdr.size bytes the unmarshaller copies. None when the
   * header's size is smaller than the structure, or for T_SENDMSG, whose
   * layout depends on its own msghdr (see ParseSendmsg).
   */
  function BodyKinds(command: nat, size: nat): Option<seq<Kind>>
  {
    if command == T_SOCKET then Some([KI32, KI32, KI32])
    else if command == R_SOCKET then Some([KI32, K64])
    else if ReOnly(command) then Some([KI32])
    else if command == T_BIND || command == T_CONNECT || command == E_ACCEPT then
      Some([K64, K32, KRaw(SOCKADDR_IN_SIZE)])
    else if command == T_LISTEN || command == T_SHUTDOWN then Some([K64, KI32])
    else if command == T_CLOSE || command == N_SOCKET then Some([K64])
    else if command == T_SETSOCKOPT then
      if size < 44 then None else Some([K64, KI32, KI32, K32, KRaw(size - 44)])
    else if command == T_GETSOCKOPT then Some([K64, KI32, KI32, K32])
    else if command == R_GETSOCKOPT then
      if size < 32 then None else Some([KI32, K32, KRaw(size - 32)])
    else if command == T_SENDDATA || command == E_RECVDATA then
      if size < 36 then None else Some([K64, K32, KRaw(size - 36)])
    else None
  }

  /** The body the unmarshaller for command sees in the decoded fields. */
  function FromFields(command: nat, fs: seq<Field>): Body
  {
    if command == T_SOCKET then TSocket(IntAt(fs, 0), IntAt(fs, 1), IntAt(fs, 2))
    else if command == R_SOCKET then RSocket(IntAt(fs, 0), NatAt(fs, 1))
    else if command == T_BIND || command == T_CONNECT || command == E_ACCEPT then
      Addr(NatAt(fs, 0), NatAt(fs, 1), BytesAt(fs, 2))
    else if command == T_LISTEN || command == T_SHUTDOWN then SockInt(NatAt(fs, 0), IntAt(fs, 1))
    else if command == T_CLOSE || command == N_SOCKET then SockOnly(NatAt(fs, 0))
    else if command == T_SETSOCKOPT then
      TSetsockopt(NatAt(fs, 0), IntAt(fs, 1), IntAt(fs, 2), NatAt(fs, 3), BytesAt(fs, 4))
    else if command == T_GETSOCKOPT then
      TGetsockopt(NatAt(fs, 0), IntAt(fs, 1), IntAt(fs, 2), NatAt(fs, 3))
    else if command == R_GETSOCKOPT then RGetsockopt(IntAt(fs, 0), NatAt(fs, 1), BytesAt(fs, 2))
    else if command == T_SENDDATA || command == E_RECVDATA then
      Data(NatAt(fs, 0), NatAt(fs, 1), BytesAt(fs, 2))
    else Re(IntAt(fs, 0))
  }

  /**
   * netmsg_unmarshal_t_sendmsg: after the socket id and flags comes the
   * struct msghdr, whose namelen, iovlen and controllen say how many name,
   * iovec and control bytes follow it. None when the message is shorter
   * than the structure, or those lengths run past the header's size.
   */
  function ParseSendmsg(size: nat, bs: seq<byte>): Option<Body>
  {
    match Decode([K64, KI32] + MSGHDR_KINDS, bs)
    case None => None
    case Some((fs, rest)) =>
      var namelen, iovlen, controllen := NatAt(fs, 3), NatAt(fs, 6), NatAt(fs, 8);
      if size < StructSize(T_SENDMSG) + namelen + IOVEC_SIZE * iovlen + controllen then None
      else
        match Decode([KRaw(namelen), KRaw(IOVEC_SIZE * iovlen), KRaw(controllen)], rest)
        case None => None
        case Some((xs, _)) =>
          Some(TSendmsg(NatAt(fs, 0), IntAt(fs, 1), BytesAt(xs, 0), BytesAt(xs, 1), BytesAt(xs, 2)))
  }

  /** The body after the header, read with the layout of command. */
  function ParseBody(command: nat, size: nat, bs: seq<byte>): Option<Body>
  {
    if command == T_SENDMSG then ParseSendmsg(size, bs)
    else
      match BodyKinds(command, size)
      case None => None
      case Some(ks) =>
        match Decode(ks, bs)
        case None => None
        case Some((fs, _)) => Some(FromFields(command, fs))
  }

  /**
   * What netmsg_unmarshal_<command> copies out of bs: the header and the
   * body laid out as command's structure. The header's own command field
   * is not checked against the unmarshaller chosen.
   */
  function Parse(command: nat, bs: seq<byte>): (r: Option<Message>)
    ensures |bs| < HEADER_SIZE ==> r.None?
  {
    HeaderWidth();
    match Decode(HEADER_KINDS, bs)
    case None => None
    case Some((h, rest)) =>
      match ParseBody(command, NatAt(h, 1), rest)
      case None => None
      case Some(b) => Some(Message(NatAt(h, 0), NatAt(h, 2), NatAt(h, 3), b))
  }

  lemma Kinds1(a: Field)
    ensures Kinds([a]) == [KindOf(a)]
  {
    KindsCons(a, []);
    assert [a] + [] == [a];
  }

  lemma Kinds2(a: Field, b: Field)
    ensures Kinds([a, b]) == [KindOf(a), KindOf(b)]
  {
    KindsCons(a, [b]);
    Kinds1(b);
    assert [a] + [b] == [a, b];
  }

  lemma Kinds3(a: Field, b: Field, c: Field)
    ensures Kinds([a, b, c]) == [KindOf(a), KindOf(b), KindOf(c)]
  {
    KindsCons(a, [b, c]);
    Kinds2(b, c);
    assert [a] + [b, c] == [a, b, c];
  }

  lemma Kinds4(a: Field, b: Field, c: Field, d: Field)
    ensures Kinds([a, b, c, d]) == [KindOf(a), KindOf(b), KindOf(c), KindOf(d)]
  {
    KindsCons(a, [b, c, d]);
    Kinds3(b, c, d);
    assert [a] + [b, c, d] == [a, b, c, d];
  }

  lemma Kinds5(a: Field, b: Field, c: Field, d: Field, e: Field)
    ensures Kinds([a, b, c, d, e]) == [KindOf(a), KindOf(b), KindOf(c), KindOf(d), KindOf(e)]
  {
    KindsCons(a, [b, c, d, e]);
    Kinds4(b, c, d, e);
    assert [a] + [b, c, d, e] == [a, b, c, d, e];
  }

  /**
   * Every body but t_sendmsg's: the layout its unmarshaller reads, at the
   * size its marshaller records, is the layout of its fields, and the body
   * read back from those fields is the one marshalled.
   */
  lemma BodyKindsOf(command: nat, b: Body)
    requires Fits(command, b) && ShapeOk(b) && FieldsOk(BodyFields(b)) && !b.TSendmsg?
    ensures BodyKinds(command, StructSize(command) + TailSize(b)) == Some(Kinds(BodyFields(b)))
    ensures FromFields(command, BodyFields(b)) == b
  {
    var fs := BodyFields(b);
    match b
    case TSocket(d, ty, p) =>
      Kinds3(I32(d), I32(ty), I32(p));
    case RSocket(rc, s) =>
      Kinds2(I32(rc), U64(s));
    case Re(rc) =>
      Kinds1(I32(rc));
    case Addr(s, alen, a) =>
      Kinds3(U64(s), U32(alen), Raw(a));
    case SockInt(s, v) =>
      Kinds2(U64(s), I32(v));
      assert FieldOk(fs[0]);
    case SockOnly(s) =>
      Kinds1(U64(s));
      assert FieldOk(fs[0]);
    case TSetsockopt(s, lv, on, ol, ov) =>
      Kinds5(U64(s), I32(lv), I32(on), U32(ol), Raw(ov));
      assert FieldOk(fs[0]) && FieldOk(fs[3]);
    case TGetsockopt(s, lv, on, ol) =>
      Kinds4(U64(s), I32(lv), I32(on), U32(ol));
    case RGetsockopt(rc, ol, ov) =>
      Kinds3(I32(rc), U32(ol), Raw(ov));
    case Data(s, dl, d) =>
      Kinds3(U64(s), U32(dl), Raw(d));
  }

  lemma MsghdrKinds(namelen: nat, iovlen: nat, controllen: nat)
    ensures Kinds(MsghdrFields(namelen, iovlen, controllen)) == MSGHDR_KINDS
  {
    var mh := MsghdrFields(namelen, iovlen, controllen);
    assert mh == mh[..4] + mh[4..];
    KindsAppend(mh[..4], mh[4..]);
    Kinds4(mh[0], mh[1], mh[2], mh[3]);
    assert mh[..4] == [mh[0], mh[1], mh[2], mh[3]];
    Kinds5(mh[4], mh[5], mh[6], mh[7], mh[8]);
    assert mh[4..] == [mh[4], mh[5], mh[6], mh[7], mh[8]];
  }

  lemma FieldsOkSplit(a: seq<Field>, b: seq<Field>)
    requires FieldsOk(a + b)
    ensures FieldsOk(a) && FieldsOk(b)
  {
    forall k | 0 <= k < |a| ensures FieldOk(a[k]) {
      assert a[k] == (a + b)[k];
    }
    forall k | 0 <= k < |b| ensures FieldOk(b[k]) {
      assert b[k] == (a + b)[|a| + k];
    }
  }

  /** The socket id, flags and msghdr of a t_sendmsg body, as fields. */
  function SendmsgPrefix(sockid: nat, flags: int, namelen: nat, iovlen: nat, controllen: nat): seq<Field>
  {
    [U64(sockid), I32(flags)] + MsghdrFields(namelen, iovlen, controllen)
  }

  lemma SendmsgPrefixKinds(sockid: nat, flags: int, namelen: nat, iovlen: nat, controllen: nat)
    ensures Kinds(SendmsgPrefix(sockid, flags, namelen, iovlen, controllen)) == [K64, KI32] + MSGHDR_KINDS
  {
    KindsAppend([U64(sockid), I32(flags)], MsghdrFields(namelen, iovlen, controllen));
    Kinds2(U64(sockid), I32(flags));
    MsghdrKinds(namelen, iovlen, controllen);
  }

  /** Where the socket id, flags and the three lengths sit among the prefix fields. */
  lemma SendmsgPrefixAt(sockid: nat, flags: int, namelen: nat, iovlen: nat, controllen: nat)
    ensures var pre := SendmsgPrefix(sockid, flags, namelen, iovlen, controllen);
            NatAt(pre, 0) == sockid && IntAt(pre, 1) == flags
            && NatAt(pre, 3) == namelen && NatAt(pre, 6) == iovlen && NatAt(pre, 8) == controllen
  {
    var pre := SendmsgPrefix(sockid, flags, namelen, iovlen, controllen);
    assert pre == [U64(sockid), I32(flags), U64(0), U32(namelen), U32(0), U64(0),
                   U64(iovlen), U64(0), U64(controllen), I32(0), U32(0)];
  }

  lemma SendmsgPrefixOk(sockid: nat, flags: int, namelen: nat, iovlen: nat, controllen: nat)
    requires sockid < U64_LIMIT && I32_MIN <= flags <= INT_MAX
    requires namelen < U32_LIMIT && iovlen < U64_LIMIT && controllen < U64_LIMIT
    ensures FieldsOk(SendmsgPrefix(sockid, flags, namelen, iovlen, controllen))
  {
    var pre := SendmsgPrefix(sockid, flags, namelen, iovlen, controllen);
    assert pre == [U64(sockid), I32(flags), U64(0), U32(namelen), U32(0), U64(0),
                   U64(iovlen), U64(0), U64(controllen), I32(0), U32(0)];
  }

  /** The fixed part of a t_sendmsg body reads back, lengths included. */
  lemma DecodeSendmsgPrefix(sockid: nat, flags: int, namelen: nat, iovlen: nat, controllen: nat, tail: seq<byte>)
    requires FieldsOk(SendmsgPrefix(sockid, flags, namelen, iovlen, controllen))
    ensures var pre := SendmsgPrefix(sockid, flags, namelen, iovlen, controllen);
            Decode([K64, KI32] + MSGHDR_KINDS, Encode(pre) + tail) == Some((pre, tail))
            && NatAt(pre, 0) == sockid && IntAt(pre, 1) == flags
            && NatAt(pre, 3) == namelen && NatAt(pre, 6) == iovlen && NatAt(pre, 8) == controllen
  {
    var pre := SendmsgPrefix(sockid, flags, namelen, iovlen, controllen);
    assert Decode([K64, KI32] + MSGHDR_KINDS, Encode(pre) + tail) == Some((pre, tail)) by {
      SendmsgPrefixKinds(sockid, flags, namelen, iovlen, controllen);
      DecodeEncode(pre, tail);
    }
    SendmsgPrefixAt(sockid, flags, namelen, iovlen, controllen);
  }

  /** The name, iovec and control bytes of a t_sendmsg body read back. */
  lemma DecodeSendmsgTail(nm: seq<byte>, iov: seq<byte>, ctl: seq<byte>, rest: seq<byte>)
    ensures var raws := [Raw(nm), Raw(iov), Raw(ctl)];
            Decode([KRaw(|nm|), KRaw(|iov|), KRaw(|ctl|)], Encode(raws) + rest) == Some((raws, rest))
            && BytesAt(raws, 0) == nm && BytesAt(raws, 1) == iov && BytesAt(raws, 2) == ctl
  {
    Kinds3(Raw(nm), Raw(iov), Raw(ctl));
    DecodeEncode([Raw(nm), Raw(iov), Raw(ctl)], rest);
  }

  /** A marshalled t_sendmsg body reads back as the body marshalled. */
  lemma ParseSendmsgWire(b: Body, rest: seq<byte>)
    requires b.TSendmsg? && ShapeOk(b) && FieldsOk(BodyFields(b))
    ensures ParseSendmsg(StructSize(T_SENDMSG) + TailSize(b), Encode(BodyFields(b)) + rest) == Some(b)
  {
    var pre := SendmsgPrefix(b.sockid, b.flags, |b.name|, |b.iov| / IOVEC_SIZE, |b.control|);
    var raws := [Raw(b.name), Raw(b.iov), Raw(b.control)];
    assert BodyFields(b) == pre + raws;
    FieldsOkSplit(pre, raws);
    ParseSendmsgOf(StructSize(T_SENDMSG) + TailSize(b), b.sockid, b.flags, b.name, b.iov, b.control, rest);
  }

  lemma ParseSendmsgOf(size: nat, sockid: nat, flags: int, nm: seq<byte>, iov: seq<byte>, ctl: seq<byte>, rest: seq<byte>)
    requires FieldsOk(SendmsgPrefix(sockid, flags, |nm|, |iov| / IOVEC_SIZE, |ctl|)) && |iov| % IOVEC_SIZE == 0
    requires StructSize(T_SENDMSG) + |nm| + |iov| + |ctl| <= size
    ensures ParseSendmsg(size, Encode(SendmsgPrefix(sockid, flags, |nm|, |iov| / IOVEC_SIZE, |ctl|)
                                      + [Raw(nm), Raw(iov), Raw(ctl)]) + rest)
            == Some(TSendmsg(sockid, flags, nm, iov, ctl))
  {
    var iovlen := |iov| / IOVEC_SIZE;
    var pre := SendmsgPrefix(sockid, flags, |nm|, iovlen, |ctl|);
    var raws := [Raw(nm), Raw(iov), Raw(ctl)];
    var tail := Encode(raws) + rest;
    EncodeAppendRest(pre, raws, rest);
    DecodeSendmsgPrefix(sockid, flags, |nm|, iovlen, |ctl|, tail);
    assert IOVEC_SIZE * iovlen == |iov|;
    DecodeSendmsgTail(nm, iov, ctl, rest);
  }



  /** A marshalled body reads back, by the unmarshaller of its command, as the body marshalled. */
  lemma ParseBodyWire(command: nat, b: Body, rest: seq<byte>)
    requires Fits(command, b) && ShapeOk(b) && FieldsOk(BodyFields(b))
    ensures ParseBody(command, StructSize(command) + TailSize(b), Encode(BodyFields(b)) + rest) == Some(b)
  {
    if b.TSendmsg? {
      ParseSendmsgWire(b, rest);
    } else {
      BodyKindsOf(command, b);
      DecodeEncode(BodyFields(b), rest);
    }
  }

  /**
   * netmsg_unmarshal_header after netmsg_marshal_header, and the body's
   * unmarshaller after its marshaller: a well-formed message read back
   * with the unmarshaller of its command is the message written, whatever
   * bytes follow it.
   */
  lemma ParseWire(m: Message, rest: seq<byte>)
    requires WellFormed(m)
    ensures Parse(m.command, Wire(m) + rest) == Some(m)
  {
    FitsCommand(m.command, m.body);
    ParseBodyWire(m.command, m.body, rest);
    ParseMessage(m.seqnum, Size(m), m.command, m.tag, m.body, rest);
  }

  /** A header followed by a body that its command's unmarshaller reads back reads back whole. */
  lemma ParseMessage(seqnum: nat, size: nat, command: nat, tag: nat, b: Body, rest: seq<byte>)
    requires seqnum < U64_LIMIT && size < U32_LIMIT && command < U32_LIMIT && tag < U64_LIMIT
    requires ParseBody(command, size, Encode(BodyFields(b)) + rest) == Some(b)
    ensures Parse(command, Encode(HeaderFields(seqnum, size, command, tag) + BodyFields(b)) + rest)
            == Some(Message(seqnum, command, tag, b))
  {
    EncodeAppendRest(HeaderFields(seqnum, size, command, tag), BodyFields(b), rest);
    ParseHeader(seqnum, size, command, tag, command, Encode(BodyFields(b)) + rest, b);
  }


  /** Once the header decodes, Parse yields the body ParseBody finds after it. */
  lemma ParseHeader(seqnum: nat, size: nat, command: nat, tag: nat, cmd: nat, tail: seq<byte>, b: Body)
    requires seqnum < U64_LIMIT && size < U32_LIMIT && command < U32_LIMIT && tag < U64_LIMIT
    requires ParseBody(cmd, size, tail) == Some(b)
    ensures Parse(cmd, Encode(HeaderFields(seqnum, size, command, tag)) + tail) == Some(Message(seqnum, command, tag, b))
  {
    DecodeHeader(seqnum, size, command, tag, tail);
  }

  /** Every body layout belongs to commands of the enum. */
  lemma FitsCommand(command: nat, b: Body)
    requires Fits(command, b)
    ensures command <= N_SOCKET
  {
  }

  /** netmsg_unmarshal_header after netmsg_marshal_header gives back all four fields. */
  lemma DecodeHeader(seqnum: nat, size: nat, command: nat, tag: nat, tail: seq<byte>)
    requires seqnum < U64_LIMIT && size < U32_LIMIT && command < U32_LIMIT && tag < U64_LIMIT
    ensures var hf := HeaderFields(seqnum, size, command, tag);
            Decode(HEADER_KINDS, Encode(hf) + tail) == Some((hf, tail))
            && NatAt(hf, 0) == seqnum && NatAt(hf, 1) == size && NatAt(hf, 2) == command && NatAt(hf, 3) == tag
  {
    var hf := HeaderFields(seqnum, size, command, tag);
    Kinds4(U64(seqnum), U32(size), U32(command), U64(tag));
    DecodeEncode(hf, tail);
  }

  /** The four header fields take HEADER_SIZE bytes. */
  lemma HeaderWidth()
    ensures Widths(HEADER_KINDS) == HEADER_SIZE
  {
    assert HEADER_KINDS[1..] == [K32, K32, K64] && HEADER_KINDS[1..][1..] == [K32, K64];
    assert HEADER_KINDS[1..][1..][1..] == [K64] && HEADER_KINDS[1..][1..][1..][1..] == [];
  }

  // ---------------------------------------------------------------------
  // Marshalling into a buffer

  /** memcpy(buff + off, bs, |bs|). */
  method WriteBytes(buff: array<byte>, off: nat, bs: seq<byte>)
    requires off + |bs| <= buff.Length
    modifies buff
    ensures buff[..] == old(buff[..off]) + bs + old(buff[off + |bs|..])
  {
    var i := 0;
    while i < |bs|
      invariant 0 <= i <= |bs|
      invariant forall j :: 0 <= j < buff.Length ==>
        buff[j] == if off <= j < off + i then bs[j - off] else old(buff[j])
    {
      buff[off + i] := bs[i];
      i := i + 1;
    }
    assert buff[..] == old(buff[..off]) + bs + old(buff[off + |bs|..]);
  }

  /**
   * netmsg_marshal_header: the header's four fields go at the front of the
   * buffer unless dryrun; the result is the header's size either way.
   */
  method MarshalHeader(dryrun: bool, buff: array<byte>, seqnum: nat, size: nat, command: nat, tag: nat)
    returns (r: int)
    requires seqnum < U64_LIMIT && size < U32_LIMIT && command < U32_LIMIT && tag < U64_LIMIT
    requires !dryrun ==> HEADER_SIZE <= buff.Length
    modifies buff
    ensures r == HEADER_SIZE
    ensures dryrun ==> buff[..] == old(buff[..])
    ensures !dryrun ==> buff[..] == Encode(HeaderFields(seqnum, size, command, tag)) + old(buff[HEADER_SIZE..])
  {
    if !dryrun {
      var hf := HeaderFields(seqnum, size, command, tag);
      EncodeLen4(U64(seqnum), U32(size), U32(command), U64(tag));
      WriteBytes(buff, 0, Encode(hf));
    }
    r := HEADER_SIZE;
  }

  /**
   * The marshallers of netmsg.c as written: every structure but t_sendmsg
   * is stored field by field (MarshalFields); netmsg_marshal_t_sendmsg
   * leaves the msghdr member as the buffer held it. The result is the size
   * either way, and nothing after the message changes.
   */
  method Marshal(dryrun: bool, buff: array<byte>, m: Message) returns (size: int)
    requires WellFormed(m)
    requires !dryrun ==> Size(m) <= buff.Length
    modifies buff
    ensures size == Size(m)
    ensures dryrun ==> buff[..] == old(buff[..])
    ensures !dryrun && !m.body.TSendmsg? ==> buff[..] == Wire(m) + old(buff[Size(m)..])
    ensures !dryrun && m.body.TSendmsg? ==>
              buff[..] == SendmsgAsWritten(m.seqnum, m.tag, m.body.sockid, m.body.flags, old(buff[36..92]),
                                           m.body.name, m.body.iov, m.body.control) + old(buff[Size(m)..])
  {
    if m.body.TSendmsg? {
      var b := m.body;
      assert BodyFields(b)[0] == U64(b.sockid) && BodyFields(b)[1] == I32(b.flags);
      size := MarshalTSendmsgAsWritten(dryrun, buff, m.seqnum, m.tag, b.sockid, b.flags, b.name, b.iov, b.control);
    } else {
      size := MarshalFields(dryrun, buff, m);
    }
  }

  /**
   * A marshaller that stores every field of its structure: unless dryrun,
   * the header (with the message's size) and then the body fields are
   * written at the front of the buffer and nothing after them changes;
   * the result is the size.
   */
  method MarshalFields(dryrun: bool, buff: array<byte>, m: Message) returns (size: int)
    requires WellFormed(m)
    requires !dryrun ==> Size(m) <= buff.Length
    modifies buff
    ensures size == Size(m)
    ensures dryrun ==> buff[..] == old(buff[..])
    ensures !dryrun ==> buff[..] == Wire(m) + old(buff[Size(m)..])
  {
    size := Size(m);
    if !dryrun {
      var hf := HeaderFields(m.seqnum, size, m.command, m.tag);
      var bf := BodyFields(m.body);
      assert |Wire(m)| == Size(m);
      EncodeAppend(hf, bf);
      FitsCommand(m.command, m.body);
      EncodeLen4(U64(m.seqnum), U32(size), U32(m.command), U64(m.tag));
      ghost var s0 := buff[..];
      var _ := MarshalHeader(false, buff, m.seqnum, size, m.command, m.tag);
      ghost var mid := buff[..];
      WriteBytes(buff, HEADER_SIZE, Encode(bf));
      Compose(Encode(hf), Encode(bf), s0, mid, buff[..]);
    }
  }

  /** The header written over s0, then the body after it: both, then the rest of s0. */
  lemma Compose(head: seq<byte>, body: seq<byte>, s0: seq<byte>, mid: seq<byte>, fin: seq<byte>)
    requires |head| == HEADER_SIZE && HEADER_SIZE + |body| <= |s0|
    requires mid == head + s0[HEADER_SIZE..]
    requires fin == mid[..HEADER_SIZE] + body + mid[HEADER_SIZE + |body|..]
    ensures fin == head + body + s0[HEADER_SIZE + |body|..]
  {
    assert mid[..HEADER_SIZE] == head;
    assert mid[HEADER_SIZE + |body|..] == s0[HEADER_SIZE + |body|..];
  }

  // ---------------------------------------------------------------------
  // Unmarshalling from a buffer

  /** hdr.size as stored at the front of bs (zero when bs is shorter than a header). */
  function HeaderSize(bs: seq<byte>): nat
  {
    match Decode(HEADER_KINDS, bs)
    case None => 0
    case Some((h, _)) => NatAt(h, 1)
  }

  /** The commands whose structure ends in a variable-length part. */
  predicate Variable(command: nat)
  {
    command == T_SETSOCKOPT || command == R_GETSOCKOPT || command == T_SENDMSG
    || command == T_SENDDATA || command == E_RECVDATA
  }

  /**
   * The unmarshallers of netmsg.c: unless dryrun, the message in the buffer
   * read with command's layout; the result is sizeof the structure, or for
   * a variable structure the header's size converted to int.
   * netmsg_unmarshal_t_sendmsg returns the size field of the destination
   * structure instead, which in dry-run still holds what it held before
   * the call (destSize).
   */
  method Unmarshal(dryrun: bool, buff: array<byte>, command: nat, destSize: int) returns (size: int, m: Option<Message>)
    requires command <= N_SOCKET && HEADER_SIZE <= buff.Length
    ensures Variable(command) && !(dryrun && command == T_SENDMSG) ==> size == I32Of(HeaderSize(buff[..]))
    ensures dryrun && command == T_SENDMSG ==> size == destSize
    ensures !Variable(command) ==> size == StructSize(command) && 0 < size
    ensures dryrun ==> m == None
    ensures !dryrun ==> m == Parse(command, buff[..])
  {
    var bs := buff[..];
    if dryrun && command == T_SENDMSG {
      size := destSize;
    } else if Variable(command) {
      size := I32Of(HeaderSize(bs));
    } else {
      size := StructSize(command);
    }
    if dryrun {
      m := None;
    } else {
      m := Parse(command, bs);
    }
  }

  /** The size field a marshaller wrote reads back unchanged. */
  lemma HeaderSizeOf(seqnum: nat, size: nat, command: nat, tag: nat, tail: seq<byte>)
    requires seqnum < U64_LIMIT && size < U32_LIMIT && command < U32_LIMIT && tag < U64_LIMIT
    ensures HeaderSize(Encode(HeaderFields(seqnum, size, command, tag)) + tail) == size
  {
    DecodeHeader(seqnum, size, command, tag, tail);
  }


  /** A command has a variable part exactly when its body can carry one. */
  lemma VariableTail(command: nat, b: Body)
    requires Fits(command, b)
    ensures !Variable(command) ==> TailSize(b) == 0
  {
  }

  /** The size an unmarshaller reads from a marshalled header is the size the marshaller wrote. */
  lemma HeaderSizeOfWire(seqnum: nat, size: nat, command: nat, tag: nat, bf: seq<Field>, rest: seq<byte>)
    requires seqnum < U64_LIMIT && size <= INT_MAX && command < U32_LIMIT && tag < U64_LIMIT
    ensures I32Of(HeaderSize(Encode(HeaderFields(seqnum, size, command, tag) + bf) + rest)) == size
  {
    EncodeAppendRest(HeaderFields(seqnum, size, command, tag), bf, rest);
    HeaderSizeOf(seqnum, size, command, tag, Encode(bf) + rest);
  }

  lemma EncodeAppendRest(a: seq<Field>, b: seq<Field>, rest: seq<byte>)
    ensures Encode(a + b) + rest == Encode(a) + (Encode(b) + rest)
  {
    EncodeAppend(a, b);
  }




  /** What an unmarshaller finds in a marshalled message, whatever follows it. */
  lemma UnmarshalWire(m: Message, rest: seq<byte>)
    requires WellFormed(m)
    ensures m.command <= N_SOCKET && HEADER_SIZE <= |Wire(m) + rest|
    ensures Parse(m.command, Wire(m) + rest) == Some(m)
    ensures Variable(m.command) ==> I32Of(HeaderSize(Wire(m) + rest)) == Size(m)
    ensures !Variable(m.command) ==> StructSize(m.command) == Size(m)
  {
    FitsCommand(m.command, m.body);
    VariableTail(m.command, m.body);
    HeaderSizeOfWire(m.seqnum, Size(m), m.command, m.tag, BodyFields(m.body), rest);
    ParseWire(m, rest);
  }

  /**
   * Marshalling a message field by field (as every marshaller but
   * t_sendmsg's does, and as a t_sendmsg marshaller that stores the msghdr
   * lengths would) and unmarshalling it with its own command gives back
   * the message, and both sides report the same size.
   */
  method MarshalThenUnmarshal(buff: array<byte>, m: Message) returns (sent: int, got: int, back: Option<Message>)
    requires WellFormed(m) && Size(m) <= buff.Length
    modifies buff
    ensures sent == got == Size(m)
    ensures back == Some(m)
  {
    ghost var rest := buff[Size(m)..];
    sent := MarshalFields(false, buff, m);
    UnmarshalWire(m, rest);
    got, back := Unmarshal(false, buff, m.command, 0);
  }

  // ---------------------------------------------------------------------
  // netmsg_marshal_t_sendmsg as written

  function Zeros(n: nat): (r: seq<byte>)
    ensures |r| == n
  {
    seq(n, _ => 0 as byte)
  }

  /** Fields holding zero are stored as zero bytes. */
  lemma {:induction false} EncodeZeros(fs: seq<Field>)
    requires forall k :: 0 <= k < |fs| ==> fs[k] == U32(0) || fs[k] == U64(0) || fs[k] == I32(0)
    ensures Encode(fs) == Zeros(|Encode(fs)|)
  {
    if fs != [] {
      EncodeZeros(fs[1..]);
      var w := Width(KindOf(fs[0]));
      LEZero(w);
      assert EncodeField(fs[0]) == Zeros(w);
    }
  }

  /** A msghdr whose lengths are all zero is 56 zero bytes. */
  lemma MsghdrZero()
    ensures Encode(MsghdrFields(0, 0, 0)) == Zeros(MSGHDR_SIZE)
  {
    EncodeZeros(MsghdrFields(0, 0, 0));
    MsghdrWidth(0, 0, 0);
  }

  /**
   * What netmsg_marshal_t_sendmsg leaves in the buffer: the header with the
   * size it computed, the socket id and flags, then the name, iovec and
   * control bytes after the structure. The msghdr member between them is
   * never written, so the buffer keeps whatever bytes (stale) it held there.
   */
  function SendmsgAsWritten(seqnum: nat, tag: nat, sockid: nat, flags: int, stale: seq<byte>,
                            nm: seq<byte>, iov: seq<byte>, ctl: seq<byte>): seq<byte>
  {
    Encode(HeaderFields(seqnum, StructSize(T_SENDMSG) + |nm| + |iov| + |ctl|, T_SENDMSG, tag))
    + Encode([U64(sockid), I32(flags)]) + stale + nm + iov + ctl
  }

  /**
   * Marshalled as written into a zeroed buffer, a t_sendmsg reads back
   * with an empty name, iovec array and control part: the unmarshaller
   * takes the lengths from the msghdr, which holds zeros.
   */
  lemma SendmsgLostAsWritten(seqnum: nat, tag: nat, sockid: nat, flags: int,
                             nm: seq<byte>, iov: seq<byte>, ctl: seq<byte>, rest: seq<byte>)
    requires seqnum < U64_LIMIT && tag < U64_LIMIT && sockid < U64_LIMIT && I32_MIN <= flags <= INT_MAX
    requires StructSize(T_SENDMSG) + |nm| + |iov| + |ctl| <= INT_MAX
    ensures Parse(T_SENDMSG, SendmsgAsWritten(seqnum, tag, sockid, flags, Zeros(MSGHDR_SIZE), nm, iov, ctl) + rest)
            == Some(Message(seqnum, T_SENDMSG, tag, TSendmsg(sockid, flags, [], [], [])))
  {
    var size := StructSize(T_SENDMSG) + |nm| + |iov| + |ctl|;
    var bs := SendmsgAsWritten(seqnum, tag, sockid, flags, Zeros(MSGHDR_SIZE), nm, iov, ctl) + rest;
    SendmsgAsWrittenZeroed(seqnum, size, tag, sockid, flags, nm, iov, ctl, rest);
    ParseZeroedMessage(seqnum, size, tag, sockid, flags, nm + iov + ctl + rest, bs);
  }

  /** A whole t_sendmsg message whose msghdr is all zeros reads back with empty name, iovec array and control part. */
  lemma ParseZeroedMessage(seqnum: nat, size: nat, tag: nat, sockid: nat, flags: int, tail: seq<byte>, bs: seq<byte>)
    requires seqnum < U64_LIMIT && tag < U64_LIMIT && sockid < U64_LIMIT && I32_MIN <= flags <= INT_MAX
    requires StructSize(T_SENDMSG) <= size <= INT_MAX
    requires bs == Encode(HeaderFields(seqnum, size, T_SENDMSG, tag)) + (Encode(SendmsgPrefix(sockid, flags, 0, 0, 0)) + tail)
    ensures Parse(T_SENDMSG, bs) == Some(Message(seqnum, T_SENDMSG, tag, TSendmsg(sockid, flags, [], [], [])))
  {
    ParseSendmsgZeroed(size, sockid, flags, tail);
    ParseHeader(seqnum, size, T_SENDMSG, tag, T_SENDMSG, Encode(SendmsgPrefix(sockid, flags, 0, 0, 0)) + tail,
                TSendmsg(sockid, flags, [], [], []));
  }

  /** With a zeroed msghdr, the as-written bytes are those of a body whose lengths are zero. */
  lemma SendmsgAsWrittenZeroed(seqnum: nat, size: nat, tag: nat, sockid: nat, flags: int,
                               nm: seq<byte>, iov: seq<byte>, ctl: seq<byte>, rest: seq<byte>)
    requires size == StructSize(T_SENDMSG) + |nm| + |iov| + |ctl|
    ensures SendmsgAsWritten(seqnum, tag, sockid, flags, Zeros(MSGHDR_SIZE), nm, iov, ctl) + rest
            == Encode(HeaderFields(seqnum, size, T_SENDMSG, tag))
               + (Encode(SendmsgPrefix(sockid, flags, 0, 0, 0)) + (nm + iov + ctl + rest))
  {
    var sf := [U64(sockid), I32(flags)];
    var mh := MsghdrFields(0, 0, 0);
    assert Encode(SendmsgPrefix(sockid, flags, 0, 0, 0)) == Encode(sf) + Zeros(MSGHDR_SIZE) by {
      assert SendmsgPrefix(sockid, flags, 0, 0, 0) == sf + mh;
      EncodeAppend(sf, mh);
      MsghdrZero();
    }
    Regroup(Encode(HeaderFields(seqnum, size, T_SENDMSG, tag)), Encode(sf), Zeros(MSGHDR_SIZE), nm, iov, ctl, rest);
  }

  lemma Regroup(h: seq<byte>, s: seq<byte>, z: seq<byte>, a: seq<byte>, b: seq<byte>, c: seq<byte>, r: seq<byte>)
    ensures h + s + z + a + b + c + r == h + ((s + z) + (a + b + c + r))
  {
  }

  /** A t_sendmsg body whose msghdr is all zeros reads back with empty name, iovec array and control part. */
  lemma ParseSendmsgZeroed(size: nat, sockid: nat, flags: int, tail: seq<byte>)
    requires StructSize(T_SENDMSG) <= size
    requires sockid < U64_LIMIT && I32_MIN <= flags <= INT_MAX
    ensures ParseSendmsg(size, Encode(SendmsgPrefix(sockid, flags, 0, 0, 0)) + tail)
            == Some(TSendmsg(sockid, flags, [], [], []))
  {
    var pre := SendmsgPrefix(sockid, flags, 0, 0, 0);
    var raws := [Raw([]), Raw([]), Raw([])];
    SendmsgPrefixOk(sockid, flags, 0, 0, 0);
    assert Encode(raws) == [] by {
      EncodeLen3(Raw([]), Raw([]), Raw([]));
    }
    assert Encode(pre + raws) + tail == Encode(pre) + tail by {
      EncodeAppendRest(pre, raws, tail);
    }
    var e: seq<byte> := [];
    assert |e| / IOVEC_SIZE == 0 && raws == [Raw(e), Raw(e), Raw(e)];
    ParseSendmsgOf(size, sockid, flags, e, e, e, tail);
  }


  /**
   * `if (len > 0) memcpy(buff + off, bs, len)` into a buffer whose first off
   * bytes (done) are written and whose other bytes are still those of s0.
   */
  method Put(buff: array<byte>, off: nat, bs: seq<byte>, ghost s0: seq<byte>, ghost done: seq<byte>)
    requires |s0| == buff.Length && off == |done| && off + |bs| <= buff.Length
    requires buff[..] == done + s0[off..]
    modifies buff
    ensures buff[..] == done + bs + s0[off + |bs|..]
  {
    if |bs| > 0 {
      WriteBytes(buff, off, bs);
      assert old(buff[..off]) == done;
      assert old(buff[off + |bs|..]) == s0[off + |bs|..];
    } else {
      assert done + bs == done;
    }
  }

  /** A buffer image whose tail from i on is cut in two at j. */
  lemma SplitTail(done: seq<byte>, s0: seq<byte>, i: nat, j: nat)
    requires i <= j <= |s0|
    ensures done + s0[i..] == done + s0[i..j] + s0[j..]
  {
    assert s0[i..] == s0[i..j] + s0[j..];
  }

  /** The name, iovec and control copies of netmsg_marshal_t_sendmsg, one after another. */
  method PutPayload(buff: array<byte>, off: nat, nm: seq<byte>, iov: seq<byte>, ctl: seq<byte>,
                    ghost s0: seq<byte>, ghost done: seq<byte>)
    requires |s0| == buff.Length && off == |done| && off + |nm| + |iov| + |ctl| <= buff.Length
    requires buff[..] == done + s0[off..]
    modifies buff
    ensures buff[..] == done + nm + iov + ctl + s0[off + |nm| + |iov| + |ctl|..]
  {
    Put(buff, off, nm, s0, done);
    Put(buff, off + |nm|, iov, s0, done + nm);
    Put(buff, off + |nm| + |iov|, ctl, s0, done + nm + iov);
  }

  /**
   * netmsg_marshal_t_sendmsg as written: the header, socket id and flags
   * are stored, the name, iovec array and control bytes are copied after
   * the structure, and the msghdr member is left as the buffer held it.
   */
  method MarshalTSendmsgAsWritten(dryrun: bool, buff: array<byte>, seqnum: nat, tag: nat, sockid: nat, flags: int,
                                  nm: seq<byte>, iov: seq<byte>, ctl: seq<byte>) returns (size: int)
    requires seqnum < U64_LIMIT && tag < U64_LIMIT && sockid < U64_LIMIT && I32_MIN <= flags <= INT_MAX
    requires StructSize(T_SENDMSG) + |nm| + |iov| + |ctl| <= INT_MAX
    requires !dryrun ==> StructSize(T_SENDMSG) + |nm| + |iov| + |ctl| <= buff.Length
    modifies buff
    ensures size == StructSize(T_SENDMSG) + |nm| + |iov| + |ctl|
    ensures dryrun ==> buff[..] == old(buff[..])
    ensures !dryrun ==> buff[..] == SendmsgAsWritten(seqnum, tag, sockid, flags, old(buff[36..92]), nm, iov, ctl)
                                    + old(buff[size..])
  {
    size := StructSize(T_SENDMSG) + |nm| + |iov| + |ctl|;
    if !dryrun {
      ghost var s0 := buff[..];
      assert old(buff[36..92]) == s0[36..92] && old(buff[size..]) == s0[size..];
      var pre := PutSendmsgHead(buff, seqnum, size, tag, sockid, flags);
      SplitTail(pre, s0, 36, 92);
      PutPayload(buff, 92, nm, iov, ctl, s0, pre + s0[36..92]);
      AsWrittenImage(seqnum, size, tag, sockid, flags, s0, nm, iov, ctl);
    }
  }

  /** The header, socket id and flags of a t_sendmsg, stored in front of the untouched msghdr member. */
  method PutSendmsgHead(buff: array<byte>, seqnum: nat, size: nat, tag: nat, sockid: nat, flags: int)
    returns (pre: seq<byte>)
    requires seqnum < U64_LIMIT && size < U32_LIMIT && tag < U64_LIMIT && sockid < U64_LIMIT && I32_MIN <= flags <= INT_MAX
    requires 92 <= buff.Length
    modifies buff
    ensures pre == Encode(HeaderFields(seqnum, size, T_SENDMSG, tag)) + Encode([U64(sockid), I32(flags)])
    ensures |pre| == 36
    ensures buff[..] == pre + old(buff[36..])
  {
    ghost var s0 := buff[..];
    var hdr := Encode(HeaderFields(seqnum, size, T_SENDMSG, tag));
    var sf := Encode([U64(sockid), I32(flags)]);
    EncodeLen4(U64(seqnum), U32(size), U32(T_SENDMSG), U64(tag));
    EncodeLen2(U64(sockid), I32(flags));
    var _ := MarshalHeader(false, buff, seqnum, size, T_SENDMSG, tag);
    Put(buff, HEADER_SIZE, sf, s0, hdr);
    pre := hdr + sf;
  }

  /** The buffer image left by the as-written copies is SendmsgAsWritten followed by the untouched tail. */
  lemma AsWrittenImage(seqnum: nat, size: nat, tag: nat, sockid: nat, flags: int, s0: seq<byte>,
                       nm: seq<byte>, iov: seq<byte>, ctl: seq<byte>)
    requires size == StructSize(T_SENDMSG) + |nm| + |iov| + |ctl| <= |s0|
    ensures Encode(HeaderFields(seqnum, size, T_SENDMSG, tag)) + Encode([U64(sockid), I32(flags)]) + s0[36..92]
            + nm + iov + ctl + s0[92 + |nm| + |iov| + |ctl|..]
            == SendmsgAsWritten(seqnum, tag, sockid, flags, s0[36..92], nm, iov, ctl) + s0[size..]
  {
  }

  /**
   * A t_sendmsg carrying a 4-byte name, marshalled as written into a
   * zeroed buffer, reads back without its name.
   */
  method SendmsgNameLost() returns (sent: Message, back: Option<Message>)
    ensures sent.body.TSendmsg? && sent.body.name != []
    ensures back == Some(Message(sent.seqnum, T_SENDMSG, sent.tag, TSendmsg(sent.body.sockid, sent.body.flags, [], [], [])))
    ensures back != Some(sent)
  {
    var nm: seq<byte> := [1, 2, 3, 4];
    sent := Message(1, T_SENDMSG, 7, TSendmsg(3, 0, nm, [], []));
    var buff := new byte[StructSize(T_SENDMSG) + |nm|](_ => 0);
    assert buff[36..92] == Zeros(MSGHDR_SIZE);
    var _ := MarshalTSendmsgAsWritten(false, buff, 1, 7, 3, 0, nm, [], []);
    assert buff[..] == SendmsgAsWritten(1, 7, 3, 0, Zeros(MSGHDR_SIZE), nm, [], []) + [];
    SendmsgLostAsWritten(1, 7, 3, 0, nm, [], [], []);
    var _, got := Unmarshal(false, buff, T_SENDMSG, 0);
    back := got;
  }

  // ---------------------------------------------------------------------
  // The marshallers of netmsg.c, one per structure

  predicate I32Ok(v: int)
  {
    I32_MIN <= v <= INT_MAX
  }

  /** netmsg_marshal_re and the responses built on it (r_bind, r_connect, r_listen, r_setsockopt, r_sendmsg, r_senddata, r_shutdown, r_close): the header and a return code. */
  method MarshalRe(dryrun: bool, buff: array<byte>, seqnum: nat, tag: nat, command: nat, rc: int) returns (size: int)
    requires seqnum < U64_LIMIT && tag < U64_LIMIT
    requires ReOnly(command) && I32Ok(rc)
    requires !dryrun ==> 28 <= buff.Length
    modifies buff
    ensures size == 28
    ensures dryrun ==> buff[..] == old(buff[..])
    ensures !dryrun ==> buff[..] == Wire(Message(seqnum, command, tag, Re(rc))) + old(buff[28..])
  {
    size := Marshal(dryrun, buff, Message(seqnum, command, tag, Re(rc)));
  }

  /** netmsg_marshal_t_socket: domain, type and protocol. */
  method MarshalTSocket(dryrun: bool, buff: array<byte>, seqnum: nat, tag: nat, domain: int, sockType: int, protocol: int) returns (size: int)
    requires seqnum < U64_LIMIT && tag < U64_LIMIT
    requires I32Ok(domain) && I32Ok(sockType) && I32Ok(protocol)
    requires !dryrun ==> 36 <= buff.Length
    modifies buff
    ensures size == 36
    ensures dryrun ==> buff[..] == old(buff[..])
    ensures !dryrun ==> buff[..] == Wire(Message(seqnum, T_SOCKET, tag, TSocket(domain, sockType, protocol))) + old(buff[36..])
  {
    size := Marshal(dryrun, buff, Message(seqnum, T_SOCKET, tag, TSocket(domain, sockType, protocol)));
  }

  /** netmsg_marshal_r_socket: a return code and the new socket's id. */
  method MarshalRSocket(dryrun: bool, buff: array<byte>, seqnum: nat, tag: nat, rc: int, sockid: nat) returns (size: int)
    requires seqnum < U64_LIMIT && tag < U64_LIMIT
    requires I32Ok(rc) && sockid < U64_LIMIT
    requires !dryrun ==> 36 <= buff.Length
    modifies buff
    ensures size == 36
    ensures dryrun ==> buff[..] == old(buff[..])
    ensures !dryrun ==> buff[..] == Wire(Message(seqnum, R_SOCKET, tag, RSocket(rc, sockid))) + old(buff[36..])
  {
    size := Marshal(dryrun, buff, Message(seqnum, R_SOCKET, tag, RSocket(rc, sockid)));
  }

  /** netmsg_marshal_t_bind, netmsg_marshal_t_connect and netmsg_marshal_e_accept: a socket id, addrlen and one struct sockaddr_in. */
  method MarshalAddr(dryrun: bool, buff: array<byte>, seqnum: nat, tag: nat, command: nat, sockid: nat, addrlen: nat, addr: seq<byte>) returns (size: int)
    requires seqnum < U64_LIMIT && tag < U64_LIMIT
    requires command == T_BIND || command == T_CONNECT || command == E_ACCEPT
    requires sockid < U64_LIMIT && addrlen < U32_LIMIT && |addr| == SOCKADDR_IN_SIZE
    requires !dryrun ==> 52 <= buff.Length
    modifies buff
    ensures size == 52
    ensures dryrun ==> buff[..] == old(buff[..])
    ensures !dryrun ==> buff[..] == Wire(Message(seqnum, command, tag, Addr(sockid, addrlen, addr))) + old(buff[52..])
  {
    size := Marshal(dryrun, buff, Message(seqnum, command, tag, Addr(sockid, addrlen, addr)));
  }

  /** netmsg_marshal_t_listen and netmsg_marshal_t_shutdown: a socket id and the backlog or how. */
  method MarshalSockInt(dryrun: bool, buff: array<byte>, seqnum: nat, tag: nat, command: nat, sockid: nat, value: int) returns (size: int)
    requires seqnum < U64_LIMIT && tag < U64_LIMIT
    requires (command == T_LISTEN || command == T_SHUTDOWN) && sockid < U64_LIMIT && I32Ok(value)
    requires !dryrun ==> 36 <= buff.Length
    modifies buff
    ensures size == 36
    ensures dryrun ==> buff[..] == old(buff[..])
    ensures !dryrun ==> buff[..] == Wire(Message(seqnum, command, tag, SockInt(sockid, value))) + old(buff[36..])
  {
    size := Marshal(dryrun, buff, Message(seqnum, command, tag, SockInt(sockid, value)));
  }

  /** netmsg_marshal_t_close and netmsg_marshal_n_socket: a socket id. */
  method MarshalSockOnly(dryrun: bool, buff: array<byte>, seqnum: nat, tag: nat, command: nat, sockid: nat) returns (size: int)
    requires seqnum < U64_LIMIT && tag < U64_LIMIT
    requires (command == T_CLOSE || command == N_SOCKET) && sockid < U64_LIMIT
    requires !dryrun ==> 32 <= buff.Length
    modifies buff
    ensures size == 32
    ensures dryrun ==> buff[..] == old(buff[..])
    ensures !dryrun ==> buff[..] == Wire(Message(seqnum, command, tag, SockOnly(sockid))) + old(buff[32..])
  {
    size := Marshal(dryrun, buff, Message(seqnum, command, tag, SockOnly(sockid)));
  }

  /** netmsg_marshal_t_setsockopt: the option's level, name and length, then its value; the size counts the value. */
  method MarshalTSetsockopt(dryrun: bool, buff: array<byte>, seqnum: nat, tag: nat, sockid: nat, level: int, optname: int, optval: seq<byte>) returns (size: int)
    requires seqnum < U64_LIMIT && tag < U64_LIMIT
    requires sockid < U64_LIMIT && I32Ok(level) && I32Ok(optname) && 44 + |optval| <= INT_MAX
    requires !dryrun ==> 44 + |optval| <= buff.Length
    modifies buff
    ensures size == 44 + |optval|
    ensures dryrun ==> buff[..] == old(buff[..])
    ensures !dryrun ==> buff[..] == Wire(Message(seqnum, T_SETSOCKOPT, tag, TSetsockopt(sockid, level, optname, |optval|, optval))) + old(buff[44 + |optval|..])
  {
    size := Marshal(dryrun, buff, Message(seqnum, T_SETSOCKOPT, tag, TSetsockopt(sockid, level, optname, |optval|, optval)));
  }

  /** netmsg_marshal_t_getsockopt: the option's level, name and the length asked for; no value travels, so the size is the structure's. */
  method MarshalTGetsockopt(dryrun: bool, buff: array<byte>, seqnum: nat, tag: nat, sockid: nat, level: int, optname: int, optlen: nat) returns (size: int)
    requires seqnum < U64_LIMIT && tag < U64_LIMIT
    requires sockid < U64_LIMIT && I32Ok(level) && I32Ok(optname) && optlen < U32_LIMIT
    requires !dryrun ==> 44 <= buff.Length
    modifies buff
    ensures size == 44
    ensures dryrun ==> buff[..] == old(buff[..])
    ensures !dryrun ==> buff[..] == Wire(Message(seqnum, T_GETSOCKOPT, tag, TGetsockopt(sockid, level, optname, optlen))) + old(buff[44..])
  {
    size := Marshal(dryrun, buff, Message(seqnum, T_GETSOCKOPT, tag, TGetsockopt(sockid, level, optname, optlen)));
  }

  /** netmsg_marshal_r_getsockopt: a return code, the option's length and its value; the size counts the value. */
  method MarshalRGetsockopt(dryrun: bool, buff: array<byte>, seqnum: nat, tag: nat, rc: int, optval: seq<byte>) returns (size: int)
    requires seqnum < U64_LIMIT && tag < U64_LIMIT
    requires I32Ok(rc) && 32 + |optval| <= INT_MAX
    requires !dryrun ==> 32 + |optval| <= buff.Length
    modifies buff
    ensures size == 32 + |optval|
    ensures dryrun ==> buff[..] == old(buff[..])
    ensures !dryrun ==> buff[..] == Wire(Message(seqnum, R_GETSOCKOPT, tag, RGetsockopt(rc, |optval|, optval))) + old(buff[32 + |optval|..])
  {
    size := Marshal(dryrun, buff, Message(seqnum, R_GETSOCKOPT, tag, RGetsockopt(rc, |optval|, optval)));
  }

  /** netmsg_marshal_t_sendmsg with the msghdr lengths stored, which its unmarshaller needs: the size counts the name, the iovec array and the control bytes. */
  method MarshalTSendmsg(dryrun: bool, buff: array<byte>, seqnum: nat, tag: nat, sockid: nat, flags: int, nm: seq<byte>, iov: seq<byte>, ctl: seq<byte>) returns (size: int)
    requires seqnum < U64_LIMIT && tag < U64_LIMIT
    requires sockid < U64_LIMIT && I32Ok(flags) && |iov| % IOVEC_SIZE == 0
    requires 92 + |nm| + |iov| + |ctl| <= INT_MAX
    requires !dryrun ==> 92 + |nm| + |iov| + |ctl| <= buff.Length
    modifies buff
    ensures size == 92 + |nm| + |iov| + |ctl|
    ensures dryrun ==> buff[..] == old(buff[..])
    ensures !dryrun ==> buff[..] == Wire(Message(seqnum, T_SENDMSG, tag, TSendmsg(sockid, flags, nm, iov, ctl))) + old(buff[92 + |nm| + |iov| + |ctl|..])
  {
    size := MarshalFields(dryrun, buff, Message(seqnum, T_SENDMSG, tag, TSendmsg(sockid, flags, nm, iov, ctl)));
  }

  /** netmsg_marshal_t_senddata and netmsg_marshal_e_recvdata: a socket id, the payload length and the payload; the size counts the payload. */
  method MarshalData(dryrun: bool, buff: array<byte>, seqnum: nat, tag: nat, command: nat, sockid: nat, data: seq<byte>) returns (size: int)
    requires seqnum < U64_LIMIT && tag < U64_LIMIT
    requires (command == T_SENDDATA || command == E_RECVDATA) && sockid < U64_LIMIT
    requires 36 + |data| <= INT_MAX
    requires !dryrun ==> 36 + |data| <= buff.Length
    modifies buff
    ensures size == 36 + |data|
    ensures dryrun ==> buff[..] == old(buff[..])
    ensures !dryrun ==> buff[..] == Wire(Message(seqnum, command, tag, Data(sockid, |data|, data))) + old(buff[36 + |data|..])
  {
    size := Marshal(dryrun, buff, Message(seqnum, command, tag, Data(sockid, |data|, data)));
  }
}

=== FILE: pcnlink.dfy ===
/**
 * The socket core of the pcnlink library (network/src/libpcnlink/pcnlink.c):
 * the poll mask a socket reports, the poll-mask update after a shutdown,
 * the splitting of a message's I/O vector into sends, the scans of a
 * socket's out-of-band queue for the reply carrying a given sequence number,
 * and the rule that decides when the incoming ring must be reaped. The RPCs
 * to the host (pcnlink_rpc) and the channel's ring buffers are not part of
 * this model: their results enter as parameters.
 */
module Pcnlink {
  import opened Common
  import opened SpscQueue

  /** enum pcn_sock_type_t */
  const PCN_SOCK_TYPE_NEW: int := 0
  const PCN_SOCK_TYPE_LISTEN: int := 1
  const PCN_SOCK_TYPE_EPOLL: int := 2
  const PCN_SOCK_TYPE_IN: int := 3
  const PCN_SOCK_TYPE_OUT: int := 4

  /** The Linux poll bits, as bit positions. */
  const POLLIN: nat := 0       // 0x0001
  const POLLOUT: nat := 2      // 0x0004
  const POLLHUP: nat := 4      // 0x0010
  const POLLNVAL: nat := 5     // 0x0020
  const POLLWRNORM: nat := 8   // 0x0100
  const POLLWRBAND: nat := 9   // 0x0200
  const POLLRDHUP: nat := 13   // 0x2000

  /** The shutdown() directions. */
  const SHUT_RD: int := 0
  const SHUT_WR: int := 1
  const SHUT_RDWR: int := 2

  /** PCNLINK_IN_Q_REAP_THRESHOLD */
  const IN_Q_REAP_THRESHOLD: nat := 1024 * 1024

  /** The fields of struct pcnlink_socket_t that the model touches. */
  class PlSock {
    var sockfd: int
    var fileFlags: int
    var sockType: int
    var pollMask: Mask

    constructor(sockType: int)
      ensures this.sockType == sockType && pollMask == {}
      ensures sockfd == -1 && fileFlags == 0
    {
      this.sockType := sockType;
      pollMask := {};
      sockfd, fileFlags := -1, 0;
    }

    /**
     * __pcnlink_poll: the socket's own mask, plus POLLOUT|POLLWRNORM|POLLWRBAND
     * for a connected socket whose outgoing queue has room, plus
     * POLLIN|POLLWRNORM for a connected or listening socket with something
     * to receive or accept; every other kind of socket reports POLLNVAL.
     * Writability and readability are the channel's queue states.
     */
    function Poll(writable: bool, readable: bool): (r: Mask)
      reads this
      ensures pollMask <= r
      ensures POLLOUT in r <==>
                POLLOUT in pollMask || ((sockType == PCN_SOCK_TYPE_IN || sockType == PCN_SOCK_TYPE_OUT) && writable)
      ensures POLLWRBAND in r <==>
                POLLWRBAND in pollMask || ((sockType == PCN_SOCK_TYPE_IN || sockType == PCN_SOCK_TYPE_OUT) && writable)
      ensures POLLWRNORM in r <==>
                POLLWRNORM in pollMask
                || ((sockType == PCN_SOCK_TYPE_IN || sockType == PCN_SOCK_TYPE_OUT) && (writable || readable))
                || (sockType == PCN_SOCK_TYPE_LISTEN && readable)
      ensures POLLIN in r <==>
                POLLIN in pollMask
                || ((sockType == PCN_SOCK_TYPE_IN || sockType == PCN_SOCK_TYPE_OUT || sockType == PCN_SOCK_TYPE_LISTEN) && readable)
      ensures POLLNVAL in r <==>
                POLLNVAL in pollMask
                || !(sockType == PCN_SOCK_TYPE_IN || sockType == PCN_SOCK_TYPE_OUT || sockType == PCN_SOCK_TYPE_LISTEN)
      ensures forall b :: b in r && b !in pollMask ==> b in {POLLIN, POLLOUT, POLLNVAL, POLLWRNORM, POLLWRBAND}
    {
      if sockType == PCN_SOCK_TYPE_IN || sockType == PCN_SOCK_TYPE_OUT then
        var w := if writable then pollMask + {POLLOUT, POLLWRNORM, POLLWRBAND} else pollMask;
        // falls through to the listening case
        if readable then w + {POLLIN, POLLWRNORM} else w
      else if sockType == PCN_SOCK_TYPE_LISTEN then
        if readable then pollMask + {POLLIN, POLLWRNORM} else pollMask
      else
        pollMask + {POLLNVAL}
    }

    /**
     * __pcnlink_shutdown after its RPC: a failed RPC (rpcRc != 0) is
     * returned and changes nothing; otherwise the host's result is returned
     * and, when it is 0, SHUT_RD or SHUT_WR add POLLRDHUP and SHUT_RDWR adds
     * POLLHUP to the socket's poll mask.
     */
    method Shutdown(how: int, rpcRc: int, remoteRc: int) returns (rc: int)
      modifies this
      ensures rc == (if rpcRc != 0 then rpcRc else remoteRc)
      ensures sockType == old(sockType) && sockfd == old(sockfd) && fileFlags == old(fileFlags)
      ensures old(pollMask) <= pollMask && pollMask - old(pollMask) <= {POLLRDHUP, POLLHUP}
      ensures POLLRDHUP in pollMask <==>
                POLLRDHUP in old(pollMask) || (rpcRc == 0 && remoteRc == 0 && (how == SHUT_RD || how == SHUT_WR))
      ensures POLLHUP in pollMask <==>
                POLLHUP in old(pollMask) || (rpcRc == 0 && remoteRc == 0 && how == SHUT_RDWR)
    {
      if rpcRc != 0 {
        return rpcRc;
      }
      if remoteRc == 0 {
        if how == SHUT_RD || how == SHUT_WR {
          pollMask := pollMask + {POLLRDHUP};
        } else if how == SHUT_RDWR {
          pollMask := pollMask + {POLLHUP};
        }
      }
      rc := remoteRc;
    }
  }

  // ---------------------------------------------------------------------
  // Sending a message: the I/O vector split into sends

  /**
   * The number of bytes __pcnlink_sendmsg sends from the first i segments
   * of an I/O vector with segment lengths s when len bytes are requested:
   * each non-empty segment is sent up to what remains of len, and nothing
   * more is sent once len is used up.
   */
  function Sent(s: seq<nat>, len: int, i: nat): nat
    requires i <= |s|
  {
    if i == 0 then 0
    else
      var before := Sent(s, len, i - 1);
      var rem := len - before;
      before + (if rem > 0 && s[i - 1] != 0 then Min(s[i - 1], rem) else 0)
  }

  /** The number of bytes sent from segment i. */
  function Chunk(s: seq<nat>, len: int, i: nat): int
    requires i < |s|
  {
    Sent(s, len, i + 1) - Sent(s, len, i)
  }

  /**
   * A segment sends the smaller of its length and what remains of len, and
   * nothing when it is empty or len is used up; so it never sends more
   * than its length.
   */
  lemma ChunkIs(s: seq<nat>, len: int, i: nat)
    requires i < |s|
    ensures var rem := len - Sent(s, len, i);
            Chunk(s, len, i) == if rem > 0 && s[i] != 0 then Min(s[i], rem) else 0
    ensures 0 <= Chunk(s, len, i) <= s[i]
  {
  }

  /** What the first i segments send is the smaller of their total length and len. */
  lemma {:induction false} SentTotal(s: seq<nat>, len: int, i: nat)
    requires i <= |s|
    ensures Sent(s, len, i) == Min(Sum(s[..i]), Max(len, 0))
  {
    if i == 0 {
      assert s[..0] == [];
    } else {
      SentTotal(s, len, i - 1);
      assert s[..i] == s[..i - 1] + [s[i - 1]];
      SumAppend(s[..i - 1], s[i - 1]);
      SumNonneg(s[..i - 1]);
    }
  }

  /**
   * When len is the whole vector's length, as pcnlink_u_sendmsg passes it,
   * every segment is sent in full.
   */
  lemma {:induction false} WholeMessageSent(s: seq<nat>, i: nat)
    requires i < |s|
    ensures Chunk(s, Sum(s), i) == s[i]
  {
    SentTotal(s, Sum(s), i);
    SentTotal(s, Sum(s), i + 1);
    SumPrefix(s, i);
    SumPrefix(s, i + 1);
    SumNonneg(s[..i]);
    assert s[..i + 1] == s[..i] + [s[i]];
    SumAppend(s[..i], s[i]);
  }

  /** Segment i is where sending fails: it sends something and the send returns an error. */
  predicate Fails(s: seq<nat>, len: int, sendRc: seq<int>, i: nat)
    requires i < |s| && |sendRc| == |s|
  {
    Chunk(s, len, i) > 0 && sendRc[i] < 0
  }

  /** The first segment from index from on whose send fails, or -1 when none fails. */
  function FirstFailure(s: seq<nat>, len: int, sendRc: seq<int>, from: nat): (f: int)
    requires from <= |s| && |sendRc| == |s|
    ensures f == -1 || from <= f < |s|
    ensures f == -1 <==> forall j :: from <= j < |s| ==> !Fails(s, len, sendRc, j)
    ensures 0 <= f ==> Fails(s, len, sendRc, f) && forall j :: from <= j < f ==> !Fails(s, len, sendRc, j)
    decreases |s| - from
  {
    if from == |s| then -1
    else if Fails(s, len, sendRc, from) then from
    else FirstFailure(s, len, sendRc, from + 1)
  }

  /** Once len is used up at segment i, no later segment sends anything. */
  lemma {:induction false} SentStops(s: seq<nat>, len: int, i: nat)
    requires i <= |s| && len <= Sent(s, len, i)
    ensures forall j :: i <= j < |s| ==> Chunk(s, len, j) == 0
    ensures Sent(s, len, |s|) == Sent(s, len, i)
    decreases |s| - i
  {
    if i < |s| {
      SentStops(s, len, i + 1);
    }
  }

  /**
   * __pcnlink_sendmsg over the segment lengths iov (the send buffers are
   * left out). sendRc[i] is what __pcnlink_send returns for segment i. A
   * negative result is returned at once, with the segments before it
   * already shrunk; a non-negative one is not looked at, the full chunk
   * counting as sent. Without a failure the result is the total sent and
   * every segment has shrunk by what was sent from it.
   */
  method SendMsg(iov: array<nat>, len: int, sendRc: seq<int>) returns (rc: int)
    requires |sendRc| == iov.Length
    modifies iov
    ensures var s := old(iov[..]);
            FirstFailure(s, len, sendRc, 0) == -1 ==>
              rc == Sent(s, len, |s|) && forall i :: 0 <= i < |s| ==> iov[i] == s[i] - Chunk(s, len, i)
    ensures var s := old(iov[..]);
            var f := FirstFailure(s, len, sendRc, 0);
            0 <= f ==> rc == sendRc[f]
                       && (forall i :: 0 <= i < f ==> iov[i] == s[i] - Chunk(s, len, i))
                       && (forall i :: f <= i < |s| ==> iov[i] == s[i])
  {
    ghost var s0 := iov[..];
    var total := 0;
    var remaining := len;
    var i := 0;
    while remaining > 0 && i < iov.Length
      invariant 0 <= i <= iov.Length
      invariant total == Sent(s0, len, i) && remaining == len - total
      // the triggers keep each fact about segment j from unfolding Sent at j - 1
      invariant forall j {:trigger Fails(s0, len, sendRc, j)} :: 0 <= j < i ==> !Fails(s0, len, sendRc, j)
      invariant forall j {:trigger iov[j]} :: 0 <= j < i ==> iov[j] == s0[j] - Chunk(s0, len, j)
      invariant forall j {:trigger iov[j]} :: i <= j < iov.Length ==> iov[j] == s0[j]
    {
      ChunkIs(s0, len, i);
      if iov[i] != 0 {
        var ioSize := Min(iov[i], remaining);
        if sendRc[i] < 0 {
          assert Fails(s0, len, sendRc, i);
          rc := sendRc[i];
          return;
        }
        total := total + ioSize;
        remaining := remaining - ioSize;
        iov[i] := iov[i] - ioSize;
      }
      assert !Fails(s0, len, sendRc, i);
      i := i + 1;
    }
    if i < iov.Length {
      SentStops(s0, len, i);
    }
    rc := total;
  }

  // ---------------------------------------------------------------------
  // The out-of-band queue: replies that arrived ahead of their reader

  /**
   * How many heads of the queue carry a sequence number below seqnum: the
   * scan stops at the first one at or above it. seqOf gives each queued
   * message's header sequence number.
   */
  function Skip(nodes: seq<SpscNode>, seqOf: SpscNode -> nat, seqnum: nat): (k: nat)
    ensures k <= |nodes|
    ensures forall j :: 0 <= j < k ==> seqOf(nodes[j]) < seqnum
    ensures k < |nodes| ==> seqnum <= seqOf(nodes[k])
  {
    if nodes == [] || seqnum <= seqOf(nodes[0]) then 0
    else 1 + Skip(nodes[1..], seqOf, seqnum)
  }

  /**
   * find_netmsg_in_oob_e_q: heads with a smaller sequence number have
   * already been answered and are dropped; a head with an equal one is
   * taken off the queue and returned; a head with a larger one stops the
   * scan and stays.
   */
  method FindOob(q: Queue, seqOf: SpscNode -> nat, seqnum: nat) returns (r: SpscNode?)
    requires q.Valid()
    modifies q
    ensures q.Valid() && q.Repr == old(q.Repr)
    ensures var k := Skip(old(q.nodes), seqOf, seqnum);
            if k < |old(q.nodes)| && seqOf(old(q.nodes)[k]) == seqnum
            then r == old(q.nodes)[k] && q.nodes == old(q.nodes)[k + 1..]
            else r == null && q.nodes == old(q.nodes)[k..]
  {
    ghost var n0 := q.nodes;
    ghost var i := 0;
    var node := q.Peek();
    while node != null
      invariant q.Valid() && q.Repr == old(q.Repr)
      invariant 0 <= i <= |n0| && q.nodes == n0[i..]
      invariant forall j :: 0 <= j < i ==> seqOf(n0[j]) < seqnum
      invariant node == (if q.nodes == [] then null else q.nodes[0])
      decreases |q.nodes|
    {
      assert node == n0[i];
      if seqnum < seqOf(node) {
        assert Skip(n0, seqOf, seqnum) == i;
        return null;
      }
      var _ := q.Get();
      assert n0[i..][1..] == n0[i + 1..];
      if seqnum == seqOf(node) {
        assert Skip(n0, seqOf, seqnum) == i;
        return node;
      }
      i := i + 1;
      node := q.Peek();
    }
    assert Skip(n0, seqOf, seqnum) == i == |n0|;
    r := null;
  }

  /**
   * peek_netmsg_in_oob_e_q: like FindOob, except that a head with the
   * sequence number sought is returned but left on the queue.
   */
  method PeekOob(q: Queue, seqOf: SpscNode -> nat, seqnum: nat) returns (r: SpscNode?)
    requires q.Valid()
    modifies q
    ensures q.Valid() && q.Repr == old(q.Repr)
    ensures var k := Skip(old(q.nodes), seqOf, seqnum);
            q.nodes == old(q.nodes)[k..]
            && r == (if k < |old(q.nodes)| && seqOf(old(q.nodes)[k]) == seqnum then old(q.nodes)[k] else null)
  {
    ghost var n0 := q.nodes;
    ghost var i := 0;
    var node := q.Peek();
    while node != null
      invariant q.Valid() && q.Repr == old(q.Repr)
      invariant 0 <= i <= |n0| && q.nodes == n0[i..]
      invariant forall j :: 0 <= j < i ==> seqOf(n0[j]) < seqnum
      invariant node == (if q.nodes == [] then null else q.nodes[0])
      decreases |q.nodes|
    {
      assert node == n0[i];
      if seqnum <= seqOf(node) {
        assert Skip(n0, seqOf, seqnum) == i;
        return if seqnum == seqOf(node) then node else null;
      }
      var _ := q.Get();
      assert n0[i..][1..] == n0[i + 1..];
      i := i + 1;
      node := q.Peek();
    }
    assert Skip(n0, seqOf, seqnum) == i == |n0|;
    r := null;
  }

  /**
   * Peeking and then finding the same sequence number on the same queue
   * returns the same message, and only the find consumes it.
   */
  method PeekThenFind(q: Queue, seqOf: SpscNode -> nat, seqnum: nat) returns (peeked: SpscNode?, found: SpscNode?)
    requires q.Valid()
    modifies q
    ensures peeked == found
    ensures found != null ==> found !in q.nodes
  {
    ghost var n0 := q.nodes;
    peeked := PeekOob(q, seqOf, seqnum);
    ghost var n1 := q.nodes;
    assert Skip(n1, seqOf, seqnum) == 0;
    found := FindOob(q, seqOf, seqnum);
    assert found != null ==> q.nodes == n1[1..] && found == n1[0];
  }

  // ---------------------------------------------------------------------
  // Reaping the incoming ring

  /**
   * _pcnlink_need_reap_in_q: the incoming ring is reaped only while the
   * out-of-band quota oobSize is positive, the ring's free space is at most
   * the threshold, and there is nothing in it to read; the amount to reap
   * is then one byte more than the free space. 0 means "do not reap".
   */
  function NeedReapInQ(oobSize: int, freeSize: nat, empty: bool): (r: nat)
    ensures r != 0 <==> 0 < oobSize && freeSize <= IN_Q_REAP_THRESHOLD && empty
    ensures r != 0 ==> r == freeSize + 1
  {
    if oobSize <= 0 then 0
    else if freeSize > IN_Q_REAP_THRESHOLD then 0
    else if !empty then 0
    else freeSize + 1
  }
}

=== FILE: pcnlink_uapi.dfy ===
/**
 * The user-level socket API of pcnlink (network/src/libpcnlink/pcnlink_uapi.c):
 * a global table maps small integer descriptors to pcnlink sockets. The
 * table mutex and the memory barriers are left out; the model runs one call
 * at a time. The socket layer below the table (__pcnlink_close and friends)
 * is not part of this model: its results enter as parameters.
 */
module PcnlinkUapi {
  import opened Common
  import opened Pcnlink

  /** PCNLINK_MAX_SOCKFD: the number of descriptor slots. */
  const MAX_SOCKFD: nat := 1024

  /** The Linux fcntl commands the table understands. */
  const F_GETFL: int := 3
  const F_SETFL: int := 4

  /**
   * The index of the lowest empty slot of s, or -1 when every slot is taken.
   */
  function FirstFree(s: seq<PlSock?>): (r: int)
    ensures -1 <= r < |s|
    ensures r == -1 <==> forall i :: 0 <= i < |s| ==> s[i] != null
    ensures 0 <= r ==> s[r] == null && forall i :: 0 <= i < r ==> s[i] != null
  {
    if s == [] then -1
    else if s[0] == null then 0
    else
      var r := FirstFree(s[1..]);
      if r == -1 then -1 else r + 1
  }

  /** sockfd_tbl: one slot per descriptor, NULL when the descriptor is free. */
  class SockfdTable {
    const slots: array<PlSock?>

    /** Every stored socket records the descriptor it is stored under. */
    ghost predicate Valid()
      reads this, slots, set i | 0 <= i < slots.Length :: slots[i]
    {
      slots.Length == MAX_SOCKFD
      && forall i :: 0 <= i < slots.Length && slots[i] != null ==> slots[i].sockfd == i
    }

    /** The table starts with every slot empty. */
    constructor()
      ensures Valid() && fresh(slots)
      ensures forall i :: 0 <= i < slots.Length ==> slots[i] == null
    {
      slots := new PlSock?[MAX_SOCKFD](_ => null);
    }

    /** A socket held in the table is held in one slot only. */
    lemma {:induction false} StoredOnce(i: int, j: int)
      requires Valid()
      requires 0 <= i < slots.Length && 0 <= j < slots.Length
      requires slots[i] != null && slots[i] == slots[j]
      ensures i == j
    {
      assert slots[i].sockfd == i;
      assert slots[j].sockfd == j;
    }

    /**
     * sockfd_new: the socket goes into the lowest empty slot and records that
     * index; when every slot is taken nothing is stored and both the result
     * and the socket's descriptor are -1.
     */
    method New(plsock: PlSock) returns (sockfd: int)
      requires Valid()
      requires forall i :: 0 <= i < slots.Length ==> slots[i] != plsock
      modifies slots, plsock
      ensures Valid()
      ensures sockfd == FirstFree(old(slots[..]))
      ensures sockfd == -1 ==> slots[..] == old(slots[..])
      ensures 0 <= sockfd ==> slots[..] == old(slots[..])[sockfd := plsock]
      ensures plsock.sockfd == sockfd && plsock.fileFlags == old(plsock.fileFlags)
    {
      ghost var s0 := slots[..];
      sockfd := -1;
      var i := 0;
      while i < MAX_SOCKFD
        invariant 0 <= i <= MAX_SOCKFD
        invariant slots[..] == s0
        invariant forall j :: 0 <= j < i ==> s0[j] != null
      {
        if slots[i] == null {
          slots[i] := plsock;
          sockfd := i;
          break;
        }
        i := i + 1;
      }
      plsock.sockfd := sockfd;
    }

    /** sockfd_release: the slot becomes empty. */
    method Release(sockfd: int)
      requires Valid() && 0 <= sockfd < slots.Length
      modifies slots
      ensures Valid()
      ensures slots[..] == old(slots[..])[sockfd := null]
    {
      slots[sockfd] := null;
    }

    /**
     * pcnlink_u_close: whatever the socket layer's close returned
     * (closeRc), the slot is released and that result is passed on.
     */
    method Close(sockfd: int, closeRc: int) returns (rc: int)
      requires Valid() && 0 <= sockfd < slots.Length
      modifies slots
      ensures Valid()
      ensures rc == closeRc
      ensures slots[..] == old(slots[..])[sockfd := null]
    {
      rc := closeRc;
      Release(sockfd);
    }

    /**
     * pcnlink_u_fcntl: F_SETFL stores the flags and returns 0, F_GETFL
     * returns the stored flags, any other command returns -1. The socket is
     * dereferenced unchecked, so the descriptor must be in use.
     */
    method Fcntl(sockfd: int, cmd: int, flags: int) returns (rc: int)
      requires Valid() && 0 <= sockfd < slots.Length && slots[sockfd] != null
      modifies slots[sockfd]
      ensures Valid()
      ensures cmd == F_SETFL ==>
                rc == 0 && slots[sockfd].fileFlags == flags
                && slots[sockfd].sockfd == old(slots[sockfd].sockfd)
                && slots[sockfd].sockType == old(slots[sockfd].sockType)
                && slots[sockfd].pollMask == old(slots[sockfd].pollMask)
      ensures cmd == F_GETFL ==> rc == old(slots[sockfd].fileFlags) && unchanged(slots[sockfd])
      ensures cmd != F_SETFL && cmd != F_GETFL ==> rc == -1 && unchanged(slots[sockfd])
    {
      var plsock := slots[sockfd];
      if cmd == F_SETFL {
        plsock.fileFlags := flags;
        rc := 0;
      } else if cmd == F_GETFL {
        rc := plsock.fileFlags;
      } else {
        rc := -1;
      }
    }

    /** F_SETFL followed by F_GETFL on the same descriptor reads back the flags set. */
    method SetThenGet(sockfd: int, flags: int) returns (got: int)
      requires Valid() && 0 <= sockfd < slots.Length && slots[sockfd] != null
      modifies slots[sockfd]
      ensures Valid()
      ensures got == flags
    {
      var rc := Fcntl(sockfd, F_SETFL, flags);
      got := Fcntl(sockfd, F_GETFL, 0);
    }
  }

  /**
   * get_msghdr_len: the total length of a message's I/O vector, the sum of
   * its segment lengths (empty segments add nothing).
   */
  method GetMsghdrLen(iovLens: seq<nat>) returns (len: int)
    ensures len == Sum(iovLens)
    ensures 0 <= len
  {
    len := 0;
    var i := 0;
    while i < |iovLens|
      invariant 0 <= i <= |iovLens|
      invariant len == Sum(iovLens[..i]) && 0 <= len
    {
      if iovLens[i] != 0 {
        len := len + iovLens[i];
      }
      SumAppend(iovLens[..i], iovLens[i]);
      assert iovLens[..i + 1] == iovLens[..i] + [iovLens[i]];
      i := i + 1;
    }
    assert iovLens[..i] == iovLens;
  }
}

=== FILE: proxy.dfy ===
/**
 * The host-side proxy of the network stack (network/src/libproxy/proxy.c):
 * the remote-id masks of a listening socket shared by several coprocessors
 * and the round robin over them, the per-context scratchpad, and the
 * backlog buffer that holds data the host socket could not take at once.
 * Host system calls (send, epoll_ctl, malloc) are not part of this model:
 * their results enter as parameters. The compare-and-swap retry loops of
 * the mask helpers are left out; one call runs at a time.
 */
module Proxy {
  import opened Common

  /** PCN_PROXY_MAX_LINKS: the installable coprocessors plus one. */
  const PCN_PROXY_MAX_LINKS: nat := 9
  /** MAX_HOST_BUFFER: the size of a socket's backlog buffer. */
  const MAX_HOST_BUFFER: nat := 4 * 1024
  /** The host page size that PAGE_MASK stands for (4 KiB). */
  const PAGE_SIZE: nat := 4096

  /** Every id of the mask is a link index. */
  predicate WithinLinks(bits: Mask)
  {
    forall id :: id in bits ==> id < PCN_PROXY_MAX_LINKS
  }

  /** The link index k steps past start, wrapping round. */
  function Slot(start: nat, k: nat): nat
  {
    (start + k) % PCN_PROXY_MAX_LINKS
  }

  // ---------------------------------------------------------------------
  // Remote-id masks

  /** _pcn_set_remote_id_bits: the ids of add join the mask. */
  function SetRemoteIdBits(bits: Mask, add: Mask): (r: Mask)
    ensures forall id :: id in r <==> id in bits || id in add
  {
    bits + add
  }

  /** _pcn_unset_remote_id_bits: the ids of rm leave the mask. */
  function UnsetRemoteIdBits(bits: Mask, rm: Mask): (r: Mask)
    ensures forall id :: id in r <==> id in bits && id !in rm
  {
    bits - rm
  }

  /**
   * Adding ids that were not there and removing them again gives back the
   * original mask; removing ids and adding them back leaves every id
   * present.
   */
  lemma SetUnsetRoundTrip(bits: Mask, ids: Mask)
    ensures bits !! ids ==> UnsetRemoteIdBits(SetRemoteIdBits(bits, ids), ids) == bits
    ensures SetRemoteIdBits(UnsetRemoteIdBits(bits, ids), ids) == bits + ids
  {
  }

  /** _pcn_num_listening_ends: the population count of the mask. */
  function NumListeningEnds(bits: Mask): (r: nat)
    ensures r == 0 <==> bits == {}
    ensures forall a :: bits == {a} ==> r == 1
  {
    |bits|
  }

  /** A listening socket is shared exactly when two different remote ends listen on it. */
  lemma SharedIffTwoEnds(bits: Mask)
    ensures NumListeningEnds(bits) > 1 <==> exists a, b :: a in bits && b in bits && a != b
  {
    if NumListeningEnds(bits) > 1 {
      var a :| a in bits;
      assert |bits - {a}| == |bits| - 1;
      var b :| b in bits - {a};
      assert a in bits && b in bits && a != b;
    }
    if exists a, b :: a in bits && b in bits && a != b {
      var a, b :| a in bits && b in bits && a != b;
      assert {a, b} <= bits;
      assert |{a, b}| == 2;
      SubsetCard({a, b}, bits);
    }
  }

  /** A subset is no larger than its superset. */
  lemma {:induction false} SubsetCard(a: set<nat>, b: set<nat>)
    requires a <= b
    ensures |a| <= |b|
    decreases |b|
  {
    if a != {} {
      var x :| x in a;
      SubsetCard(a - {x}, b - {x});
    }
  }

  /** One step further round is the next index, wrapping after the last. */
  lemma SlotStep(start: nat, k: nat)
    ensures Slot(start, k + 1) == (Slot(start, k) + 1) % PCN_PROXY_MAX_LINKS
  {
  }

  /**
   * How far past start the round robin looks before it meets a listening
   * end: the least k from k0 on with (start + k) mod PCN_PROXY_MAX_LINKS
   * in bits, or PCN_PROXY_MAX_LINKS when there is none.
   */
  function Offset(bits: Mask, start: nat, k0: nat): (k: nat)
    requires k0 <= PCN_PROXY_MAX_LINKS
    ensures k0 <= k <= PCN_PROXY_MAX_LINKS
    ensures k < PCN_PROXY_MAX_LINKS ==> Slot(start, k) in bits
    ensures forall j :: k0 <= j < k ==> Slot(start, j) !in bits
    decreases PCN_PROXY_MAX_LINKS - k0
  {
    if k0 == PCN_PROXY_MAX_LINKS then PCN_PROXY_MAX_LINKS
    else if Slot(start, k0) in bits then k0
    else Offset(bits, start, k0 + 1)
  }

  /** Any listening end within the link range is met within one round. */
  lemma OffsetFound(bits: Mask, start: nat)
    requires bits != {} && WithinLinks(bits)
    ensures Offset(bits, start, 0) < PCN_PROXY_MAX_LINKS
  {
    var b :| b in bits;
    var k := (b - start) % PCN_PROXY_MAX_LINKS;
    assert Slot(start, k) == b;
  }

  /** The fields of a host listening socket (struct pcn_socket_t) the round robin uses. */
  class ListenSocket {
    var remoteIdBits: Mask
    var lbCnt: nat

    /** Every remote id is a link index. */
    ghost predicate Valid()
      reads this
    {
      WithinLinks(remoteIdBits)
    }

    /** A socket created for remote end rid listens for it alone, and the round robin starts there. */
    constructor(rid: nat)
      requires rid < PCN_PROXY_MAX_LINKS
      ensures Valid() && remoteIdBits == {rid} && lbCnt == rid
    {
      remoteIdBits := {rid};
      lbCnt := rid;
    }

    /**
     * The choice _pcn_next_remote_socket makes: a socket with at most one
     * listening end is not shared and the caller keeps it (shared is
     * false); otherwise the next listening end from lbCnt on, wrapping
     * round, is chosen and the counter moves just past it. Finding the
     * socket instance of that end in the socket tables is not modelled.
     */
    method NextRemoteId() returns (shared: bool, remoteId: int)
      requires Valid()
      modifies this
      ensures Valid() && remoteIdBits == old(remoteIdBits)
      ensures shared <==> NumListeningEnds(remoteIdBits) > 1
      ensures !shared ==> lbCnt == old(lbCnt) && remoteId == -1
      ensures shared ==> remoteId == Slot(old(lbCnt), Offset(remoteIdBits, old(lbCnt), 0))
      ensures shared ==> remoteId in remoteIdBits && lbCnt == remoteId + 1
    {
      if NumListeningEnds(remoteIdBits) <= 1 {
        return false, -1;
      }
      ghost var lb0 := lbCnt;
      OffsetFound(remoteIdBits, lb0);
      var rid: int := lbCnt;
      var i := 0;
      while i < PCN_PROXY_MAX_LINKS
        invariant 0 <= i <= PCN_PROXY_MAX_LINKS
        invariant 0 <= rid && rid % PCN_PROXY_MAX_LINKS == Slot(lb0, i)
        invariant Offset(remoteIdBits, lb0, i) == Offset(remoteIdBits, lb0, 0)
        invariant lbCnt == lb0 && remoteIdBits == old(remoteIdBits)
      {
        rid := rid % PCN_PROXY_MAX_LINKS;
        assert rid == Slot(lb0, i);
        if rid in remoteIdBits {
          lbCnt := rid + 1;
          return true, rid;
        }
        SlotStep(lb0, i);
        i := i + 1;
        rid := rid + 1;
      }
      assert false;
    }
  }

  // ---------------------------------------------------------------------
  // The scratchpad

  /** (size + ~PAGE_MASK) & PAGE_MASK: size rounded up to a whole page. */
  function RoundUpPage(size: int): (r: int)
    ensures r % PAGE_SIZE == 0
    ensures size <= r < size + PAGE_SIZE
  {
    (size + PAGE_SIZE - 1) / PAGE_SIZE * PAGE_SIZE
  }

  /** PCN_NETCTX_SCRATCHPAD_INIT_SIZE: the scratchpad a worker thread starts with. */
  const SCRATCHPAD_INIT_SIZE: int := 4 * 1024 * 1024

  /** The scratchpad fields of a network context (struct pcn_netctx_t). */
  class NetCtx {
    var scratchpadSize: int
    /** Whether the scratchpad address is non-NULL. */
    var scratchpad: bool

    /** _pcn_init_netctx zeroes the context: no scratchpad and size 0. */
    constructor()
      ensures scratchpadSize == 0 && !scratchpad
      ensures Valid()
    {
      scratchpadSize, scratchpad := 0, false;
    }

    /**
     * The scratchpad step of _pcn_netctx_worker as written: the initial
     * scratchpad is allocated only when one is already present (the test
     * is `if (netctx->scratchpad)`), so on a fresh context nothing happens.
     */
    method StartWorkerAsWritten(allocOk: bool) returns (rc: int)
      modifies this
      ensures old(scratchpad) ==>
                scratchpadSize == SCRATCHPAD_INIT_SIZE && scratchpad == allocOk
                && rc == (if allocOk then 0 else -ENOMEM)
      ensures !old(scratchpad) ==> rc == 0 && unchanged(this)
    {
      if scratchpad {
        scratchpadSize := SCRATCHPAD_INIT_SIZE;
        scratchpad := allocOk;
        if !scratchpad {
          return -ENOMEM;
        }
      }
      return 0;
    }

    /**
     * The scratchpad step of _pcn_netctx_worker with the test the comment
     * there describes: a context without a scratchpad gets the initial one.
     */
    method StartWorker(allocOk: bool) returns (rc: int)
      requires Valid()
      modifies this
      ensures Valid()
      ensures !old(scratchpad) && allocOk ==> rc == 0 && scratchpad && scratchpadSize == SCRATCHPAD_INIT_SIZE
      ensures !old(scratchpad) && !allocOk ==> rc == -ENOMEM && !scratchpad && scratchpadSize == 0
      ensures old(scratchpad) ==> rc == 0 && unchanged(this)
    {
      if !scratchpad {
        scratchpadSize := SCRATCHPAD_INIT_SIZE;
        scratchpad := allocOk;
        if !scratchpad {
          scratchpadSize := 0;
          return -ENOMEM;
        }
      }
      return 0;
    }

    /** A missing scratchpad is never recorded as having room. */
    ghost predicate Valid()
      reads this
    {
      scratchpad || scratchpadSize <= 0
    }

    /**
     * _pcn_secure_scratchpad as written: a request larger than the current
     * scratchpad frees it and allocates size rounded up to a page
     * (allocOk is whether malloc succeeded); the enlarged size is recorded
     * even when the allocation fails.
     */
    method SecureScratchpadAsWritten(size: int, allocOk: bool) returns (rc: int)
      modifies this
      ensures size > old(scratchpadSize) ==>
                scratchpadSize == RoundUpPage(size) && scratchpad == allocOk
                && rc == (if allocOk then 0 else -ENOMEM)
      ensures size <= old(scratchpadSize) ==> rc == 0 && unchanged(this)
    {
      if size > scratchpadSize {
        scratchpad := false;
        scratchpadSize := RoundUpPage(size);
        scratchpad := allocOk;
        if !scratchpad {
          return -ENOMEM;
        }
      }
      return 0;
    }

    /**
     * _pcn_secure_scratchpad with the size cleared when the allocation
     * fails, so that a later call allocates again: success always leaves
     * a scratchpad of at least size bytes.
     */
    method SecureScratchpad(size: int, allocOk: bool) returns (rc: int)
      requires Valid()
      modifies this
      ensures Valid()
      ensures rc == 0 || rc == -ENOMEM
      ensures rc == 0 && 0 < size ==> scratchpad && size <= scratchpadSize
      ensures size <= old(scratchpadSize) ==> rc == 0 && unchanged(this)
      ensures size > old(scratchpadSize) && allocOk ==> rc == 0 && scratchpadSize == RoundUpPage(size)
      ensures size > old(scratchpadSize) && !allocOk ==> rc == -ENOMEM && scratchpadSize == 0 && !scratchpad
    {
      if size > scratchpadSize {
        scratchpad := false;
        scratchpadSize := RoundUpPage(size);
        scratchpad := allocOk;
        if !scratchpad {
          scratchpadSize := 0;
          return -ENOMEM;
        }
      }
      return 0;
    }
  }

  /**
   * As written, a worker started on a fresh context has no scratchpad even
   * when malloc would succeed.
   */
  method WorkerStartAsWritten() returns (rc: int, size: int, present: bool)
    ensures rc == 0 && size == 0 && !present
  {
    var ctx := new NetCtx();
    rc := ctx.StartWorkerAsWritten(true);
    size, present := ctx.scratchpadSize, ctx.scratchpad;
  }

  /** With the intended test the fresh worker holds the initial scratchpad. */
  method WorkerStartAllocates() returns (rc: int, size: int, present: bool)
    ensures rc == 0 && size == SCRATCHPAD_INIT_SIZE && present
  {
    var ctx := new NetCtx();
    rc := ctx.StartWorker(true);
    size, present := ctx.scratchpadSize, ctx.scratchpad;
  }

  /**
   * As written, a failed enlargement leaves the scratchpad missing but
   * recorded as large, so the next smaller request succeeds without one:
   * after a first request of 4 MiB succeeds, asking for 8 MiB while malloc
   * fails and then for 100 bytes returns -ENOMEM and then 0 with no
   * scratchpad.
   */
  method ScratchpadLostAsWritten() returns (rc0: int, rc1: int, rc2: int, present: bool)
    ensures rc0 == 0 && rc1 == -ENOMEM && rc2 == 0 && !present
  {
    var ctx := new NetCtx();
    rc0 := ctx.SecureScratchpadAsWritten(4 * 1024 * 1024, true);
    rc1 := ctx.SecureScratchpadAsWritten(8 * 1024 * 1024, false);
    rc2 := ctx.SecureScratchpadAsWritten(100, true);
    present := ctx.scratchpad;
  }

  /** With the corrected rule the same sequence allocates again and succeeds. */
  method ScratchpadRecovers() returns (rc0: int, rc1: int, rc2: int, present: bool)
    ensures rc0 == 0 && rc1 == -ENOMEM && rc2 == 0 && present
  {
    var ctx := new NetCtx();
    rc0 := ctx.SecureScratchpad(4 * 1024 * 1024, true);
    rc1 := ctx.SecureScratchpad(8 * 1024 * 1024, false);
    rc2 := ctx.SecureScratchpad(100, true);
    present := ctx.scratchpad;
  }

  // ---------------------------------------------------------------------
  // The send backlog

  /**
   * The backlog fields of a connected host socket (struct pcn_socket_t):
   * start and send are offsets into the MAX_HOST_BUFFER-byte buffer, where
   * the next data is appended and where the unsent data begins, and len
   * is the number of unsent bytes.
   */
  class HostSocket {
    var backlog: bool
    var start: nat
    var send: nat
    var len: nat

    /** The unsent bytes run from send up to start; there are some exactly when backlog is on. */
    ghost predicate Valid()
      reads this
    {
      send + len == start <= MAX_HOST_BUFFER
      && (backlog <==> len > 0)
      && (!backlog ==> start == 0 && send == 0)
    }

    constructor()
      ensures Valid() && !backlog && start == 0 && send == 0 && len == 0
    {
      backlog, start, send, len := false, 0, 0, 0;
    }

    /**
     * _pcn_channel_process_t_senddata, returning the result replied to the
     * coprocessor. With a backlog the data is appended if it fits in the
     * rest of the buffer (replying datalen) and refused otherwise (replying
     * -errno). Without one it goes to the host socket (sendRc is what
     * send returned): an error replies -errno; a short send buffers the
     * rest if it fits, turning the backlog on and replying datalen, and
     * otherwise replies the bytes sent. A failure to re-arm EPOLLOUT
     * changes neither the state nor the reply.
     */
    method SendData(datalen: nat, sendRc: int, errno: int) returns (reply: int)
      requires Valid()
      requires -1 <= sendRc <= datalen
      modifies this
      ensures Valid()
      ensures old(backlog) && datalen <= MAX_HOST_BUFFER - old(start) ==>
                reply == datalen && backlog && start == old(start) + datalen
                && len == old(len) + datalen && send == old(send)
      ensures old(backlog) && datalen > MAX_HOST_BUFFER - old(start) ==>
                reply == -errno && unchanged(this)
      ensures !old(backlog) && sendRc == -1 ==> reply == -errno && unchanged(this)
      ensures !old(backlog) && sendRc == datalen ==> reply == datalen && unchanged(this)
      ensures !old(backlog) && 0 <= sendRc < datalen && datalen - sendRc <= MAX_HOST_BUFFER ==>
                reply == datalen && backlog && send == 0 && start == len == datalen - sendRc
      ensures !old(backlog) && 0 <= sendRc < datalen && datalen - sendRc > MAX_HOST_BUFFER ==>
                reply == sendRc && unchanged(this)
    {
      if backlog {
        var remaining := datalen;
        var bufRemaining := MAX_HOST_BUFFER - start;
        if remaining > bufRemaining {
          return -errno;
        }
        start := start + remaining;
        len := len + remaining;
        return remaining;
      }
      if sendRc == -1 {
        return -errno;
      }
      reply := sendRc;
      if sendRc < datalen {
        var remaining := datalen - sendRc;
        var bufRemaining := MAX_HOST_BUFFER - start;
        if remaining > bufRemaining {
          return;
        }
        start := start + remaining;
        backlog := true;
        len := len + remaining;
        reply := datalen;
      }
    }

    /**
     * _pcn_handle_write_ev: with a backlog, the unsent bytes go to the host
     * socket (sendRc is what send returned, at most len). A full send
     * empties the buffer and turns the backlog off; a partial one moves
     * send on and shrinks len. An error, or a failure to re-arm EPOLLOUT
     * (ctlOk false) after a partial send, returns 0. Without a backlog
     * nothing happens (the source then returns an unset value; the model
     * returns 0).
     */
    method HandleWriteEv(sendRc: int, ctlOk: bool) returns (rc: int)
      requires Valid()
      requires backlog ==> -1 <= sendRc <= len
      modifies this
      ensures Valid()
      ensures !old(backlog) || sendRc == -1 ==> rc == 0 && unchanged(this)
      ensures old(backlog) && sendRc == old(len) ==>
                rc == sendRc && !backlog && start == 0 && send == 0 && len == 0
      ensures old(backlog) && 0 <= sendRc < old(len) ==>
                rc == (if ctlOk then sendRc else 0) && backlog
                && send == old(send) + sendRc && len == old(len) - sendRc && start == old(start)
    {
      if !backlog {
        return 0;
      }
      rc := sendRc;
      if rc == -1 {
        return 0;
      }
      if rc == len {
        backlog := false;
        start := 0;
        send := 0;
        len := 0;
      }
      if rc < len {
        send := send + rc;
        len := len - rc;
        if !ctlOk {
          return 0;
        }
      }
    }
  }

  /**
   * Data refused by a full host socket and then written out in full leaves
   * the socket with no backlog, ready for the next send to go straight out.
   */
  method BacklogDrains(datalen: nat, sent: nat) returns (reply: int, drained: bool)
    requires sent < datalen <= MAX_HOST_BUFFER
    ensures reply == datalen && drained
  {
    var s := new HostSocket();
    reply := s.SendData(datalen, sent, 11);
    var rc := s.HandleWriteEv(datalen - sent, true);
    drained := !s.backlog && s.len == 0;
  }
}

=== FILE: pystr.dfy ===
/**
 * The few Python string operations the orchestration scripts rely on:
 * `str(n)` and `int(s)` for decimal integers, `"%0Nd"` zero padding,
 * `s.split(c)`, `s.split(c, 1)`, `s.split()`, `s.strip()` and `c.join(xs)`.
 * Only the ASCII cases are modelled (see README).
 */
module PyStr {
  import opened Common

  /** str.isspace on the ASCII range: space, \t \n \x0b \x0c \r and \x1c-\x1f. */
  predicate IsSpace(c: char)
  {
    c == ' ' || ('\t' <= c <= '\r') || ('\U{1C}' <= c <= '\U{1F}')
  }

  predicate IsDigit(c: char) { '0' <= c <= '9' }

  predicate AllDigits(s: string) { forall i :: 0 <= i < |s| ==> IsDigit(s[i]) }

  /** A run of one or more decimal digits. */
  predicate IsDecimal(s: string) { |s| >= 1 && AllDigits(s) }

  function DigitValue(c: char): nat
    requires IsDigit(c)
  {
    (c as int) - ('0' as int)
  }

  function DigitChar(d: nat): (c: char)
    requires d < 10
    ensures IsDigit(c) && DigitValue(c) == d
  {
    (('0' as int) + d) as char
  }

  function Pow10(k: nat): (p: nat)
    ensures p >= 1
  {
    if k == 0 then 1 else 10 * Pow10(k - 1)
  }

  /** The value of a digit string, most significant digit first. */
  function DigitsVal(s: string): nat
    requires AllDigits(s)
  {
    if s == [] then 0 else DigitValue(s[0]) * Pow10(|s| - 1) + DigitsVal(s[1..])
  }

  lemma {:induction false} DigitsValBound(s: string)
    requires AllDigits(s)
    ensures DigitsVal(s) < Pow10(|s|)
  {
    if s != [] {
      DigitsValBound(s[1..]);
      var d := DigitValue(s[0]);
      var p := Pow10(|s| - 1);
      assert Pow10(|s|) == 10 * p;
      assert d * p <= 9 * p by { MulMono(p, d, 9); }
    }
  }

  /** Appending a digit multiplies the value by ten and adds that digit. */
  lemma {:induction false} DigitsValSnoc(s: string, c: char)
    requires AllDigits(s) && IsDigit(c)
    ensures AllDigits(s + [c])
    ensures DigitsVal(s + [c]) == 10 * DigitsVal(s) + DigitValue(c)
  {
    if s != [] {
      var t := s[1..];
      assert (s + [c])[1..] == t + [c] && (s + [c])[0] == s[0];
      DigitsValSnoc(t, c);
      var d := DigitValue(s[0]);
      var p := Pow10(|t|);
      assert Pow10(|s|) == 10 * p;
      MulTen(d, p);
    }
  }

  lemma MulTen(d: int, p: int)
    ensures d * (10 * p) == 10 * (d * p)
  {
  }

  /** Leading zeros do not change the value of a digit string. */
  lemma {:induction false} DigitsValZeros(z: nat, s: string)
    requires AllDigits(s)
    ensures AllDigits(Repeat('0', z) + s)
    ensures DigitsVal(Repeat('0', z) + s) == DigitsVal(s)
  {
    if z > 0 {
      DigitsValZeros(z - 1, s);
      var t := Repeat('0', z) + s;
      assert t[0] == '0' && t[1..] == Repeat('0', z - 1) + s;
      assert DigitValue(t[0]) == 0;
    } else {
      assert Repeat('0', z) + s == s;
    }
  }

  function Repeat(c: char, n: nat): (r: string)
    ensures |r| == n && forall i :: 0 <= i < n ==> r[i] == c
  {
    if n == 0 then [] else [c] + Repeat(c, n - 1)
  }

  /** str(n) for n >= 0: the shortest decimal spelling, no leading zero. */
  function NatStr(n: nat): string
  {
    if n < 10 then [DigitChar(n)] else NatStr(n / 10) + [DigitChar(n % 10)]
  }

  /** The spelling of n is a run of digits whose value is n, without a leading zero. */
  lemma {:induction false} NatStrValue(n: nat)
    ensures IsDecimal(NatStr(n)) && DigitsVal(NatStr(n)) == n
    ensures |NatStr(n)| > 1 ==> NatStr(n)[0] != '0'
    ensures n < 10 <==> |NatStr(n)| == 1
  {
    if n >= 10 {
      NatStrValue(n / 10);
      DigitsValSnoc(NatStr(n / 10), DigitChar(n % 10));
    }
  }

  /** str(n): a minus sign before the digits of a negative number. */
  function IntStr(n: int): string
  {
    if n < 0 then "-" + NatStr(-n) else NatStr(n)
  }

  /**
   * int(s): an optional sign followed by one or more decimal digits; None
   * stands for the ValueError any other string raises.
   */
  function ParseInt(s: string): (r: Option<int>)
    ensures r.Some? <==> IsDecimal(s) || (|s| >= 2 && (s[0] == '-' || s[0] == '+') && IsDecimal(s[1..]))
  {
    if IsDecimal(s) then Some(DigitsVal(s))
    else if |s| >= 2 && s[0] == '-' && IsDecimal(s[1..]) then Some(-(DigitsVal(s[1..]) as int))
    else if |s| >= 2 && s[0] == '+' && IsDecimal(s[1..]) then Some(DigitsVal(s[1..]))
    else None
  }

  /** int(str(n)) == n for every integer. */
  lemma IntStrRoundTrip(n: int)
    ensures ParseInt(IntStr(n)) == Some(n)
  {
    NatStrValue(if n < 0 then -n else n);
    if n < 0 {
      var s := IntStr(n);
      assert s[1..] == NatStr(-n);
      assert !IsDigit(s[0]);
    }
  }

  /** A decimal spelling never holds a separator character. */
  lemma IntStrHasNo(n: int, c: char)
    requires !IsDigit(c) && c != '-'
    ensures c !in IntStr(n)
  {
    NatStrValue(if n < 0 then -n else n);
    var s := IntStr(n);
    if n >= 0 {
      assert forall i :: 0 <= i < |s| ==> s[i] != c;
    } else {
      assert forall i :: 1 <= i < |s| ==> s[i] == NatStr(-n)[i - 1];
    }
  }

  /** s padded on the left with '0' up to width characters. */
  function ZeroPad(s: string, width: nat): (r: string)
    ensures |r| == Max(|s|, width)
    ensures r == Repeat('0', |r| - |s|) + s
  {
    if |s| < width then Repeat('0', width - |s|) + s else s
  }

  /** "%0<width>d" % n: the minus sign counts toward the width. */
  function PadInt(n: int, width: nat): string
  {
    if n < 0 then "-" + ZeroPad(NatStr(-n), if width >= 1 then width - 1 else 0)
    else ZeroPad(NatStr(n), width)
  }

  /** "%0<width>d" % n reads back as n. */
  lemma PadIntRoundTrip(n: int, width: nat)
    ensures ParseInt(PadInt(n, width)) == Some(n)
  {
    var w := if n < 0 then (if width >= 1 then width - 1 else 0) else width;
    var digits := NatStr(if n < 0 then -n else n);
    NatStrValue(if n < 0 then -n else n);
    var p := ZeroPad(digits, w);
    if |digits| < w {
      assert p == Repeat('0', w - |digits|) + digits;
      DigitsValZeros(w - |digits|, digits);
    } else {
      assert p == digits;
    }
    assert IsDecimal(p) && DigitsVal(p) == DigitsVal(digits);
    if n < 0 {
      assert PadInt(n, width)[1..] == p;
      assert !IsDigit(PadInt(n, width)[0]);
    }
  }

  /** c.join(xs). */
  function Join(xs: seq<string>, c: char): string
  {
    if |xs| == 0 then ""
    else if |xs| == 1 then xs[0]
    else xs[0] + [c] + Join(xs[1..], c)
  }

  /** Joining one more part adds the separator and that part at the end. */
  lemma {:induction false} JoinSnoc(xs: seq<string>, y: string, c: char)
    requires |xs| >= 1
    ensures Join(xs + [y], c) == Join(xs, c) + [c] + y
  {
    if |xs| > 1 {
      assert (xs + [y])[1..] == xs[1..] + [y];
      JoinSnoc(xs[1..], y, c);
    } else {
      assert (xs + [y])[1..] == [y];
    }
  }

  /** s[0:|p|] == p in Python: s starts with p. */
  predicate HasPrefix(s: string, p: string)
  {
    |s| >= |p| && s[..|p|] == p
  }

  /** s.split(c) for a one-character separator: always at least one part. */
  function Split(s: string, c: char): (r: seq<string>)
    ensures |r| >= 1
    ensures forall i :: 0 <= i < |r| ==> c !in r[i]
  {
    if s == [] then [""]
    else if s[0] == c then [""] + Split(s[1..], c)
    else
      var rest := Split(s[1..], c);
      [[s[0]] + rest[0]] + rest[1..]
  }

  /** Splitting a string that starts with a separator-free part a and then c. */
  lemma {:induction false} SplitAfter(a: string, c: char, b: string)
    requires c !in a
    ensures Split(a + [c] + b, c) == [a] + Split(b, c)
  {
    if a != [] {
      assert (a + [c] + b)[1..] == a[1..] + [c] + b;
      SplitAfter(a[1..], c, b);
      assert [a[0]] + a[1..] == a;
    } else {
      assert a + [c] + b == [c] + b;
    }
  }

  lemma {:induction false} SplitNone(a: string, c: char)
    requires c !in a
    ensures Split(a, c) == [a]
  {
    if a != [] {
      SplitNone(a[1..], c);
      assert [a[0]] + a[1..] == a;
    }
  }

  /** Splitting a join gives the parts back when no part holds the separator. */
  lemma {:induction false} SplitJoin(xs: seq<string>, c: char)
    requires |xs| >= 1
    requires forall i :: 0 <= i < |xs| ==> c !in xs[i]
    ensures Split(Join(xs, c), c) == xs
  {
    if |xs| == 1 {
      SplitNone(xs[0], c);
    } else {
      SplitJoin(xs[1..], c);
      SplitAfter(xs[0], c, Join(xs[1..], c));
    }
  }

  /** Joining the parts of a split gives the string back. */
  lemma {:induction false} JoinSplit(s: string, c: char)
    ensures Join(Split(s, c), c) == s
  {
    if s != [] {
      var rest := Split(s[1..], c);
      JoinSplit(s[1..], c);
      if s[0] == c {
        assert ([""] + rest)[1..] == rest;
      } else {
        var r := [[s[0]] + rest[0]] + rest[1..];
        if |rest| > 1 {
          assert r[1..] == rest[1..];
          assert Join(rest, c) == rest[0] + [c] + Join(rest[1..], c);
        }
        assert Join(r, c) == [s[0]] + Join(rest, c);
      }
    }
  }

  /**
   * s.split(c, 1): the text before the first c and the rest after it, or
   * the whole string when c does not occur.
   */
  function SplitOnce(s: string, c: char): (r: seq<string>)
    ensures |r| == 1 <==> c !in s
    ensures |r| == 1 ==> r[0] == s
    ensures |r| == 2 ==> s == r[0] + [c] + r[1] && c !in r[0]
    ensures 1 <= |r| <= 2
  {
    if s == [] then [""]
    else if s[0] == c then ["", s[1..]]
    else
      var rest := SplitOnce(s[1..], c);
      assert s == [s[0]] + s[1..];
      [[s[0]] + rest[0]] + rest[1..]
  }

  /** The longest prefix of s without white space. */
  function Token(s: string): (t: string)
    ensures t <= s
    ensures forall i :: 0 <= i < |t| ==> !IsSpace(t[i])
    ensures |t| < |s| ==> IsSpace(s[|t|])
  {
    if s == [] || IsSpace(s[0]) then [] else [s[0]] + Token(s[1..])
  }

  /** The pieces of xs laid end to end. */
  function Concat(xs: seq<string>): string
  {
    if xs == [] then [] else xs[0] + Concat(xs[1..])
  }

  /** s with every white-space character removed. */
  function NonSpace(s: string): string
  {
    if s == [] then [] else (if IsSpace(s[0]) then [] else [s[0]]) + NonSpace(s[1..])
  }

  /** A run of non-white-space characters begins at index i of s. */
  predicate IsRunStart(s: string, i: int)
    requires 0 <= i < |s|
  {
    !IsSpace(s[i]) && (i == 0 || IsSpace(s[i - 1]))
  }

  /** The number of run starts at index i of s or later. */
  function StartsFrom(s: string, i: nat): nat
    requires i <= |s|
    decreases |s| - i
  {
    if i == |s| then 0 else (if IsRunStart(s, i) then 1 else 0) + StartsFrom(s, i + 1)
  }

  /** Past its first index, a suffix has the run starts of the whole string. */
  lemma {:induction false} StartsShift(s: string, k: nat, j: nat)
    requires k < j <= |s|
    ensures StartsFrom(s, j) == StartsFrom(s[k..], j - k)
    decreases |s| - j
  {
    if j < |s| {
      assert s[k..][j - k] == s[j] && s[k..][j - k - 1] == s[j - 1];
      StartsShift(s, k, j + 1);
    }
  }

  /** No run starts inside a run. */
  lemma {:induction false} StartsSkip(s: string, i: nat, e: nat)
    requires 0 < i <= e <= |s|
    requires forall p :: i - 1 <= p < e ==> !IsSpace(s[p])
    ensures StartsFrom(s, i) == StartsFrom(s, e)
    decreases e - i
  {
    if i < e {
      StartsSkip(s, i + 1, e);
    }
  }

  /** Removing white space from a string that starts with a run keeps the run. */
  lemma {:induction false} NonSpaceRun(s: string, n: nat)
    requires n <= |s|
    requires forall p :: 0 <= p < n ==> !IsSpace(s[p])
    ensures NonSpace(s) == s[..n] + NonSpace(s[n..])
  {
    if n > 0 {
      NonSpaceRun(s[1..], n - 1);
      assert s[1..][n - 1..] == s[n..];
      assert s[..n] == [s[0]] + s[1..][..n - 1];
    }
  }

  /** s.split(): the maximal runs of non-white-space characters, in order. */
  function SplitWs(s: string): (r: seq<string>)
    ensures forall i :: 0 <= i < |r| ==> r[i] != [] && forall j :: 0 <= j < |r[i]| ==> !IsSpace(r[i][j])
    decreases |s|
  {
    if s == [] then []
    else if IsSpace(s[0]) then SplitWs(s[1..])
    else
      var t := Token(s);
      [t] + SplitWs(s[|t|..])
  }

  /**
   * The pieces of s.split(), laid end to end, are s without its white
   * space, and there is one for each index where a run begins.
   */
  lemma {:induction false} SplitWsRuns(s: string)
    ensures Concat(SplitWs(s)) == NonSpace(s)
    ensures |SplitWs(s)| == StartsFrom(s, 0)
    decreases |s|
  {
    if s == [] {
    } else if IsSpace(s[0]) {
      SpaceThenRest(s);
      SplitWsRuns(s[1..]);
    } else {
      var t := Token(s);
      var rest := SplitWs(s[|t|..]);
      SplitWsRuns(s[|t|..]);
      assert t == s[..|t|];
      RunThenRest(s, |t|);
      assert ([t] + rest)[1..] == rest;
    }
  }

  /** A leading white-space character starts no run and removes nothing else. */
  lemma {:induction false} SpaceThenRest(s: string)
    requires s != [] && IsSpace(s[0])
    ensures NonSpace(s) == NonSpace(s[1..])
    ensures StartsFrom(s, 0) == StartsFrom(s[1..], 0)
  {
    if |s| >= 2 {
      StartsShift(s, 1, 2);
      assert s[1..][0] == s[1];
    }
  }

  /** A string that starts with a whole run: that run, then the rest. */
  lemma {:induction false} RunThenRest(s: string, n: nat)
    requires 0 < n <= |s|
    requires forall p :: 0 <= p < n ==> !IsSpace(s[p])
    requires n == |s| || IsSpace(s[n])
    ensures NonSpace(s) == s[..n] + NonSpace(s[n..])
    ensures StartsFrom(s, 0) == 1 + StartsFrom(s[n..], 0)
  {
    NonSpaceRun(s, n);
    StartsSkip(s, 1, n);
    if n < |s| {
      StartsShift(s, n, n + 1);
    }
  }

  /** s.lstrip() */
  function StripLeft(s: string): (r: string)
    ensures r == [] || !IsSpace(r[0])
  {
    if s != [] && IsSpace(s[0]) then StripLeft(s[1..]) else s
  }

  /** lstrip removes exactly the leading white space: what it drops is all white space. */
  lemma {:induction false} StripLeftRemovesLeading(s: string)
    ensures |StripLeft(s)| <= |s| && StripLeft(s) == s[|s| - |StripLeft(s)|..]
    ensures forall i :: 0 <= i < |s| - |StripLeft(s)| ==> IsSpace(s[i])
  {
    if s != [] && IsSpace(s[0]) {
      StripLeftRemovesLeading(s[1..]);
      assert s[1..][|s| - 1 - |StripLeft(s)|..] == s[|s| - |StripLeft(s)|..];
      forall i | 0 < i < |s| - |StripLeft(s)| ensures IsSpace(s[i]) {
        assert s[i] == s[1..][i - 1];
      }
    }
  }

  /** s.rstrip() */
  function StripRight(s: string): (r: string)
    ensures r == [] || !IsSpace(r[|r| - 1])
    ensures r <= s
  {
    if s != [] && IsSpace(s[|s| - 1]) then StripRight(s[..|s| - 1]) else s
  }

  /** rstrip removes exactly the trailing white space: what it drops is all white space. */
  lemma {:induction false} StripRightRemovesTrailing(s: string)
    ensures forall i :: |StripRight(s)| <= i < |s| ==> IsSpace(s[i])
  {
    if s != [] && IsSpace(s[|s| - 1]) {
      StripRightRemovesTrailing(s[..|s| - 1]);
      forall i | |StripRight(s)| <= i < |s| - 1 ensures IsSpace(s[i]) {
        assert s[i] == s[..|s| - 1][i];
      }
    }
  }

  /** s.strip() */
  function Strip(s: string): string
  {
    StripRight(StripLeft(s))
  }

  /** A stripped line that is not empty splits into at least one token, its first run. */
  lemma StrippedFirstToken(s: string)
    requires Strip(s) != []
    ensures SplitWs(Strip(s)) != [] && SplitWs(Strip(s))[0] == Token(Strip(s))
  {
    var l := StripLeft(s);
    var r := Strip(s);
    assert r <= l;
    assert r[0] == l[0];
  }
}

=== FILE: sorting.dfy ===
/**
 * Python's `sorted()` of a set and its ordering of strings and tuples. A
 * comparison is a function value; `sorted()` of a set yields each element
 * once, in strictly ascending order. Strings compare character by character
 * (code point order) and tuples element by element, a proper prefix coming
 * first: both are the lexicographic extension `LexLess` of an element order.
 */
module Sorting {
  /** less is a strict total order on T. */
  ghost predicate StrictOrder<T(!new)>(less: (T, T) -> bool)
  {
    (forall x :: !less(x, x))
    && (forall x, y, z :: less(x, y) && less(y, z) ==> less(x, z))
    && (forall x, y :: x != y ==> less(x, y) || less(y, x))
  }

  /** xs is strictly ascending under less: sorted and without repetition. */
  predicate Ascending<T>(xs: seq<T>, less: (T, T) -> bool)
  {
    forall i, j :: 0 <= i < j < |xs| ==> less(xs[i], xs[j])
  }

  /** m is the least element of s. */
  predicate IsLeast<T(==)>(m: T, s: set<T>, less: (T, T) -> bool)
  {
    m in s && forall y :: y in s && y != m ==> less(m, y)
  }

  lemma {:induction false} LeastExists<T(!new)>(s: set<T>, less: (T, T) -> bool)
    requires StrictOrder(less) && s != {}
    ensures exists m :: IsLeast(m, s, less)
  {
    var x :| x in s;
    if s - {x} == {} {
      assert s == {x};
      assert IsLeast(x, s, less);
    } else {
      LeastExists(s - {x}, less);
      var m :| IsLeast(m, s - {x}, less);
      if less(x, m) {
        forall y | y in s && y != x ensures less(x, y) {
          if y != m {
            assert less(m, y);
          }
        }
        assert IsLeast(x, s, less);
      } else {
        assert IsLeast(m, s, less);
      }
    }
  }

  /**
   * sorted(s) for a set s: every element once, strictly ascending. Each
   * round moves the least remaining element to the end of the result.
   */
  method SortSet<T(==,!new)>(s: set<T>, less: (T, T) -> bool) returns (r: seq<T>)
    requires StrictOrder(less)
    ensures Ascending(r, less)
    ensures forall x :: x in r <==> x in s
  {
    r := [];
    var rest := s;
    while rest != {}
      invariant Ascending(r, less)
      invariant forall x :: x in s <==> x in r || x in rest
      invariant forall x :: x in r ==> x !in rest
      invariant forall i, y :: 0 <= i < |r| && y in rest ==> less(r[i], y)
      decreases |rest|
    {
      LeastExists(rest, less);
      var m :| IsLeast(m, rest, less);
      r := r + [m];
      rest := rest - {m};
    }
  }

  /** Two strictly ascending sequences with the same elements are equal. */
  lemma {:induction false} AscendingUnique<T(!new)>(a: seq<T>, b: seq<T>, less: (T, T) -> bool)
    requires StrictOrder(less)
    requires Ascending(a, less) && Ascending(b, less)
    requires forall x :: x in a <==> x in b
    ensures a == b
  {
    assert (a == []) == (b == []) by {
      if a != [] {
        assert a[0] in b;
      }
      if b != [] {
        assert b[0] in a;
      }
    }
    if a != [] {
      assert a[0] == b[0] by {
        assert a[0] in b && b[0] in a;
      }
      forall x
        ensures x in a[1..] <==> x in b[1..]
      {
        if x in a[1..] {
          var k :| 0 <= k < |a[1..]| && a[1..][k] == x;
          assert less(a[0], a[k + 1]) && a[k + 1] in a && x in b;
          var j :| 0 <= j < |b| && b[j] == x;
          assert j != 0;
          assert b[1..][j - 1] == x;
        }
        if x in b[1..] {
          var k :| 0 <= k < |b[1..]| && b[1..][k] == x;
          assert less(b[0], b[k + 1]) && b[k + 1] in b && x in a;
          var j :| 0 <= j < |a| && a[j] == x;
          assert j != 0;
          assert a[1..][j - 1] == x;
        }
      }
      AscendingUnique(a[1..], b[1..], less);
      assert a == [a[0]] + a[1..] && b == [b[0]] + b[1..];
    }
  }

  /** The lexicographic order over sequences built from an element order. */
  function LexLess<T(==)>(less: (T, T) -> bool, a: seq<T>, b: seq<T>): bool
  {
    if a == [] then b != []
    else if b == [] then false
    else if a[0] == b[0] then LexLess(less, a[1..], b[1..])
    else less(a[0], b[0])
  }

  lemma {:induction false} LexIrreflexive<T>(less: (T, T) -> bool, a: seq<T>)
    ensures !LexLess(less, a, a)
  {
    if a != [] {
      LexIrreflexive(less, a[1..]);
    }
  }

  lemma {:induction false} LexTransitive<T(!new)>(less: (T, T) -> bool, a: seq<T>, b: seq<T>, c: seq<T>)
    requires StrictOrder(less)
    requires LexLess(less, a, b) && LexLess(less, b, c)
    ensures LexLess(less, a, c)
  {
    if a != [] && b != [] && c != [] && a[0] == b[0] && b[0] == c[0] {
      LexTransitive(less, a[1..], b[1..], c[1..]);
    }
  }

  lemma {:induction false} LexTotal<T(!new)>(less: (T, T) -> bool, a: seq<T>, b: seq<T>)
    requires StrictOrder(less)
    requires a != b
    ensures LexLess(less, a, b) || LexLess(less, b, a)
  {
    if a != [] && b != [] && a[0] == b[0] {
      assert a == [a[0]] + a[1..] && b == [b[0]] + b[1..];
      LexTotal(less, a[1..], b[1..]);
    }
  }

  function IntLess(a: int, b: int): bool { a < b }

  function CharLess(a: char, b: char): bool { a < b }

  /** Python's comparison of two strings. */
  function StrLess(a: string, b: string): bool { LexLess(CharLess, a, b) }

  /** Python's comparison of two tuples of strings. */
  function KeyLess(a: seq<string>, b: seq<string>): bool { LexLess(StrLess, a, b) }

  lemma IntLessOrder()
    ensures StrictOrder(IntLess)
  {
  }

  lemma CharLessOrder()
    ensures StrictOrder(CharLess)
  {
  }

  lemma StrLessOrder()
    ensures StrictOrder(StrLess)
  {
    CharLessOrder();
    forall a ensures !StrLess(a, a) {
      LexIrreflexive(CharLess, a);
    }
    forall a, b, c | StrLess(a, b) && StrLess(b, c) ensures StrLess(a, c) {
      LexTransitive(CharLess, a, b, c);
    }
    forall a, b | a != b ensures StrLess(a, b) || StrLess(b, a) {
      LexTotal(CharLess, a, b);
    }
  }

  lemma KeyLessOrder()
    ensures StrictOrder(KeyLess)
  {
    StrLessOrder();
    forall a ensures !KeyLess(a, a) {
      LexIrreflexive(StrLess, a);
    }
    forall a, b, c | KeyLess(a, b) && KeyLess(b, c) ensures KeyLess(a, c) {
      LexTransitive(StrLess, a, b, c);
    }
    forall a, b | a != b ensures KeyLess(a, b) || KeyLess(b, a) {
      LexTotal(StrLess, a, b);
    }
  }
}

=== FILE: spsc_queue.dfy ===
/**
 * The single-producer single-consumer queue of the network stack
 * (network/src/include/spsc_queue.h): an intrusive singly linked list with a
 * head the consumer takes from and a tail the producer appends at. The
 * memory barriers, the atomic swap on the tail and the consumer's wait for a
 * producer still linking its node are left out: the model runs one call at
 * a time.
 */
module SpscQueue {

  /** struct spsc_node: only the link; the payload surrounds it in the caller's struct. */
  class SpscNode {
    var next: SpscNode?

    constructor()
      ensures next == null
    {
      next := null;
    }
  }

  class Queue {
    var head: SpscNode?
    var tail: SpscNode?

    /** The queued nodes, oldest first. */
    ghost var nodes: seq<SpscNode>
    ghost var Repr: set<SpscNode>

    /**
     * head and tail are the first and last queued node, each node links to
     * the next one, the last links nowhere, and no node is queued twice.
     */
    ghost predicate Valid()
      reads this, Repr
    {
      (forall i :: 0 <= i < |nodes| ==> nodes[i] in Repr)
      && (forall i, j :: 0 <= i < j < |nodes| ==> nodes[i] != nodes[j])
      && (forall i :: 0 <= i < |nodes| - 1 ==> nodes[i].next == nodes[i + 1])
      && (nodes == [] ==> head == null && tail == null)
      && (nodes != [] ==>
            head == nodes[0] && tail == nodes[|nodes| - 1] && nodes[|nodes| - 1].next == null)
    }

    constructor()
      ensures Valid() && nodes == [] && Repr == {}
    {
      head, tail := null, null;
      nodes, Repr := [], {};
    }

    /**
     * spsc_q_put: the node's link is cleared; on an empty queue it becomes
     * the head, otherwise the old tail links to it; either way it is the new
     * tail.
     */
    method Put(node: SpscNode)
      requires Valid() && node !in Repr
      modifies this, Repr, node
      ensures Valid()
      ensures nodes == old(nodes) + [node] && Repr == old(Repr) + {node}
      ensures old(tail) == null ==> head == node
      ensures old(tail) != null ==> head == old(head) && old(tail).next == node
      ensures tail == node && node.next == null
    {
      node.next := null;
      var oldTail := tail;
      tail := node;
      if oldTail == null {
        head := node;
      } else {
        oldTail.next := node;
      }
      nodes := nodes + [node];
      Repr := Repr + {node};
    }

    /** spsc_q_peek: the oldest node, or null on an empty queue. */
    method Peek() returns (r: SpscNode?)
      requires Valid()
      ensures r == (if nodes == [] then null else nodes[0])
    {
      r := head;
    }

    /**
     * spsc_q_get: null on an empty queue, which is left alone; otherwise the
     * oldest node, the head moving on to its successor and the tail being
     * cleared when it was the only node.
     */
    method Get() returns (r: SpscNode?)
      requires Valid()
      modifies this
      ensures Valid()
      ensures old(nodes) == [] ==> r == null && nodes == [] && head == old(head) && tail == old(tail)
      ensures old(nodes) != [] ==> r == old(nodes)[0] && nodes == old(nodes)[1..]
      ensures Repr == old(Repr)
    {
      r := head;
      if r == null {
        return;
      }
      var next := r.next;
      if next == null {
        // the head is also the tail: the queue becomes empty
        tail := null;
      }
      head := next;
      nodes := nodes[1..];
    }
  }

  /**
   * First in, first out: putting a then b on an empty queue and getting
   * twice yields a, then b, and leaves the queue empty.
   */
  method PutGetOrder(a: SpscNode, b: SpscNode) returns (first: SpscNode?, second: SpscNode?)
    requires a != b
    modifies a, b
    ensures first == a && second == b
  {
    var q := new Queue();
    q.Put(a);
    q.Put(b);
    first := q.Get();
    second := q.Get();
  }
}

=== FILE: trans_prb.dfy ===
/**
 * The 9P transport over SCIF ring buffers (net/9p/trans_prb.c): mount
 * option parsing, and the zero-copy helpers that size a transfer and
 * describe a user buffer as physically contiguous (address, length)
 * regions.
 *
 * lib/parser.c is not part of this model; the matching rules of
 * match_token and match_int are written out here: a "%u" pattern takes a
 * whole-string base-0 number (0x-prefixed hex, 0-prefixed octal or
 * decimal) and match_int takes its signed 64-bit reading when it lies in
 * the C int range.
 */
module TransPrb {
  import opened Common

  const P9_PRB_SERVER_PORT: int := 564
  const P9_PRB_CLIENT_PORT: int := 3000
  const P9_PRB_SQ_DEPTH: int := 64
  const P9_PRB_RQ_DEPTH: int := 64
  const PAGE_SIZE: nat := 4096
  /** One encoded region: a u64 address and a u32 length. */
  const IOV_SIZE: nat := 12

  // ---------------------------------------------------------------------
  // Mount options

  datatype Opts = Opts(srvPort: int, clnId: int, clnPort: int, sqDepth: int, rqDepth: int)

  const Defaults: Opts := Opts(P9_PRB_SERVER_PORT, -1, P9_PRB_CLIENT_PORT, P9_PRB_SQ_DEPTH, P9_PRB_RQ_DEPTH)

  datatype Token = SrvPort | ClnId | ClnPort | SqDepth | RqDepth

  /** The literal part of each pattern of the token table, in table order. */
  function Prefix(t: Token): string
  {
    match t
    case SrvPort => "port="
    case ClnId => "client-id="
    case ClnPort => "client-port="
    case SqDepth => "sq="
    case RqDepth => "rq="
  }

  // strsep on ','

  /** The pieces strsep cuts `s` into at each ',', empty pieces included. */
  function Split(s: string): (pieces: seq<string>)
    ensures |pieces| >= 1
    ensures forall k :: 0 <= k < |pieces| ==> ',' !in pieces[k]
    decreases |s|
  {
    var i := CommaIndex(s, 0);
    if i == |s| then [s] else [s[..i]] + Split(s[i + 1..])
  }

  /** The first ',' at or after `from`, or |s|. */
  function CommaIndex(s: string, from: nat): (i: nat)
    requires from <= |s|
    ensures from <= i <= |s|
    ensures i < |s| ==> s[i] == ','
    ensures forall k :: from <= k < i ==> s[k] != ','
    decreases |s| - from
  {
    if from == |s| || s[from] == ',' then from else CommaIndex(s, from + 1)
  }

  /** Pieces joined back with ','. */
  function Join(pieces: seq<string>): string
    requires |pieces| >= 1
  {
    if |pieces| == 1 then pieces[0] else pieces[0] + [','] + Join(pieces[1..])
  }

  /** Cutting at commas loses nothing: joining the pieces gives the string back. */
  lemma {:induction false} SplitJoin(s: string)
    ensures Join(Split(s)) == s
    decreases |s|
  {
    var i := CommaIndex(s, 0);
    if i < |s| {
      SplitJoin(s[i + 1..]);
      assert Split(s) == [s[..i]] + Split(s[i + 1..]);
      assert Split(s)[1..] == Split(s[i + 1..]);
      assert s == s[..i] + [','] + s[i + 1..];
    }
  }

  // Numbers as simple_strtoul reads them with base 0

  predicate IsDigitIn(c: char, base: nat)
  {
    DigitValue(c) < base
  }

  /** The value of a digit character, 16 or more for anything else. */
  function DigitValue(c: char): nat
  {
    if '0' <= c <= '9' then c as nat - '0' as nat
    else if 'a' <= c <= 'f' then c as nat - 'a' as nat + 10
    else if 'A' <= c <= 'F' then c as nat - 'A' as nat + 10
    else 16
  }

  /** The radix base 0 picks, and how many prefix characters it skips. */
  function Radix(s: string): (r: (nat, nat))
    ensures r.0 == 8 || r.0 == 10 || r.0 == 16
    ensures r.1 <= |s|
  {
    if |s| >= 1 && s[0] == '0' then
      if |s| >= 3 && (s[1] == 'x' || s[1] == 'X') && IsDigitIn(s[2], 16) then (16, 2) else (8, 0)
    else (10, 0)
  }

  predicate AllDigits(s: string, base: nat)
  {
    forall k :: 0 <= k < |s| ==> IsDigitIn(s[k], base)
  }

  /** The value of a digit string, most significant digit first. */
  function DigitsValue(s: string, base: nat): nat
  {
    if s == [] then 0 else DigitsValue(s[..|s| - 1], base) * base + DigitValue(s[|s| - 1])
  }

  /**
   * A whole-string base-0 unsigned number and its value modulo 2^64, as
   * the "%u" pattern requires: at least one digit and nothing after.
   */
  function ParseUnsigned(s: string): (r: Option<nat>)
    ensures r.Some? ==> s != [] && r.value < U64_LIMIT && '0' <= s[0] <= '9'
    ensures r.Some? && s[0] != '0' ==> forall k :: 0 <= k < |s| ==> '0' <= s[k] <= '9'
    ensures s != [] && s[0] != '0' && (forall k :: 0 <= k < |s| ==> '0' <= s[k] <= '9') ==> r.Some?
  {
    var (base, skip) := Radix(s);
    var digits := s[skip..];
    if digits != [] && AllDigits(digits, base) then Some(DigitsValue(digits, base) % U64_LIMIT) else None
  }

  /** match_int: the signed 64-bit reading of the number, when it fits a C int. */
  function MatchInt(v: nat): (r: Option<int>)
    requires v < U64_LIMIT
    ensures r.Some? ==> -0x8000_0000 <= r.value <= INT_MAX
    ensures v <= INT_MAX ==> r == Some(v)
  {
    var signed := if v < U64_LIMIT / 2 then v else v - U64_LIMIT;
    if -0x8000_0000 <= signed <= INT_MAX then Some(signed) else None
  }

  /** match_token: the first pattern of the table the piece matches, with its argument. */
  function MatchToken(p: string): (r: Option<(Token, nat)>)
    ensures r.Some? ==> |Prefix(r.value.0)| <= |p| && p[..|Prefix(r.value.0)|] == Prefix(r.value.0)
  {
    if Matches(p, SrvPort) then Some((SrvPort, ParseUnsigned(p[|Prefix(SrvPort)|..]).value))
    else if Matches(p, ClnId) then Some((ClnId, ParseUnsigned(p[|Prefix(ClnId)|..]).value))
    else if Matches(p, ClnPort) then Some((ClnPort, ParseUnsigned(p[|Prefix(ClnPort)|..]).value))
    else if Matches(p, SqDepth) then Some((SqDepth, ParseUnsigned(p[|Prefix(SqDepth)|..]).value))
    else if Matches(p, RqDepth) then Some((RqDepth, ParseUnsigned(p[|Prefix(RqDepth)|..]).value))
    else None
  }

  predicate Matches(p: string, t: Token)
  {
    |Prefix(t)| <= |p| && p[..|Prefix(t)|] == Prefix(t) && ParseUnsigned(p[|Prefix(t)|..]).Some?
  }

  function SetField(o: Opts, t: Token, v: int): Opts
  {
    match t
    case SrvPort => o.(srvPort := v)
    case ClnId => o.(clnId := v)
    case ClnPort => o.(clnPort := v)
    case SqDepth => o.(sqDepth := v)
    case RqDepth => o.(rqDepth := v)
  }

  /** One piece of the option string: a matched option with an int value sets its field. */
  function ApplyPiece(o: Opts, p: string): Opts
  {
    if p == [] then o
    else match MatchToken(p)
      case None => o
      case Some((t, v)) =>
        match MatchInt(v)
        case None => o
        case Some(n) => SetField(o, t, n)
  }

  function ApplyAll(o: Opts, pieces: seq<string>): Opts
    decreases |pieces|
  {
    if pieces == [] then o else ApplyAll(ApplyPiece(o, pieces[0]), pieces[1..])
  }

  /** The final adjustment: the response queue at least as deep as the request queue. */
  function Finish(o: Opts): (r: Opts)
    ensures r.rqDepth >= r.sqDepth
    ensures r.rqDepth == o.rqDepth || r.rqDepth == o.sqDepth
    ensures r.(rqDepth := o.rqDepth) == o
  {
    o.(rqDepth := Max(o.rqDepth, o.sqDepth))
  }

  /**
   * parse_opts: fills in the defaults, returns them unchanged when there
   * are no parameters and fails with -ENOMEM when the copy of the string
   * cannot be allocated; otherwise applies every piece in turn and makes
   * the response queue at least as deep as the request queue.
   */
  method ParseOpts(params: Option<string>, copyAllocated: bool) returns (ret: int, opts: Opts)
    ensures params.None? ==> ret == 0 && opts == Defaults
    ensures params.Some? && !copyAllocated ==> ret == -ENOMEM && opts == Defaults
    ensures params.Some? && copyAllocated ==> ret == 0 && opts == Finish(ApplyAll(Defaults, Split(params.value)))
    ensures params.Some? && copyAllocated ==> opts.rqDepth >= opts.sqDepth
  {
    opts := Defaults;
    if params.None? {
      return 0, opts;
    }
    if !copyAllocated {
      return -ENOMEM, opts;
    }
    var pieces := Split(params.value);
    var k := 0;
    while k < |pieces|
      invariant 0 <= k <= |pieces|
      invariant ApplyAll(opts, pieces[k..]) == ApplyAll(Defaults, pieces)
    {
      assert pieces[k..][1..] == pieces[k + 1..];
      opts := ApplyPiece(opts, pieces[k]);
      k := k + 1;
    }
    opts := Finish(opts);
    ret := 0;
  }

  /** A piece that is not a matched option with an int value changes nothing. */
  lemma UnmatchedPieceIgnored(o: Opts, p: string)
    requires MatchToken(p).None? || MatchInt(MatchToken(p).value.1).None?
    ensures ApplyPiece(o, p) == o
  {
  }

  /** The decimal rendering of n. */
  function Decimal(n: nat): (s: string)
    ensures |s| >= 1 && AllDigits(s, 10)
    ensures n > 0 ==> s[0] != '0'
  {
    if n < 10 then ['0' + n as char] else Decimal(n / 10) + ['0' + (n % 10) as char]
  }

  lemma {:induction false} DecimalValue(n: nat)
    ensures DigitsValue(Decimal(n), 10) == n
  {
    if n >= 10 {
      DecimalValue(n / 10);
      var s := Decimal(n);
      assert s[..|s| - 1] == Decimal(n / 10);
    }
  }

  /** A decimal number reads back through the base-0 rules as itself. */
  lemma DecimalParses(n: nat)
    requires n < U64_LIMIT
    ensures ParseUnsigned(Decimal(n)) == Some(n)
  {
    var s := Decimal(n);
    if n == 0 {
      ZeroParses();
    } else {
      DecimalValue(n);
      SmallMod(n);
      assert Radix(s) == (10, 0);
      assert s[0..] == s;
    }
  }

  /** "0" reads as octal zero under the base-0 rules. */
  lemma ZeroParses()
    ensures ParseUnsigned("0") == Some(0)
  {
    var s := "0";
    assert Radix(s) == (8, 0);
    assert DigitsValue(s, 8) == 0 by {
      assert s[..0] == [];
    }
  }

  lemma SmallMod(x: nat)
    requires x < U64_LIMIT
    ensures x % U64_LIMIT == x
  {
  }

  /** A piece whose first character differs from a pattern's cannot match it. */
  lemma FirstCharMismatch(p: string, t: Token)
    requires |p| >= 1 && p[0] != Prefix(t)[0]
    ensures !Matches(p, t)
  {
  }

  /** "sq=N" with N a decimal int sets the request queue depth, and nothing else. */
  lemma SqOptionSets(o: Opts, n: nat)
    requires n <= INT_MAX
    ensures ApplyPiece(o, "sq=" + Decimal(n)) == o.(sqDepth := n)
  {
    var p := "sq=" + Decimal(n);
    DecimalParses(n);
    assert p[0] == 's';
    FirstCharMismatch(p, SrvPort);
    FirstCharMismatch(p, ClnId);
    FirstCharMismatch(p, ClnPort);
    assert p[|Prefix(SqDepth)|..] == Decimal(n);
    assert p[..|Prefix(SqDepth)|] == Prefix(SqDepth);
    assert Matches(p, SqDepth);
    assert MatchToken(p) == Some((SqDepth, n));
  }

  // ---------------------------------------------------------------------
  // Zero-copy helpers

  /** rest_of_page: the bytes from `addr` to the end of its page. */
  function RestOfPage(addr: nat): (r: nat)
    ensures 1 <= r <= PAGE_SIZE
    ensures (addr + r) % PAGE_SIZE == 0
  {
    PAGE_SIZE - addr % PAGE_SIZE
  }

  /**
   * Copying up to the end of the current page, or what is left when that
   * is less, leaves a remainder that fits the pages still to come.
   */
  lemma PageStep(ud: nat, ul: nat, rest: nat)
    requires ul <= rest * PAGE_SIZE + RestOfPage(ud)
    ensures var pgLen := if RestOfPage(ud) > ul then ul else RestOfPage(ud);
      (rest == 0 ==> ul - pgLen == 0)
      && (rest > 0 ==> ul - pgLen <= (rest - 1) * PAGE_SIZE + RestOfPage(ud + pgLen))
  {
    var r := RestOfPage(ud);
    if r <= ul {
      assert (ud + r) % PAGE_SIZE == 0;
      assert RestOfPage(ud + r) == PAGE_SIZE;
    }
  }

  /**
   * prb_zc_rsize: the transfer size that fits when every page needs its
   * own region record, never more than `count`, all in unsigned 32-bit
   * arithmetic and returned as a C int. The 9P header sizes are
   * parameters (include/net/9p is not part of this model).
   */
  function ZcRsize(msize: nat, count: nat, zcHdrSz: nat, ioHdrSz: nat): (r: int)
    requires msize < U32_LIMIT && count < U32_LIMIT && zcHdrSz < U32_LIMIT && ioHdrSz < U32_LIMIT
    ensures r <= count
    ensures count <= INT_MAX ==> 0 <= r
  {
    var nIov := ((Min(msize, zcHdrSz) - ioHdrSz) % U32_LIMIT) / IOV_SIZE;
    var zcSize := (nIov * PAGE_SIZE) % U32_LIMIT;
    var m := Min(zcSize, count);
    if m > INT_MAX then m - U32_LIMIT else m
  }

  /**
   * With a header region at least as large as the I/O header and at
   * most 1 MiB (0x10_0000 bytes), the size is the room for one page per region record, capped
   * at `count`.
   */
  lemma ZcRsizeBounded(msize: nat, count: nat, zcHdrSz: nat, ioHdrSz: nat)
    requires msize < U32_LIMIT && count < U32_LIMIT && zcHdrSz < U32_LIMIT && ioHdrSz < U32_LIMIT
    requires ioHdrSz <= Min(msize, zcHdrSz) <= 0x10_0000
    ensures var n := (Min(msize, zcHdrSz) - ioHdrSz) / IOV_SIZE;
      ZcRsize(msize, count, zcHdrSz, ioHdrSz) == Min(n * PAGE_SIZE, count)
    ensures 0 <= ZcRsize(msize, count, zcHdrSz, ioHdrSz) <= count
  {
    var n := (Min(msize, zcHdrSz) - ioHdrSz) / IOV_SIZE;
    assert n <= 0x10_0000 / IOV_SIZE;
    assert n * PAGE_SIZE <= 0x10_0000 / IOV_SIZE * PAGE_SIZE;
  }

  /** An emitted region: a physical address and a length. */
  datatype Region = Region(addr: nat, len: nat)

  function SumLens(rs: seq<Region>): nat
  {
    if rs == [] then 0 else SumLens(rs[..|rs| - 1]) + rs[|rs| - 1].len
  }

  lemma SumLensAppend(rs: seq<Region>, r: Region)
    ensures SumLens(rs + [r]) == SumLens(rs) + r.len
  {
    assert (rs + [r])[..|rs|] == rs;
  }

  /** Page i starts a new region: it does not follow page i-1 physically. */
  predicate Break(pages: seq<nat>, i: nat)
    requires i < |pages|
  {
    0 < i && pages[i] != pages[i - 1] + PAGE_SIZE
  }

  /** The number of breaks among the first n pages. */
  function Breaks(pages: seq<nat>, n: nat): nat
    requires n <= |pages|
  {
    if n == 0 then 0 else Breaks(pages, n - 1) + (if Break(pages, n - 1) then 1 else 0)
  }

  lemma {:induction false} BreaksMonotone(pages: seq<nat>, a: nat, b: nat)
    requires a <= b <= |pages|
    ensures Breaks(pages, a) <= Breaks(pages, b)
    decreases b
  {
    if a < b {
      BreaksMonotone(pages, a, b - 1);
    }
  }

  /** The pages among the first n where a region starts: page 0 and every break. */
  function Starts(pages: seq<nat>, n: nat): seq<nat>
    requires n <= |pages|
  {
    if n == 0 then [] else Starts(pages, n - 1) + (if n - 1 == 0 || Break(pages, n - 1) then [n - 1] else [])
  }

  /**
   * The region starts among the first n pages are page 0 and then exactly
   * the breaks, in increasing order.
   */
  lemma {:induction false} StartsAreBreaks(pages: seq<nat>, n: nat)
    requires 0 < n <= |pages|
    ensures var st := Starts(pages, n);
      |st| == Breaks(pages, n) + 1 && st[0] == 0
      && (forall k :: 0 < k < |st| ==> st[k] < n && Break(pages, st[k]))
      && (forall j, k :: 0 <= j < k < |st| ==> st[j] < st[k])
      && (forall i :: 0 < i < n && Break(pages, i) ==> i in st)
  {
    if n > 1 {
      StartsAreBreaks(pages, n - 1);
      var prev := Starts(pages, n - 1);
      var st := Starts(pages, n);
      assert st[..|prev|] == prev;
      forall i | 0 < i < n && Break(pages, i)
        ensures i in st
      {
        if i < n - 1 {
          assert i in prev;
        } else {
          assert st[|st| - 1] == i;
        }
      }
    }
  }

  /**
   * The bytes of a buffer of ulen bytes at offset off in its first page
   * that lie in its first k pages.
   */
  function Through(off: nat, ulen: nat, k: nat): (r: nat)
    requires off < PAGE_SIZE
    ensures r <= ulen
  {
    if k == 0 then 0 else Min(ulen, k * PAGE_SIZE - off)
  }

  /**
   * Region k of `regions` starts at start page st[k] (at the buffer's
   * offset for the first) and holds the buffer's bytes from there up to
   * the next start, or to the last page.
   */
  predicate RegionsFollowStarts(pages: seq<nat>, off: nat, ulen: nat, regions: seq<Region>, st: seq<nat>)
    requires off < PAGE_SIZE
  {
    |regions| <= |st| && (forall k :: 0 <= k < |st| ==> st[k] < |pages|)
    && forall k {:trigger regions[k]} :: 0 <= k < |regions| ==>
      regions[k].addr == (if k == 0 then pages[0] + off else pages[st[k]])
      && regions[k].len == Through(off, ulen, if k + 1 < |st| then st[k + 1] else |pages|) - Through(off, ulen, st[k])
  }

  /** One page of the walk adds what lies in that page to the bytes seen so far. */
  lemma ThroughStep(off: nat, ulen: nat, i: nat, ud: nat, ul: nat, pgLen: nat)
    requires off < PAGE_SIZE && ul <= ulen
    requires ulen - ul == Through(off, ulen, i)
    requires i == 0 ==> ul == ulen
    requires ul > 0 ==> RestOfPage(ud) == if i == 0 then PAGE_SIZE - off else PAGE_SIZE
    requires pgLen == Min(RestOfPage(ud), ul)
    ensures Through(off, ulen, i + 1) - Through(off, ulen, i) == pgLen
    ensures ulen - (ul - pgLen) == Through(off, ulen, i + 1)
    ensures ul - pgLen > 0 ==> RestOfPage(ud + pgLen) == PAGE_SIZE
  {
  }

  /** The regions closed so far and the one still open. */
  datatype WalkState = WalkState(done: seq<Region>, cur: Region)

  /**
   * The walk over the first n pages: a break closes the open region and
   * opens one at the breaking page; every page adds the buffer's bytes it
   * holds to the open region.
   */
  function Walk(pages: seq<nat>, off: nat, ulen: nat, n: nat): WalkState
    requires n <= |pages| && 0 < |pages| && off < PAGE_SIZE
  {
    if n == 0 then WalkState([], Region(pages[0] + off, 0))
    else
      var w := Walk(pages, off, ulen, n - 1);
      var bytes := Through(off, ulen, n) - Through(off, ulen, n - 1);
      if Break(pages, n - 1) then WalkState(w.done + [w.cur], Region(pages[n - 1], bytes))
      else WalkState(w.done, w.cur.(len := w.cur.len + bytes))
  }

  /** One more page of the walk, as the loop of prb_zc_write_iov takes it. */
  lemma WalkNext(pages: seq<nat>, off: nat, ulen: nat, i: nat)
    requires i < |pages| && off < PAGE_SIZE
    ensures var w := Walk(pages, off, ulen, i);
      var bytes := Through(off, ulen, i + 1) - Through(off, ulen, i);
      Walk(pages, off, ulen, i + 1)
        == if Break(pages, i) then WalkState(w.done + [w.cur], Region(pages[i], bytes))
           else WalkState(w.done, w.cur.(len := w.cur.len + bytes))
  {
  }

  /** The loop's test against the previous page's address is the break test. */
  lemma BreakAt(pages: seq<nat>, i: nat, prevPgAddr: int)
    requires i < |pages|
    requires i == 0 ==> prevPgAddr + PAGE_SIZE == pages[0]
    requires i > 0 ==> prevPgAddr == pages[i - 1]
    ensures Break(pages, i) <==> pages[i] != prevPgAddr + PAGE_SIZE
  {
  }

  /** Every region the walk emits: the closed ones and the last. */
  function AllRegions(pages: seq<nat>, off: nat, ulen: nat): seq<Region>
    requires 0 < |pages| && off < PAGE_SIZE
  {
    var w := Walk(pages, off, ulen, |pages|);
    w.done + [w.cur]
  }

  /** Closing the open region at the next start keeps every region at its start. */
  lemma CloseAt(pages: seq<nat>, off: nat, ulen: nat, done: seq<Region>, cur: Region, st: seq<nat>, next: nat)
    requires off < PAGE_SIZE && RegionsFollowStarts(pages, off, ulen, done, st)
    requires |st| == |done| + 1 && st[|done|] < |pages| && st[|done|] <= next <= |pages|
    requires cur == Region(if |done| == 0 then pages[0] + off else pages[st[|done|]],
                           Through(off, ulen, next) - Through(off, ulen, st[|done|]))
    ensures next < |pages| ==> RegionsFollowStarts(pages, off, ulen, done + [cur], st + [next])
    ensures next == |pages| ==> RegionsFollowStarts(pages, off, ulen, done + [cur], st)
  {
    var d := done + [cur];
    var ends := if next < |pages| then st + [next] else st;
    forall k | 0 <= k < |ends|
      ensures ends[k] < |pages|
    {
      if k < |st| {
        assert ends[k] == st[k];
      }
    }
    forall k {:trigger d[k]} | 0 <= k < |d|
      ensures d[k].addr == (if k == 0 then pages[0] + off else pages[ends[k]])
      ensures d[k].len == Through(off, ulen, if k + 1 < |ends| then ends[k + 1] else |pages|) - Through(off, ulen, ends[k])
    {
      if k < |done| {
        assert d[k] == done[k] && ends[k] == st[k] && ends[k + 1] == st[k + 1];
      } else {
        assert d[k] == cur && ends[k] == st[|done|] && (k + 1 < |ends| ==> ends[k + 1] == next);
      }
    }
  }

  /**
   * After n pages the walk has closed one region per break, each at its
   * start page and holding the bytes up to the next start; the open region
   * starts at the last start before page n and holds the bytes since.
   */
  predicate WalkInvariant(pages: seq<nat>, off: nat, ulen: nat, n: nat)
    requires 0 < n <= |pages| && off < PAGE_SIZE
  {
    var w := Walk(pages, off, ulen, n);
    var st := Starts(pages, n);
    |st| == |w.done| + 1 && st[|w.done|] < n
    && RegionsFollowStarts(pages, off, ulen, w.done, st)
    && SumLens(w.done) == Through(off, ulen, st[|w.done|])
    && w.cur == Region(if |w.done| == 0 then pages[0] + off else pages[st[|w.done|]],
                       Through(off, ulen, n) - Through(off, ulen, st[|w.done|]))
  }

  /** A break closes the open region and opens one at the breaking page. */
  lemma WalkBreak(pages: seq<nat>, off: nat, ulen: nat, n: nat)
    requires 1 < n <= |pages| && off < PAGE_SIZE
    requires WalkInvariant(pages, off, ulen, n - 1) && Break(pages, n - 1)
    ensures WalkInvariant(pages, off, ulen, n)
  {
    var w := Walk(pages, off, ulen, n - 1);
    var st := Starts(pages, n - 1);
    var bytes := Through(off, ulen, n) - Through(off, ulen, n - 1);
    assert Starts(pages, n) == st + [n - 1];
    assert Walk(pages, off, ulen, n) == WalkState(w.done + [w.cur], Region(pages[n - 1], bytes));
    CloseAt(pages, off, ulen, w.done, w.cur, st, n - 1);
    SumLensAppend(w.done, w.cur);
  }

  /** A page that follows the previous one physically extends the open region. */
  lemma WalkRun(pages: seq<nat>, off: nat, ulen: nat, n: nat)
    requires 1 < n <= |pages| && off < PAGE_SIZE
    requires WalkInvariant(pages, off, ulen, n - 1) && !Break(pages, n - 1)
    ensures WalkInvariant(pages, off, ulen, n)
  {
    var w := Walk(pages, off, ulen, n - 1);
    var bytes := Through(off, ulen, n) - Through(off, ulen, n - 1);
    assert Starts(pages, n) == Starts(pages, n - 1);
    assert Walk(pages, off, ulen, n) == WalkState(w.done, w.cur.(len := w.cur.len + bytes));
  }

  lemma {:induction false} WalkShape(pages: seq<nat>, off: nat, ulen: nat, n: nat)
    requires 0 < n <= |pages| && off < PAGE_SIZE
    ensures WalkInvariant(pages, off, ulen, n)
  {
    if n == 1 {
      assert Starts(pages, 1) == [0];
    } else {
      WalkShape(pages, off, ulen, n - 1);
      if Break(pages, n - 1) {
        WalkBreak(pages, off, ulen, n);
      } else {
        WalkRun(pages, off, ulen, n);
      }
    }
  }

  /** The walk closes one region per break. */
  lemma {:induction false} WalkCount(pages: seq<nat>, off: nat, ulen: nat, n: nat)
    requires n <= |pages| && 0 < |pages| && off < PAGE_SIZE
    ensures |Walk(pages, off, ulen, n).done| == Breaks(pages, n)
  {
    if n > 0 {
      WalkCount(pages, off, ulen, n - 1);
    }
  }

  /** The regions closed after n pages are the first ones the whole walk emits. */
  lemma {:induction false} WalkPrefix(pages: seq<nat>, off: nat, ulen: nat, n: nat, m: nat)
    requires n <= m <= |pages| && 0 < |pages| && off < PAGE_SIZE
    ensures Walk(pages, off, ulen, n).done <= Walk(pages, off, ulen, m).done
    decreases m
  {
    if n < m {
      WalkPrefix(pages, off, ulen, n, m - 1);
    }
  }

  /**
   * A break at page i with room regions already closed leaves the walk
   * with more regions than room, the closed ones being its first.
   */
  lemma OutOfRoom(pages: seq<nat>, off: nat, ulen: nat, i: nat, room: nat)
    requires i < |pages| && off < PAGE_SIZE && Break(pages, i)
    requires |Walk(pages, off, ulen, i).done| == room
    ensures room < Breaks(pages, |pages|) + 1
    ensures room < |AllRegions(pages, off, ulen)|
    ensures Walk(pages, off, ulen, i).done == AllRegions(pages, off, ulen)[..room]
  {
    WalkCount(pages, off, ulen, i);
    WalkCount(pages, off, ulen, |pages|);
    BreaksMonotone(pages, i + 1, |pages|);
    WalkPrefix(pages, off, ulen, i, |pages|);
  }

  /**
   * The regions of the whole walk: one per start (page 0 and each break),
   * each at its start page (the first at the buffer's offset) and holding
   * the bytes up to the next start; together they hold the whole buffer.
   */
  lemma AllRegionsFollowStarts(pages: seq<nat>, off: nat, ulen: nat)
    requires 0 < |pages| && off < PAGE_SIZE && off + ulen <= |pages| * PAGE_SIZE
    ensures |AllRegions(pages, off, ulen)| == Breaks(pages, |pages|) + 1
    ensures RegionsFollowStarts(pages, off, ulen, AllRegions(pages, off, ulen), Starts(pages, |pages|))
    ensures SumLens(AllRegions(pages, off, ulen)) == ulen
  {
    var w := Walk(pages, off, ulen, |pages|);
    WalkShape(pages, off, ulen, |pages|);
    StartsAreBreaks(pages, |pages|);
    CloseAt(pages, off, ulen, w.done, w.cur, Starts(pages, |pages|), |pages|);
    SumLensAppend(w.done, w.cur);
  }

  /**
   * The page loop of prb_zc_write_iov: walks the buffer's pages (their
   * physical addresses in `pages`), closing the open region at every page
   * that does not follow the previous one physically. It stops at the
   * break that finds `room` regions already closed (stop < |pages|), or
   * after the last page with the last region still open.
   */
  method ScanPages(pages: seq<nat>, udata: nat, ulen: nat, room: nat)
    returns (stop: nat, regions: seq<Region>, rgAddr: nat, rgLen: nat)
    requires |pages| >= 1
    ensures stop <= |pages| && |regions| <= room
    ensures WalkState(regions, Region(rgAddr, rgLen)) == Walk(pages, udata % PAGE_SIZE, ulen, stop)
    ensures stop < |pages| ==> Break(pages, stop) && |regions| == room
  {
    ghost var off := udata % PAGE_SIZE;
    var pgAddr: int := pages[0];
    var prevPgAddr: int := pgAddr - PAGE_SIZE;
    rgAddr := pages[0] + udata % PAGE_SIZE;
    rgLen := 0;
    var ud: nat, ul: nat := udata, ulen;
    regions := [];
    var i := 0;
    while i < |pages|
      invariant 0 <= i <= |pages|
      invariant i == 0 ==> prevPgAddr + PAGE_SIZE == pages[0] && ud == udata && ul == ulen
      invariant i > 0 ==> prevPgAddr == pages[i - 1]
      invariant WalkState(regions, Region(rgAddr, rgLen)) == Walk(pages, off, ulen, i)
      invariant |regions| <= room
      invariant ulen - ul == Through(off, ulen, i)
      invariant ul > 0 ==> RestOfPage(ud) == if i == 0 then PAGE_SIZE - off else PAGE_SIZE
    {
      WalkNext(pages, off, ulen, i);
      BreakAt(pages, i, prevPgAddr);
      pgAddr := pages[i];
      if pgAddr != prevPgAddr + PAGE_SIZE {
        if |regions| == room {
          return i, regions, rgAddr, rgLen;
        }
        regions := regions + [Region(rgAddr, rgLen)];
        rgLen := 0;
        rgAddr := pages[i];
      }
      var pgLen := RestOfPage(ud);
      if pgLen > ul {
        pgLen := ul;
      }
      ThroughStep(off, ulen, i, ud, ul, pgLen);
      rgLen := rgLen + pgLen;
      ud := ud + pgLen;
      ul := ul - pgLen;
      prevPgAddr := pgAddr;
      i := i + 1;
    }
    stop := i;
  }

  /**
   * prb_zc_write_iov: emits one region per physically contiguous run of
   * the buffer's pages, the first starting at the buffer's offset in its
   * page. Emitting fails with `writeErr` once `room` regions have been
   * written, which disconnects the client. The buffer must fit the pages,
   * as the source asserts.
   */
  method WriteIov(pages: seq<nat>, udata: nat, ulen: nat, room: nat, writeErr: int)
    returns (err: int, regions: seq<Region>)
    requires |pages| >= 1 && writeErr != 0
    requires udata % PAGE_SIZE + ulen <= |pages| * PAGE_SIZE
    ensures err == 0 || err == writeErr
    ensures err == 0 <==> Breaks(pages, |pages|) + 1 <= room
    ensures err == 0 ==> regions == AllRegions(pages, udata % PAGE_SIZE, ulen)
    ensures err == 0 ==> |regions| == Breaks(pages, |pages|) + 1 && SumLens(regions) == ulen
    ensures err != 0 ==> |regions| == room
    ensures err != 0 ==> room < |AllRegions(pages, udata % PAGE_SIZE, ulen)|
                         && regions == AllRegions(pages, udata % PAGE_SIZE, ulen)[..room]
  {
    ghost var off := udata % PAGE_SIZE;
    var stop, rgAddr, rgLen;
    stop, regions, rgAddr, rgLen := ScanPages(pages, udata, ulen, room);
    if stop < |pages| {
      OutOfRoom(pages, off, ulen, stop, room);
      return writeErr, regions;
    }
    WalkCount(pages, off, ulen, |pages|);
    if |regions| == room {
      return writeErr, regions;
    }
    regions := regions + [Region(rgAddr, rgLen)];
    AllRegionsFollowStarts(pages, off, ulen);
    err := 0;
  }
}

=== FILE: zcio.dfy ===
/**
 * Zero-copy NVMe peer-to-peer I/O in diod (diod/zcio.c): a file request is
 * cut into NVMe user I/O commands, each at most NVME_MAX_DMA_SIZE bytes and
 * inside one extent of the file's block map, and each command's data is
 * scattered over the Xeon Phi memory segments that receive or supply it.
 */
module ZeroCopyIo {
  import opened Common
  import opened FileBlockMap

  const NVME_BLK_SIZE: nat := 512
  const NVME_BLK_SIZE_SHIFT: nat := 9
  const NVME_MAX_DMA_SIZE: nat := 256 * 512

  // ---------------------------------------------------------------------
  // Block macros

  predicate IsBlkAligned(x: int) { x % NVME_BLK_SIZE == 0 }

  /** round_up_to_nvme_blk: the least multiple of 512 not below x. */
  function RoundUpBlk(x: nat): (r: nat)
    ensures IsBlkAligned(r)
    ensures x <= r < x + NVME_BLK_SIZE
  {
    (x + 511) / 512 * 512
  }

  lemma RoundUpAligned(x: nat)
    requires IsBlkAligned(x)
    ensures RoundUpBlk(x) == x
  {
  }

  /** nvme_addr_to_lba: the block holding a device byte address. */
  function Lba(addr: nat): (lba: nat)
    ensures lba * NVME_BLK_SIZE <= addr < (lba + 1) * NVME_BLK_SIZE
  {
    addr / NVME_BLK_SIZE
  }

  /**
   * len_to_nvme_nblk: the zero-based block count of the 32-bit nblocks
   * field; an empty length wraps to 0xFFFFFFFF.
   */
  function NBlocks(len: nat): (nb: nat)
    requires len < U32_LIMIT
    ensures IsBlkAligned(len) && len > 0 ==> (nb + 1) * NVME_BLK_SIZE == len
    ensures len < NVME_BLK_SIZE ==> nb == U32_LIMIT - 1
  {
    (len / NVME_BLK_SIZE - 1) % U32_LIMIT
  }

  /**
   * calc_n_iov: room for one command per extent, one per full DMA of the
   * request, plus one for a carry-over and two for sector alignment.
   */
  function CalcNIov(nFblkmap: nat, count: nat): (n: nat)
    ensures n >= nFblkmap + 3
    ensures n * NVME_MAX_DMA_SIZE > (nFblkmap + 2) * NVME_MAX_DMA_SIZE + count
  {
    nFblkmap + count / NVME_MAX_DMA_SIZE + 3
  }

  // ---------------------------------------------------------------------
  // Commands

  /** One segment of the Phi's physical memory (struct p9_zc_io). */
  datatype MemSeg = MemSeg(addr: nat, len: nat)

  /** One scatter-gather entry of a command. */
  datatype Sg = Sg(addr: nat, len: nat)

  /** struct nvme_user_io with its scatter-gather list. */
  datatype NvmeCmd = NvmeCmd(opcode: nat, slba: nat, nblocks: nat, sgl: seq<Sg>)

  function SgTotal(sgl: seq<Sg>): nat
  {
    if sgl == [] then 0 else SgTotal(sgl[..|sgl| - 1]) + sgl[|sgl| - 1].len
  }

  lemma SgTotalAppend(sgl: seq<Sg>, g: Sg)
    ensures SgTotal(sgl + [g]) == SgTotal(sgl) + g.len
  {
    assert (sgl + [g])[..|sgl|] == sgl;
  }

  function MemTotal(mem: seq<MemSeg>): nat
  {
    if mem == [] then 0 else mem[0].len + MemTotal(mem[1..])
  }

  /** The memory still available: the rest of segment mi and all later segments. */
  function MemLeft(mem: seq<MemSeg>, mi: nat, memLen: nat): nat
    requires mi < |mem|
  {
    memLen + MemTotal(mem[mi + 1..])
  }

  /** The device address where extent i's usable part starts. */
  function ExtStart(exts: seq<Extent>, offset: nat, i: nat): nat
    requires i < |exts| && Covers(exts[0], offset)
  {
    if i == 0 then exts[0].physical + (offset - exts[0].logical) else exts[i].physical
  }

  /** The bytes extent i can serve: the first from the offset on, rounded up to a block. */
  function ExtAvail(exts: seq<Extent>, offset: nat, i: nat): nat
    requires i < |exts| && Covers(exts[0], offset)
  {
    if i == 0 then RoundUpBlk(End(exts[0]) - offset) else exts[i].len
  }

  /** The bytes extents i.. can serve together. */
  function CapFrom(exts: seq<Extent>, offset: nat, i: nat): nat
    requires |exts| > 0 && Covers(exts[0], offset)
    decreases |exts| - i
  {
    if i >= |exts| then 0 else ExtAvail(exts, offset, i) + CapFrom(exts, offset, i + 1)
  }

  /** What build_nvme_uio_cmds needs of the block map it is given. */
  predicate MapFromOffset(exts: seq<Extent>, offset: int)
  {
    |exts| > 0 && offset >= 0 && Covers(exts[0], offset)
    && (forall i :: 0 <= i < |exts| ==> exts[i].len > 0)
    && (forall i :: 1 <= i < |exts| ==> IsBlkAligned(exts[i].len))
  }

  /** Where one command's bytes lie: their length, device address and extent. */
  datatype Span = Span(len: nat, dev: nat, ext: nat)

  function SpanTotal(spans: seq<Span>): nat
  {
    if spans == [] then 0 else SpanTotal(spans[..|spans| - 1]) + spans[|spans| - 1].len
  }

  lemma SpanTotalAppend(spans: seq<Span>, sp: Span)
    ensures SpanTotal(spans + [sp]) == SpanTotal(spans) + sp.len
  {
    assert (spans + [sp])[..|spans|] == spans;
  }

  /**
   * Command c moves sp.len bytes at device address sp.dev, inside the usable
   * part of extent sp.ext, no longer than one DMA and a whole number of blocks.
   */
  ghost predicate Placed(exts: seq<Extent>, offset: nat, opcode: nat, countOut: nat, c: NvmeCmd, sp: Span)
    requires MapFromOffset(exts, offset)
  {
    sp.len <= NVME_MAX_DMA_SIZE && IsBlkAligned(sp.len) && (countOut > 0 ==> sp.len > 0)
    && sp.ext < |exts|
    && ExtStart(exts, offset, sp.ext) <= sp.dev
    && sp.dev + sp.len <= ExtStart(exts, offset, sp.ext) + ExtAvail(exts, offset, sp.ext)
    && c.opcode == opcode && c.slba == Lba(sp.dev) && c.nblocks == NBlocks(sp.len)
    && SgTotal(c.sgl) == sp.len
  }

  /** Every command of a list is placed, the first at the start of the offset's extent. */
  ghost predicate AllPlaced(exts: seq<Extent>, offset: nat, opcode: nat, countOut: nat,
                            cmds: seq<NvmeCmd>, spans: seq<Span>)
    requires MapFromOffset(exts, offset)
  {
    |spans| == |cmds|
    && (|spans| > 0 ==> spans[0].dev == ExtStart(exts, offset, 0))
    && forall k :: 0 <= k < |cmds| ==> Placed(exts, offset, opcode, countOut, cmds[k], spans[k])
  }

  lemma PlacedAppend(exts: seq<Extent>, offset: nat, opcode: nat, countOut: nat,
                     cmds: seq<NvmeCmd>, spans: seq<Span>, c: NvmeCmd, sp: Span)
    requires MapFromOffset(exts, offset)
    requires AllPlaced(exts, offset, opcode, countOut, cmds, spans)
    requires Placed(exts, offset, opcode, countOut, c, sp)
    requires spans == [] ==> sp.dev == ExtStart(exts, offset, 0)
    ensures AllPlaced(exts, offset, opcode, countOut, cmds + [c], spans + [sp])
  {
  }

  datatype Built = Built(err: int, count: nat, cmds: seq<NvmeCmd>, ioCount: nat)

  /**
   * The inner loop of build_nvme_uio_cmds: the scatter-gather entries of one
   * command of iovLen bytes, taken from the current memory segment and
   * moving to the next one whenever it runs dry while the request is not
   * finished.
   */
  method FillSgl(mem: seq<MemSeg>, mi0: nat, memAddr0: nat, memLen0: nat, iovLen: nat, reqLen: nat)
    returns (sgl: seq<Sg>, mi: nat, memAddr: nat, memLen: nat)
    requires mi0 < |mem| && iovLen <= reqLen
    requires memLen0 + MemTotal(mem[mi0 + 1..]) >= reqLen
    ensures SgTotal(sgl) == iovLen && |sgl| >= 1
    ensures mi0 <= mi < |mem|
    ensures memLen + MemTotal(mem[mi + 1..]) == memLen0 + MemTotal(mem[mi0 + 1..]) - iovLen
  {
    sgl := [];
    mi, memAddr, memLen := mi0, memAddr0, memLen0;
    var left: nat := iovLen;
    var req: nat := reqLen;
    while true
      invariant mi0 <= mi < |mem| && left <= req
      invariant SgTotal(sgl) + left == iovLen && req == reqLen - SgTotal(sgl)
      invariant memLen + MemTotal(mem[mi + 1..]) == memLen0 + MemTotal(mem[mi0 + 1..]) - SgTotal(sgl)
      invariant memLen + MemTotal(mem[mi + 1..]) >= req
      decreases left, |mem| - mi
    {
      var sgLen: nat := Min(memLen, left);
      SgTotalAppend(sgl, Sg(memAddr, sgLen));
      sgl := sgl + [Sg(memAddr, sgLen)];
      req := req - sgLen;
      left := left - sgLen;
      memLen := memLen - sgLen;
      memAddr := memAddr + sgLen;
      if memLen == 0 && req > 0 {
        assert mem[mi + 1..] != [];
        assert mem[mi + 1..][1..] == mem[mi + 2..];
        mi := mi + 1;
        memAddr := mem[mi].addr;
        memLen := mem[mi].len;
      }
      if left == 0 {
        break;
      }
    }
  }

  /**
   * build_nvme_uio_cmds: an unaligned file offset is -EINVAL; otherwise the
   * count is rounded up to whole blocks and cut into commands that never
   * cross an extent or exceed one DMA. io_count is what the commands cover.
   */
  method BuildNvmeUioCmds(opcode: nat, count: nat, offset: int, exts: seq<Extent>, mem: seq<MemSeg>)
    returns (r: Built, ghost spans: seq<Span>)
    requires MapFromOffset(exts, offset) || !IsBlkAligned(offset)
    requires |mem| > 0 && RoundUpBlk(mem[0].len) + MemTotal(mem[1..]) >= RoundUpBlk(count)
    ensures r.err == -EINVAL <==> !IsBlkAligned(offset)
    ensures r.err != 0 ==> r.err == -EINVAL && r.cmds == []
    ensures r.err == 0 ==> r.count == RoundUpBlk(count)
    ensures r.err == 0 ==> 1 <= |r.cmds| <= CalcNIov(|exts|, r.count)
    ensures r.err == 0 ==> r.ioCount == Min(r.count, CapFrom(exts, offset, 0))
    ensures r.err == 0 ==> r.ioCount == SpanTotal(spans)
    ensures r.err == 0 ==> AllPlaced(exts, offset, opcode, r.count, r.cmds, spans)
  {
    if !IsBlkAligned(offset) {
      return Built(-EINVAL, count, [], 0), [];
    }
    var countOut := if !IsBlkAligned(count) then RoundUpBlk(count) else count;
    if IsBlkAligned(count) {
      RoundUpAligned(count);
    }
    var cmds, ioCount;
    cmds, ioCount, spans := CutRequest(opcode, countOut, offset, exts, mem);
    r := Built(0, countOut, cmds, ioCount);
  }

  /**
   * The command loop of build_nvme_uio_cmds. The command array sized by
   * calc_n_iov always suffices, and io_count is the whole rounded count, or
   * everything the map can serve when it runs out first.
   */
  method CutRequest(opcode: nat, countOut: nat, offset: nat, exts: seq<Extent>, mem: seq<MemSeg>)
    returns (cmds: seq<NvmeCmd>, ioCount: nat, ghost spans: seq<Span>)
    requires MapFromOffset(exts, offset) && IsBlkAligned(countOut)
    requires |mem| > 0 && RoundUpBlk(mem[0].len) + MemTotal(mem[1..]) >= countOut
    ensures 1 <= |cmds| <= CalcNIov(|exts|, countOut)
    ensures ioCount == Min(countOut, CapFrom(exts, offset, 0))
    ensures ioCount == SpanTotal(spans)
    ensures AllPlaced(exts, offset, opcode, countOut, cmds, spans)
  {
    spans := [];
    var nIov := CalcNIov(|exts|, countOut);
    cmds := [];

    var mi: nat := 0;
    var memAddr: nat := mem[0].addr;
    var memLen: nat := RoundUpBlk(mem[0].len);
    assert mem[1..] == mem[0 + 1..];
    assert MemLeft(mem, 0, memLen) >= countOut;

    FirstExtent(exts, offset);
    var st := Pos(0, 0, 0, 0, exts[0].physical + (offset - exts[0].logical),
                  RoundUpBlk(End(exts[0]) - offset), countOut);
    while st.ii < nIov
      invariant st.ii < nIov && mi < |mem| && st.ii == |cmds| && st.served == SpanTotal(spans)
      invariant Cursor(exts, offset, countOut, st)
      invariant MemLeft(mem, mi, memLen) >= st.reqLen
      invariant AllPlaced(exts, offset, opcode, countOut, cmds, spans)
      decreases nIov - st.ii
    {
      var cmd, iovLen;
      cmd, iovLen, mi, memAddr, memLen := NextCommand(exts, offset, opcode, countOut, mem, mi, memAddr, memLen, st);
      ghost var sp := Span(iovLen, st.nvmeAddr, st.fi);
      SpanTotalAppend(spans, sp);
      PlacedAppend(exts, offset, opcode, countOut, cmds, spans, cmd, sp);
      cmds, spans := cmds + [cmd], spans + [sp];
      if st.reqLen == iovLen {
        ServedAll(exts, offset, countOut, st);
        return cmds, countOut, spans;
      }
      if st.extLen == iovLen && st.fi + 1 >= |exts| {
        LastExtent(exts, offset, countOut, st);
        return cmds, countOut - (st.reqLen - iovLen), spans;
      }
      CursorStep(exts, offset, countOut, st, iovLen);
      st := Advance(exts, st, iovLen);
    }
    // calc_n_iov always leaves room: the loop only ends by one of the returns above
    assert false;
  }

  /**
   * The state of the command loop: ii commands built, full of them a whole
   * DMA, served bytes placed, reqLen bytes still requested, and extent fi
   * with extLen bytes left from device address nvmeAddr on.
   */
  datatype Pos = Pos(ii: nat, full: nat, served: int, fi: nat, nvmeAddr: nat, extLen: nat, reqLen: nat)

  /**
   * What holds of the loop state between commands: served and requested
   * bytes make up the rounded count, and each command so far either was a
   * full DMA or used up its extent.
   */
  ghost predicate Cursor(exts: seq<Extent>, offset: nat, countOut: nat, p: Pos)
    requires MapFromOffset(exts, offset)
  {
    p.reqLen <= countOut && p.reqLen == countOut - p.served && IsBlkAligned(p.reqLen)
    && (p.ii > 0 ==> p.reqLen > 0)
    && InExtent(exts, offset, p.served, p.fi, p.nvmeAddr, p.extLen)
    && p.ii <= p.full + p.fi && DmaBytes(p.full) <= p.served
    && (p.ii == 0 ==> p.fi == 0 && p.nvmeAddr == ExtStart(exts, offset, 0))
  }

  /** The loop state after a command of len bytes that does not finish the request. */
  function Advance(exts: seq<Extent>, p: Pos, len: nat): Pos
    requires len <= p.reqLen && len <= p.extLen && (len < p.extLen || p.fi + 1 < |exts|)
  {
    var full := if len == NVME_MAX_DMA_SIZE then p.full + 1 else p.full;
    if len < p.extLen then
      Pos(p.ii + 1, full, p.served + len, p.fi, p.nvmeAddr + len, p.extLen - len, p.reqLen - len)
    else
      Pos(p.ii + 1, full, p.served + len, p.fi + 1, exts[p.fi + 1].physical, exts[p.fi + 1].len,
          p.reqLen - len)
  }

  /**
   * One command that does not finish the request moves the loop on, within
   * the extent or to the next one, and the command array still has room.
   */
  lemma CursorStep(exts: seq<Extent>, offset: nat, countOut: nat, p: Pos, len: nat)
    requires MapFromOffset(exts, offset) && Cursor(exts, offset, countOut, p)
    requires len == Min(NVME_MAX_DMA_SIZE, Min(p.reqLen, p.extLen)) && IsBlkAligned(len)
    requires len < p.reqLen && (len < p.extLen || p.fi + 1 < |exts|)
    ensures Cursor(exts, offset, countOut, Advance(exts, p, len))
    ensures p.ii + 1 < CalcNIov(|exts|, countOut)
  {
    var q := Advance(exts, p, len);
    if len == NVME_MAX_DMA_SIZE {
      FullStep(p.full);
    }
    AlignedSub(p.reqLen, len);
    if len < p.extLen {
      WithinExtent(exts, offset, p.served, p.fi, p.nvmeAddr, p.extLen, len);
    } else {
      NextExtent(exts, offset, p.served, p.fi, p.nvmeAddr, p.extLen);
    }
    CommandRoom(q.full, q.served, countOut, q.ii, q.fi, |exts|);
  }

  /**
   * Position of the command loop in the block map: extent fi has extLen
   * bytes left from device address nvmeAddr on, and served bytes plus what
   * is left make up the map's capacity from the offset.
   */
  ghost predicate InExtent(exts: seq<Extent>, offset: nat, served: int, fi: nat, nvmeAddr: nat, extLen: nat)
    requires MapFromOffset(exts, offset)
  {
    fi < |exts| && extLen > 0 && IsBlkAligned(extLen)
    && served + extLen + CapFrom(exts, offset, fi + 1) == CapFrom(exts, offset, 0)
    && ExtStart(exts, offset, fi) <= nvmeAddr
    && nvmeAddr + extLen == ExtStart(exts, offset, fi) + ExtAvail(exts, offset, fi)
  }

  lemma FirstExtent(exts: seq<Extent>, offset: nat)
    requires MapFromOffset(exts, offset)
    ensures InExtent(exts, offset, 0, 0, exts[0].physical + (offset - exts[0].logical),
                     RoundUpBlk(End(exts[0]) - offset))
  {
    assert CapFrom(exts, offset, 0) == ExtAvail(exts, offset, 0) + CapFrom(exts, offset, 1);
  }

  lemma WithinExtent(exts: seq<Extent>, offset: nat, served: int, fi: nat, nvmeAddr: nat, extLen: nat, len: nat)
    requires MapFromOffset(exts, offset) && InExtent(exts, offset, served, fi, nvmeAddr, extLen)
    requires IsBlkAligned(len) && len < extLen
    ensures InExtent(exts, offset, served + len, fi, nvmeAddr + len, extLen - len)
  {
    AlignedSub(extLen, len);
  }

  lemma NextExtent(exts: seq<Extent>, offset: nat, served: int, fi: nat, nvmeAddr: nat, extLen: nat)
    requires MapFromOffset(exts, offset) && InExtent(exts, offset, served, fi, nvmeAddr, extLen)
    requires fi + 1 < |exts|
    ensures InExtent(exts, offset, served + extLen, fi + 1, exts[fi + 1].physical, exts[fi + 1].len)
  {
    assert CapFrom(exts, offset, fi + 1) == exts[fi + 1].len + CapFrom(exts, offset, fi + 2);
  }

  /** A command that finishes the request: the map could serve all of it. */
  lemma ServedAll(exts: seq<Extent>, offset: nat, countOut: nat, p: Pos)
    requires MapFromOffset(exts, offset) && Cursor(exts, offset, countOut, p)
    requires p.reqLen <= p.extLen
    ensures p.served + p.reqLen == countOut == Min(countOut, CapFrom(exts, offset, 0))
  {
  }

  /** A command that uses up the last extent: the map served all it could. */
  lemma LastExtent(exts: seq<Extent>, offset: nat, countOut: nat, p: Pos)
    requires MapFromOffset(exts, offset) && Cursor(exts, offset, countOut, p)
    requires p.extLen < p.reqLen && p.fi + 1 >= |exts|
    ensures p.served + p.extLen == CapFrom(exts, offset, 0) == Min(countOut, CapFrom(exts, offset, 0))
  {
  }

  /**
   * One command of the outer loop: iov_len is the least of one DMA, the
   * bytes still requested and the bytes left in the extent, rounded up to a
   * block; its scatter-gather list comes from the memory segments.
   */
  method NextCommand(exts: seq<Extent>, offset: nat, opcode: nat, countOut: nat, mem: seq<MemSeg>,
                     mi0: nat, memAddr0: nat, memLen0: nat,
                     p: Pos)
    returns (cmd: NvmeCmd, iovLen: nat, mi: nat, memAddr: nat, memLen: nat)
    requires MapFromOffset(exts, offset) && mi0 < |mem| && Cursor(exts, offset, countOut, p)
    requires MemLeft(mem, mi0, memLen0) >= p.reqLen
    ensures iovLen == Min(NVME_MAX_DMA_SIZE, Min(p.reqLen, p.extLen))
    ensures IsBlkAligned(iovLen)
    ensures Placed(exts, offset, opcode, countOut, cmd, Span(iovLen, p.nvmeAddr, p.fi))
    ensures mi0 <= mi < |mem|
    ensures MemLeft(mem, mi, memLen) == MemLeft(mem, mi0, memLen0) - iovLen
  {
    iovLen := Min(NVME_MAX_DMA_SIZE, Min(p.reqLen, p.extLen));
    AlignedMin(p.reqLen, p.extLen);
    RoundUpAligned(iovLen);
    iovLen := RoundUpBlk(iovLen);
    var sgl;
    sgl, mi, memAddr, memLen := FillSgl(mem, mi0, memAddr0, memLen0, iovLen, p.reqLen);
    cmd := NvmeCmd(opcode, Lba(p.nvmeAddr), NBlocks(iovLen), sgl);
  }

  /** The bytes of n full-size commands. */
  function DmaBytes(n: nat): nat
  {
    n * NVME_MAX_DMA_SIZE
  }

  lemma FullStep(full: nat)
    ensures DmaBytes(full + 1) == DmaBytes(full) + NVME_MAX_DMA_SIZE
  {
  }

  lemma AlignedSub(a: nat, b: nat)
    requires IsBlkAligned(a) && IsBlkAligned(b) && b <= a
    ensures IsBlkAligned(a - b)
  {
    var p, q := a / NVME_BLK_SIZE, b / NVME_BLK_SIZE;
    assert a == p * NVME_BLK_SIZE && b == q * NVME_BLK_SIZE;
    assert a - b == (p - q) * NVME_BLK_SIZE;
  }

  lemma AlignedMin(a: nat, b: nat)
    requires IsBlkAligned(a) && IsBlkAligned(b)
    ensures IsBlkAligned(Min(NVME_MAX_DMA_SIZE, Min(a, b)))
  {
  }

  /** The counting argument behind calc_n_iov: the next command still has a slot. */
  lemma CommandRoom(full: nat, served: nat, countOut: nat, ii: nat, fi: nat, n: nat)
    requires DmaBytes(full) <= served <= countOut
    requires ii <= full + fi && fi < n
    ensures ii < CalcNIov(n, countOut)
  {
    var q := countOut / NVME_MAX_DMA_SIZE;
    DivBounds(countOut, NVME_MAX_DMA_SIZE);
    MulMono(NVME_MAX_DMA_SIZE, q + 1, full);
  }

  // ---------------------------------------------------------------------
  // nvme_p2p

  /**
   * The return value of nvme_p2p with the block-map lookup, the command
   * build and the submission as inputs: a read of an unmapped offset is 0
   * bytes, a write of one and every failure -1, and a submitted request
   * reports the bytes served, never more than asked for even though
   * io_count is rounded up to a block.
   */
  function P2pResult(isRead: bool, mapIndex: int, lookupErrno: int, buildRc: int,
                     submitted: bool, ioCount: nat, count: nat): (r: int)
    ensures mapIndex < 0 && lookupErrno == 0 && isRead ==> r == 0
    ensures mapIndex >= 0 && buildRc == 0 && submitted ==> r == Min(ioCount, count) && 0 <= r <= count
    ensures mapIndex >= 0 && (buildRc != 0 || !submitted) ==> r == -1
    ensures r >= -1
  {
    if mapIndex < 0 then (if lookupErrno == 0 && isRead then 0 else -1)
    else if buildRc != 0 then -1
    else if !submitted then -1
    else Min(ioCount, count)
  }

  /** A read of a fully mapped range returns the whole count. */
  lemma P2pServesWholeRequest(exts: seq<Extent>, offset: nat, count: nat)
    requires MapFromOffset(exts, offset) && CapFrom(exts, offset, 0) >= count
    ensures P2pResult(true, 0, 0, 0, true, Min(RoundUpBlk(count), CapFrom(exts, offset, 0)), count)
            == count
  {
  }
}
